=== FILE: README.md ===
# A Dafny model of jaunt's incremental build engine

jaunt turns Python "spec" stubs into generated implementation modules and
generated tests. A language-model backend writes each module. This project
models the deterministic core around that backend and proves properties of it.

## What is modelled

- **Dependency graph** (`Deps`, `Graphs`, `DepsOrder`). The spec graph keeps
  only known refs and never has self-edges. Dependencies inferred from the AST
  are an opaque edge set that passes the same guards. The graph can be
  collapsed to modules. `toposort` and `find_cycles` order it and find cycles.
- **Content digests** (`Digest`). Covers segment normalisation, `_jsonable`
  with set members sorted by `str` (nested strings in the quotes `repr` picks, with its escapes), the local digest as
  written (`LocalDigest`), the memo-free graph digest (which raises on a
  cycle) and the module digest. For the set-order finding below,
  `StableLocalDigest` is the corrected digest that sorts set members by their
  JSON text; nothing else in the model uses it. sha256 is an injective parameter `h`; `json.dumps` is an
  uninterpreted parameter `dump`.
- **Staleness** (`Staleness`). A module is stale when its artifact is missing,
  unreadable, has no digest, or has a different digest. Staleness spreads to
  dependents. Writing a generated module makes the next check report it fresh.
- **Scheduling** (`Planning`, `Scheduler`, `Build`, `Tester`). The ready queue
  is ordered by (critical path, name), and at most `jobs` tasks are in flight.
  Failure spreads to dependents as "Dependency failed". `run_build` and
  `run_test_generation` are modelled as a sequential state machine: the job
  that completes next is chosen by the caller, and an oracle decides each
  module's generation outcome.
- **Retry and validation** (`Retry`, `Validation`). The bounded regeneration
  loop feeds earlier validation errors back to the backend. The presence check
  for required names works on an abstract parse result.
- **Utilities**:
  - spec refs (`SpecRefs`);
  - generated-module paths (`Paths`);
  - the registries (`Registry`);
  - the command line's target selection and exit codes (`Cli`);
  - module discovery (`Discovery`);
  - `jaunt.toml` validation over a parsed table (`Config`);
  - `.env` parsing and merging (`Dotenv`, `ExampleDotenv`);
  - skill files (`SkillsAuto`);
  - PEP 503 names and distribution choice (`ExternalImports`);
  - prompt helpers (`Shared`);
  - error summaries and hints (`Diagnostics`);
  - the watch loop (`Watcher`);
  - the progress bar (`Progress`).

Shared support modules: `Wrappers` (Option/Result), `Strings` (code-point
order, sorting sets of strings), `Sorting`, `Text` (Python's `strip`, `split`,
`join` and related functions), and `PyValues`.

Each module works on immutable values. Disk is a map from paths to file
states. The clock, the terminal, the network, the language-model backends and
PyPI appear only as parameters.

## Model

| member | source | states |
|---|---|---|
| SpecRefs.Assemble | src/jaunt/spec_ref.py:61-64 | succeeds exactly when the module and the qualname are both valid; the result is `module:qualname` and is canonical; otherwise `ValueError("invalid spec ref")` |
| SpecRefs.ValidNoColon | src/jaunt/spec_ref.py:19-37 | a valid module path or qualname never holds a `:`, so an assembled ref has exactly one |
| SpecRefs.CanonicalOfParts | src/jaunt/spec_ref.py:58-64 | splitting `module:qualname` once at the colon gives the two parts back |
| SpecRefs.NormalizeSpecRef | src/jaunt/spec_ref.py:40-73 | a non-string is a `TypeError`; blank, two or more colons, or neither colon nor dot is a `ValueError`; with one colon it succeeds exactly when the stripped text is canonical and returns it; every success is canonical |
| SpecRefs.CanonicalIsFixed | src/jaunt/spec_ref.py:58-64 | a canonical ref normalises to itself |
| SpecRefs.NormalizeIdempotent | src/jaunt/spec_ref.py:40-73 | normalising the result of a normalisation changes nothing |
| SpecRefs.DotShorthand | src/jaunt/spec_ref.py:66-73 | the shorthand `pkg.mod.Name` becomes `pkg.mod:Name`: the split is at the last dot |
| SpecRefs.SpecRefFromObject | src/jaunt/spec_ref.py:76-89 | a string override is normalised; a non-string override is a `TypeError`; an object without the attributes is an `AttributeError`; every success is canonical |
| SpecRefs.FromObjectDefault | src/jaunt/spec_ref.py:85-89 | without an override, a valid `__module__` and `__qualname__` give `module:qualname` |
| Paths.MkPath | src/jaunt/paths.py:20-22 | `Path(*parts)` drops empty components and never adds any |
| Paths.MkPathConcat | src/jaunt/paths.py:28 | building a path from two part lists is joining the two paths (`Path(*a) / Path(*b)`) |
| Paths.SpecModuleToGeneratedModule | src/jaunt/paths.py:8-14 | a module whose second part is already the generated directory is returned unchanged; any other module has the generated directory inserted after its first part |
| Paths.ModuleToRelpath | src/jaunt/paths.py:17-22 | a top-level module maps to `<module>/__init__.py`; a dotted one maps to its parts as directories with `.py` appended to the last part |
| Paths.GeneratedModuleToRelpath | src/jaunt/paths.py:25-29 | a module whose last part is `__generated__` maps to that package's `__init__.py`; any other module maps to its ordinary module path |
| PathLayout.GeneratedPathMirrorsSpecPath | src/jaunt/paths.py:8-29 | the generated file of a spec module sits at the spec file's path with the generated directory inserted after the top package |
| Registry.Register | src/jaunt/registry.py:24-33 | the entry is stored under its spec ref, replacing any earlier one (last write wins); every other entry and the other registry are untouched; registries stay keyed by spec ref |
| Registry.Clear | src/jaunt/registry.py:48-52 | both registries are empty afterwards |
| Registry.EntryLeTotalPreorder | src/jaunt/registry.py:70 | the sort key `(qualname, str(spec_ref))` orders entries totally |
| Registry.Group | src/jaunt/registry.py:65-71 | one module's group holds exactly the registered entries of that module, once each, sorted by qualname and then spec ref |
| Registry.GroupNonEmpty | src/jaunt/registry.py:66-67 | a module only gets a group once one of its entries is seen, so no group is empty |
| Registry.SpecsByModule | src/jaunt/registry.py:55-73 | the keys are exactly the modules with entries; each group is non-empty, sorted, holds only that module's entries and every entry of that module |
| Validation.SyntaxErrorToStr | src/jaunt/validation.py:6-17 | the message starts `SyntaxError: ` and the message text; it is exactly that followed by ` (line N)` when only the line is known, by ` (line N:M)` when the offset is known too, and by nothing otherwise |
| Validation.MessageOf | src/jaunt/validation.py:16 | the message is never empty: `msg`, else `str(err)`, else `invalid syntax` |
| Validation.Defined | src/jaunt/validation.py:39-54 | a name is defined exactly when some top-level statement (function, async function, class, plain or annotated assignment to a bare name) defines it |
| Validation.Missing | src/jaunt/validation.py:56-59 | a name is reported exactly when it is expected and not defined |
| Validation.MissingMessages | src/jaunt/validation.py:59 | one message per missing name, in the order of the expected list |
| Validation.ValidateGeneratedSource | src/jaunt/validation.py:20-61 | a syntax error gives exactly one formatted error; parsed source gives one message per expected name that is not defined; no expected names counts as none |
| Validation.ValidIffAllDefined | src/jaunt/validation.py:56-61 | parsed source passes exactly when every expected name is defined at top level |
| Validation.ErrorsNameMissing | src/jaunt/validation.py:57-59 | the error list holds the message for a name exactly when that name is expected and not defined |
| Validation.MissingMessageInjective | src/jaunt/validation.py:59 | different names give different messages, so each message identifies its name |
| Validation.CompileCheck | src/jaunt/validation.py:64-73 | no errors exactly when the source compiles; otherwise one line, `SyntaxError: …` for a syntax error and `CompileError: …` for anything else |
| Validation.SyntaxErrorsAgree | src/jaunt/validation.py:36-37 | for the same syntax error, `compile_check` and `validate_generated_source` return the same list |
| Retry.RetryLines | src/jaunt/generate/base.py:64 | one `previous output errors: …` line per validation error, in order |
| Retry.ContextAfter | src/jaunt/generate/base.py:51-65 | the first attempt gets no extra context; every later attempt gets some |
| Retry.ContextStep | src/jaunt/generate/base.py:63-65 | after a failed attempt the context is the previous one (empty if none) followed by that attempt's retry lines |
| Retry.GenerateWithRetry | src/jaunt/generate/base.py:43-67 | never more attempts than allowed (none when the bound is not positive); each backend call receives the accumulated error context of the outputs before it; every attempt but the last failed validation; the result carries the last source and its errors, and ends with errors only after the last allowed attempt |
| Retry.Attempts | src/jaunt/generate/base.py:48-67 | the loop: the outputs replay the backend calls, earlier attempts all failed, and an unsuccessful result uses every attempt |
| Retry.SupportsStructuredOutput | src/jaunt/generate/base.py:32-35 | a backend that does not override the property reports no structured output |
| Generation.ExpectedNames | src/jaunt/builder.py:292 | one expected name per entry: its qualname, in entry order |
| Generation.SpecRefs | src/jaunt/builder.py:335 | the header lists every entry's spec ref, in entry order |
| Generation.CollectFacts | src/jaunt/builder.py:294-300 | a per-spec table has a key exactly for the entries that produce a value, and for each key the value of the last such entry (later entries overwrite) |
| Generation.CollectHas | src/jaunt/builder.py:296-300 | every entry that produces a value has its spec ref in the table |
| Generation.SpecSources | src/jaunt/builder.py:296-297 | the table of spec sources exists exactly when every entry's source can be extracted; otherwise the error is that of the first entry whose extraction fails, every earlier entry having succeeded |
| Generation.PromptOf | src/jaunt/builder.py:298-300 | an entry contributes a prompt exactly when its `prompt` keyword is a non-empty string, and the prompt is that string |
| Generation.DecoratorPromptsExact | src/jaunt/builder.py:294-300 | the prompts table has a key exactly for entries with a non-empty string prompt, holding the last such prompt |
| Generation.HeaderFor | src/jaunt/builder.py:329-336 | the header records the kind, the spec module, the module digest and the entries' spec refs |
| Generation.Rejection | src/jaunt/builder.py:318-324 | no source means failure with the backend's errors, or `No source returned.` when it gave none; a source is accepted exactly when it validates against the expected names, otherwise the validation errors are the failure; a failure always has at least one message |
| Build.DepEntries | src/jaunt/builder.py:267-269 | the entries looked at are exactly those of the dependency modules |
| Build.OnDisk | src/jaunt/builder.py:279-286 | a dependency's generated file is read exactly when it exists on disk and can be read |
| Build.DependencyContext | src/jaunt/builder.py:259-288 | a dependency module gets generated source exactly when it was generated in this build or its generated file can be read; a source from this build wins over the file on disk |
| Build.DependencyApisExact | src/jaunt/builder.py:266-273 | a spec ref gets an API entry exactly when it belongs to a direct dependency module and its source can be extracted (extraction failures are skipped) |
| Build.ApiFromDependency | src/jaunt/builder.py:267-273 | every API entry comes from a spec of a direct dependency |
| Build.DependencyHasApi | src/jaunt/builder.py:267-273 | every extractable spec of a direct dependency has an API entry |
| Build.BuildContext | src/jaunt/builder.py:290-316 | the generation context can be built exactly when every entry's source can be extracted |
| Build.BuildOne | src/jaunt/builder.py:290-347 | a context that cannot be built is the job's exception and changes nothing; a rejected source changes nothing |
| Build.Store | src/jaunt/builder.py:326-347 | an accepted source is remembered for dependents; the disk changes only on success |
| Build.BuildOneFrame | src/jaunt/builder.py:290-347 | one build task writes to disk only when it succeeds, remembers only a source that was accepted, and reports success with no errors |
| Build.BuildOneLeavesFresh | src/jaunt/builder.py:100-131 | after a successful build task the module's file carries the current digest, so the staleness check finds it up to date |
| Build.RunBuild | src/jaunt/builder.py:206-422 | nothing stale means an empty report and no work; a cycle among the stale modules is an error naming a cycle, before any work; otherwise every stale module ends generated or failed and never both, the rest are skipped, a generated module's stale dependencies were all generated, a module whose dependencies failed fails with one `Dependency failed` line per failed dependency, a module is dispatched exactly when its stale dependencies were all generated, every stale module is reported to the progress bar once, and each module is dispatched ahead of every module still waiting in the ready heap with lower priority (higher critical-path length first, then name) |
| Build.BuildModules | src/jaunt/builder.py:220-422 | the same promises, priority order included, for a rebuild set already restricted to modules with specs; a task that can never succeed leaves nothing generated |
| Build.ScheduleBuild | src/jaunt/builder.py:230-407 | on an acyclic rebuild set, the scheduler's outcome partitions the set into generated and failed with the promises above, and every dispatch takes the ready module first in priority order |
| Build.PlanFor | src/jaunt/builder.py:230-249 | the plan holds the stale set, the dependencies induced on it and the clamped job count, and its dependencies point backwards in the topological order |
| Build.Planned | src/jaunt/builder.py:242-249 | priorities fall along dependency edges when computed on an acyclic induced graph |
| Build.InducedAgrees | src/jaunt/builder.py:235-238 | each stale module's induced dependencies are its dependencies that are stale too |
| Build.BuildReported | src/jaunt/builder.py:230-407 | the scheduler's final state, read as a build report, keeps every promise of the report |
| Build.DependencyContextAsWritten | src/jaunt/builder.py:279-281 | as written, a dependency module not generated in this build sends the path helper a keyword it does not accept, so the context raises `TypeError` exactly then; otherwise it is the intended context |
| Build.BuildContextAsWritten | src/jaunt/builder.py:290-316 | as written, the context agrees with the intended one except that it raises `TypeError` where the dependency lookup does |
| Build.StoreAsWritten | src/jaunt/builder.py:326-347 | as written, storing an accepted source remembers it for dependents but always raises, with `TypeError` from the write helper's path lookup once the digest is computed, and never writes the file |
| Build.BuildOneAsWrittenNeverWrites | src/jaunt/builder.py:57-71 | as written, no build task writes to disk or succeeds, and a task that would succeed when corrected raises `TypeError` instead |
| Build.AsWrittenNeverSucceeds | src/jaunt/builder.py:290-347 | as written, the job handed to the scheduler never succeeds, whatever the module and state |
| Build.RunBuildAsWritten | src/jaunt/builder.py:206-422 | as written, a build without a cycle keeps the report's promises but generates nothing and fails every stale module |
| Staleness.NormalizeDigest | src/jaunt/builder.py:28-33 | a missing or empty digest is no digest; otherwise the result is the digest with at most a leading `sha256:` removed |
| Staleness.NormalizePrefixed | src/jaunt/builder.py:31-32 | a digest and its `sha256:`-prefixed form normalise to the same value |
| Staleness.ResolvePlain | src/jaunt/builder.py:68 | resolving a relative path without `.`, `..` or separators just appends it |
| Staleness.GeneratedRelpathAsWritten | src/jaunt/builder.py:36-40 | as written, the helper passes a keyword that `generated_module_to_relpath` does not accept, so every call raises `TypeError` |
| Staleness.GeneratedRelpath | src/jaunt/builder.py:36-40 | with the default generated directory, the generated file of an ordinary spec module sits at the spec file's path with the generated directory inserted after the top package |
| Staleness.GeneratedRelpathPlain | src/jaunt/builder.py:36-40 | for module and directory names without a separator, every component of the generated file's path is a plain name |
| Staleness.InitPaths | src/jaunt/builder.py:43-54 | one `__init__.py` per parent directory of the relative path, outermost first |
| Staleness.EnsureFiles | src/jaunt/builder.py:49-54 | missing `__init__.py` files are created empty and existing files are left alone |
| Staleness.FileContent | src/jaunt/builder.py:77 | the written text is the header line, then the source with only its trailing whitespace removed, then one final newline |
| Staleness.WriteGeneratedModule | src/jaunt/builder.py:57-97 | refuses with `ValueError` exactly when the target leaves the package directory; otherwise the target holds the header, a newline and the right-stripped source with one final newline, missing package `__init__.py` files are created empty, and nothing else changes |
| Staleness.WriteNeverRefusedForPlainNames | src/jaunt/builder.py:67-71 | module and directory names without separators never trigger the refusal, and the target is the package directory joined with the relative path |
| Staleness.StaleAt | src/jaunt/builder.py:113-129 | a missing or unreadable file is stale; a digest failure propagates; the module is fresh exactly when the file's header digest and the computed digest are present and equal after normalisation |
| Staleness.ModuleStale | src/jaunt/builder.py:113-129 | for plain names the file checked is the one the writer writes, below the package directory; a digest failure propagates, and a computable digest gives an answer |
| Staleness.CollectStale | src/jaunt/builder.py:112-131 | the stale set holds exactly the modules whose check said stale; the first failing check's error propagates |
| Staleness.Checks | src/jaunt/builder.py:113 | every module is checked, in the order of the mapping |
| Staleness.DetectStale | src/jaunt/builder.py:100-131 | with `force` every module is stale; otherwise a module is stale exactly when its own check says so, and the call fails exactly when some module's digest cannot be computed |
| Staleness.CheckedModules | src/jaunt/builder.py:113-131 | collecting the per-module answers in any enumeration order gives the same stale set |
| Staleness.DetectStaleAsWrittenRaises | src/jaunt/builder.py:114 | as written, any non-forced check of a non-empty module map raises `TypeError`, while the corrected check answers |
| Staleness.DetectStaleAsWritten | src/jaunt/builder.py:100-116 | as written, a forced check marks every module stale, an empty module map gives nothing, and any other check raises `TypeError` |
| Staleness.DetectStaleAnswers | src/jaunt/builder.py:100-131 | the corrected check answers whenever every digest can be computed |
| Staleness.WriteThenFresh | src/jaunt/builder.py:57-131 | writing a module with the current digest in its header makes the staleness check find it fresh |
| Staleness.FreshAfterHeader | src/jaunt/builder.py:126-129 | a file whose header was formatted from the current digest is fresh |
| Staleness.Dependents | src/jaunt/builder.py:137-140 | the dependents of a module are exactly the modules with an edge to it |
| Staleness.InUpstream | src/jaunt/builder.py:134-151 | every module that reaches a stale module is in the expansion |
| Staleness.ClosedContainsUpstream | src/jaunt/builder.py:134-151 | the expansion is the least superset of the stale set closed under dependents |
| Staleness.UpstreamClosedAll | src/jaunt/builder.py:134-151 | the expansion is closed under dependents |
| Staleness.ExpandStale | src/jaunt/builder.py:134-151 | the work-list loop returns exactly the modules that transitively depend on a stale module, the stale modules included |
| Staleness.ExpandWithin | src/jaunt/builder.py:142-151 | the loop never leaves the closure and ends with nothing left to add |
| Staleness.ExpandStep | src/jaunt/builder.py:144-150 | one iteration keeps the loop invariant and makes progress |
| Staleness.VisitDependents | src/jaunt/builder.py:146-150 | every dependent of the popped module is in the set afterwards, and exactly the new ones are queued |
| Staleness.UpstreamIdempotent | src/jaunt/builder.py:134-151 | expanding an expanded set changes nothing |
| Graphs.Nodes | src/jaunt/deps.py:435-438 | the nodes include every key and every dependency named by a key |
| Graphs.EdgeDescends | src/jaunt/deps.py:405-408 | in a dependencies-first order a dependency sits strictly before its dependent |
| Graphs.PathDescends | src/jaunt/deps.py:405-408 | following dependency edges always moves earlier in a dependencies-first order |
| Graphs.DepsFirstImpliesAcyclic | src/jaunt/deps.py:405-444 | a graph with a dependencies-first order of all its nodes has no cycle |
| Graphs.RotateCycle | src/jaunt/deps.py:381-384 | every rotation of a cycle is a cycle |
| Graphs.PathBackIsCycle | src/jaunt/deps.py:416-424 | an edge whose target reaches back to its source closes a cycle |
| Graphs.ReachesTrans | src/jaunt/builder.py:134-151 | reachability along dependency edges is transitive |
| DepsOrder.Visit | src/jaunt/deps.py:413-433 | one call of `visit` keeps the search invariant (finished nodes have all dependencies finished and listed before them; the stack is a path), only adds to what was found, and finishes its node unless it found a cycle |
| DepsOrder.Revisit | src/jaunt/deps.py:416-424 | reaching a node that is on the stack records exactly one cycle |
| DepsOrder.Expand | src/jaunt/deps.py:426-433 | entering a new node, visiting its dependencies and leaving it finishes the node unless a cycle was found |
| DepsOrder.Push | src/jaunt/deps.py:426-427 | entering marks the node in progress and pushes it, so fewer nodes remain to enter |
| DepsOrder.Pop | src/jaunt/deps.py:430-433 | leaving after all dependencies finished marks the node finished and appends it to the order |
| DepsOrder.VisitAll | src/jaunt/deps.py:428-429 | visiting the dependencies in turn finishes all of them unless a cycle was found |
| DepsOrder.BackEdge | src/jaunt/deps.py:419-422 | the stack from the revisited node up is a cycle |
| DepsOrder.VisitRoots | src/jaunt/deps.py:440-442 | the outer loop finishes every root unless a cycle was found |
| DepsOrder.Search | src/jaunt/deps.py:405-444 | the whole search ends with nothing in progress, and without a cycle every node finished |
| DepsOrder.VisitEveryNode | src/jaunt/deps.py:435-442 | starting from every node (keys and dependencies) finishes all of them when there is no cycle |
| DepsOrder.SearchFindsCycleIffCyclic | src/jaunt/deps.py:405-444 | the search finds a cycle exactly when the graph has one |
| DepsOrder.CycleMessage | src/jaunt/deps.py:422-423 | the message runs from the cycle's first node round the cycle and back to that node |
| DepsOrder.Toposort | src/jaunt/deps.py:405-444 | succeeds exactly when the graph is acyclic; the order lists every node once with dependencies first; otherwise the error names a cycle of the graph |
| DepsOrder.Rotate | src/jaunt/deps.py:382-384 | the normalised cycle is a rotation of the found one that starts at its smallest member |
| DepsOrder.RotateKeepsCycle | src/jaunt/deps.py:381-384 | normalising keeps a cycle a cycle with distinct members |
| DepsOrder.Dedupe | src/jaunt/deps.py:385-387 | each normalised cycle is reported once, and every one not seen before is reported |
| DepsOrder.RotateAll | src/jaunt/deps.py:383-384 | every found cycle is normalised in turn |
| DepsOrder.SearchFoundCycles | src/jaunt/deps.py:373-396 | everything the search records is a non-empty cycle of distinct nodes |
| DepsOrder.NormalizeCycles | src/jaunt/deps.py:381-387 | normalising the found cycles reports none exactly when none were found, and keeps each a cycle starting at its smallest member |
| DepsOrder.NormalizedEmptyIffAcyclic | src/jaunt/deps.py:355-402 | the report is empty exactly when the graph has no cycle |
| DepsOrder.FindCycles | src/jaunt/deps.py:355-402 | empty exactly when the graph is acyclic; every reported cycle is a cycle of distinct nodes starting at its smallest member, and none is reported twice |
| Deps.IterDepsValue | src/jaunt/deps.py:29-34 | no value gives no dependencies, a list, tuple or set gives exactly its items in iteration order, and any other value is a single dependency |
| Deps.NormalizeDep | src/jaunt/deps.py:37-45 | a string is normalised as a spec ref and any other object through its attributes; anything that raises is dropped; every kept value is canonical |
| Deps.NormalizeDepCanonical | src/jaunt/deps.py:40-41 | a canonical string dependency is kept as it is |
| Deps.ExplicitDeps | src/jaunt/deps.py:218-224 | the explicit edges are exactly the normalisable dependencies that are known specs other than the spec itself |
| Deps.InferredDeps | src/jaunt/deps.py:237-330 | failed inference adds nothing; otherwise the inferred edges are the candidates that are known specs other than the spec itself |
| Deps.SpecDeps | src/jaunt/deps.py:215-328 | a spec's dependencies are known specs, never itself, and each comes from its explicit list or, when inference is enabled for it, from inference; every explicit edge is kept, and so is every inferred edge when inference is enabled |
| Deps.BuildSpecGraph | src/jaunt/deps.py:192-332 | every spec is a key, no edge leaves the known specs, there are no self-edges, every edge is explicit or inferred, and every explicit edge, and every inferred one where inference is enabled, is in the graph |
| Deps.ExplicitEdgesKept | src/jaunt/deps.py:218-224 | every explicit dependency that normalises to another known spec becomes an edge |
| Deps.ModOf | src/jaunt/deps.py:340-341 | the module of a spec ref is the text before its colon |
| Deps.ModuleDeps | src/jaunt/deps.py:343-350 | a module never depends on itself, and every cross-module spec edge out of it gives a module dependency |
| Deps.CollapseToModuleDag | src/jaunt/deps.py:335-352 | the keys are the modules of all specs and their dependencies; there are no self-edges; every cross-module spec edge gives a module edge and every module edge comes from one |
| PyValues.StrRepr | src/jaunt/digest.py:57 | `repr` of a string lies between two copies of the quote Python picks (double exactly when the text holds a single quote and no double quote), and its inside reads back as the string |
| PyValues.UnescapeEscape | src/jaunt/digest.py:57 | reading back the escapes `repr` writes (`\\`, the escaped quote, `\t`, `\n`, `\r`, `\xhh`) recovers the text |
| PyValues.EscapeOneLine | src/jaunt/digest.py:57 | inside its quotes, the repr of a string holds no line break, and every quote character in it is escaped by a backslash |
| Digest.UnifyNewlines | src/jaunt/digest.py:39 | after replacing `\r\n` and lone `\r` by `\n` no carriage return is left |
| Digest.UnifyNewlinesFixed | src/jaunt/digest.py:39 | text without carriage returns is left unchanged |
| Digest.RStripLines | src/jaunt/digest.py:42 | each line is stripped of trailing whitespace, one output line per input line |
| Digest.DropTrailingBlank | src/jaunt/digest.py:43-44 | the result is a prefix of the lines, it does not end with an empty line, and only empty lines were removed |
| Digest.CleanLines | src/jaunt/digest.py:42-44 | the cleaned lines carry no line breaks or trailing whitespace and the last one is not empty |
| Digest.SegmentLines | src/jaunt/digest.py:38-44 | the lines of a normalised segment have no line breaks, no trailing whitespace, and no empty last line |
| Digest.JoinCleanLines | src/jaunt/digest.py:45 | joining clean lines with `\n` can be split back into exactly those lines, is empty only for no lines, and ends in no whitespace |
| Digest.NormalizeSegment | src/jaunt/digest.py:38-45 | the normalised segment holds no carriage return, ends in no whitespace, and is empty exactly when no line survives |
| Digest.NormalizeSegmentSplits | src/jaunt/digest.py:42-45 | splitting the normalised segment on `\n` gives back its cleaned lines |
| Digest.NormalizeSegmentIdempotent | src/jaunt/digest.py:38-45 | normalising a normalised segment changes nothing |
| Digest.NormalizeOfClean | src/jaunt/digest.py:38-45 | clean lines joined with `\n` are already normal |
| Digest.SegmentLinesOfJoin | src/jaunt/digest.py:42-45 | re-splitting the join of clean lines recovers the lines |
| Digest.Put | src/jaunt/digest.py:53 | a dict assignment keeps the size or grows it by one, appends a new key at the end, and holds the assigned pair |
| Digest.PutKeepsJson | src/jaunt/digest.py:53 | assigning a string key to JSON data keeps a dict with distinct string keys and JSON values |
| Digest.StrLeTotalPreorder | src/jaunt/digest.py:57 | ordering values by their `str` text is a total preorder |
| Digest.JsonableBy | src/jaunt/digest.py:48-58 | the converted value is JSON data: scalars, lists, and dicts with distinct string keys |
| Digest.JsonableItems | src/jaunt/digest.py:55 | a list converts element by element into JSON data of the same length |
| Digest.JsonableEntries | src/jaunt/digest.py:53 | converting a dict's items yields distinct string keys with JSON values |
| Digest.Jsonable | src/jaunt/digest.py:48-58 | `_jsonable` always yields JSON data |
| Digest.JsonableFixesJson | src/jaunt/digest.py:48-58 | values that are already JSON data pass through unchanged |
| Digest.JsonItemsFixed | src/jaunt/digest.py:55 | a list of JSON data passes through unchanged |
| Digest.JsonEntriesFixed | src/jaunt/digest.py:53 | a dict with distinct string keys and JSON values passes through unchanged |
| Digest.JsonableSetOrderDepends | src/jaunt/digest.py:56-57 | the set `{1, "1"}` iterated in its two possible orders converts to two different lists, because `1` and `"1"` tie under the `str` key |
| Digest.JsonableQuoteOrder | src/jaunt/digest.py:56-57 | worked example, not a general property: in the set `{("a",), ("it's",)}`, `str` shows `["it's"]` in double quotes, so it sorts strictly before `['a']` and the converted list starts with it |
| Digest.QuotedSortsFirst | src/jaunt/digest.py:57 | a string holding a single quote and no double quote is shown by `str` in double quotes, so its one-element list sorts strictly before that of any string without a single quote |
| Digest.JsonablePairOfTies | src/jaunt/digest.py:57 | two scalars whose `str` ties keep their iteration order in the sorted list |
| Digest.DumpLeTotalPreorder | src/jaunt/digest.py:57 | ordering values by their JSON text is a total preorder |
| Digest.DumpLeAntisymmetric | src/jaunt/digest.py:57 | with an injective JSON encoding, that order is antisymmetric |
| Digest.StableJsonable | src/jaunt/digest.py:48-58 | the corrected conversion, which orders set members by JSON text, still yields JSON data |
| Digest.JsonableItemsAsMap | src/jaunt/digest.py:55 | converting a list is mapping the element conversion over it |
| Digest.SetOrderFree | src/jaunt/digest.py:56-57 | with an antisymmetric key, two iteration orders of the same set convert to the same list |
| Digest.JsonableItemsPermutation | src/jaunt/digest.py:57 | converting two permutations of a set gives permutations of each other |
| Digest.StableJsonableSetOrderFree | src/jaunt/digest.py:56-57 | under the corrected order a set's conversion does not depend on its iteration order |
| Digest.NormalizeDepsForKwargs | src/jaunt/digest.py:61-83 | the result is sorted, has one entry per dependency, and is a permutation of each dependency's canonical ref or, when that fails, its `str` |
| Digest.DepsOrderIrrelevant | src/jaunt/digest.py:61-83 | two `deps` values holding the same dependencies in any order normalise to the same list |
| Digest.DepsRecorded | src/jaunt/digest.py:72-80 | every dependency appears in the list, as its canonical ref when it has one and as its `str` otherwise |
| Digest.StrList | src/jaunt/digest.py:94 | a list of strings becomes a JSON list of the same strings in order |
| Digest.KwargJson | src/jaunt/digest.py:91-96 | the value recorded for a keyword is JSON data: for `deps` the normalised dependency list as JSON strings, otherwise the value itself whenever it already is JSON data |
| Digest.KwargEntries | src/jaunt/digest.py:91-96 | one entry per key in the given order, each the key as a JSON string with its recorded value: `deps` through the dependency normaliser, every other value through `_jsonable`, set members sorted by `str` |
| Digest.KwargsJsonSeparates | src/jaunt/digest.py:91-98 | two kwargs dicts with the same names whose recorded values differ at one name give different JSON records |
| Digest.KwargsJsonPointwise | src/jaunt/digest.py:91-98 | two kwargs dicts whose values convert alike give the same JSON record |
| Digest.PayloadTail | src/jaunt/digest.py:99-100 | with an injective hash, `h(a + "\n" + x)` equals `h(b + "\n" + y)` for newline-free tails exactly when `a == b` and `x == y` |
| Digest.KwargsRecord | src/jaunt/digest.py:91-98 | computes the `json.dumps` text of the recorded kwargs, set members sorted by `str`; what it pins down is stated by `Digest.KwargsJsonPointwise` and `Digest.KwargsJsonSeparates` |
| Digest.LocalDigest | src/jaunt/digest.py:86-100 | computes the hash of the normalised segment, a newline and the kwargs record; its properties are stated by `Digest.LocalDigestOfNormalized`, `Digest.LocalDigestSensitive`, `Digest.LocalDigestDepsOrder`, `Digest.LocalDigestSeparates` and `Digest.LocalDigestSetOrderDepends` |
| Digest.StableLocalDigest | src/jaunt/digest.py:86-100 | the corrected local digest; its order independence is stated by `Digest.StableLocalDigestSetOrder` |
| Digest.LocalDigestOfNormalized | src/jaunt/digest.py:86-100 | the local digest of a segment equals that of its normalised form |
| Digest.LocalDigestSensitive | src/jaunt/digest.py:86-100 | with an injective hash, two local digests agree exactly when the normalised segments and the kwargs records agree |
| Digest.LocalDigestDepsOrder | src/jaunt/digest.py:92-94 | reordering the `deps` decorator argument leaves the local digest unchanged |
| Digest.LocalDigestSeparates | src/jaunt/digest.py:86-100 | with an injective hash and encoder, two decorator arguments whose recorded values differ at one keyword give different local digests |
| Digest.LocalDigestSetOrderDepends | src/jaunt/digest.py:56-57 | as written, the set `{1, "1"}` iterated in its two possible orders gives two different local digests |
| Digest.StableLocalDigestSetOrder | src/jaunt/digest.py:56-57 | under the corrected order, reordering a set-valued decorator argument leaves the local digest unchanged |
| Digest.DigestAllSpec | src/jaunt/digest.py:123-125 | the dependency digests succeed exactly when each dependency's digest succeeds, and then list them in order |
| Digest.DigestAllFirstFailure | src/jaunt/digest.py:123-125 | a failing dependency list fails with the error of the first dependency whose digest fails |
| Digest.OnCycleFails | src/jaunt/digest.py:115-121 | hashing any node of a dependency cycle fails once the cycle's head is being visited |
| Digest.GraphDigest | src/jaunt/digest.py:103-132 | computes the digest of a spec from its local digest and its dependencies' digests; its properties are stated by `Digest.GraphDigestCycleFails`, `Digest.GraphDigestOkIffAcyclic` and `Digest.GraphDigestPinsLocals` |
| Digest.GraphDigestCycleFails | src/jaunt/digest.py:103-132 | the graph digest of a node on a cycle raises the cycle error |
| Digest.AcyclicDigestOk | src/jaunt/digest.py:115-130 | in an acyclic graph whose reachable specs hash locally, the digest succeeds when no visiting node is reachable |
| Digest.DependencyPremises | src/jaunt/digest.py:121-124 | the premises of a successful digest carry over from a node to each of its dependencies |
| Digest.GraphDigestOkIffAcyclic | src/jaunt/digest.py:103-132 | when every spec hashes locally, every graph digest succeeds exactly when the graph has no cycle |
| Digest.DigestsNewlineFree | src/jaunt/digest.py:123-127 | with a newline-free hash, no dependency digest contains a newline |
| Digest.DigestStep | src/jaunt/digest.py:121-127 | two equal successful digests of a node come from equal local digests and equal digests of each dependency |
| Digest.PayloadParts | src/jaunt/digest.py:126-127 | with an injective hash, equal payload hashes pin the local digest and the list of dependency digests |
| Digest.DigestAllSameAt | src/jaunt/digest.py:123-125 | equal successful dependency lists have equal digests at each dependency |
| Digest.DigestPinsLocals | src/jaunt/digest.py:115-130 | equal digests of a path's first node pin the local digest of its last node |
| Digest.GraphDigestPinsLocals | src/jaunt/digest.py:103-132 | equal graph digests of a spec pin the local digest of every spec it transitively depends on, so a change anywhere downstream changes the digest |
| Digest.ModuleDigest | src/jaunt/digest.py:135-149 | the module digest succeeds exactly when the graph digest of each of the module's specs does |
| Digest.RefsOfMembers | src/jaunt/digest.py:145 | a permutation of the module's refs names exactly the module's specs |
| Digest.ModuleDigestOrderFree | src/jaunt/digest.py:135-149 | the module digest does not depend on the order in which the module's specs are listed |
| Planning.InducedDeps | src/jaunt/builder.py:231-238 | each stale module's dependencies are exactly its module-graph dependencies that are themselves stale |
| Planning.DependentsIn | src/jaunt/builder.py:163-167 | each stale module's dependents are exactly the stale modules that depend on it |
| Planning.ClampJobs | src/jaunt/builder.py:220 | the job count is at least one and a positive request is kept |
| Planning.MakePlan | src/jaunt/builder.py:220-244 | the plan is over the stale set, its dependency and dependent maps mirror each other within that set, and its job count is clamped |
| Planning.RankOf | src/jaunt/builder.py:242 | a dependencies-first order ranks each module by its distance from the end of the order |
| Planning.DepsFirstFalling | src/jaunt/builder.py:242-244 | when the stale subgraph has a dependencies-first order, every dependent ranks strictly below the module it depends on, which bounds the path-length recursion |
| Planning.Length | src/jaunt/builder.py:171-180 | a module's critical-path length never exceeds its rank, so the recursion is bounded by the height of the graph |
| Planning.MaxLengthIsMax | src/jaunt/builder.py:178 | the maximum over a module's dependents is at least each dependent's length and equal to one of them |
| Planning.LengthIsOnePlusMax | src/jaunt/builder.py:171-180 | a module without dependents has length 0; otherwise its length is one more than its longest dependent's |
| Planning.LengthBoundsChains | src/jaunt/builder.py:161-184 | a module's length is at least the number of steps in any chain of dependents starting at it |
| Planning.CriticalPathLengths | src/jaunt/builder.py:161-184 | the priorities cover exactly the stale modules and give each its longest downstream path |
| Planning.TwoCycleExhaustsRecursion | src/jaunt/builder.py:171-180 | on two modules that depend on each other the recursion never bottoms out and ends in a recursion error at any depth limit |
| Planning.LengthAsWritten | src/jaunt/builder.py:171-180 | the only failure of the unguarded recursion is the recursion-limit error, raised once the limit is reached, and any length it returns is below the remaining stack depth |
| Planning.LengthAsWrittenAgrees | src/jaunt/builder.py:171-180 | on an acyclic graph within the depth limit the recursive computation returns the longest downstream path |
| Planning.MaxAsWrittenAgrees | src/jaunt/builder.py:178 | within the depth limit the recursive maximum over dependents agrees with the reference maximum |
| Planning.Best | src/jaunt/builder.py:246-249 | the chosen module is in the list and precedes every other by higher priority first, then name |
| Planning.PopNext | src/jaunt/builder.py:375 | popping the ready heap yields a ready module that precedes every other ready module by higher priority first, then name |
| Planning.PopNextUnique | src/jaunt/builder.py:375 | the heap's minimum is unique, so any module that precedes all ready modules is the one popped |
| Scheduler.DependencyFailures | src/jaunt/builder.py:358-360 | one "Dependency failed" line per failed dependency, in `str` order |
| Scheduler.DependencyFailuresNameExactly | src/jaunt/builder.py:358-360 | a dependency is named among the lines exactly when it failed |
| Scheduler.Outcome | src/jaunt/builder.py:387-393 | a task that raised counts as a failure with one "Unhandled error" line carrying the exception's repr; otherwise its own flag and errors are used |
| Scheduler.ErrorRepr | src/jaunt/builder.py:393 | the repr of an exception is its class name and then, in parentheses, its argument written as a string literal: between the quotes `repr` picks, with escapes that read back as the argument |
| Scheduler.EventsAppend | src/jaunt/builder.py:374-407 | appending an event adds its module to the dispatched, advanced or advanced-ok set and nothing else |
| Scheduler.Init | src/jaunt/builder.py:231-254 | the initial state satisfies the scheduler invariant, with exactly the stale modules without stale dependencies ready and nothing running or completed |
| Scheduler.InitCounts | src/jaunt/builder.py:233-249 | each module's in-degree starts as its number of stale dependencies |
| Scheduler.DispatchOne | src/jaunt/builder.py:374-379 | dispatching moves one module from ready to in flight and records the number running; completed, generated and failed are unchanged |
| Scheduler.DispatchOnePreserves | src/jaunt/builder.py:374-379 | dispatching a ready module below the job limit keeps the scheduler invariant |
| Scheduler.DispatchOrderAppend | src/jaunt/builder.py:374-379 | a module is dispatched only after all of its dependencies were generated, never with more than `jobs` running, and ahead of every module left waiting in the ready heap with lower priority |
| Scheduler.Record | src/jaunt/builder.py:384-399 | a finished task leaves the in-flight set and is completed; success adds it to the generated set, failure records its errors or "Unknown error." when there are none |
| Scheduler.RecordPreserves | src/jaunt/builder.py:384-399 | recording a finished task keeps the invariant, with the module owed as a completed dependency to each of its dependents |
| Scheduler.PartitionAfterFinish | src/jaunt/builder.py:395-399 | every stale module stays in exactly one of ready, in flight, or completed, and completed modules are generated or failed but not both |
| Scheduler.LastDecrement | src/jaunt/builder.py:354-356 | when a dependent's in-degree reaches zero all of its dependencies are completed and it is neither ready nor running |
| Scheduler.KeepPreserves | src/jaunt/builder.py:352-356 | decrementing a dependent that still waits for others keeps the invariant |
| Scheduler.PushPreserves | src/jaunt/builder.py:368-369 | a dependent released with no failed dependency becomes ready and the invariant holds |
| Scheduler.CascadeRecordNew | src/jaunt/builder.py:358-361 | a dependent with a failed dependency fails with one line per failed dependency and at least one line |
| Scheduler.CascadePreserves | src/jaunt/builder.py:358-367 | failing a dependent because a dependency failed keeps the invariant, owing it in turn to its own dependents |
| Scheduler.ReleasePreserves | src/jaunt/builder.py:351-369 | releasing one dependent keeps the invariant whether it becomes ready or fails in cascade |
| Scheduler.ReleaseStep | src/jaunt/builder.py:351-369 | one release step only moves modules forward, completing the dependent exactly when it cascaded |
| Scheduler.Complete | src/jaunt/builder.py:349-369 | after `complete(m)` every dependent of a completed module has been credited with it, and the invariant holds |
| Scheduler.CompleteEach | src/jaunt/builder.py:351-369 | visiting the dependents in order credits each of them with the completed module |
| Scheduler.Settle | src/jaunt/builder.py:349-369 | once every dependent has been credited nothing is owed any more |
| Scheduler.Finish | src/jaunt/builder.py:384-407 | handling one finished task keeps the invariant, removes it from the in-flight set, and marks it generated exactly when its work succeeded |
| Scheduler.FinishAll | src/jaunt/builder.py:385-407 | handling every task of a finished batch removes them all from the in-flight set and completes them |
| Scheduler.DispatchAll | src/jaunt/builder.py:374-379 | the dispatch loop stops only when nothing is ready or `jobs` tasks are running, without completing anything |
| Scheduler.Round | src/jaunt/builder.py:373-407 | a round of the main loop either completes at least one new stale module or stops with nothing ready and nothing running |
| Scheduler.NotStuck | src/jaunt/builder.py:409-414 | when the loop stops, every module whose dependencies are all completed is itself completed |
| Scheduler.NoDeadlock | src/jaunt/builder.py:409-414 | on an acyclic stale subgraph the loop completes every stale module, so the deadlock branch is never reached |
| Scheduler.Concluded | src/jaunt/builder.py:409-422 | at the end generated and failed partition the stale modules, generated modules have only generated dependencies, failures carry messages and cascaded failures name exactly their failed dependencies |
| Scheduler.Schedule | src/jaunt/builder.py:231-422 | on an acyclic stale subgraph, for any completion order, the build completes every stale module; a module is dispatched exactly when all its dependencies were generated, never above the job limit, ahead of every lower-priority ready module, progress reports each module once with its outcome, and work that never succeeds generates nothing |
| Tester.Dedupe | src/jaunt/tester.py:53-60 | the result holds exactly the paths not already seen, and equals the independent reference: each `xs[k]` that is unseen and absent from `xs[..k]`, in index order |
| Tester.FirstOccurrencesCons | src/jaunt/tester.py:55-60 | the first occurrences, read from the front: the head is kept exactly when unseen, and the rest is read with the head counted as seen, as the `seen`/`append` loop does |
| Tester.FirstOccurrencesConcat | src/jaunt/tester.py:55-60 | the first occurrences in a concatenation are those of the front, then those of the back that neither the seen set nor the front holds |
| Tester.DedupeDistinct | src/jaunt/tester.py:53-60 | no path occurs twice in a de-duplicated sequence |
| Tester.DedupeConcat | src/jaunt/tester.py:55-60 | de-duplicating a concatenation is de-duplicating the first part, then the second part minus what the first part held |
| Tester.NonEmpty | src/jaunt/tester.py:51 | exactly the non-empty parts of the current `PYTHONPATH` are kept |
| Tester.MergedPythonPathLaws | src/jaunt/tester.py:43-61 | the merged path starts with the new entries, holds exactly the new and the current entries, and repeats none; after the new entries come the inherited ones in their first-occurrence order, without those already among the new entries |
| Tester.PytestEnv | src/jaunt/tester.py:41-63 | the child environment is the parent's, with `PYTHONPATH` replaced by the merged path joined with `:` when that path is non-empty, and untouched otherwise |
| Tester.Filter | src/jaunt/tester.py:44-48 | exactly the entries that resolve to an existing path are kept |
| Tester.PytestArgs | src/jaunt/tester.py:40 | the command is the interpreter, `-m pytest`, the extra arguments and then one argument per test file |
| Tester.RunPytest | src/jaunt/tester.py:30-65 | with no files pytest is not started and the exit code is 0; otherwise the exit code is the child's for that command and environment |
| Tester.GeneratedTestRelpath | src/jaunt/tester.py:68-81 | a test module outside the tests package is refused; otherwise the path is the generated mirror, refused unless it starts with the tests package and the generated directory |
| Tester.GeneratedTestRelpathAsWritten | src/jaunt/tester.py:74-75 | as written, the path helper is called with a keyword it does not accept, so every call fails |
| Tester.TestRelpathAsWrittenRaises | src/jaunt/tester.py:74-75 | for an ordinary test module the call as written raises `TypeError` where the corrected helper returns a path |
| Tester.TestRelpathMirrors | src/jaunt/tester.py:68-81 | a test module's generated file is its module path with the generated directory inserted after the tests package |
| Tester.WriteGeneratedTestModule | src/jaunt/tester.py:97-144 | the write is refused outside the project or outside the tests' generated directory; otherwise it stores header and source at the mirrored path, creates missing `__init__.py` files, and changes nothing else |
| Tester.WriteTestGuardsForPlainNames | src/jaunt/tester.py:106-119 | for plain names the write succeeds exactly when the file lies strictly below the generated directory |
| Tester.PlainTestPaths | src/jaunt/tester.py:109-119 | plain relative paths resolve inside the project, and lie below the generated directory exactly when they are deeper than it |
| Tester.TestContext | src/jaunt/tester.py:237-261 | the context exists exactly when every spec's source can be read; it is of kind `test`, has no generated dependency modules, and carries the dependency APIs given |
| Tester.GenOne | src/jaunt/tester.py:262-287 | a context that cannot be built is the job's exception and leaves the disk as it was; any failure or exception leaves the disk unchanged |
| Tester.GenOneWrites | src/jaunt/tester.py:262-287 | the disk changes only on success, and a success writes the header and an accepted source below the generated directory and reports that file |
| Tester.GenOneRejects | src/jaunt/tester.py:262-268 | a missing source or one that fails validation is a failure with errors and leaves the disk unchanged |
| Tester.LengthsAsWritten | src/jaunt/tester.py:183-185 | the priorities exist only when every module's recursive length does, and fail as soon as one fails |
| Tester.TwoCycleTestPrioritiesRaise | src/jaunt/tester.py:163-185 | as written, two test modules that depend on each other make the priority computation fail with a recursion error |
| Tester.TwoCycleDependents | src/jaunt/tester.py:164-168 | the dependents map of that two-module cycle is the cycle itself |
| Tester.PrioritiesAsWrittenAgree | src/jaunt/tester.py:163-185 | on an acyclic stale subgraph within the recursion limit, the priorities as written succeed and equal the build's critical-path priorities |
| Tester.AsWrittenLengths | src/jaunt/tester.py:163-185 | when dependents rank strictly lower within the limit, every module's recursive length is its longest downstream path |
| Tester.PathLeTotalPreorder | src/jaunt/tester.py:361 | ordering files by their path text is a total preorder |
| Tester.SortPaths | src/jaunt/tester.py:361 | the generated files are returned as a sorted permutation |
| Tester.RunTestGeneration | src/jaunt/tester.py:188-362 | with nothing stale nothing happens; a dependency cycle among the stale test modules is reported as a cycle error naming one; otherwise generated and failed partition the stale modules, a module is generated only after its stale dependencies, cascaded failures name the failed dependencies, and the files are sorted |
| Tester.GenerateModules | src/jaunt/tester.py:203-362 | for stale modules that all have specs, the cycle check and the scheduling give the outcome stated for the whole run |
| Tester.ScheduleTests | src/jaunt/tester.py:226-362 | on an acyclic stale subgraph the generated and failed modules partition the stale ones and the rest are skipped; a generated module's stale dependencies were all generated; every failure carries a reason, and a module with failed dependencies fails naming exactly those; a module is dispatched exactly when its stale dependencies all succeeded, in dependency order; the written files come back sorted |
| Tester.RunTests | src/jaunt/tester.py:365-425 | without generation inputs the run fails with the missing-inputs message; `no_run` gives a passing result; otherwise `passed` means exit code 0, and with generation a cycle among the stale modules is the only error |
| Cli.TargetModulesExact | src/jaunt/cli.py:146-152 | a module is targeted exactly when some target's text before its first `:`, stripped, names it and is non-empty |
| Cli.TargetOfSpecRef | src/jaunt/cli.py:149 | a spec-ref target `module:qualname` targets its module |
| Cli.TargetModule | src/jaunt/cli.py:149 | a target without a colon is its stripped text; a target `mod:rest` whose module part has no colon targets that module part, stripped |
| Cli.SingleTarget | src/jaunt/cli.py:146-152 | one target with a non-empty module part targets just that module |
| Cli.ClosedContainsDownstream | src/jaunt/cli.py:155-167 | every set that holds the modules and is closed under dependencies holds all their transitive dependencies |
| Cli.DownstreamClosed | src/jaunt/cli.py:155-167 | the modules plus their transitive dependencies are closed under dependencies |
| Cli.DepsClosure | src/jaunt/cli.py:155-167 | the closure is exactly the modules plus everything they transitively depend on |
| Cli.ClosureWithin | src/jaunt/cli.py:158-167 | the stack loop never leaves the dependency closure and ends with every popped module's dependencies seen |
| Cli.ClosureStep | src/jaunt/cli.py:160-166 | one pop keeps the loop invariant and makes progress: new modules seen or a shorter stack |
| Cli.VisitDeps | src/jaunt/cli.py:162-166 | visiting a module's dependencies adds each unseen one to both the seen set and the stack |
| Cli.RestrictToTargets | src/jaunt/cli.py:484-487 | with targets, only the stale modules inside the targets' dependency closure are kept; with none, all are |
| Cli.StatusPartition | src/jaunt/cli.py:387-395 | the status splits the selected modules into disjoint stale and fresh sets that together make up the selection |
| Cli.BuildSelection | src/jaunt/cli.py:475-489 | a build restricts the stale modules to the targets' closure and then adds every module that depends on them |
| Cli.TestSelection | src/jaunt/cli.py:620-633 | a test run expands the stale modules to their dependents first and restricts to the targets' closure afterwards |
| Cli.TestSelectionWithinBuildSelection | src/jaunt/cli.py:484-489 | everything the test ordering selects is also selected by the build ordering |
| Cli.SelectionOrderMatters | src/jaunt/cli.py:484-489 | when `a` depends on a leaf `b` and only `b` is stale and targeted, a build selects `a` but a test run does not |
| Cli.OrderMattersFor | src/jaunt/cli.py:628-633 | the same holds whenever `b` does not reach back to `a` |
| Cli.RestrictToBare | src/jaunt/cli.py:484-487 | one bare module target keeps the stale modules within its dependency closure |
| Cli.LeafReachesOnlyItself | src/jaunt/cli.py:155-167 | a module without dependencies reaches only itself |
| Cli.BuildExit | src/jaunt/cli.py:415-538 | a finished build exits 0 exactly when nothing failed and 3 otherwise; configuration, discovery, cycle and key errors exit 2, generation errors exit 3, and anything else propagates |
| Cli.CmdBuild | src/jaunt/cli.py:415-538 | staleness errors map to their exit codes; otherwise the build runs on the selected modules and its exit code follows the report |
| Cli.BuildAndExit | src/jaunt/cli.py:498-528 | a cycle among the selected modules exits 2, and a finished build partitions them into generated and failed with the exit code following the failures |
| Cli.ExitOfReport | src/jaunt/cli.py:519-533 | the exit code derived from a build report agrees with the build's outcome |
| Cli.TestExit | src/jaunt/cli.py:676-689 | pytest exit 0 gives 0; any other exit gives 4, or 3 with `--no-run`; configuration errors give 2, generation and attribute errors give 3, and anything else propagates |
| Cli.CmdTest | src/jaunt/cli.py:541-689 | a failing build's exit code is returned unchanged; with no test specs the exit is 0; otherwise tests are generated for the selected modules and the exit code follows the result; it runs the corrected priorities of the tester.py:163-185 Findings row, so a test cycle exits 2 here, while as written it escapes as `RecursionError` (`Cli.TestCycleAsWrittenEscapes`) |
| Cli.TestAndExit | src/jaunt/cli.py:636-689 | the exit code of a test run follows its result, with a cycle among the selected modules as the only error; this holds for the corrected priorities of the tester.py:163-185 Findings row, and as written such a cycle escapes as `RecursionError` (`Cli.TestCycleAsWrittenEscapes`) |
| Cli.TestCycleAsWrittenEscapes | src/jaunt/cli.py:676-689 | as written, two stale test modules that depend on each other make the priorities raise `RecursionError`; `cmd_test` maps no such error to an exit code, so it escapes the command |
| Cli.CmdStatus | src/jaunt/cli.py:335-412 | with no specs the status is empty; on success stale and fresh partition the selected modules; configuration-like errors exit 2 |
| Cli.MainExit | src/jaunt/cli.py:692-711 | an argument error exits with its own code, or 2 when it has none; known commands run; anything else exits 2 |
| Dotenv.Unquote | src/jaunt/dotenv.py:28-29 | a value of two or more characters that starts and ends with the same quote loses exactly those two characters; any other value is kept |
| Dotenv.ParseLine | src/jaunt/dotenv.py:12-31 | blank and comment lines set nothing, and a line that sets something has a non-empty, stripped key without `=` |
| Dotenv.ParseStripped | src/jaunt/dotenv.py:14-31 | on a stripped line, empty and `#` lines are skipped and keys are non-empty and stripped |
| Dotenv.ParseBody | src/jaunt/dotenv.py:18-31 | a line without `=` sets nothing |
| Dotenv.ParsePair | src/jaunt/dotenv.py:21-31 | the pair is dropped exactly when the key is blank after stripping |
| Dotenv.ParseAtKey | src/jaunt/dotenv.py:12-31 | a line `KEY=rest` with a plain key sets that key to the stripped, unquoted rest |
| Dotenv.ParseQuoted | src/jaunt/dotenv.py:28-29 | `KEY="v"` sets the key to exactly `v` |
| Dotenv.ParseBare | src/jaunt/dotenv.py:21-31 | `KEY=v` with an unquoted value without surrounding whitespace sets the key to exactly `v` |
| Dotenv.ExportIgnored | src/jaunt/dotenv.py:16-17 | an `export ` prefix does not change what a line sets |
| Dotenv.ReadWhole | src/jaunt/dotenv.py:13-18 | a stripped, non-empty, non-comment line is read as its body once any `export ` prefix is removed |
| Dotenv.ExportRemoved | src/jaunt/dotenv.py:16-17 | removing the `export ` prefix returns the rest of the line |
| Dotenv.AssignKeys | src/jaunt/dotenv.py:10-32 | a key is loaded exactly when some line sets it |
| Dotenv.AssignLast | src/jaunt/dotenv.py:31 | a key's loaded value is the one set by the last line that sets it |
| Dotenv.Load | src/jaunt/dotenv.py:10-32 | a key is loaded exactly when some line of the file sets it, with the value of the last line setting it |
| Dotenv.MergeAbsent | src/jaunt/dotenv.py:49-53 | the environment gains the file's keys, and no key already present changes, even one whose value is empty |
| Dotenv.LoadIntoEnviron | src/jaunt/dotenv.py:35-54 | a missing or unreadable file loads nothing and reports false; otherwise the file's keys are merged without overriding and it reports true |
| Dotenv.MergeKeys | src/jaunt/dotenv.py:49-53 | the loop that copies absent keys yields the merge that never overrides |
| Dotenv.MergedAll | src/jaunt/dotenv.py:49-53 | an environment that keeps every old key, adds every loaded key, and takes loaded values only for new keys is exactly the merge |
| ExampleDotenv.EnsureOpenAiKey | examples/_dotenv.py:33-56 | an environment with a non-blank key is returned as is; otherwise the `.env` file is merged without overriding, and the result fails with the missing-key message unless the merged key is non-blank |
| ExternalImports.SepRun | src/jaunt/external_imports.py:12 | the run of `-`, `_` and `.` at the start of the text is maximal |
| ExternalImports.CollapseSeps | src/jaunt/external_imports.py:12-18 | every run of separators becomes one `-`: the result keeps the first and last characters' images, holds no `_` or `.`, and never two dashes in a row |
| ExternalImports.CollapseFixed | src/jaunt/external_imports.py:12-18 | text already without `_`, `.` or doubled dashes is unchanged |
| ExternalImports.Normalize | src/jaunt/external_imports.py:15-18 | a normalised name has no `_`, no `.` and no doubled dash |
| ExternalImports.NormalizeEnds | src/jaunt/external_imports.py:15-18 | a normalised name has no surrounding whitespace |
| ExternalImports.NormalizeIdempotent | src/jaunt/external_imports.py:15-18 | normalising a normalised name changes nothing |
| ExternalImports.NonEmptyParts | src/jaunt/external_imports.py:118 | exactly the non-empty dotted parts are kept |
| ExternalImports.Candidates | src/jaunt/external_imports.py:118-123 | there is one candidate distribution name per dotted part |
| ExternalImports.CandidatesLongestFirst | src/jaunt/external_imports.py:115-123 | for `a.b.c` the candidates are `a-b-c`, `a-b`, `a`: each is the next one with one more part joined by `-` |
| ExternalImports.FirstInstalledAt | src/jaunt/external_imports.py:122-130 | the search stops at the first installed candidate and none before it is installed |
| ExternalImports.FirstInstalled | src/jaunt/external_imports.py:112-132 | the heuristic fails exactly when no candidate is installed, and otherwise returns the first installed candidate with its version |
| ExternalImports.ByKeyPreorder | src/jaunt/external_imports.py:144-146 | sorting by a text key is a total preorder |
| ExternalImports.Keep | src/jaunt/external_imports.py:142 | the filter keeps exactly the elements satisfying the predicate |
| ExternalImports.KeepFirst | src/jaunt/external_imports.py:142 | the filter's first element is the first satisfying element of the input |
| ExternalImports.ChooseBy | src/jaunt/external_imports.py:135-146 | no candidates give nothing, one candidate is returned as is, and any choice is a candidate |
| ExternalImports.ChooseByExact | src/jaunt/external_imports.py:142-144 | when some candidates match the top-level key, the first such candidate is chosen |
| ExternalImports.ChooseBySmallest | src/jaunt/external_imports.py:146 | when none match, the first candidate with the smallest key is chosen |
| ExternalImports.ChooseDist | src/jaunt/external_imports.py:135-146 | the chosen distribution is one of the candidates, and none is chosen only when there are none |
| ExternalImports.ChooseExact | src/jaunt/external_imports.py:141-144 | a candidate whose normalised name equals the import's is preferred, the first of them when several |
| ExternalImports.ChooseSmallest | src/jaunt/external_imports.py:146 | otherwise the first candidate with the smallest normalised name wins |
| ExternalImports.ResolveImport | src/jaunt/external_imports.py:181-219 | an empty, `jaunt`, standard-library or internal top level is skipped; a resolved import names an installed distribution and its version, from the name heuristic first and the package map otherwise; an unresolved one is reported with a warning |
| ExternalImports.ScanKeys | src/jaunt/external_imports.py:180-219 | a distribution is recorded exactly when some import resolved to it |
| ExternalImports.ScanFirst | src/jaunt/external_imports.py:198 | a distribution keeps the version of the first import that resolved to it |
| ExternalImports.ScanReported | src/jaunt/external_imports.py:198 | every recorded version comes from an import that resolved to it |
| ExternalImports.ScanWarnings | src/jaunt/external_imports.py:203-217 | the warnings are those of the unresolved imports, in order |
| ExternalImports.ResolveAll | src/jaunt/external_imports.py:181 | every import is resolved, in order |
| ExternalImports.Scan | src/jaunt/external_imports.py:180-219 | each import adds at most one distribution or one warning |
| ExternalImports.DiscoverReported | src/jaunt/external_imports.py:149-221 | every discovered distribution comes from an imported, non-excluded module and its version is the installed one |
| ExternalImports.Discover | src/jaunt/external_imports.py:149-221 | no imports give no distributions and no warnings, and there are never more distributions and warnings together than imports |
| ExternalImports.DiscoverFirstWins | src/jaunt/external_imports.py:181-198 | a distribution takes the version from the first import in sorted order that resolves to it |
| ExternalImports.UnresolvedWarns | src/jaunt/external_imports.py:201-217 | an import that cannot be resolved yields its warning |
| SkillsAuto.SkillPathsAgree | src/jaunt/skills_auto.py:27-29 | two distributions share a skill file exactly when their normalised names agree |
| SkillsAuto.SkillTail | src/jaunt/skills_auto.py:29 | the skill file lies at `.agents/skills/<name>/SKILL.md` below the project root |
| SkillsAuto.SkillMdPath | src/jaunt/skills_auto.py:27-29 | the skill file lies below the project root and is named `SKILL.md` |
| SkillsAuto.ParseInner | src/jaunt/skills_auto.py:37-50 | a recognised header starts with the marker and yields a non-empty distribution and a non-empty version |
| SkillsAuto.ParseStrippedHeader | src/jaunt/skills_auto.py:34-50 | only a line framed by `<!--` and `-->` whose inner text starts with the marker is recognised |
| SkillsAuto.ParseHeader | src/jaunt/skills_auto.py:32-50 | the first line is recognised only when, stripped, it is such a framed marker comment with both fields present |
| SkillsAuto.InnerOfHeader | src/jaunt/skills_auto.py:54 | the written header is a comment whose inner text is the marker and the two fields padded by one space |
| SkillsAuto.HeaderStripped | src/jaunt/skills_auto.py:54 | the written header has no surrounding whitespace |
| SkillsAuto.SplitWsJoin | src/jaunt/skills_auto.py:42 | splitting words joined by single spaces gives the words back |
| SkillsAuto.FieldsWords | src/jaunt/skills_auto.py:42 | the header's inner text splits into the marker, `dist=...` and `version=...` |
| SkillsAuto.FieldsOfPair | src/jaunt/skills_auto.py:42-46 | reading the two fields recovers the distribution and the version |
| SkillsAuto.InnerRoundTrip | src/jaunt/skills_auto.py:37-54 | the inner text written for a distribution and version parses back to them |
| SkillsAuto.HeaderRoundTrip | src/jaunt/skills_auto.py:32-54 | a header written for a whitespace-free distribution and version parses back to them |
| SkillsAuto.HeaderNoLineBreak | src/jaunt/skills_auto.py:54 | the written header is a single line |
| SkillsAuto.SplitLinesHead | src/jaunt/skills_auto.py:115 | a single line followed by a newline is the first of the text's lines |
| SkillsAuto.JoinSplitLines | src/jaunt/skills_auto.py:191-193 | text without other line breaks and with a final newline splits into lines that join back to the text |
| SkillsAuto.LStripChar | src/jaunt/skills_auto.py:193 | stripping leading newlines leaves a suffix that does not start with a newline |
| SkillsAuto.FormattedLines | src/jaunt/skills_auto.py:53-56 | the written file's lines are the header followed by the stripped body's lines |
| SkillsAuto.FormatSkillFile | src/jaunt/skills_auto.py:53-56 | the file is the header line, a newline, the body stripped of surrounding whitespace, and a final newline |
| SkillsAuto.FormatParseRoundTrip | src/jaunt/skills_auto.py:53-56 | the first line of a written skill file parses back to its distribution and version |
| SkillsAuto.BodyRoundTrip | src/jaunt/skills_auto.py:191-197 | the body read back from a written skill file is the stripped body that was written |
| SkillsAuto.BodyOf | src/jaunt/skills_auto.py:191-197 | the skill text is stripped, and a file without a generated header contributes its whole text, stripped |
| SkillsAuto.Decide | src/jaunt/skills_auto.py:108-132 | a missing file is generated, an unreadable one is skipped with a warning, a file without the header is never overwritten, and a generated file is regenerated exactly when its stripped version differs |
| SkillsAuto.WrittenFileIsCurrent | src/jaunt/skills_auto.py:123-129 | a file written for a version needs regeneration exactly when the wanted version differs after stripping |
| SkillsAuto.PlanExact | src/jaunt/skills_auto.py:104-132 | exactly the distributions whose file needs generating are scheduled |
| SkillsAuto.Plan | src/jaunt/skills_auto.py:104-132 | each distribution is scheduled or warned about at most once, and only listed distributions are scheduled |
| SkillsAuto.GenerateOne | src/jaunt/skills_auto.py:146-174 | generating one skill either writes the formatted file at its path or changes nothing, with at most one warning |
| SkillsAuto.GenerateAllWrites | src/jaunt/skills_auto.py:135-177 | generation keeps every existing file, and any file it changes is a formatted skill at the path of a scheduled distribution |
| SkillsAuto.GenerateAll | src/jaunt/skills_auto.py:135-177 | a generator that cannot be constructed gives its one warning and writes nothing; otherwise there is at most one warning per scheduled distribution, and no file disappears |
| SkillsAuto.SectionFor | src/jaunt/skills_auto.py:182-200 | a section is emitted only for a readable file whose body is not blank; a failed read gives one `failed reading skill for <dist>: ...` warning |
| SkillsAuto.SectionsWith | src/jaunt/skills_auto.py:180-200 | at most one section per distribution, and every warning comes from some distribution's step |
| SkillsAuto.Sections | src/jaunt/skills_auto.py:180-200 | at most one section per distribution, and every warning is a read failure of a listed distribution |
| SkillsAuto.SectionOfGenerated | src/jaunt/skills_auto.py:191-200 | a generated skill file with a non-blank body gives the section `## dist==version` followed by that body |
| SkillsAuto.SectionsConcat | src/jaunt/skills_auto.py:180-200 | the sections of two lists of distributions are those of the first followed by those of the second |
| SkillsAuto.SectionsExact | src/jaunt/skills_auto.py:180-200 | a section appears exactly when some distribution yields it |
| SkillsAuto.SectionPresent | src/jaunt/skills_auto.py:180-200 | a section appears exactly when some distribution's skill file yields it |
| SkillsAuto.Block | src/jaunt/skills_auto.py:202 | the block is the sections joined by newlines with surrounding whitespace stripped, and no sections give an empty block |
| SkillsAuto.ByNormDistPreorder | src/jaunt/skills_auto.py:105 | ordering distributions by normalised name is a total preorder |
| Sorting.SortBy | src/jaunt/skills_auto.py:105 | `sorted` with a key returns a permutation of its input ordered by the key, in which items with equal keys keep their input order |
| SkillsAuto.SortedDists | src/jaunt/skills_auto.py:105 | the distributions are processed as a permutation sorted by normalised name |
| SkillsAuto.EnsureSkills | src/jaunt/skills_auto.py:80-203 | with no distributions the block is empty and only the scan's warnings are returned; otherwise the scan's warnings come first |
| SkillsAuto.UserFileUntouched | src/jaunt/skills_auto.py:123-125 | a skill file without the generated header is never overwritten |
| Discovery.StripsMatchIff | src/jaunt/discovery.py:25-29 | after the plain match, the path is excluded exactly when it matches the pattern with some positive number of leading `**/` removed |
| Discovery.IsExcluded | src/jaunt/discovery.py:17-31 | no patterns exclude nothing; a pattern matching the path plainly excludes it; an excluded path is matched by some pattern plainly or after removing leading `**/` |
| Discovery.ExcludedIff | src/jaunt/discovery.py:17-31 | a path is excluded exactly when it matches some pattern with zero or more leading `**/` removed |
| Discovery.NameOf | src/jaunt/discovery.py:97-113 | a file yields no name only for a root-level `__init__.py` without a prefix, and with a prefix every name is the prefix or lies below it |
| Discovery.ScanExact | src/jaunt/discovery.py:82-115 | a module is discovered exactly when some scanned file yields its name |
| Discovery.Scan | src/jaunt/discovery.py:82-115 | every kept file with a name contributes it, and every discovered name comes from a kept file |
| Discovery.FilteredFilesSkipped | src/jaunt/discovery.py:90-95 | a file under the generated directory or matching an exclude pattern yields no module |
| Discovery.RootInitName | src/jaunt/discovery.py:102-108 | the root `__init__.py` names the prefix when there is one and nothing otherwise |
| Discovery.BaseOfModuleFile | src/jaunt/discovery.py:99-100 | a module file `a/b/c.py` is named `a.b.c` |
| Discovery.BaseOfPackageInit | src/jaunt/discovery.py:97-98 | a package's `a/b/__init__.py` is named `a.b` |
| Discovery.ModulePathRoundTrip | src/jaunt/discovery.py:97-100 | the file path of a well-formed module name is discovered under that same name |
| Discovery.RelativeQualify | src/jaunt/discovery.py:59-64 | removing the prefix from a prefixed name gives back the relative name |
| Discovery.FindInRoots | src/jaunt/discovery.py:66-79 | a target is found exactly when some root holds its module file or its package `__init__.py` |
| Discovery.FastPath | src/jaunt/discovery.py:56-80 | the fast path fails with the empty-name error exactly when some target's relative name has an empty path and there is a root; otherwise it returns, sorted, exactly the targets found in some root |
| Discovery.FastPathAgreesWithScan | src/jaunt/discovery.py:56-115 | a target the fast path finds is also a file the full scan names the same way |
| Discovery.DiscoverModules | src/jaunt/discovery.py:34-115 | without targets the result is every scanned name, sorted; with targets it is the sorted targets found on disk, failing only on an empty path name |
| Config.WalkUp | src/jaunt/config.py:81-89 | the root found is the nearest ancestor (or the directory itself) holding `jaunt.toml`; the search fails with the not-found message exactly when no ancestor holds one |
| Config.FindProjectRoot | src/jaunt/config.py:69-89 | a file start walks up from its parent; the root found holds `jaunt.toml` and is an ancestor of the start directory |
| Config.Locate | src/jaunt/config.py:131-139 | an explicit config path is used as is with its parent as the default root; an explicit root is kept; otherwise the config file is `jaunt.toml` under the root found by walking up from the working directory |
| Config.AsTable | src/jaunt/config.py:92-97 | a missing section reads as an empty table, a table is returned as is, and anything else fails with the "Expected [name] to be a table." error |
| Config.Strings | src/jaunt/config.py:100-103 | a list of TOML strings converts element by element |
| Config.StrOr | src/jaunt/config.py:118-121 | a string field is read when present and defaulted when absent; a present value of another type fails with the field's string error |
| Config.IntOr | src/jaunt/config.py:112-115 | an integer field is read or defaulted; booleans and other types fail with the field's integer error |
| Config.BoolOr | src/jaunt/config.py:106-109 | a boolean field is read or defaulted; other types fail with the field's boolean error |
| Config.StrListOr | src/jaunt/config.py:100-103 | a list-of-strings field is read or defaulted; anything else fails with the field's list error |
| Config.PathsOf | src/jaunt/config.py:169-182 | the `[paths]` section converts exactly when its fields are well typed, and the result reflects them with defaults for missing keys |
| Config.LlmOf | src/jaunt/config.py:184-197 | the `[llm]` section converts exactly when its fields are well typed, and the result reflects them |
| Config.BuildOf | src/jaunt/config.py:199-207 | the `[build]` section converts exactly when its fields are well typed, and the result reflects them |
| Config.TestOf | src/jaunt/config.py:209-222 | the `[test]` section converts exactly when its fields are well typed, and the result reflects them |
| Config.PromptsOf | src/jaunt/config.py:224-242 | the `[prompts]` section converts exactly when its fields are well typed, and the result reflects them |
| Config.McpOf | src/jaunt/config.py:244-247 | the `[mcp]` section converts exactly when its field is well typed, and the result reflects it |
| Config.FieldsOf | src/jaunt/config.py:169-247 | all sections convert exactly when every field is well typed, and the configuration reflects the file |
| Config.Assemble | src/jaunt/config.py:169-280 | the configuration is built exactly when every section converts, and the first failing section's error is the one reported |
| Config.Validate | src/jaunt/config.py:249-261 | a configuration passes exactly when it is valid: some source root exists, the generated directory is an identifier and not a keyword, and both job counts are at least 1; otherwise the matching error is raised |
| Config.CheckVersion | src/jaunt/config.py:155-160 | the version check passes exactly when `version` is the integer 1 |
| Config.CheckSections | src/jaunt/config.py:162-167 | the section check passes exactly when every section is absent or a table, and otherwise reports the first bad section |
| Config.LoadData | src/jaunt/config.py:155-280 | a missing version, a non-integer version and an unsupported version each raise their own message; a bad section is reported first; a loaded configuration comes from a well-typed file, reflects it and is valid |
| Config.ReflectsUnique | src/jaunt/config.py:169-247 | a file determines at most one configuration |
| Config.LoadAccepts | src/jaunt/config.py:155-280 | every well-typed, valid file loads to exactly the configuration it describes |
| Config.NoSectionsGiveDefaults | src/jaunt/config.py:162-247 | a file without sections describes the default configuration |
| Config.DefaultsValid | src/jaunt/config.py:249-261 | the defaults are valid whenever `src` or `.` exists |
| Config.DefaultsApply | src/jaunt/config.py:124-280 | a file holding only `version = 1` loads to the defaults when `src` or `.` exists |
| Config.LoadConfig | src/jaunt/config.py:141-153 | a missing, unreadable, non-UTF-8 or malformed file raises its own message with the path; a loaded configuration reflects the parsed file and is valid |
| Shared.Placeholder | src/jaunt/generate/shared.py:15 | a placeholder is four characters longer than its key (two braces on each side) |
| Shared.RenderInOrder | src/jaunt/generate/shared.py:13-16 | rendering with the entries of two mappings is rendering with the first and then with the second: entries are applied one after another |
| Shared.RenderTemplate | src/jaunt/generate/shared.py:10-16 | text that contains none of the mapping's placeholders comes back unchanged; placeholders of other names are left as they are |
| Shared.ReplaceScan | src/jaunt/generate/shared.py:15 | replacement keeps a prefix in which no occurrence of the pattern starts and continues on the rest |
| Shared.ReplaceAtFirst | src/jaunt/generate/shared.py:15 | the first occurrence is replaced and scanning resumes after it, so occurrences never overlap |
| Shared.ReplaceSelf | src/jaunt/generate/shared.py:15 | replacing a non-empty pattern by itself leaves any text unchanged |
| Shared.RenderOne | src/jaunt/generate/shared.py:13-16 | rendering a single key puts the value in place of its first placeholder and replaces every later placeholder too |
| Shared.SkipWhile | src/jaunt/generate/shared.py:19 | the scan of a character class stays inside the text |
| Shared.SkipWhileSpec | src/jaunt/generate/shared.py:19 | a character-class run covers only matching characters and stops at the first one that does not match or at the end |
| Shared.LastWhere | src/jaunt/generate/shared.py:19 | the search for the last position stays inside the range |
| Shared.LastWhereSpec | src/jaunt/generate/shared.py:19 | the search finds the last position in the range satisfying the predicate, as the greedy `.*` does with backtracking, and finds none only when none exists |
| Shared.OpenedAt | src/jaunt/generate/shared.py:19 | the opening line of a fence ends inside the text |
| Shared.StripMarkdownFences | src/jaunt/generate/shared.py:22-26 | the result has no leading or trailing whitespace, and text that does not match the fence pattern is only stripped |
| Shared.FencedSlices | src/jaunt/generate/shared.py:19 | a fenced block consists of leading whitespace, three backticks, the language tag, a newline, the code, a newline and the closing fence |
| Shared.FencedOpens | src/jaunt/generate/shared.py:19 | the opening fence of a fenced block is recognised at the newline that ends its tag line |
| Shared.FenceFoundWith | src/jaunt/generate/shared.py:19 | when the closing fence is the last one, the captured group is a suffix of the code whose dropped prefix is whitespace only |
| Shared.ClosingOnlyAtEnd | src/jaunt/generate/shared.py:19 | a newline, three backticks and trailing whitespace close the text at that newline and nowhere later |
| Shared.FenceRoundTrip | src/jaunt/generate/shared.py:19-26 | stripping the fences of a block built from whitespace, a tag, the code and whitespace gives back the stripped code |
| Shared.UnfencedStripped | src/jaunt/generate/shared.py:23-25 | text that does not start with three backticks after its leading whitespace is only stripped |
| Shared.Chunks | src/jaunt/generate/shared.py:32-34 | one chunk per item, in item order, each built from that item |
| Shared.FmtKvBlock | src/jaunt/generate/shared.py:29-35 | no items give the empty marker; otherwise the block ends in exactly one newline preceded by a visible character |
| Shared.LastChunkTrimmed | src/jaunt/generate/shared.py:34-35 | a chunk whose value has visible text right-strips to its heading line followed by the right-stripped value |
| Shared.KvBlockShape | src/jaunt/generate/shared.py:32-35 | the block is all but the last chunk joined by newlines, then the right-stripped last chunk and one newline |
| Diagnostics.ModuleLine | src/jaunt/diagnostics.py:22 | a module line is three characters longer than the name and ends with a colon |
| Diagnostics.Bullets | src/jaunt/diagnostics.py:23-24 | one bullet line per error, in order, each the bullet marker followed by the error |
| Diagnostics.ModuleOrder | src/jaunt/diagnostics.py:21 | every failed module is listed exactly once, in strictly sorted order |
| Diagnostics.FormatFailures | src/jaunt/diagnostics.py:16-26 | the summary is empty exactly when nothing failed; otherwise it starts with the header and the first module's line and ends in one newline after a visible character |
| Diagnostics.FailureTextStart | src/jaunt/diagnostics.py:20-26 | the joined lines start with the header and the first sorted module's line, before and after right-stripping |
| Diagnostics.FormatBuildFailures | src/jaunt/diagnostics.py:16-26 | the build summary is empty exactly when nothing failed and otherwise starts with "Build failed for N module(s):" and a newline |
| Diagnostics.FormatTestGenerationFailures | src/jaunt/diagnostics.py:29-39 | the test-generation summary is empty exactly when nothing failed and otherwise starts with "Test generation failed for N module(s):" and a newline |
| Diagnostics.FormatStartsWithHeader | src/jaunt/diagnostics.py:18-26 | any non-empty failure map gives a summary that starts with its header line |
| Diagnostics.ParseBullets | src/jaunt/diagnostics.py:23-25 | reading bullets back always consumes at least one line |
| Diagnostics.Entries | src/jaunt/diagnostics.py:21-24 | each listed module is paired with its own errors, in listing order |
| Diagnostics.BulletsRoundTrip | src/jaunt/diagnostics.py:23-25 | bullet lines followed by the blank separator read back as exactly the errors, leaving the rest |
| Diagnostics.SectionRoundTrip | src/jaunt/diagnostics.py:22-25 | a module's section starts with a line from which the module name is recovered, and its remaining lines read back as its errors |
| Diagnostics.SectionsRoundTrip | src/jaunt/diagnostics.py:21-25 | the sections read back as every listed module with its errors, in order |
| Diagnostics.FailureLinesRead | src/jaunt/diagnostics.py:20-25 | the summary's lines are the header followed by sections that read back as every failed module, in sorted order, with its errors |
| Diagnostics.LinesEnd | src/jaunt/diagnostics.py:21-25 | the last line is the blank separator and the one before it is the last module's last bullet, or its module line when it has no errors |
| Diagnostics.LastLineVisible | src/jaunt/diagnostics.py:21-25 | when the last error ends in a visible character, so does the line before the final blank one |
| Diagnostics.FormatIsLines | src/jaunt/diagnostics.py:26 | when the last error ends in a visible character, right-stripping removes only the final blank line, so the summary is the remaining lines joined by newlines plus one newline |
| Diagnostics.MissingName | src/jaunt/diagnostics.py:62-64 | a variable name is found exactly for a `KeyError` whose first argument is a non-empty string, and it is that string |
| Diagnostics.FormatHint | src/jaunt/diagnostics.py:42-67 | configuration errors get the init hint when the message mentions `jaunt.toml` and "find", else the `.env` hint when it mentions a missing API key, else none; discovery and cycle errors get their hints; a `KeyError` gets the environment hint exactly when it names a variable; anything else gets none |
| Diagnostics.ErrorMessage | src/jaunt/diagnostics.py:72-80 | a named `KeyError` reads "missing environment variable NAME"; otherwise the message is stripped and, when `str` is non-empty, taken from it |
| Diagnostics.WithHint | src/jaunt/diagnostics.py:82-86 | the output starts with "error: " and the message, is exactly that without a hint, and ends with a hint line when there is one |
| Diagnostics.FormatErrorWithHint | src/jaunt/diagnostics.py:70-86 | the formatted error starts with "error: " and the message and ends with the hint line exactly as the hint function decides |
| Diagnostics.WithHintRoundTrip | src/jaunt/diagnostics.py:82-86 | for a one-line message, splitting the output at the first newline recovers the message and, exactly when present, the hint |
| Diagnostics.ErrorWithHintRoundTrip | src/jaunt/diagnostics.py:70-86 | for a one-line message, splitting a formatted error at the first newline recovers its message and, exactly when there is one, its hint |
| Watcher.AnyRoot | src/jaunt/watcher.py:56 | the root test answers yes exactly when some root is the path itself or one of its `parents`, so the root "." holds every relative path and no absolute one |
| Watcher.IsRelativeToParents | src/jaunt/watcher.py:56 | a path is relative to a root exactly when the root is the path or one of its logical ancestors down to the anchor ("/" for an absolute path, "." for a relative one) |
| Watcher.DotRoot | src/jaunt/watcher.py:42-58 | worked example, not a general property: with the single root ".", the filter keeps `a/x.py` and drops `/a/x.py` |
| Watcher.UnderRootsConcat | src/jaunt/watcher.py:49 | being under one of the concatenated roots is being under a source root or under a test root |
| Watcher.FilterSpecFiles | src/jaunt/watcher.py:42-58 | a changed path is kept exactly when it has the `.py` suffix, has no `__generated__` part and is relative to a source or test root in the sense of `is_relative_to` |
| Watcher.CycleInputs | src/jaunt/watcher.py:72-78 | every event the loop acts on has at least one relevant file, and there are no more events than batches |
| Watcher.CycleInputsConcat | src/jaunt/watcher.py:72-76 | the events of two runs of batches are the events of the first run followed by those of the second |
| Watcher.OneBatch | src/jaunt/watcher.py:73-76 | a batch yields one event holding its relevant files, or none when it has no relevant file |
| Watcher.CycleTraceConcat | src/jaunt/watcher.py:72-91 | the callbacks for two runs of events are those of the first followed by those of the second, with the cycle count carried over |
| Watcher.RunWatchLoop | src/jaunt/watcher.py:61-91 | the loop runs exactly one cycle per batch with relevant files, and its callbacks are the trace of those cycles in order |
| Watcher.SameSpecFiles | src/jaunt/watcher.py:42-58 | the filter's result is the set of relevant files of the batch |
| Watcher.LoopStep | src/jaunt/watcher.py:72-91 | a batch without relevant files leaves events and callbacks unchanged; one with relevant files adds one event and that cycle's callbacks |
| Watcher.OutcomesReported | src/jaunt/watcher.py:84-91 | every cycle's result reaches the result callback and every cycle's exception reaches the error callback |
| Watcher.ReportsComeFromCycles | src/jaunt/watcher.py:84-91 | every reported result or error was produced by one of the cycles |
| Watcher.FormatWatchCycleJson | src/jaunt/watcher.py:94-104 | the record is for "watch", is ok exactly when the build exit code is 0 and the test exit code is absent or 0, keeps both exit codes, and lists each changed path's text once in sorted order |
| Watcher.RunnerCycle | src/jaunt/watcher.py:115-129 | the cycle keeps the build exit code and the changed paths, and has a test exit code exactly when tests were requested and the build succeeded |
| Progress.ShownTotal | src/jaunt/progress.py:62 | a negative total is shown as 0, any other total as itself |
| Progress.ShownDone | src/jaunt/progress.py:63 | with a positive total the count is clamped into 0..total and shown unchanged when already inside; without one it is shown unchanged |
| Progress.RoundHalfEven | src/jaunt/progress.py:64-66 | the rounded fill is an integer nearest the exact fraction, ties going to the even one |
| Progress.NearestUnique | src/jaunt/progress.py:66 | at most one integer is nearest a fraction under the tie-to-even rule |
| Progress.RoundHalfEvenUnique | src/jaunt/progress.py:66 | any integer nearest the fraction with ties to even is the rounded value |
| Progress.Fill | src/jaunt/progress.py:62-67 | the number of filled cells lies between 0 and the width |
| Progress.FillIsRoundedFraction | src/jaunt/progress.py:64-67 | the filled cells are within half a cell of width times done over total |
| Progress.NearestInRange | src/jaunt/progress.py:66-67 | rounding a fraction between 0 and the width never needs the clamp |
| Progress.FillEnds | src/jaunt/progress.py:64-67 | nothing done fills no cell and everything done fills the whole bar |
| Progress.Repeat | src/jaunt/progress.py:68 | repeating a character gives that many copies of it, none for a negative count |
| Progress.BarText | src/jaunt/progress.py:68 | the bar has the full width, with `#` exactly in the first fill cells and `-` exactly in the rest |
| Progress.BarFor | src/jaunt/progress.py:62-68 | the bar for any counts is as wide as the width, or empty for a negative width |
| Progress.Truncate | src/jaunt/progress.py:74 | truncation keeps a prefix of length the limit, or the whole text when it is shorter |
| Progress.Write | src/jaunt/progress.py:43-51 | a disabled bar writes nothing; an enabled one appends the text when the stream accepts it and disables itself for good otherwise; nothing else changes |
| Progress.StatusText | src/jaunt/progress.py:70-76 | the status is a carriage return followed by the line cut to one less than the terminal width |
| Progress.Render | src/jaunt/progress.py:53-76 | nothing happens when disabled or when not forced within the minimum interval; otherwise exactly the status text is written, or the bar disables itself when the stream fails; the counts never change |
| Progress.Init | src/jaunt/progress.py:18-24 | a new bar keeps its caption, total, width and interval, starts with zero counts, unfinished, and writes at most the initial line |
| Progress.Advance | src/jaunt/progress.py:26-34 | a finished bar is unchanged; otherwise done and exactly one of ok or fail grow by one, and done stays ok plus fail |
| Progress.Finish | src/jaunt/progress.py:36-41 | afterwards the bar is finished with the same counts, a finished bar is unchanged, and at most the final line and a newline are written |
| Progress.Advances | src/jaunt/progress.py:26-34 | there are no more advances than steps |
| Progress.Successes | src/jaunt/progress.py:30-31 | there are no more successes than advances |
| Progress.RunCounted | src/jaunt/progress.py:26-51 | any sequence of calls keeps done equal to ok plus fail, only appends output, and never re-enables a disabled bar |
| Progress.FinishedIsFinal | src/jaunt/progress.py:27-28 | once finished, later calls change nothing |
| Progress.DisabledIsSilent | src/jaunt/progress.py:44-45 | a disabled bar writes nothing and stays disabled whatever is called |
| Progress.RunCounts | src/jaunt/progress.py:26-41 | before finishing, done grows by the number of advances, ok by the successes and fail by the failures |
| Progress.ThreeItemLine | src/jaunt/progress.py:62-73 | worked example, not a general property: three items with two successes on a 28-cell bar give a full bar, "3/3 ok=2 fail=1" and the item |
| Progress.ThreeItemStatus | src/jaunt/progress.py:70-76 | worked example, not a general property: on an 80-column terminal that line is written in full after a carriage return |
| Progress.ThreeItemsCounted | src/jaunt/progress.py:18-76 | worked example, not a general property: three advances and a finish on an unthrottled bar write five lines, the last two being the full status and a newline |
| Progress.ThreeItemRun | src/jaunt/progress.py:18-76 | worked example, not a general property: a new bar given three advances and a finish writes six lines, ending with the full status and a newline |

## Left out

- Scheduler.DependencyFailures: lists a module's failed dependencies in `str` order. Python lists them in set iteration order, which varies between runs.
- PyValues.StrRepr: above U+00FF every character is kept as it is. Python's `repr` writes the non-printable ones (format, separator, surrogate, private-use and unassigned code points) as `\uXXXX` or `\UXXXXXXXX`. This carries over to `Scheduler.ErrorRepr` and to the `str` order of set members.
- PyValues.Repr: a frozenset is written like a set, `{...}` rather than `frozenset({...})`. This matters only for a frozenset used as a dict key or as a dependency that does not normalise.
- Digest.KwargEntries: orders set members by `str` as `PyValues.Repr` writes it, so the two lines above are its only gaps in that order.
- Digest.KwargsRecord: the same two gaps as `Digest.KwargEntries`.
- Cli.CmdTest: runs the corrected `Tester.RunTests` from the tester.py:163-185 Findings row. As written, a dependency cycle among the selected stale test modules raises `RecursionError` in `_critical_path_lengths`. That error is not one of the exceptions cmd_test handles (cli.py:680-689), so the command crashes instead of exiting 2. `Cli.TestCycleAsWrittenEscapes` shows this for two modules.
- Cli.TestAndExit: the same; its "cycle exits 2" holds for the corrected priorities only.
- `str.isidentifier`, `keyword.iskeyword` and `str.lower` are approximated on ASCII. `str.isspace` is not approximated: `Text.Whitespace` lists every code point Python treats as whitespace, including U+001C-U+001F, U+0085, U+00A0, U+1680, U+2000-U+200A, U+2028, U+2029, U+202F, U+205F and U+3000.
- `fnmatch.fnmatchcase` in `_is_excluded` is a parameter.
- `Path.resolve()` and symbolic links: paths arrive already resolved.
- File and process I/O is modelled through parameters:
  - disk is a map from paths to file states;
  - temp files, `fsync` and `os.replace` make a single atomic update;
  - the pytest subprocess is replaced by its exit code.
- Outside services are oracles or parameters: the clock, the terminal size, the network, the OpenAI and Anthropic backends, PyPI and the skill generator.
- `load_prompt` in generate/shared.py reads packaged files and is not modelled.
- TOML parsing: configuration starts from an already-parsed table. `find_project_root` walks a parameter predicate over the parent chain.
- `cmd_init` and `cmd_clean` are not modelled. `cmd_status`, `cmd_build` and `cmd_test` are modelled for their module selection and exit codes only. Their JSON output and printing are left out, and so is argparse.
- `cmd_build`/`cmd_test` map an `ImportError` raised while importing specs to exit code 3. Importing is not modelled, so no such error arises.
- Skill generation (phase 2 of `ensure_pypi_skills_and_block`) runs concurrently in the source. The model runs it sequentially, so warnings appear in the order of the planned distributions rather than in completion order. Two planned distributions whose names normalise alike share one skill file (`SkillsAuto.SkillPathsAgree`). In the source, whichever generation finishes last wins; the model always keeps the later planned one.
- Decoding bytes as UTF-8 is not modelled: files hold text.
- `.env` merging: the merged dict's key order is not modelled, only its content.
- Import scanning is not modelled: `_imports_from_source`, the directory walk and `_discover_internal_top_levels` are inputs.
- `discovery.import_and_collect` and the decorator machinery in runtime.py are not modelled.
- AST-based dependency inference is the parameter `infer`. Its edges pass the same "known and not self" guards, and a failure keeps only the explicit edges.
- `extract_source_segment` locates the definition in the AST and dedents it. That lookup is given as data; only the segment normalisation after it is modelled.
- jaunt/header.py is not part of this model. The header writer and the digest reader are the parameters `format` and `extract`, constrained only by `Staleness.HeaderLaws`: the digest read back from a formatted header is the stored one, whatever follows. `Staleness.WriteThenFresh`, `Staleness.FreshAfterHeader` and `Build.BuildOneLeavesFresh` rest on these laws. `Staleness.HeaderLawsMet` shows that one concrete codec meets them.
- Watcher: `WatchEvent.timestamp` and the rounded `duration_s` field of the JSON record are left out. The duration is kept as the text the loop prints.
- Watcher: `watchfiles.awatch` becomes a finite sequence of batches, and the change message's sorted path list is kept as a set.
- Watcher: `PathStr` (`str(p)`) is not shown to be injective.
- Watcher.OutcomesReported: an `Outcome.Raised` cycle stands for an `Exception`. The loop catches only `Exception` (watcher.py:84-87). A `BaseException` such as `KeyboardInterrupt` or `asyncio.CancelledError` ends `run_watch_loop` instead of reaching `on_error`, and the model has no such outcome.
- DepsOrder.FindCycles: promises what the code does, not what the docstring at deps.py:356-361 says. The docstring promises all distinct elementary cycles. The search records only the cycle closed by each back edge it meets, and a node it has already finished is never entered again. On `a -> {b, c}`, `b -> c`, `c -> a` it reports `a b c` and not `a c`.
- Diagnostics: `str(exc)` and `repr(exc)` are given as data on the exception.
- Progress: the fill is computed with exact rational arithmetic instead of floating point, using ties-to-even rounding as `round` does.
- Progress: the clock and the terminal width are parameters.
- Progress: a write whose `write` or `flush` fails is counted as not written.
- Progress: `int()` of the counters is assumed to be the identity.
- The recursion limit is modelled only for the tester's critical-path lengths (`Planning.LengthAsWritten`). The recursive `visit` of `toposort` and `find_cycles` (deps.py:373, 405-444) and the graph digest (digest.py:103-132) are modelled without it. On a dependency chain deeper than about 1000 modules, Python raises `RecursionError` there.
- The asyncio scheduler is modelled sequentially: `asyncio.wait(..., FIRST_COMPLETED)` becomes a caller-chosen completion order.
- sha256 is an injective function parameter and is not checked to output 64 hex digits: an injective map into a finite set cannot exist. `json.dumps` is an uninterpreted parameter.
- parse_cache.py, mcp_server.py, pypi.py, skillgen.py and the provider backends are not part of this model.

## Findings

| source | as written | input that shows it | evidently intended | confidence | as-written member | corrected member |
|---|---|---|---|---|---|---|
| src/jaunt/digest.py:56-57 | `_jsonable` sorts a set's members by `str`, so `1` and `"1"` tie and keep the set's iteration order, which string hashing randomises per process; the local digest of a spec whose keyword arguments hold such a set can change between runs | a set `{1, "1"}` in a spec's keyword arguments | a serialisation that does not depend on iteration order, e.g. sorting set members by their JSON text | not executed | Digest.LocalDigestSetOrderDepends | Digest.StableLocalDigestSetOrder |
| src/jaunt/builder.py:36-40 | `generated_module_to_relpath(gen_mod, generated_dir=...)` passes a keyword the function (src/jaunt/paths.py:25) does not accept, so every staleness check raises `TypeError` | any module when not forced | call it with the module only, which already yields the generated path | not executed | Staleness.DetectStaleAsWrittenRaises | Staleness.DetectStaleAnswers |
| src/jaunt/builder.py:67 | `write_generated_module` calls `_generated_relpath` with the same unsupported keyword, so every accepted build source raises `TypeError` before its file is written, and no build ever generates a module | any module whose generated source validates | compute the path with the module only and write the file | not executed | Build.BuildOneAsWrittenNeverWrites | Build.BuildOneFrame |
| src/jaunt/builder.py:280 | the dependency context looks up the generated file of a dependency not generated in this build through the same call, so it raises `TypeError` | a module with a dependency module generated in an earlier build | read the dependency's generated file at its generated path | not executed | Build.DependencyContextAsWritten | Build.DependencyContext |
| src/jaunt/builder.py:206-422 | with the two calls above, a whole build fails every stale module and generates none | any acyclic build with at least one stale module | generate the stale modules | not executed | Build.RunBuildAsWritten | Build.RunBuild |
| src/jaunt/tester.py:74-75 | the same unexpected `generated_dir=` keyword makes `_generated_test_relpath` raise `TypeError` for every test module | any test module | the relpath of the generated test module under `tests_package/generated_dir` | not executed | Tester.TestRelpathAsWrittenRaises | Tester.TestRelpathMirrors |
| src/jaunt/tester.py:163-185 | `run_test_generation` has no cycle check, and `_critical_path_lengths` recurses without a visited set, so a cycle among stale test modules exhausts the recursion limit | two stale test modules that depend on each other | raise the dependency cycle error up front, as `run_build` does | not executed | Tester.TwoCycleTestPrioritiesRaise | Tester.RunTestGeneration |

=== FILE: build.dfy ===
/** `run_build` (jaunt/builder.py, lines 206-425): which modules to rebuild,
    the up-front cycle check, the per-module task `build_one` with its
    dependency context, and the report assembled from the scheduler's final
    state. */
module Build {
  import opened Wrappers
  import opened Strings
  import opened Graphs
  import opened Registry
  import opened Paths
  import opened Staleness
  import opened Retry
  import opened Planning
  import opened Scheduler
  import opened Generation
  import opened Validation
  import DepsOrder

  /** What the build tasks share: the disk, and `generated_sources`, the
      sources generated earlier in this build. */
  datatype World = World(disk: Disk, cache: map<string, string>)

  /** The inputs of `run_build` that stay fixed while it runs. `root` is the
      resolved package directory; `toolVersion` is `_tool_version()`. */
  datatype BuildEnv = BuildEnv(
    root: seq<string>,
    generatedDir: string,
    moduleSpecs: map<string, seq<SpecEntry>>,
    dag: Graph,
    skillsBlock: string,
    toolVersion: string)

  datatype BuildReport = BuildReport(generated: set<string>, skipped: set<string>, failed: map<string, seq<string>>)

  /** `module_specs.get(m, [])`. */
  function EntriesOf(env: BuildEnv, m: string): seq<SpecEntry> {
    if m in env.moduleSpecs then env.moduleSpecs[m] else []
  }

  // ---------------------------------------------------------------------------
  // The dependency context.
  // ---------------------------------------------------------------------------

  /** The entries of the given modules, one module after the other. */
  function DepEntries(env: BuildEnv, mods: seq<string>): (r: seq<SpecEntry>)
    ensures forall e :: e in r <==> exists k :: 0 <= k < |mods| && e in EntriesOf(env, mods[k])
    decreases |mods|
  {
    if |mods| == 0 then []
    else
      var rest := DepEntries(env, mods[1..]);
      assert forall k :: 1 <= k < |mods| ==> mods[k] == mods[1..][k - 1];
      EntriesOf(env, mods[0]) + rest
  }

  /** The text of the generated file of `d` when it exists and can be read. */
  function OnDisk(env: BuildEnv, disk: Disk, d: string): (r: Option<string>)
    ensures r.Some? <==> var path := ResolveFrom(env.root, GeneratedRelpath(d, env.generatedDir));
      path in disk && disk[path].Contents?
  {
    var path := ResolveFrom(env.root, GeneratedRelpath(d, env.generatedDir));
    if path in disk && disk[path].Contents? then Some(disk[path].text) else None
  }

  /** `_collect_dependency_context(m)`: the source segments of the specs of
      every module `m` depends on in the module graph (segments that fail
      are skipped; modules are taken in `str` order where Python takes set
      order), and for each such module its source generated in this build,
      else its generated file on disk, else nothing. */
  function DependencyContext(env: BuildEnv, segment: SpecEntry -> Result<string>, m: string, w: World)
    : (r: (map<string, string>, map<string, string>))
    ensures forall d :: d in r.1 <==> d in Succ(env.dag, m) && (d in w.cache || OnDisk(env, w.disk, d).Some?)
    ensures forall d :: d in r.1 && d in w.cache ==> r.1[d] == w.cache[d]
    ensures forall d :: d in r.1 && d !in w.cache ==> r.1[d] == OnDisk(env, w.disk, d).value
  {
    var deps := Succ(env.dag, m);
    (Collect(DepEntries(env, SortSet(deps)), TrySegment(segment)),
     map d | d in deps && (d in w.cache || OnDisk(env, w.disk, d).Some?) ::
       if d in w.cache then w.cache[d] else OnDisk(env, w.disk, d).value)
  }

  /** The dependency APIs hold a spec exactly when it belongs to a module
      `m` depends on and its segment could be extracted. */
  lemma DependencyApisExact(env: BuildEnv, segment: SpecEntry -> Result<string>, m: string, w: World, k: string)
    ensures k in DependencyContext(env, segment, m, w).0 <==>
      exists d, e :: d in Succ(env.dag, m) && e in EntriesOf(env, d) && e.specRef == k && segment(e).Ok?
  {
    if k in DependencyContext(env, segment, m, w).0 {
      ApiFromDependency(env, segment, m, w, k);
    }
    if exists d, e :: d in Succ(env.dag, m) && e in EntriesOf(env, d) && e.specRef == k && segment(e).Ok? {
      var d, e :| d in Succ(env.dag, m) && e in EntriesOf(env, d) && e.specRef == k && segment(e).Ok?;
      DependencyHasApi(env, segment, m, w, d, e);
    }
  }

  lemma ApiFromDependency(env: BuildEnv, segment: SpecEntry -> Result<string>, m: string, w: World, k: string)
    requires k in DependencyContext(env, segment, m, w).0
    ensures exists d, e :: d in Succ(env.dag, m) && e in EntriesOf(env, d) && e.specRef == k && segment(e).Ok?
  {
    var mods := SortSet(Succ(env.dag, m));
    var es := DepEntries(env, mods);
    CollectFacts(es, TrySegment(segment));
    var i :| 0 <= i < |es| && es[i].specRef == k && TrySegment(segment)(es[i]).Some?;
    var e := es[i];
    assert e in es;
    var j :| 0 <= j < |mods| && e in EntriesOf(env, mods[j]);
    assert mods[j] in mods;
  }

  lemma DependencyHasApi(env: BuildEnv, segment: SpecEntry -> Result<string>, m: string, w: World, d: string, e: SpecEntry)
    requires d in Succ(env.dag, m) && e in EntriesOf(env, d) && segment(e).Ok?
    ensures e.specRef in DependencyContext(env, segment, m, w).0
  {
    var mods := SortSet(Succ(env.dag, m));
    var j :| 0 <= j < |mods| && mods[j] == d;
    var es := DepEntries(env, mods);
    assert e in es;
    CollectHas(es, TrySegment(segment), e);
  }

  // ---------------------------------------------------------------------------
  // One module.
  // ---------------------------------------------------------------------------

  /** The context `build_one` hands to the backend, or the exception raised
      while extracting the module's own spec sources. */
  function BuildContext(env: BuildEnv, o: Oracles, m: string, w: World): (r: Result<ModuleSpecContext>)
    ensures r.Ok? <==> forall i :: 0 <= i < |EntriesOf(env, m)| ==> o.segment(EntriesOf(env, m)[i]).Ok?
  {
    var entries := EntriesOf(env, m);
    var sources :- SpecSources(entries, o.segment);
    var (apis, gen) := DependencyContext(env, o.segment, m, w);
    Ok(ModuleSpecContext("build", m, SpecModuleToGeneratedModule(m, env.generatedDir), ExpectedNames(entries),
                         sources, DecoratorPrompts(entries), apis, gen, env.skillsBlock))
  }

  /** `build_one(m)`, as the loop receives it: the job's `(ok, errors)` or
      the exception it raised, and the shared state afterwards. */
  function BuildOne(env: BuildEnv, o: Oracles, m: string, w: World): (r: (Result<TaskResult>, World))
    ensures BuildContext(env, o, m, w).Err? ==> r.0 == Err(BuildContext(env, o, m, w).error) && r.1 == w
    ensures r.0.Ok? && !r.0.value.ok ==> r.1 == w
  {
    match BuildContext(env, o, m, w)
    case Err(e) => (Err(e), w)
    case Ok(ctx) =>
      match o.generate(ctx)
      case Err(e) => (Err(e), w)
      case Ok(res) =>
        match Rejection(res, o.parse, ExpectedNames(EntriesOf(env, m)))
        case Some(errs) => (Ok(TaskResult(false, errs, None)), w)
        case None => Store(env, o, m, w, res.source.value)
  }

  /** The tail of `build_one` once `source` has validated: the source is
      remembered for dependents at once, then the digest is computed and
      the file written; either of those can raise. */
  function Store(env: BuildEnv, o: Oracles, m: string, w: World, source: string): (r: (Result<TaskResult>, World))
    ensures r.1.cache == w.cache[m := source]
    ensures r.1.disk != w.disk ==> r.0 == Ok(TaskResult(true, [], None))
    ensures r.0.Ok? ==> r.0 == Ok(TaskResult(true, [], None))
  {
    var entries := EntriesOf(env, m);
    var w1 := w.(cache := w.cache[m := source]);
    match o.md(m, entries)
    case Err(e) => (Err(e), w1)
    case Ok(digest) =>
      match WriteGeneratedModule(w.disk, env.root, env.generatedDir, m, source, o.format,
                                 HeaderFor(env.toolVersion, "build", m, digest, entries))
      case Err(e) => (Err(e), w1)
      case Ok(written) => (Ok(TaskResult(true, [], None)), w1.(disk := written.0))
  }

  /** Only a task that succeeds writes to disk, and a module's source is
      remembered exactly when it validated; nothing else is touched. */
  lemma BuildOneFrame(env: BuildEnv, o: Oracles, m: string, w: World)
    ensures BuildOne(env, o, m, w).1.disk != w.disk ==> BuildOne(env, o, m, w).0 == Ok(TaskResult(true, [], None))
    ensures BuildOne(env, o, m, w).1.cache == w.cache ||
      exists source :: Accepted(env, o, m, w, source) && BuildOne(env, o, m, w).1.cache == w.cache[m := source]
    ensures Outcome(BuildOne(env, o, m, w).0).0 ==> BuildOne(env, o, m, w).0 == Ok(TaskResult(true, [], None))
  {
    var r := BuildOne(env, o, m, w);
    if r.1 != w {
      var ctx := BuildContext(env, o, m, w).value;
      var res := o.generate(ctx).value;
      assert Accepted(env, o, m, w, res.source.value);
    }
  }

  /** The job the build runs for each module. */
  function Work(env: BuildEnv, o: Oracles): (string, World) -> (Result<TaskResult>, World) {
    (m: string, w: World) => BuildOne(env, o, m, w)
  }

  /** A source the backend gave that validates against the module's names. */
  ghost predicate Accepted(env: BuildEnv, o: Oracles, m: string, w: World, source: string) {
    && BuildContext(env, o, m, w).Ok?
    && o.generate(BuildContext(env, o, m, w).value).Ok?
    && o.generate(BuildContext(env, o, m, w).value).value.source == Some(source)
    && ValidateGeneratedSource(o.parse, source, Some(ExpectedNames(EntriesOf(env, m)))) == []
  }

  /** A module built successfully had a source that validated; that source
      is what dependents see, and the file written for it passes the next
      staleness check. */
  lemma BuildOneLeavesFresh(env: BuildEnv, o: Oracles, m: string, w: World, extract: string -> Option<string>)
    requires HeaderLaws(o.format, extract)
    requires Outcome(BuildOne(env, o, m, w).0).0
    requires o.md(m, EntriesOf(env, m)).Ok? ==> o.md(m, EntriesOf(env, m)).value != ""
    ensures Accepted(env, o, m, w, BuildOne(env, o, m, w).1.cache[m])
    ensures ModuleStale(BuildOne(env, o, m, w).1.disk, env.root, env.generatedDir, m, EntriesOf(env, m), o.md, extract)
         == Ok(false)
  {
    var entries := EntriesOf(env, m);
    var ctx := BuildContext(env, o, m, w).value;
    var res := o.generate(ctx).value;
    var source := res.source.value;
    var digest := o.md(m, entries).value;
    var fields := HeaderFor(env.toolVersion, "build", m, digest, entries);
    WriteThenFresh(w.disk, env.root, env.generatedDir, m, source, o.format, extract, fields, entries, o.md);
  }

  /** A backend that returns no source, or a source that does not validate,
      fails the module with those errors and leaves the shared state as it
      was. */
  lemma BuildOneRejects(env: BuildEnv, o: Oracles, m: string, w: World)
    requires BuildContext(env, o, m, w).Ok? && o.generate(BuildContext(env, o, m, w).value).Ok?
    ensures var res := o.generate(BuildContext(env, o, m, w).value).value;
      res.source.None? ==>
        BuildOne(env, o, m, w) == (Ok(TaskResult(false, if res.errors == [] then ["No source returned."] else res.errors, None)), w)
    ensures var res := o.generate(BuildContext(env, o, m, w).value).value;
      var errs := if res.source.Some? then ValidateGeneratedSource(o.parse, res.source.value, Some(ExpectedNames(EntriesOf(env, m)))) else [];
      errs != [] ==> BuildOne(env, o, m, w) == (Ok(TaskResult(false, errs, None)), w)
  {
  }

  // ---------------------------------------------------------------------------
  // One module, as written.
  // ---------------------------------------------------------------------------

  /** `_collect_dependency_context(m)` as written: a dependency not generated
      in this build is looked up on disk through `_generated_relpath`,
      which raises `TypeError` (`GeneratedRelpathAsWritten`) outside the
      `try`. */
  function DependencyContextAsWritten(env: BuildEnv, segment: SpecEntry -> Result<string>, m: string, w: World)
    : (r: Result<(map<string, string>, map<string, string>)>)
    ensures r.Err? <==> Succ(env.dag, m) - w.cache.Keys != {}
    ensures r.Err? ==> r.error.TypeError?
    ensures r.Ok? ==> r.value == DependencyContext(env, segment, m, w)
  {
    var missing := Succ(env.dag, m) - w.cache.Keys;
    if missing != {} then Err(GeneratedRelpathAsWritten(Any(missing), env.generatedDir).error)
    else Ok(DependencyContext(env, segment, m, w))
  }

  /** The context of `build_one` as written: the spec sources are extracted
      first, then the dependency context is collected. */
  function BuildContextAsWritten(env: BuildEnv, o: Oracles, m: string, w: World): (r: Result<ModuleSpecContext>)
    ensures BuildContext(env, o, m, w).Err? ==> r == BuildContext(env, o, m, w)
    ensures r.Ok? ==> r == BuildContext(env, o, m, w)
    ensures r.Err? && BuildContext(env, o, m, w).Ok? ==> r.error.TypeError?
  {
    var entries := EntriesOf(env, m);
    var sources :- SpecSources(entries, o.segment);
    var context :- DependencyContextAsWritten(env, o.segment, m, w);
    Ok(ModuleSpecContext("build", m, SpecModuleToGeneratedModule(m, env.generatedDir), ExpectedNames(entries),
                         sources, DecoratorPrompts(entries), context.0, context.1, env.skillsBlock))
  }

  /** The tail of `build_one` as written: the source is remembered and the
      digest computed, then `write_generated_module` raises `TypeError` on
      its first line, before anything is written. */
  function StoreAsWritten(env: BuildEnv, o: Oracles, m: string, w: World, source: string): (r: (Result<TaskResult>, World))
    ensures r.1 == w.(cache := w.cache[m := source])
    ensures r.0.Err?
    ensures o.md(m, EntriesOf(env, m)).Ok? ==> r.0.error.TypeError?
  {
    var w1 := w.(cache := w.cache[m := source]);
    match o.md(m, EntriesOf(env, m))
    case Err(e) => (Err(e), w1)
    case Ok(_) => (Err(GeneratedRelpathAsWritten(m, env.generatedDir).error), w1)
  }

  /** `build_one(m)` as written. */
  function BuildOneAsWritten(env: BuildEnv, o: Oracles, m: string, w: World): (r: (Result<TaskResult>, World)) {
    match BuildContextAsWritten(env, o, m, w)
    case Err(e) => (Err(e), w)
    case Ok(ctx) =>
      match o.generate(ctx)
      case Err(e) => (Err(e), w)
      case Ok(res) =>
        match Rejection(res, o.parse, ExpectedNames(EntriesOf(env, m)))
        case Some(errs) => (Ok(TaskResult(false, errs, None)), w)
        case None => StoreAsWritten(env, o, m, w, res.source.value)
  }

  /** The discrepancy: as written, no build task succeeds and none writes a
      file; where the intended task succeeds, the one as written raises
      `TypeError`. */
  lemma BuildOneAsWrittenNeverWrites(env: BuildEnv, o: Oracles, m: string, w: World)
    ensures BuildOneAsWritten(env, o, m, w).1.disk == w.disk
    ensures !Outcome(BuildOneAsWritten(env, o, m, w).0).0
    ensures Outcome(BuildOne(env, o, m, w).0).0 ==>
      BuildOneAsWritten(env, o, m, w).0.Err? && BuildOneAsWritten(env, o, m, w).0.error.TypeError?
  {
    var r := BuildOneAsWritten(env, o, m, w);
    match BuildContextAsWritten(env, o, m, w)
    case Err(e) =>
      assert r == (Err(e), w);
    case Ok(ctx) =>
      assert ctx == BuildContext(env, o, m, w).value;
      match o.generate(ctx)
      case Err(e) =>
      case Ok(res) =>
        match Rejection(res, o.parse, ExpectedNames(EntriesOf(env, m)))
        case Some(errs) =>
          assert r == (Ok(TaskResult(false, errs, None)), w);
          assert BuildOne(env, o, m, w) == r;
        case None =>
          assert r == StoreAsWritten(env, o, m, w, res.source.value);
          StoreAsWrittenFails(env, o, m, w, res.source.value);
  }

  lemma StoreAsWrittenFails(env: BuildEnv, o: Oracles, m: string, w: World, source: string)
    ensures StoreAsWritten(env, o, m, w, source).1.disk == w.disk
    ensures !Outcome(StoreAsWritten(env, o, m, w, source).0).0
    ensures Outcome(Store(env, o, m, w, source).0).0 ==> StoreAsWritten(env, o, m, w, source).0.error.TypeError?
  {
  }

  /** The job `run_build` runs for each module, as written. */
  function WorkAsWritten(env: BuildEnv, o: Oracles): (string, World) -> (Result<TaskResult>, World) {
    (m: string, w: World) => BuildOneAsWritten(env, o, m, w)
  }

  lemma AsWrittenNeverSucceeds(env: BuildEnv, o: Oracles)
    ensures NeverSucceeds(WorkAsWritten(env, o))
  {
    forall m, w ensures !Outcome(WorkAsWritten(env, o)(m, w).0).0 {
      BuildOneAsWrittenNeverWrites(env, o, m, w);
    }
  }

  /** `run_build` as written: when the graph is acyclic, every module to
      rebuild fails and none is generated. */
  method RunBuildAsWritten(env: BuildEnv, o: Oracles, staleModules: set<string>, jobs: int, w0: World,
                           pick: (set<string>, seq<Event>) -> set<string>)
    returns (r: Result<BuildReport>, events: seq<Event>, w: World)
    ensures r.Err? <==> !Acyclic(InducedDeps(BuildStale(env, staleModules), env.dag))
    ensures r.Ok? ==> Reports(env, BuildStale(env, staleModules), jobs, r.value, events)
    ensures r.Ok? ==> r.value.generated == {} && r.value.failed.Keys == BuildStale(env, staleModules)
  {
    var expanded := ExpandStale(env.dag, staleModules);
    var stale := expanded * env.moduleSpecs.Keys;
    assert stale == BuildStale(env, staleModules);
    AsWrittenNeverSucceeds(env, o);
    r, events, w := BuildModules(env, stale, jobs, w0, WorkAsWritten(env, o), pick);
    if r.Ok? {
      NoneGenerated(r.value.generated, r.value.failed.Keys, stale);
    }
  }

  lemma NoneGenerated(generated: set<string>, failed: set<string>, stale: set<string>)
    requires generated + failed == stale && generated == {}
    ensures failed == stale
  {
  }

  // ---------------------------------------------------------------------------
  // The build.
  // ---------------------------------------------------------------------------

  /** The modules rebuilt: the requested ones and everything depending on
      them, among the modules that have specs. */
  ghost function BuildStale(env: BuildEnv, staleModules: set<string>): set<string> {
    Upstream(env.dag, staleModules) * env.moduleSpecs.Keys
  }

  lemma EmptyAcyclic()
    ensures Acyclic(map[])
  {
  }

  /** What a build over the rebuild set `stale` reports, with the trace of
      task starts and progress calls: the other modules with specs are
      skipped; every module in `stale` ends generated or failed, never both;
      a generated module's dependencies in `stale` were generated; failure
      records are non-empty, and a module with failed dependencies records
      one "Dependency failed" line per failed dependency; a module's task
      was started exactly when its dependencies in `stale` were all
      generated; every module is reported once, successfully exactly when
      generated; a task starts only after its dependencies were reported
      generated and with at most `jobs` tasks running. */
  ghost predicate Reports(env: BuildEnv, stale: set<string>, jobs: int, r: BuildReport, events: seq<Event>) {
    && r.skipped == env.moduleSpecs.Keys - stale
    && r.generated !! r.failed.Keys && r.generated + r.failed.Keys == stale
    && (forall x, d :: x in r.generated && d in stale && Edge(env.dag, x, d) ==> d in r.generated)
    && (forall x :: x in r.failed ==> r.failed[x] != [])
    && (forall x :: x in r.failed && Succ(env.dag, x) * r.failed.Keys != {} ==>
          r.failed[x] == DependencyFailures(Succ(env.dag, x) * r.failed.Keys))
    && (forall x :: x in stale ==> (x in DispatchedIn(events) <==> Succ(env.dag, x) * stale <= r.generated))
    && AdvancedIn(events) == stale && AdvancedOkIn(events) == r.generated
    && DispatchOrder(MakePlan(stale, env.dag, map[], jobs), events)
  }

  /** `run_build`. `pick` stands for `asyncio.wait`. Returns the report or
      the cycle error raised before anything is generated, with the trace
      of task starts and progress calls and the final shared state. */
  method RunBuild(env: BuildEnv, o: Oracles, staleModules: set<string>, jobs: int, w0: World,
                  pick: (set<string>, seq<Event>) -> set<string>)
    returns (r: Result<BuildReport>, events: seq<Event>, w: World)
    ensures BuildStale(env, staleModules) == {} ==>
      r == Ok(BuildReport({}, env.moduleSpecs.Keys, map[])) && events == [] && w == w0
    ensures r.Err? <==> !Acyclic(InducedDeps(BuildStale(env, staleModules), env.dag))
    ensures r.Err? ==> events == [] && w == w0
    ensures r.Err? ==> exists c :: (IsCycle(InducedDeps(BuildStale(env, staleModules), env.dag), c) &&
                                    r.error == CycleError(DepsOrder.CycleMessage(c)))
    ensures r.Ok? ==> Reports(env, BuildStale(env, staleModules), jobs, r.value, events)
    ensures r.Ok? ==> PriorityOrder(Priorities(BuildStale(env, staleModules), env.dag, jobs), events)
  {
    var expanded := ExpandStale(env.dag, staleModules);
    var stale := expanded * env.moduleSpecs.Keys;
    assert stale == BuildStale(env, staleModules);
    r, events, w := BuildModules(env, stale, jobs, w0, Work(env, o), pick);
  }

  /** `run_build` once the modules to rebuild are known. */
  method BuildModules(env: BuildEnv, stale: set<string>, jobs: int, w0: World,
                      work: (string, World) -> (Result<TaskResult>, World), pick: (set<string>, seq<Event>) -> set<string>)
    returns (r: Result<BuildReport>, events: seq<Event>, w: World)
    requires stale <= env.moduleSpecs.Keys
    ensures stale == {} ==>
      r == Ok(BuildReport({}, env.moduleSpecs.Keys, map[])) && events == [] && w == w0
    ensures r.Err? <==> !Acyclic(InducedDeps(stale, env.dag))
    ensures r.Err? ==> events == [] && w == w0
    ensures r.Err? ==> exists c :: (IsCycle(InducedDeps(stale, env.dag), c) &&
                                    r.error == CycleError(DepsOrder.CycleMessage(c)))
    ensures r.Ok? ==> Reports(env, stale, jobs, r.value, events)
    ensures r.Ok? && NeverSucceeds(work) ==> r.value.generated == {}
    ensures r.Ok? ==> PriorityOrder(Priorities(stale, env.dag, jobs), events)
  {
    if stale == {} {
      EmptyAcyclic();
      assert InducedDeps(stale, env.dag) == map[];
      assert env.moduleSpecs.Keys - stale == env.moduleSpecs.Keys;
      return Ok(BuildReport({}, env.moduleSpecs.Keys - stale, map[])), [], w0;
    }
    var t := DepsOrder.Toposort(InducedDeps(stale, env.dag));
    if t.Err? {
      return Err(t.error), [], w0;
    }
    var report;
    report, events, w := ScheduleBuild(env, stale, t.value, jobs, w0, work, pick);
    r := Ok(report);
  }

  /** The scheduling part of `run_build`, on a graph found acyclic. */
  method ScheduleBuild(env: BuildEnv, stale: set<string>, order: seq<string>, jobs: int, w0: World,
                       work: (string, World) -> (Result<TaskResult>, World), pick: (set<string>, seq<Event>) -> set<string>)
    returns (r: BuildReport, events: seq<Event>, w: World)
    requires stale <= env.moduleSpecs.Keys
    requires DepsOrder.Toposort(InducedDeps(stale, env.dag)) == Ok(order)
    ensures Reports(env, stale, jobs, r, events)
    ensures NeverSucceeds(work) ==> r.generated == {}
    ensures PriorityOrder(Priorities(stale, env.dag, jobs), events)
  {
    var p := PlanFor(stale, env.dag, order, jobs);
    PrioritiesOf(stale, env.dag, order, jobs);
    var s := Schedule(p, order, w0, work, pick);
    r := BuildReport(s.generated, env.moduleSpecs.Keys - stale, s.failed);
    events, w := s.events, s.world;
    BuildReported(env, stale, jobs, p, s, r);
  }

  /** What the scheduler's final state says about the build report. */
  lemma BuildReported(env: BuildEnv, stale: set<string>, jobs: int, p: Plan, s: State<World>, r: BuildReport)
    requires p.stale == stale && p.deps == InducedDeps(stale, env.dag) && p.jobs == ClampJobs(jobs)
    requires r == BuildReport(s.generated, env.moduleSpecs.Keys - stale, s.failed)
    requires s.generated !! s.failed.Keys && s.generated + s.failed.Keys == p.stale
    requires forall x :: x in s.generated ==> p.deps[x] <= s.generated
    requires forall x :: x in s.failed ==> s.failed[x] != []
    requires forall x :: x in s.failed && p.deps[x] * s.failed.Keys != {} ==>
      s.failed[x] == DependencyFailures(p.deps[x] * s.failed.Keys)
    requires forall x :: x in p.stale ==> (x in DispatchedIn(s.events) <==> p.deps[x] <= s.generated)
    requires AdvancedIn(s.events) == p.stale && AdvancedOkIn(s.events) == s.generated
    requires DispatchOrder(p, s.events)
    ensures Reports(env, stale, jobs, r, s.events)
  {
    Reported(p, s, env.dag, jobs);
  }

  /** The plan of `run_build`: the induced graph, its reverse, the
      critical-path priorities and the clamped job limit. */
  function PlanFor(stale: set<string>, dag: Graph, order: seq<string>, jobs: int): (p: Plan)
    requires DepsOrder.Toposort(InducedDeps(stale, dag)) == Ok(order)
    ensures WellFormed(p) && DepsFirst(p.deps, order) && p.stale <= set x | x in order
    ensures p.stale == stale && p.deps == InducedDeps(stale, dag) && p.jobs == ClampJobs(jobs)
  {
    var p0 := MakePlan(stale, dag, map[], jobs);
    Planned(stale, dag, p0, order);
    var p := p0.(prio := CriticalPathLengths(p0, RankOf(order)));
    WellFormedAnyPrio(p0, p.prio);
    p
  }

  /** The priorities `run_build` schedules by: the critical-path lengths
      over the cycle check's order. */
  function Priorities(stale: set<string>, dag: Graph, jobs: int): map<string, int> {
    match DepsOrder.Toposort(InducedDeps(stale, dag))
    case Ok(order) => PlanFor(stale, dag, order, jobs).prio
    case Err(_) => map[]
  }

  lemma PrioritiesOf(stale: set<string>, dag: Graph, order: seq<string>, jobs: int)
    requires DepsOrder.Toposort(InducedDeps(stale, dag)) == Ok(order)
    ensures Priorities(stale, dag, jobs) == PlanFor(stale, dag, order, jobs).prio
  {
  }

  /** The cycle check's order serves the scheduler and the priorities. */
  lemma Planned(stale: set<string>, dag: Graph, p: Plan, order: seq<string>)
    requires p == MakePlan(stale, dag, map[], p.jobs) && WellFormed(p)
    requires DepsOrder.Toposort(InducedDeps(stale, dag)) == Ok(order)
    ensures DepsFirst(p.deps, order) && p.stale <= set x | x in order
    ensures Falling(p.dependents, RankOf(order)) && forall m :: m in p.stale ==> m in RankOf(order)
  {
    var deps := InducedDeps(stale, dag);
    assert p.deps == deps;
    assert Nodes(deps) == set x | x in order;
    DepsFirstFalling(stale, deps, order);
  }

  /** The scheduler's guarantees, read against the module graph. */
  lemma Reported<W>(p: Plan, s: State<W>, dag: Graph, jobs: int)
    requires p.deps == InducedDeps(p.stale, dag) && p.jobs == ClampJobs(jobs)
    requires s.failed.Keys <= p.stale && s.generated <= p.stale
    requires forall x :: x in s.generated ==> p.deps[x] <= s.generated
    requires forall x :: x in s.failed && p.deps[x] * s.failed.Keys != {} ==>
      s.failed[x] == DependencyFailures(p.deps[x] * s.failed.Keys)
    requires forall x :: x in p.stale ==> (x in DispatchedIn(s.events) <==> p.deps[x] <= s.generated)
    requires DispatchOrder(p, s.events)
    ensures forall x, d :: x in s.generated && d in p.stale && Edge(dag, x, d) ==> d in s.generated
    ensures forall x :: x in s.failed && Succ(dag, x) * s.failed.Keys != {} ==>
      s.failed[x] == DependencyFailures(Succ(dag, x) * s.failed.Keys)
    ensures forall x :: x in p.stale ==> (x in DispatchedIn(s.events) <==> Succ(dag, x) * p.stale <= s.generated)
    ensures DispatchOrder(MakePlan(p.stale, dag, map[], jobs), s.events)
  {
    InducedAgrees(p.stale, dag);
    forall x | x in s.failed ensures p.deps[x] * s.failed.Keys == Succ(dag, x) * s.failed.Keys {
      InducedMeets(p.stale, dag, x, s.failed.Keys);
    }
  }

  /** The induced dependencies of a module are its graph successors among
      the stale modules. */
  lemma InducedAgrees(stale: set<string>, dag: Graph)
    ensures forall x :: x in stale ==> InducedDeps(stale, dag)[x] == Succ(dag, x) * stale
  {
    forall x | x in stale ensures InducedDeps(stale, dag)[x] == Succ(dag, x) * stale {
      forall d ensures d in InducedDeps(stale, dag)[x] <==> d in Succ(dag, x) * stale {
        assert Edge(dag, x, d) <==> d in Succ(dag, x);
      }
    }
  }

  lemma InducedMeets(stale: set<string>, dag: Graph, x: string, f: set<string>)
    requires x in stale && f <= stale
    ensures InducedDeps(stale, dag)[x] * f == Succ(dag, x) * f
  {
    InducedAgrees(stale, dag);
  }
}

=== FILE: cli.dfy ===
/** The command-line layer (jaunt/cli.py): which modules a `--target`
    selects, how `status`, `build` and `test` narrow and widen the stale
    set, and the exit codes the commands return. Loading the config,
    discovery, imports, JSON output and printing are left to the modules
    they belong to. */
module Cli {
  import opened Wrappers
  import opened Text
  import opened Graphs
  import opened Staleness
  import opened Scheduler
  import opened Strings
  import Build
  import Generation
  import Planning
  import Tester

  const ExitOk := 0
  const ExitConfigOrDiscovery := 2
  const ExitGenerationError := 3
  const ExitPytestFailure := 4

  // ---------------------------------------------------------------------------
  // Targets.
  // ---------------------------------------------------------------------------

  /** The module part of `MODULE[:QUALNAME]`, stripped. */
  function TargetModule(t: string): (r: string)
    ensures ':' !in t ==> r == Strip(t)
    ensures forall mod, q :: ':' !in mod && t == mod + ":" + q ==> r == Strip(mod)
  {
    var (head, rest) := SplitOnce(t, ':');
    forall mod, q | ':' !in mod && t == mod + ":" + q ensures head == mod {
      FirstSeparator(mod, q, head, rest.value);
    }
    Strip(head)
  }

  /** Two ways of cutting a text at a colon agree when both left parts are
      colon-free. */
  lemma FirstSeparator(a: string, b: string, c: string, d: string)
    requires ':' !in a && ':' !in c && a + ":" + b == c + ":" + d
    ensures a == c
  {
    var s := a + ":" + b;
    assert a == s[..|a|] && c == s[..|c|];
    assert forall i :: 0 <= i < |a| ==> s[i] == a[i] != ':';
    assert forall i :: 0 <= i < |c| ==> s[i] == c[i] != ':';
    assert s[|a|] == ':' && s[|c|] == ':';
  }

  /** `_iter_target_modules`: the non-empty module parts of the targets. */
  function IterTargetModules(targets: seq<string>): set<string> {
    NonEmptyImages(targets, TargetModule)
  }

  /** The non-empty images of the items under `f`. */
  function NonEmptyImages(xs: seq<string>, f: string -> string): set<string>
    decreases |xs|
  {
    if |xs| == 0 then {}
    else
      var m := f(xs[0]);
      var rest := NonEmptyImages(xs[1..], f);
      if m != "" then {m} + rest else rest
  }

  lemma {:induction false} NonEmptyImagesExact(xs: seq<string>, f: string -> string, m: string)
    ensures m in NonEmptyImages(xs, f) <==> m != "" && exists i :: 0 <= i < |xs| && f(xs[i]) == m
    decreases |xs|
  {
    if |xs| > 0 {
      NonEmptyImagesExact(xs[1..], f, m);
      if m in NonEmptyImages(xs[1..], f) {
        var j :| 0 <= j < |xs[1..]| && f(xs[1..][j]) == m;
        assert xs[j + 1] == xs[1..][j];
      }
      if exists i :: 0 <= i < |xs| && f(xs[i]) == m {
        var i :| 0 <= i < |xs| && f(xs[i]) == m;
        if i > 0 {
          assert xs[1..][i - 1] == xs[i];
        }
      }
    }
  }

  /** A module is selected exactly when it is the non-empty module part of
      some target. */
  lemma TargetModulesExact(targets: seq<string>, m: string)
    ensures m in IterTargetModules(targets) <==>
      m != "" && exists i :: 0 <= i < |targets| && TargetModule(targets[i]) == m
  {
    NonEmptyImagesExact(targets, TargetModule, m);
  }

  /** A target `m:q` names the module `m`, whatever the qualname. */
  lemma TargetOfSpecRef(m: string, q: string)
    requires m != "" && ':' !in m && Strip(m) == m
    ensures IterTargetModules([m + ":" + q]) == {m}
  {
    FirstPiece(m, q);
    SingleTarget(m + ":" + q);
  }

  /** One target names its module, if that is not empty. */
  lemma SingleTarget(t: string)
    requires TargetModule(t) != ""
    ensures IterTargetModules([t]) == {TargetModule(t)}
  {
    OneImage(t, TargetModule);
  }

  lemma OneImage(x: string, f: string -> string)
    requires f(x) != ""
    ensures NonEmptyImages([x], f) == {f(x)}
  {
    assert [x][1..] == [];
  }

  /** The text before the first ':' of `pre:post`, when `pre` has none. */
  lemma FirstPiece(pre: string, post: string)
    requires ':' !in pre
    ensures SplitOnce(pre + ":" + post, ':').0 == pre
  {
    var s := pre + ":" + post;
    assert s[|pre|] == ':';
    var r := SplitOnce(s, ':');
    assert s == r.0 + [':'] + r.1.value;
    assert r.0 == s[..|r.0|];
    assert pre == s[..|pre|];
  }

  // ---------------------------------------------------------------------------
  // The dependency closure.
  // ---------------------------------------------------------------------------

  /** The modules and everything they depend on, directly or not. */
  ghost function Downstream(dag: Graph, modules: set<string>): set<string> {
    set m | m in modules + Nodes(dag) && exists s :: s in modules && Reaches(dag, s, m)
  }

  lemma InDownstream(dag: Graph, modules: set<string>, s: string, m: string)
    requires s in modules && Reaches(dag, s, m)
    ensures m in Downstream(dag, modules)
  {
    if m != s {
      ReachedIsNode(dag, s, m);
    }
  }

  /** A set holding the modules and closed under dependencies holds their
      whole closure. */
  lemma ClosedContainsDownstream(dag: Graph, modules: set<string>, e: set<string>)
    requires modules <= e
    requires forall x, d :: x in e && Edge(dag, x, d) ==> d in e
    ensures Downstream(dag, modules) <= e
  {
    forall m | m in Downstream(dag, modules) ensures m in e {
      var s :| s in modules && Reaches(dag, s, m);
      var p :| IsPath(dag, p) && p[0] == s && p[|p| - 1] == m;
      PathFrom(dag, p, e, |p| - 1);
    }
  }

  lemma {:induction false} PathFrom(dag: Graph, p: seq<string>, e: set<string>, k: nat)
    requires IsPath(dag, p) && k < |p| && p[0] in e
    requires forall x, d :: x in e && Edge(dag, x, d) ==> d in e
    ensures forall i :: 0 <= i <= k ==> p[i] in e
    decreases k
  {
    if k > 0 {
      PathFrom(dag, p, e, k - 1);
      assert Edge(dag, p[k - 1], p[k]);
    }
  }

  /** The closure is closed under dependencies. */
  lemma DownstreamClosed(dag: Graph, modules: set<string>)
    ensures forall x, d :: x in Downstream(dag, modules) && Edge(dag, x, d) ==> d in Downstream(dag, modules)
  {
    forall x, d | x in Downstream(dag, modules) && Edge(dag, x, d) ensures d in Downstream(dag, modules) {
      var s :| s in modules && Reaches(dag, s, x);
      ReachesSelf(dag, d);
      assert Edge(dag, x, d);
      ReachesStepRight(dag, s, x, d);
      InDownstream(dag, modules, s, d);
    }
  }

  lemma ReachesStepRight(dag: Graph, a: string, b: string, c: string)
    requires Reaches(dag, a, b) && Edge(dag, b, c)
    ensures Reaches(dag, a, c)
  {
    ReachesSelf(dag, c);
    ReachesStep(dag, b, c, c);
    ReachesTrans(dag, a, b, c);
  }

  /** Every module found lies in the closure, and every found module no
      longer on the stack has its dependencies found. */
  ghost predicate ClosedBehind(dag: Graph, seen: set<string>, stack: seq<string>) {
    forall x, d :: x in seen && x !in stack && Edge(dag, x, d) ==> d in seen
  }

  /** `_deps_closure`: the modules plus all of their dependencies,
      transitively; it stops on cycles because a module is stacked once. */
  method DepsClosure(modules: set<string>, dag: Graph) returns (seen: set<string>)
    ensures seen == Downstream(dag, modules)
  {
    ghost var down := Downstream(dag, modules);
    DownstreamClosed(dag, modules);
    forall s | s in modules ensures s in down {
      ReachesSelf(dag, s);
      InDownstream(dag, modules, s, s);
    }
    seen := ClosureWithin(dag, modules, down);
    ClosedContainsDownstream(dag, modules, seen);
  }

  /** The stack loop, inside any set `down` that holds the modules and is
      closed under dependencies. */
  method ClosureWithin(dag: Graph, modules: set<string>, ghost down: set<string>) returns (seen: set<string>)
    requires modules <= down
    requires forall x, d :: x in down && Edge(dag, x, d) ==> d in down
    ensures modules <= seen <= down
    ensures ClosedBehind(dag, seen, [])
  {
    ghost var bound := modules + Nodes(dag);
    seen := modules;
    var stack := SortSet(modules);
    while |stack| > 0
      invariant modules <= seen <= down && seen <= bound
      invariant forall i :: 0 <= i < |stack| ==> stack[i] in seen
      invariant ClosedBehind(dag, seen, stack)
      decreases |bound - seen|, |stack|
    {
      seen, stack := ClosureStep(dag, modules, down, bound, seen, stack);
    }
  }

  /** One turn: pop the last module and stack its unseen dependencies. */
  method ClosureStep(dag: Graph, modules: set<string>, ghost down: set<string>, ghost bound: set<string>,
                     e0: set<string>, q0: seq<string>) returns (e: set<string>, q: seq<string>)
    requires |q0| > 0 && bound == modules + Nodes(dag)
    requires forall x, d :: x in down && Edge(dag, x, d) ==> d in down
    requires modules <= e0 <= down && e0 <= bound
    requires forall i :: 0 <= i < |q0| ==> q0[i] in e0
    requires ClosedBehind(dag, e0, q0)
    ensures modules <= e <= down && e <= bound
    ensures forall i :: 0 <= i < |q| ==> q[i] in e
    ensures ClosedBehind(dag, e, q)
    ensures |bound - e| < |bound - e0| || (e == e0 && |q| < |q0|)
  {
    var m := q0[|q0| - 1];
    var rest := q0[..|q0| - 1];
    assert q0 == rest + [m];
    e, q := VisitDeps(dag, modules, down, bound, m, e0, rest);
    ClosedAfterPop(dag, m, e0, rest, e, q);
  }

  lemma ClosedAfterPop(dag: Graph, m: string, e0: set<string>, q0: seq<string>, e: set<string>, q: seq<string>)
    requires ClosedBehind(dag, e0, q0 + [m])
    requires e0 <= e && (forall d :: Edge(dag, m, d) ==> d in e)
    requires |q| >= |q0| && q[..|q0|] == q0
    requires forall x :: x in e && x !in e0 ==> x in q
    ensures ClosedBehind(dag, e, q)
  {
    forall x, d | x in e && x !in q && Edge(dag, x, d) ensures d in e {
      if x != m {
        assert x in e0;
        assert x !in q0 + [m];
      }
    }
  }

  /** `for dep in module_dag.get(m, set())`: the unseen dependencies of `m`
      are marked and stacked. */
  method VisitDeps(dag: Graph, modules: set<string>, ghost down: set<string>, ghost bound: set<string>,
                   m: string, e0: set<string>, q0: seq<string>)
    returns (e: set<string>, q: seq<string>)
    requires forall x, d :: x in down && Edge(dag, x, d) ==> d in down
    requires bound == modules + Nodes(dag)
    requires e0 <= down && e0 <= bound && m in e0
    requires forall i :: 0 <= i < |q0| ==> q0[i] in e0
    ensures e0 <= e <= down && e <= bound
    ensures forall d :: Edge(dag, m, d) ==> d in e
    ensures |q| >= |q0| && q[..|q0|] == q0
    ensures forall i :: 0 <= i < |q| ==> q[i] in e
    ensures forall x :: x in e && x !in e0 ==> x in q
    ensures e == e0 ==> q == q0
    ensures e != e0 ==> |bound - e| < |bound - e0|
  {
    e, q := e0, q0;
    var todo := Succ(dag, m);
    while todo != {}
      invariant todo <= Succ(dag, m)
      invariant e0 <= e <= down && e <= bound
      invariant forall d :: d in Succ(dag, m) && d !in todo ==> d in e
      invariant |q| >= |q0| && q[..|q0|] == q0
      invariant forall i :: 0 <= i < |q| ==> q[i] in e
      invariant forall x :: x in e && x !in e0 ==> x in q
      invariant e == e0 ==> q == q0
      invariant e != e0 ==> |bound - e| < |bound - e0|
      decreases |todo|
    {
      var d :| d in todo;
      todo := todo - {d};
      if d !in e {
        assert d in dag[m];
        assert d in bound;
        assert bound - (e + {d}) < bound - e;
        e := e + {d};
        q := q + [d];
      }
    }
  }

  // ---------------------------------------------------------------------------
  // Narrowing to the targets.
  // ---------------------------------------------------------------------------

  /** The stale modules a `--target` list keeps: all of them without
      targets, else those in the targets' dependency closure. */
  ghost function Restrict(dag: Graph, stale: set<string>, targets: seq<string>): set<string> {
    if IterTargetModules(targets) == {} then stale else stale * Downstream(dag, IterTargetModules(targets))
  }

  method RestrictToTargets(dag: Graph, stale: set<string>, targets: seq<string>) returns (r: set<string>)
    ensures r == Restrict(dag, stale, targets)
  {
    var targetMods := IterTargetModules(targets);
    if targetMods == {} {
      return stale;
    }
    var allowed := DepsClosure(targetMods, dag);
    r := set m | m in stale && m in allowed;
  }

  /** `cmd_status`: the modules in scope (those with specs, narrowed to the
      targets' closure), split into stale and fresh. */
  method StatusPartition(dag: Graph, moduleKeys: set<string>, stale: set<string>, targets: seq<string>)
    returns (staleOut: set<string>, freshOut: set<string>)
    ensures staleOut !! freshOut
    ensures staleOut + freshOut == Restrict(dag, moduleKeys, targets)
    ensures staleOut == stale * Restrict(dag, moduleKeys, targets)
  {
    var allMods := RestrictToTargets(dag, moduleKeys, targets);
    staleOut := stale * allMods;
    freshOut := allMods - staleOut;
  }

  /** `cmd_build`: narrow to the targets first, then add every dependent. */
  method BuildSelection(dag: Graph, stale: set<string>, targets: seq<string>) returns (r: set<string>)
    ensures r == Upstream(dag, Restrict(dag, stale, targets))
  {
    var kept := RestrictToTargets(dag, stale, targets);
    r := ExpandStale(dag, kept);
  }

  /** `cmd_test`: add every dependent first, then narrow to the targets. */
  method TestSelection(dag: Graph, stale: set<string>, targets: seq<string>) returns (r: set<string>)
    ensures r == Restrict(dag, Upstream(dag, stale), targets)
  {
    var expanded := ExpandStale(dag, stale);
    r := RestrictToTargets(dag, expanded, targets);
  }

  /** The test command's order selects no more than the build command's:
      a dependent inside the targets' closure has its stale dependency
      inside it too. */
  lemma TestSelectionWithinBuildSelection(dag: Graph, stale: set<string>, targets: seq<string>)
    ensures Restrict(dag, Upstream(dag, stale), targets) <= Upstream(dag, Restrict(dag, stale, targets))
  {
    var t := IterTargetModules(targets);
    if t != {} {
      forall x | x in Upstream(dag, stale) * Downstream(dag, t)
        ensures x in Upstream(dag, stale * Downstream(dag, t))
      {
        var s :| s in stale && Reaches(dag, x, s);
        var a :| a in t && Reaches(dag, a, x);
        ReachesTrans(dag, a, x, s);
        InDownstream(dag, t, a, s);
        InUpstream(dag, stale * Downstream(dag, t), x, s);
      }
    } else {
      forall x | x in Upstream(dag, stale) ensures x in Upstream(dag, Restrict(dag, stale, targets)) {
      }
    }
  }

  /** The build command's order can select more: when `a` depends on a
      stale target `b` that itself depends on nothing, the build
      regenerates `a` too, the test command only `b`. */
  lemma SelectionOrderMatters(dag: Graph, a: string, b: string)
    requires b != "" && ':' !in b && Strip(b) == b
    requires Edge(dag, a, b) && b !in dag
    ensures a !in Restrict(dag, Upstream(dag, {b}), [b])
    ensures a in Upstream(dag, Restrict(dag, {b}, [b]))
  {
    if Reaches(dag, b, a) {
      LeafReachesOnlyItself(dag, b, a);
    }
    OrderMattersFor(dag, a, b);
  }

  /** Whenever `a` depends on a bare target `b` that does not lead back to
      `a`, the two orders disagree on `a`. */
  lemma OrderMattersFor(dag: Graph, a: string, b: string)
    requires b != "" && ':' !in b && Strip(b) == b
    requires Edge(dag, a, b) && !Reaches(dag, b, a)
    ensures a !in Restrict(dag, Upstream(dag, {b}), [b])
    ensures a in Upstream(dag, Restrict(dag, {b}, [b]))
  {
    ReachesSelf(dag, b);
    ReachesStep(dag, a, b, b);
    InUpstream(dag, {b}, a, b);
    RestrictToBare(dag, Upstream(dag, {b}), b);
    NotBelow(dag, b, a);
    InDownstream(dag, {b}, b, b);
    RestrictToBare(dag, {b}, b);
    SingletonUpstream(dag, b, a);
  }

  /** A bare target keeps the stale modules in its own closure. */
  lemma RestrictToBare(dag: Graph, stale: set<string>, b: string)
    requires b != "" && ':' !in b && Strip(b) == b
    ensures Restrict(dag, stale, [b]) == stale * Downstream(dag, {b})
  {
    TargetOfSpecRefBare(b);
  }

  /** What `b` does not reach is outside its closure. */
  lemma NotBelow(dag: Graph, b: string, a: string)
    requires !Reaches(dag, b, a)
    ensures a !in Downstream(dag, {b})
  {
  }

  /** With `b` in its own closure, the build order regenerates `a`. */
  lemma SingletonUpstream(dag: Graph, b: string, a: string)
    requires b in Downstream(dag, {b}) && a in Upstream(dag, {b})
    ensures a in Upstream(dag, {b} * Downstream(dag, {b}))
  {
    assert {b} * Downstream(dag, {b}) == {b};
  }

  /** A module with no dependencies reaches only itself. */
  lemma LeafReachesOnlyItself(dag: Graph, b: string, m: string)
    requires b !in dag && Reaches(dag, b, m)
    ensures m == b
  {
    var p :| IsPath(dag, p) && p[0] == b && p[|p| - 1] == m;
    assert |p| > 1 ==> Edge(dag, p[0], p[1]);
  }

  /** A target without a qualname names itself. */
  lemma TargetOfSpecRefBare(m: string)
    requires m != "" && ':' !in m && Strip(m) == m
    ensures IterTargetModules([m]) == {m}
  {
    assert SplitOnce(m, ':').0 == m;
    SingleTarget(m);
  }

  // ---------------------------------------------------------------------------
  // Exit codes.
  // ---------------------------------------------------------------------------

  /** The exceptions every command maps to exit code 2. */
  predicate ConfigLike(e: Error) {
    e.ConfigError? || e.DiscoveryError? || e.CycleError? || e.KeyError?
  }

  /** What `cmd_build` returns for the outcome of the build: 3 when a module
      failed, 0 otherwise; a configuration, discovery or cycle error or a
      `KeyError` gives 2, a generation error 3, and anything else escapes. */
  function BuildExit(r: Result<Build.BuildReport>): (rc: Result<int>)
    ensures r.Ok? ==> rc.Ok? && (rc.value == ExitOk <==> r.value.failed == map[])
    ensures r.Ok? ==> rc.value == ExitOk || rc.value == ExitGenerationError
    ensures r.Err? && ConfigLike(r.error) ==> rc == Ok(ExitConfigOrDiscovery)
    ensures r.Err? && r.error.GenerationError? ==> rc == Ok(ExitGenerationError)
    ensures r.Err? && !ConfigLike(r.error) && !r.error.GenerationError? ==> rc == Err(r.error)
  {
    match r
    case Ok(report) => Ok(if report.failed != map[] then ExitGenerationError else ExitOk)
    case Err(e) =>
      if ConfigLike(e) then Ok(ExitConfigOrDiscovery)
      else if e.GenerationError? then Ok(ExitGenerationError)
      else Err(e)
  }

  /** `cmd_build` from the stale modules it detected (or the error raised
      while detecting them): narrow to the targets, add dependents, build.
      Exit 0 means every selected module with specs was regenerated; 2 is
      a dependency cycle among them; 3 means some module failed. */
  method CmdBuild(env: Build.BuildEnv, o: Generation.Oracles, detected: Result<set<string>>, targets: seq<string>,
                  jobs: int, w0: Build.World, pick: (set<string>, seq<Event>) -> set<string>)
    returns (rc: Result<int>, r: Result<Build.BuildReport>, w: Build.World)
    ensures detected.Err? ==> rc == BuildExit(Err(detected.error)) && w == w0
    ensures detected.Ok? ==>
      BuildExits(Build.BuildStale(env, Upstream(env.dag, Restrict(env.dag, detected.value, targets))), env.dag, rc, r)
  {
    if detected.Err? {
      return BuildExit(Err(detected.error)), Err(detected.error), w0;
    }
    var stale := BuildSelection(env.dag, detected.value, targets);
    rc, r, w := BuildAndExit(env, o, stale, jobs, w0, pick);
  }

  /** The exit code of a build over `selected`: 2 exactly on a cycle, 0
      exactly when every selected module was generated, 3 exactly when
      some module failed. */
  ghost predicate BuildExits(selected: set<string>, dag: Graph, rc: Result<int>, r: Result<Build.BuildReport>) {
    && (rc == Ok(ExitConfigOrDiscovery) <==> !Acyclic(Planning.InducedDeps(selected, dag)))
    && (rc == Ok(ExitOk) <==> r.Ok? && r.value.generated == selected)
    && (rc == Ok(ExitGenerationError) <==> r.Ok? && r.value.failed != map[])
    && rc.Ok?
  }

  /** `run_build` and the exit code `cmd_build` derives from it. */
  method BuildAndExit(env: Build.BuildEnv, o: Generation.Oracles, stale: set<string>, jobs: int, w0: Build.World,
                      pick: (set<string>, seq<Event>) -> set<string>)
    returns (rc: Result<int>, r: Result<Build.BuildReport>, w: Build.World)
    ensures BuildExits(Build.BuildStale(env, stale), env.dag, rc, r)
  {
    var events;
    r, events, w := Build.RunBuild(env, o, stale, jobs, w0, pick);
    rc := BuildExit(r);
    ExitOfReport(Build.BuildStale(env, stale), env.dag, r, rc);
  }

  lemma ExitOfReport(selected: set<string>, dag: Graph, r: Result<Build.BuildReport>, rc: Result<int>)
    requires rc == BuildExit(r)
    requires r.Err? <==> !Acyclic(Planning.InducedDeps(selected, dag))
    requires r.Err? ==> r.error.CycleError?
    requires r.Ok? ==> r.value.generated !! r.value.failed.Keys && r.value.generated + r.value.failed.Keys == selected
    ensures BuildExits(selected, dag, rc, r)
  {
    if r.Ok? && r.value.generated == selected {
      assert r.value.failed.Keys == {};
    }
  }

  /** What `cmd_test` returns for an error raised inside it (including one
      escaping `cmd_build`) or for the pytest result: 0 on a zero exit, 4
      on a non-zero one, and 3 instead of 4 under `--no-run`. */
  function TestExit(r: Result<Tester.PytestResult>, noRun: bool): (rc: Result<int>)
    ensures r.Ok? ==> rc.Ok? && (rc.value == ExitOk <==> r.value.exitCode == 0)
    ensures r.Ok? && r.value.exitCode != 0 ==> rc.value == (if noRun then ExitGenerationError else ExitPytestFailure)
    ensures r.Err? && ConfigLike(r.error) ==> rc == Ok(ExitConfigOrDiscovery)
    ensures r.Err? && (r.error.GenerationError? || r.error.AttributeError?) ==> rc == Ok(ExitGenerationError)
    ensures r.Err? && !ConfigLike(r.error) && !r.error.GenerationError? && !r.error.AttributeError? ==>
      rc == Err(r.error)
  {
    match r
    case Ok(res) =>
      Ok(if res.exitCode == 0 then ExitOk else if !noRun then ExitPytestFailure else ExitGenerationError)
    case Err(e) =>
      if ConfigLike(e) then Ok(ExitConfigOrDiscovery)
      else if e.GenerationError? || e.AttributeError? then Ok(ExitGenerationError)
      else Err(e)
  }

  /** The stale test modules after `--target`: dependents first, then the
      targets' closure, then only modules with test specs. */
  ghost function TestStale(env: Tester.TestEnv, detected: set<string>, targets: seq<string>): set<string> {
    Restrict(env.dag, Upstream(env.dag, detected), targets) * env.moduleSpecs.Keys
  }

  /** `cmd_test` after the build step: `build` is what `cmd_build` returned
      (`None` under `--no-build`), `detected` the stale test modules (or the
      error raised while discovering and checking them), `haveSpecs`
      whether any test spec was registered. A failed build's exit code is
      passed on; with specs, exit 2 means a cycle among the selected test
      modules, and the command exits 0 exactly when pytest passed. */
  method CmdTest(build: Option<Result<int>>, detected: Result<set<string>>, haveSpecs: bool,
                 env: Tester.TestEnv, o: Generation.Oracles, targets: seq<string>, jobs: int,
                 disk0: Staleness.Disk, launch: Tester.PytestLaunch, noRun: bool,
                 pick: (set<string>, seq<Event>) -> set<string>)
    returns (rc: Result<int>, r: Option<Result<Tester.PytestResult>>, disk: Staleness.Disk)
    ensures build.Some? && build.value.Ok? && build.value.value != ExitOk ==> rc == build.value && disk == disk0
    ensures build.Some? && build.value.Err? ==> rc == TestExit(Err(build.value.error), noRun) && disk == disk0
    ensures r.None? ==> disk == disk0
    ensures r.Some? <==> (build.None? || build.value == Ok(ExitOk)) && detected.Ok? && haveSpecs
    ensures (build.None? || build.value == Ok(ExitOk)) && detected.Err? ==> rc == TestExit(Err(detected.error), noRun)
    ensures (build.None? || build.value == Ok(ExitOk)) && detected.Ok? && !haveSpecs ==> rc == Ok(ExitOk)
    ensures r.Some? ==> TestExits(TestStale(env, detected.value, targets), env.dag, noRun, rc, r.value)
  {
    disk := disk0;
    r := None;
    if build.Some? {
      if build.value.Err? {
        return TestExit(Err(build.value.error), noRun), r, disk;
      }
      if build.value.value != ExitOk {
        return build.value, r, disk;
      }
    }
    if detected.Err? {
      return TestExit(Err(detected.error), noRun), r, disk;
    }
    if !haveSpecs {
      return Ok(ExitOk), r, disk;
    }
    var stale := TestSelection(env.dag, detected.value, targets);
    var res;
    rc, res, disk := TestAndExit(env, o, stale, jobs, disk0, launch, noRun, pick);
    r := Some(res);
  }

  /** `run_tests` over the selected modules and the exit code `cmd_test`
      derives from it. */
  method TestAndExit(env: Tester.TestEnv, o: Generation.Oracles, stale: set<string>, jobs: int,
                     disk0: Staleness.Disk, launch: Tester.PytestLaunch, noRun: bool,
                     pick: (set<string>, seq<Event>) -> set<string>)
    returns (rc: Result<int>, r: Result<Tester.PytestResult>, disk: Staleness.Disk)
    ensures TestExits(stale * env.moduleSpecs.Keys, env.dag, noRun, rc, r)
  {
    r, disk := Tester.RunTests(Some(Tester.GenerationInputs(env, o, stale)), jobs, disk0, launch, false, noRun, pick);
    rc := TestExit(r, noRun);
    TestExitOf(stale * env.moduleSpecs.Keys, env.dag, noRun, r, rc);
  }

  /** `cmd_test` on the priorities as written: for two stale test modules
      that depend on each other, `_critical_path_lengths` raises
      `RecursionError` before the cycle check is reached, and that error is
      not one `cmd_test` turns into an exit code, so it escapes the command.
      `CmdTest` and `TestAndExit` use the corrected priorities, where the same
      modules give exit 2. */
  lemma TestCycleAsWrittenEscapes(limit: nat, noRun: bool)
    ensures var p := Tester.PrioritiesAsWritten({"a", "b"}, map["a" := {"b"}, "b" := {"a"}], limit);
      && p == Err(RuntimeError(Planning.RecursionMessage))
      && TestExit(Err(p.error), noRun) == Err(p.error)
  {
    Tester.TwoCycleTestPrioritiesRaise(limit);
  }

  /** The exit code of a test run over `selected`: 2 exactly on a cycle, 0
      exactly when pytest passed, and never 3 or 4 under `--no-run`, so
      the generation-error exit of that branch is never taken. */
  ghost predicate TestExits(selected: set<string>, dag: Graph, noRun: bool, rc: Result<int>,
                            r: Result<Tester.PytestResult>) {
    && rc.Ok?
    && (rc == Ok(ExitConfigOrDiscovery) <==> !Acyclic(Planning.InducedDeps(selected, dag)))
    && (rc == Ok(ExitOk) <==> r.Ok? && r.value.passed)
    && (noRun ==> rc.value != ExitGenerationError && rc.value != ExitPytestFailure)
    && (!noRun ==> (rc == Ok(ExitPytestFailure) <==> r.Ok? && !r.value.passed))
  }

  lemma TestExitOf(selected: set<string>, dag: Graph, noRun: bool, r: Result<Tester.PytestResult>, rc: Result<int>)
    requires rc == TestExit(r, noRun)
    requires r.Err? <==> !Acyclic(Planning.InducedDeps(selected, dag))
    requires r.Err? ==> r.error.CycleError?
    requires r.Ok? ==> (r.value.passed <==> r.value.exitCode == 0)
    requires noRun && r.Ok? ==> r.value.exitCode == 0
    ensures TestExits(selected, dag, noRun, rc, r)
  {
  }

  /** `cmd_status` from the test of whether any spec was registered, the
      stale modules detected (or the error raised on the way) and the
      modules with specs: with specs, the modules in scope split into
      stale and fresh. */
  method CmdStatus(haveSpecs: bool, detected: Result<set<string>>, dag: Graph, moduleKeys: set<string>,
                   targets: seq<string>)
    returns (rc: Result<int>, staleOut: set<string>, freshOut: set<string>)
    ensures !haveSpecs ==> rc == Ok(ExitOk) && staleOut == {} && freshOut == {}
    ensures haveSpecs && detected.Err? && ConfigLike(detected.error) ==> rc == Ok(ExitConfigOrDiscovery)
    ensures haveSpecs && detected.Err? && !ConfigLike(detected.error) ==> rc == Err(detected.error)
    ensures haveSpecs && detected.Ok? ==>
      && rc == Ok(ExitOk)
      && staleOut !! freshOut
      && staleOut + freshOut == Restrict(dag, moduleKeys, targets)
      && staleOut == detected.value * Restrict(dag, moduleKeys, targets)
  {
    staleOut, freshOut := {}, {};
    if !haveSpecs {
      return Ok(ExitOk), staleOut, freshOut;
    }
    if detected.Err? {
      rc := if ConfigLike(detected.error) then Ok(ExitConfigOrDiscovery) else Err(detected.error);
      return;
    }
    staleOut, freshOut := StatusPartition(dag, moduleKeys, detected.value, targets);
    rc := Ok(ExitOk);
  }

  /** What `parse_args` produced: argparse's `SystemExit` (with its code,
      when that is an int) or the command name. */
  datatype Parsed = SystemExit(code: Option<int>) | Command(name: string)

  /** The commands `main` dispatches to. */
  const Commands: set<string> := {"build", "test", "init", "clean", "status"}

  /** `main`: argparse's own exit code when it is an int, else 2; a known
      command's own exit code; 2 for anything else. */
  function MainExit(parsed: Parsed, run: string -> Result<int>): (rc: Result<int>)
    ensures parsed.SystemExit? ==> rc == Ok(parsed.code.GetOr(ExitConfigOrDiscovery))
    ensures parsed.Command? && parsed.name in Commands ==> rc == run(parsed.name)
    ensures parsed.Command? && parsed.name !in Commands ==> rc == Ok(ExitConfigOrDiscovery)
  {
    match parsed
    case SystemExit(code) => if code.Some? then Ok(code.value) else Ok(ExitConfigOrDiscovery)
    case Command(name) => if name in Commands then run(name) else Ok(ExitConfigOrDiscovery)
  }
}

=== FILE: config.dfy ===
/** Loading and validating `jaunt.toml` (jaunt/config.py).

    The file arrives already read and parsed: a `ConfigFile` is either the
    parsed TOML document or the reason reading or parsing it failed. Whether
    a source root exists on disk and whether a directory holds a
    `jaunt.toml` are parameters. */
module Config {
  import opened Wrappers
  import PyValues
  import Text

  /** A TOML value. Integers, booleans and floats are distinct kinds, so a
      boolean is never taken for an integer. */
  datatype Toml =
    | TStr(s: string)
    | TInt(i: int)
    | TBool(b: bool)
    | TFloat(text: string)
    | TDateTime(text: string)
    | TArray(items: seq<Toml>)
    | TTable(t: map<string, Toml>)

  type Table = map<string, Toml>

  datatype PathsConfig = PathsConfig(sourceRoots: seq<string>, testRoots: seq<string>, generatedDir: string)
  datatype LlmConfig = LlmConfig(provider: string, model: string, apiKeyEnv: string)
  datatype BuildConfig = BuildConfig(jobs: int, inferDeps: bool)
  datatype TestConfig = TestConfig(jobs: int, inferDeps: bool, pytestArgs: seq<string>)
  datatype PromptsConfig = PromptsConfig(buildSystem: string, buildModule: string, testSystem: string, testModule: string)
  datatype McpConfig = McpConfig(enabled: bool)

  datatype JauntConfig = JauntConfig(
    version: int,
    paths: PathsConfig,
    llm: LlmConfig,
    build: BuildConfig,
    test: TestConfig,
    prompts: PromptsConfig,
    mcp: McpConfig)

  /** The configuration a file holding only `version = 1` gives. */
  const Defaults: JauntConfig := JauntConfig(
    1,
    PathsConfig(["src", "."], ["tests"], "__generated__"),
    LlmConfig("openai", "gpt-5.2", "OPENAI_API_KEY"),
    BuildConfig(8, true),
    TestConfig(4, true, ["-q"]),
    PromptsConfig("", "", "", ""),
    McpConfig(true))

  // ---------------------------------------------------------------------
  // Finding the project root

  /** An absolute path as its components; `[]` is the file-system root. */
  type Path = seq<string>

  function Parent(p: Path): Path {
    if p == [] then [] else p[..|p| - 1]
  }

  /** The upward walk from `dir`: the first directory, innermost first,
      that holds a `jaunt.toml`. */
  function WalkUp(dir: Path, hasToml: Path -> bool): (r: Result<Path>)
    ensures r.Ok? ==> |r.value| <= |dir| && r.value == dir[..|r.value|] && hasToml(r.value)
    ensures r.Ok? ==> forall k :: |r.value| < k <= |dir| ==> !hasToml(dir[..k])
    ensures r.Err? <==> forall k :: 0 <= k <= |dir| ==> !hasToml(dir[..k])
    ensures r.Err? ==> r == Err(ConfigError(NoRootMessage))
    decreases |dir|
  {
    if hasToml(dir) then
      assert dir[..|dir|] == dir;
      Ok(dir)
    else if dir == [] then
      assert forall k :: 0 <= k <= |dir| ==> dir[..k] == dir;
      Err(ConfigError(NoRootMessage))
    else
      var up := dir[..|dir| - 1];
      var r := WalkUp(up, hasToml);
      assert forall k :: 0 <= k <= |up| ==> up[..k] == dir[..k];
      assert dir[..|dir|] == dir;
      r
  }

  const NoRootMessage: string := "Could not find jaunt.toml by walking upward from start path."

  /** `find_project_root(start)`: a file (or a path that cannot be
      examined) starts the walk at its parent directory. */
  function FindProjectRoot(start: Path, startIsFile: bool, hasToml: Path -> bool): (r: Result<Path>)
    ensures var dir := if startIsFile then Parent(start) else start;
      r.Ok? ==> hasToml(r.value) && |r.value| <= |dir| && r.value == dir[..|r.value|]
  {
    WalkUp(if startIsFile then Parent(start) else start, hasToml)
  }

  /** Where the configuration is read from and which directory is the
      project root: an explicit file path's parent, unless a root is given;
      otherwise the given root, or the root found from the working
      directory. */
  function Locate(root: Option<Path>, configPath: Option<Path>, cwd: Path, hasToml: Path -> bool)
    : (r: Result<(Path, Path)>)
    ensures configPath.Some? ==> r.Ok? && r.value.1 == configPath.value
    ensures configPath.Some? && root.None? ==> r.value.0 == Parent(configPath.value)
    ensures configPath.None? && r.Ok? ==> r.value.1 == r.value.0 + ["jaunt.toml"]
    ensures root.Some? ==> r.Ok? && r.value.0 == root.value
    ensures root.None? && configPath.None? ==> r.Err? == WalkUp(cwd, hasToml).Err?
  {
    if configPath.None? then
      var dir :- if root.None? then WalkUp(cwd, hasToml) else Ok(root.value);
      Ok((dir, dir + ["jaunt.toml"]))
    else
      Ok((if root.None? then Parent(configPath.value) else root.value, configPath.value))
  }

  // ---------------------------------------------------------------------
  // Typed field access

  /** `_as_table(data.get(name))`: an absent section is an empty table. */
  function AsTable(data: Table, name: string): (r: Result<Table>)
    ensures r.Ok? <==> SectionOk(data, name)
    ensures r.Ok? ==> r.value == Section(data, name)
    ensures r.Err? ==> r.error == ConfigError("Expected [" + name + "] to be a table.")
  {
    if name !in data then Ok(map[])
    else if data[name].TTable? then Ok(data[name].t)
    else Err(ConfigError("Expected [" + name + "] to be a table."))
  }

  predicate SectionOk(data: Table, name: string) {
    name in data ==> data[name].TTable?
  }

  /** The section's table, or the empty table. */
  function Section(data: Table, name: string): Table {
    if name in data && data[name].TTable? then data[name].t else map[]
  }

  predicate IsStrList(v: Toml) {
    v.TArray? && forall i :: 0 <= i < |v.items| ==> v.items[i].TStr?
  }

  /** The strings of a TOML array of strings. */
  function Strings(items: seq<Toml>): (r: seq<string>)
    requires forall i :: 0 <= i < |items| ==> items[i].TStr?
    ensures |r| == |items|
    ensures forall i :: 0 <= i < |items| ==> items[i] == TStr(r[i])
  {
    if items == [] then [] else [items[0].s] + Strings(items[1..])
  }

  /** The field holds the given string, or is absent and the value is the
      default. */
  predicate StrField(tbl: Table, key: string, def: string, v: string) {
    if key in tbl then tbl[key] == TStr(v) else v == def
  }

  predicate IntField(tbl: Table, key: string, def: int, v: int) {
    if key in tbl then tbl[key] == TInt(v) else v == def
  }

  predicate BoolField(tbl: Table, key: string, def: bool, v: bool) {
    if key in tbl then tbl[key] == TBool(v) else v == def
  }

  predicate StrListField(tbl: Table, key: string, def: seq<string>, v: seq<string>) {
    if key in tbl then
      tbl[key].TArray? && |tbl[key].items| == |v|
      && forall i :: 0 <= i < |v| ==> tbl[key].items[i] == TStr(v[i])
    else v == def
  }

  function StrOr(tbl: Table, key: string, name: string, def: string): (r: Result<string>)
    ensures r.Ok? <==> (key in tbl ==> tbl[key].TStr?)
    ensures r.Ok? ==> StrField(tbl, key, def, r.value)
    ensures r.Err? ==> r.error == ConfigError("Expected " + name + " to be a string.")
  {
    if key !in tbl then Ok(def)
    else if tbl[key].TStr? then Ok(tbl[key].s)
    else Err(ConfigError("Expected " + name + " to be a string."))
  }

  function IntOr(tbl: Table, key: string, name: string, def: int): (r: Result<int>)
    ensures r.Ok? <==> (key in tbl ==> tbl[key].TInt?)
    ensures r.Ok? ==> IntField(tbl, key, def, r.value)
    ensures r.Err? ==> r.error == ConfigError("Expected " + name + " to be an integer.")
  {
    if key !in tbl then Ok(def)
    else if tbl[key].TInt? then Ok(tbl[key].i)
    else Err(ConfigError("Expected " + name + " to be an integer."))
  }

  function BoolOr(tbl: Table, key: string, name: string, def: bool): (r: Result<bool>)
    ensures r.Ok? <==> (key in tbl ==> tbl[key].TBool?)
    ensures r.Ok? ==> BoolField(tbl, key, def, r.value)
    ensures r.Err? ==> r.error == ConfigError("Expected " + name + " to be a boolean.")
  {
    if key !in tbl then Ok(def)
    else if tbl[key].TBool? then Ok(tbl[key].b)
    else Err(ConfigError("Expected " + name + " to be a boolean."))
  }

  /** `_as_str_list`: one element that is not a string rejects the list. */
  function StrListOr(tbl: Table, key: string, name: string, def: seq<string>): (r: Result<seq<string>>)
    ensures r.Ok? <==> (key in tbl ==> IsStrList(tbl[key]))
    ensures r.Ok? ==> StrListField(tbl, key, def, r.value)
    ensures r.Err? ==> r.error == ConfigError("Expected " + name + " to be a list of strings.")
  {
    if key !in tbl then Ok(def)
    else if IsStrList(tbl[key]) then Ok(Strings(tbl[key].items))
    else Err(ConfigError("Expected " + name + " to be a list of strings."))
  }

  // ---------------------------------------------------------------------
  // The sections

  const SectionNames: seq<string> := ["paths", "llm", "build", "test", "prompts", "mcp"]

  predicate PathsTyped(p: Table) {
    ("source_roots" in p ==> IsStrList(p["source_roots"]))
    && ("test_roots" in p ==> IsStrList(p["test_roots"]))
    && ("generated_dir" in p ==> p["generated_dir"].TStr?)
  }

  predicate LlmTyped(l: Table) {
    ("provider" in l ==> l["provider"].TStr?)
    && ("model" in l ==> l["model"].TStr?)
    && ("api_key_env" in l ==> l["api_key_env"].TStr?)
  }

  predicate BuildTyped(b: Table) {
    ("jobs" in b ==> b["jobs"].TInt?) && ("infer_deps" in b ==> b["infer_deps"].TBool?)
  }

  predicate TestTyped(t: Table) {
    ("jobs" in t ==> t["jobs"].TInt?)
    && ("infer_deps" in t ==> t["infer_deps"].TBool?)
    && ("pytest_args" in t ==> IsStrList(t["pytest_args"]))
  }

  predicate PromptsTyped(q: Table) {
    ("build_system" in q ==> q["build_system"].TStr?)
    && ("build_module" in q ==> q["build_module"].TStr?)
    && ("test_system" in q ==> q["test_system"].TStr?)
    && ("test_module" in q ==> q["test_module"].TStr?)
  }

  predicate McpTyped(m: Table) {
    "enabled" in m ==> m["enabled"].TBool?
  }

  /** Every field of every section has its type (absent fields are fine). */
  predicate FieldsTyped(data: Table) {
    PathsTyped(Section(data, "paths")) && LlmTyped(Section(data, "llm"))
    && BuildTyped(Section(data, "build")) && TestTyped(Section(data, "test"))
    && PromptsTyped(Section(data, "prompts")) && McpTyped(Section(data, "mcp"))
  }

  /** The document is usable: `version = 1`, every section a table, every
      field of its type. */
  predicate WellTyped(data: Table) {
    "version" in data && data["version"] == TInt(1)
    && (forall i :: 0 <= i < |SectionNames| ==> SectionOk(data, SectionNames[i]))
    && FieldsTyped(data)
  }

  predicate PathsReflect(c: PathsConfig, p: Table) {
    var d := Defaults.paths;
    StrListField(p, "source_roots", d.sourceRoots, c.sourceRoots)
    && StrListField(p, "test_roots", d.testRoots, c.testRoots)
    && StrField(p, "generated_dir", d.generatedDir, c.generatedDir)
  }

  predicate LlmReflect(c: LlmConfig, l: Table) {
    var d := Defaults.llm;
    StrField(l, "provider", d.provider, c.provider)
    && StrField(l, "model", d.model, c.model)
    && StrField(l, "api_key_env", d.apiKeyEnv, c.apiKeyEnv)
  }

  predicate BuildReflect(c: BuildConfig, b: Table) {
    IntField(b, "jobs", Defaults.build.jobs, c.jobs)
    && BoolField(b, "infer_deps", Defaults.build.inferDeps, c.inferDeps)
  }

  predicate TestReflect(c: TestConfig, t: Table) {
    var d := Defaults.test;
    IntField(t, "jobs", d.jobs, c.jobs)
    && BoolField(t, "infer_deps", d.inferDeps, c.inferDeps)
    && StrListField(t, "pytest_args", d.pytestArgs, c.pytestArgs)
  }

  predicate PromptsReflect(c: PromptsConfig, q: Table) {
    var d := Defaults.prompts;
    StrField(q, "build_system", d.buildSystem, c.buildSystem)
    && StrField(q, "build_module", d.buildModule, c.buildModule)
    && StrField(q, "test_system", d.testSystem, c.testSystem)
    && StrField(q, "test_module", d.testModule, c.testModule)
  }

  predicate McpReflect(c: McpConfig, m: Table) {
    BoolField(m, "enabled", Defaults.mcp.enabled, c.enabled)
  }

  /** The configuration says what the document says, field by field, with
      the defaults for absent fields. */
  predicate Reflects(cfg: JauntConfig, data: Table) {
    cfg.version == 1
    && PathsReflect(cfg.paths, Section(data, "paths"))
    && LlmReflect(cfg.llm, Section(data, "llm"))
    && BuildReflect(cfg.build, Section(data, "build"))
    && TestReflect(cfg.test, Section(data, "test"))
    && PromptsReflect(cfg.prompts, Section(data, "prompts"))
    && McpReflect(cfg.mcp, Section(data, "mcp"))
  }

  function PathsOf(p: Table): (r: Result<PathsConfig>)
    ensures r.Ok? <==> PathsTyped(p)
    ensures r.Ok? ==> PathsReflect(r.value, p)
    ensures r.Err? ==> r.error.ConfigError?
  {
    var sourceRoots :- StrListOr(p, "source_roots", "paths.source_roots", ["src", "."]);
    var testRoots :- StrListOr(p, "test_roots", "paths.test_roots", ["tests"]);
    var generatedDir :- StrOr(p, "generated_dir", "paths.generated_dir", "__generated__");
    Ok(PathsConfig(sourceRoots, testRoots, generatedDir))
  }

  function LlmOf(l: Table): (r: Result<LlmConfig>)
    ensures r.Ok? <==> LlmTyped(l)
    ensures r.Ok? ==> LlmReflect(r.value, l)
    ensures r.Err? ==> r.error.ConfigError?
  {
    var provider :- StrOr(l, "provider", "llm.provider", "openai");
    var model :- StrOr(l, "model", "llm.model", "gpt-5.2");
    var apiKeyEnv :- StrOr(l, "api_key_env", "llm.api_key_env", "OPENAI_API_KEY");
    Ok(LlmConfig(provider, model, apiKeyEnv))
  }

  function BuildOf(b: Table): (r: Result<BuildConfig>)
    ensures r.Ok? <==> BuildTyped(b)
    ensures r.Ok? ==> BuildReflect(r.value, b)
    ensures r.Err? ==> r.error.ConfigError?
  {
    var jobs :- IntOr(b, "jobs", "build.jobs", 8);
    var inferDeps :- BoolOr(b, "infer_deps", "build.infer_deps", true);
    Ok(BuildConfig(jobs, inferDeps))
  }

  function TestOf(t: Table): (r: Result<TestConfig>)
    ensures r.Ok? <==> TestTyped(t)
    ensures r.Ok? ==> TestReflect(r.value, t)
    ensures r.Err? ==> r.error.ConfigError?
  {
    var jobs :- IntOr(t, "jobs", "test.jobs", 4);
    var inferDeps :- BoolOr(t, "infer_deps", "test.infer_deps", true);
    var pytestArgs :- StrListOr(t, "pytest_args", "test.pytest_args", ["-q"]);
    Ok(TestConfig(jobs, inferDeps, pytestArgs))
  }

  function PromptsOf(q: Table): (r: Result<PromptsConfig>)
    ensures r.Ok? <==> PromptsTyped(q)
    ensures r.Ok? ==> PromptsReflect(r.value, q)
    ensures r.Err? ==> r.error.ConfigError?
  {
    var buildSystem :- StrOr(q, "build_system", "prompts.build_system", "");
    var buildModule :- StrOr(q, "build_module", "prompts.build_module", "");
    var testSystem :- StrOr(q, "test_system", "prompts.test_system", "");
    var testModule :- StrOr(q, "test_module", "prompts.test_module", "");
    Ok(PromptsConfig(buildSystem, buildModule, testSystem, testModule))
  }

  function McpOf(m: Table): (r: Result<McpConfig>)
    ensures r.Ok? <==> McpTyped(m)
    ensures r.Ok? ==> McpReflect(r.value, m)
    ensures r.Err? ==> r.error.ConfigError?
  {
    var enabled :- BoolOr(m, "enabled", "mcp.enabled", true);
    Ok(McpConfig(enabled))
  }

  /** Reading the fields of all six sections, in the order of the source. */
  function FieldsOf(data: Table): (r: Result<JauntConfig>)
    ensures r.Ok? <==> FieldsTyped(data)
    ensures r.Ok? ==> Reflects(r.value, data)
    ensures r.Err? ==> r.error.ConfigError?
  {
    Assemble(PathsOf(Section(data, "paths")), LlmOf(Section(data, "llm")),
             BuildOf(Section(data, "build")), TestOf(Section(data, "test")),
             PromptsOf(Section(data, "prompts")), McpOf(Section(data, "mcp")))
  }

  /** The six sections read one after the other: the first failure is the
      error. */
  function Assemble(p: Result<PathsConfig>, l: Result<LlmConfig>, b: Result<BuildConfig>,
                    t: Result<TestConfig>, q: Result<PromptsConfig>, m: Result<McpConfig>)
    : (r: Result<JauntConfig>)
    ensures r.Ok? <==> p.Ok? && l.Ok? && b.Ok? && t.Ok? && q.Ok? && m.Ok?
    ensures r.Ok? ==> r.value == JauntConfig(1, p.value, l.value, b.value, t.value, q.value, m.value)
    ensures p.Err? ==> r == Err(p.error)
    ensures r.Err? ==> ((p.Err? && r.error == p.error) || (l.Err? && r.error == l.error)
                        || (b.Err? && r.error == b.error) || (t.Err? && r.error == t.error)
                        || (q.Err? && r.error == q.error) || (m.Err? && r.error == m.error))
  {
    var paths :- p;
    var llm :- l;
    var build :- b;
    var test :- t;
    var prompts :- q;
    var mcp :- m;
    Ok(JauntConfig(1, paths, llm, build, test, prompts, mcp))
  }

  // ---------------------------------------------------------------------
  // Validation

  /** What the source demands of a loaded configuration: some source root
      exists, the generated directory is an identifier that is not a
      keyword, and both job counts are at least one. */
  predicate Valid(cfg: JauntConfig, rootExists: string -> bool) {
    (exists i :: 0 <= i < |cfg.paths.sourceRoots| && rootExists(cfg.paths.sourceRoots[i]))
    && Text.IsIdentifier(cfg.paths.generatedDir) && !Text.IsKeyword(cfg.paths.generatedDir)
    && cfg.build.jobs >= 1 && cfg.test.jobs >= 1
  }

  const NoSourceRootMessage: string :=
    "Invalid config: none of paths.source_roots exist on disk relative to the project root."
  const GeneratedDirMessage: string :=
    "Invalid config: paths.generated_dir must be a valid Python identifier."
  const JobsMessage: string := "Invalid config: jobs must be >= 1."

  /** The three checks, in order; the first that fails gives the error. */
  function Validate(cfg: JauntConfig, rootExists: string -> bool): (r: Result<JauntConfig>)
    ensures r.Ok? <==> Valid(cfg, rootExists)
    ensures r.Ok? ==> r.value == cfg
    ensures r.Err? ==> r.error in {
      ConfigError(NoSourceRootMessage), ConfigError(GeneratedDirMessage), ConfigError(JobsMessage)}
    ensures (forall i :: 0 <= i < |cfg.paths.sourceRoots| ==> !rootExists(cfg.paths.sourceRoots[i]))
      ==> r == Err(ConfigError(NoSourceRootMessage))
  {
    if !(exists i :: 0 <= i < |cfg.paths.sourceRoots| && rootExists(cfg.paths.sourceRoots[i])) then
      Err(ConfigError(NoSourceRootMessage))
    else if !Text.IsIdentifier(cfg.paths.generatedDir) || Text.IsKeyword(cfg.paths.generatedDir) then
      Err(ConfigError(GeneratedDirMessage))
    else if cfg.build.jobs < 1 || cfg.test.jobs < 1 then
      Err(ConfigError(JobsMessage))
    else Ok(cfg)
  }

  // ---------------------------------------------------------------------
  // load_config

  const MissingVersionMessage: string := "Missing required `version = 1` in jaunt.toml."
  const VersionTypeMessage: string := "Expected version to be an integer."

  function UnsupportedVersionMessage(v: int): string {
    "Unsupported config version: " + PyValues.IntToString(v) + " (expected 1)."
  }

  /** The version check: present, an integer, and 1. */
  function CheckVersion(data: Table): (r: Result<int>)
    ensures r.Ok? <==> "version" in data && data["version"] == TInt(1)
  {
    if "version" !in data then Err(ConfigError(MissingVersionMessage))
    else if !data["version"].TInt? then Err(ConfigError(VersionTypeMessage))
    else if data["version"].i != 1 then Err(ConfigError(UnsupportedVersionMessage(data["version"].i)))
    else Ok(1)
  }

  /** The section checks, in the order of the source. */
  function CheckSections(data: Table, names: seq<string>): (r: Result<()>)
    ensures r.Ok? <==> forall i :: 0 <= i < |names| ==> SectionOk(data, names[i])
    ensures r.Err? ==> exists i :: (0 <= i < |names| && !SectionOk(data, names[i])
      && (forall j :: 0 <= j < i ==> SectionOk(data, names[j]))
      && r.error == ConfigError("Expected [" + names[i] + "] to be a table."))
  {
    if names == [] then Ok(())
    else
      var _ :- AsTable(data, names[0]);
      var r := CheckSections(data, names[1..]);
      if r.Err? then
        var i :| 0 <= i < |names[1..]| && !SectionOk(data, names[1..][i])
          && (forall j :: 0 <= j < i ==> SectionOk(data, names[1..][j]))
          && r.error == ConfigError("Expected [" + names[1..][i] + "] to be a table.");
        assert names[i + 1] == names[1..][i];
        assert forall j :: 1 <= j < i + 1 ==> names[j] == names[1..][j - 1];
        r
      else
        assert forall i :: 1 <= i < |names| ==> names[i] == names[1..][i - 1];
        r
  }

  /** The parsed document to the configuration: version, sections, fields,
      then the validation. */
  function LoadData(data: Table, rootExists: string -> bool): (r: Result<JauntConfig>)
    ensures "version" !in data ==> r == Err(ConfigError(MissingVersionMessage))
    ensures "version" in data && !data["version"].TInt? ==> r == Err(ConfigError(VersionTypeMessage))
    ensures "version" in data && data["version"].TInt? && data["version"].i != 1
      ==> r == Err(ConfigError(UnsupportedVersionMessage(data["version"].i)))
    ensures CheckVersion(data).Ok? && CheckSections(data, SectionNames).Err?
      ==> r == Err(CheckSections(data, SectionNames).error)
    ensures r.Ok? ==> WellTyped(data) && Reflects(r.value, data) && Valid(r.value, rootExists)
    ensures r.Err? ==> r.error.ConfigError?
  {
    var _ :- CheckVersion(data);
    var _ :- CheckSections(data, SectionNames);
    var cfg :- FieldsOf(data);
    Validate(cfg, rootExists)
  }

  /** The loaded configuration is determined by the document: two
      configurations that both reflect it are equal. */
  lemma ReflectsUnique(c1: JauntConfig, c2: JauntConfig, data: Table)
    requires Reflects(c1, data) && Reflects(c2, data)
    ensures c1 == c2
  {
    var p := Section(data, "paths");
    var t := Section(data, "test");
    ListFieldUnique(p, "source_roots", Defaults.paths.sourceRoots, c1.paths.sourceRoots, c2.paths.sourceRoots);
    ListFieldUnique(p, "test_roots", Defaults.paths.testRoots, c1.paths.testRoots, c2.paths.testRoots);
    ListFieldUnique(t, "pytest_args", Defaults.test.pytestArgs, c1.test.pytestArgs, c2.test.pytestArgs);
    assert c1.paths == c2.paths && c1.test == c2.test;
  }

  lemma ListFieldUnique(tbl: Table, key: string, def: seq<string>, v1: seq<string>, v2: seq<string>)
    requires StrListField(tbl, key, def, v1) && StrListField(tbl, key, def, v2)
    ensures v1 == v2
  {
    if key in tbl {
      assert forall i :: 0 <= i < |v1| ==> TStr(v1[i]) == tbl[key].items[i] == TStr(v2[i]);
    }
  }

  /** The converse of `LoadData`'s guarantee: a well-typed document whose
      configuration passes validation loads to exactly that configuration. */
  lemma LoadAccepts(data: Table, cfg: JauntConfig, rootExists: string -> bool)
    requires WellTyped(data) && Reflects(cfg, data) && Valid(cfg, rootExists)
    ensures LoadData(data, rootExists) == Ok(cfg)
  {
    var f := FieldsOf(data);
    assert f.Ok?;
    ReflectsUnique(f.value, cfg, data);
  }

  /** Without any section every field takes its default. */
  lemma NoSectionsGiveDefaults(data: Table)
    requires forall i :: 0 <= i < |SectionNames| ==> SectionNames[i] !in data
    ensures FieldsTyped(data) && Reflects(Defaults, data)
    ensures forall i :: 0 <= i < |SectionNames| ==> SectionOk(data, SectionNames[i])
  {
    assert SectionNames[0] !in data && SectionNames[1] !in data && SectionNames[2] !in data;
    assert SectionNames[3] !in data && SectionNames[4] !in data && SectionNames[5] !in data;
  }

  /** The defaults pass validation when "src" or "." exists. */
  lemma DefaultsValid(rootExists: string -> bool)
    requires rootExists("src") || rootExists(".")
    ensures Valid(Defaults, rootExists)
  {
    if rootExists("src") {
      assert Defaults.paths.sourceRoots[0] == "src";
    } else {
      assert Defaults.paths.sourceRoots[1] == ".";
    }
    assert Text.IsIdentifier("__generated__");
  }

  /** A document with `version = 1` and no section (other top-level keys
      are ignored) loads to the defaults, as long as "src" or "." exists. */
  lemma DefaultsApply(data: Table, rootExists: string -> bool)
    requires "version" in data && data["version"] == TInt(1)
    requires forall i :: 0 <= i < |SectionNames| ==> SectionNames[i] !in data
    requires rootExists("src") || rootExists(".")
    ensures LoadData(data, rootExists) == Ok(Defaults)
  {
    NoSectionsGiveDefaults(data);
    DefaultsValid(rootExists);
    LoadAccepts(data, Defaults, rootExists);
  }

  /** How reading the file ended. */
  datatype ConfigFile =
    | NotFound
    | ReadFailed
    | NotUtf8
    | BadToml(err: string)
    | Parsed(data: Table)

  /** `load_config` once the file's location is known. */
  function LoadConfig(file: ConfigFile, configPath: string, rootExists: string -> bool): (r: Result<JauntConfig>)
    ensures file.NotFound? ==> r == Err(ConfigError("Missing jaunt.toml at: " + configPath))
    ensures file.ReadFailed? ==> r == Err(ConfigError("Failed reading config file: " + configPath))
    ensures file.NotUtf8? ==> r == Err(ConfigError("Config is not valid UTF-8: " + configPath))
    ensures file.BadToml? ==> r == Err(ConfigError("Invalid TOML in " + configPath + ": " + file.err))
    ensures r.Ok? ==> file.Parsed? && Reflects(r.value, file.data) && Valid(r.value, rootExists)
  {
    match file
    case NotFound => Err(ConfigError("Missing jaunt.toml at: " + configPath))
    case ReadFailed => Err(ConfigError("Failed reading config file: " + configPath))
    case NotUtf8 => Err(ConfigError("Config is not valid UTF-8: " + configPath))
    case BadToml(e) => Err(ConfigError("Invalid TOML in " + configPath + ": " + e))
    case Parsed(data) => LoadData(data, rootExists)
  }
}

=== FILE: deps.dfy ===
/** Building the spec-level dependency graph from decorator metadata, and
    collapsing it to a module-level graph (jaunt/deps.py). */
module Deps {
  import opened Wrappers
  import opened Text
  import opened PyValues
  import opened SpecRefs
  import opened Registry
  import opened Graphs

  /** `d.get(key)`: `None` when the key is absent. */
  function Get(kwargs: map<string, Value>, key: string): Value {
    if key in kwargs then kwargs[key] else NoneV
  }

  /** `_iter_deps_value(value)`: nothing for `None`, the items of a list,
      tuple or set, and the value itself otherwise. */
  function IterDepsValue(v: Value): (r: seq<Value>)
    ensures v.NoneV? ==> r == []
    ensures v.IsCollection() ==> r == v.items
    ensures !v.NoneV? && !v.IsCollection() ==> r == [v]
  {
    if v.NoneV? then []
    else if v.IsCollection() then v.items
    else [v]
  }

  /** `_normalize_dep(dep)`: the canonical ref of a string or a decorated
      object, or nothing when it cannot be normalised. */
  function NormalizeDep(dep: Value): (r: Option<string>)
    ensures r.Some? ==> IsCanonical(r.value)
    ensures dep.StrV? ==> (r.Some? <==> NormalizeSpecRef(dep).Ok?)
    ensures !dep.StrV? ==> (r.Some? <==> SpecRefFromObject(dep).Ok?)
  {
    var res := if dep.StrV? then NormalizeSpecRef(dep) else SpecRefFromObject(dep);
    if res.Ok? then Some(res.value) else None
  }

  /** A canonical string dependency is taken as it is. */
  lemma NormalizeDepCanonical(s: string)
    requires IsCanonical(s)
    ensures NormalizeDep(StrV(s)) == Some(s)
  {
    CanonicalIsFixed(s);
  }

  /** The explicit `deps=` edges of `self`: normalised, known, not itself. */
  function ExplicitDeps(deps: seq<Value>, self: string, known: set<string>): (r: set<string>)
    ensures r <= known && self !in r
    ensures forall d :: d in r <==>
      (exists i :: 0 <= i < |deps| && NormalizeDep(deps[i]) == Some(d)) && d != self && d in known
  {
    set i, d | 0 <= i < |deps| && NormalizeDep(deps[i]) == Some(d) && d != self && d in known :: d
  }

  /** Whether inference runs for an entry: its `infer_deps=` keyword when
      given (and not `None`), else the project default. */
  predicate InferEnabled(e: SpecEntry, inferDefault: bool) {
    var o := Get(e.kwargs, "infer_deps");
    if o.NoneV? then inferDefault else Truthy(o)
  }

  /** The inferred edges kept for `self`: candidates that are known specs
      other than itself. `None` stands for inference that failed, found no
      parse or found no definition, all of which contribute nothing. */
  function InferredDeps(candidates: Option<set<string>>, self: string, known: set<string>): (r: set<string>)
    ensures r <= known && self !in r
    ensures candidates.None? ==> r == {}
    ensures candidates.Some? ==> forall d :: d in r <==> d in candidates.value && d in known && d != self
  {
    if candidates.None? then {} else candidates.value * known - {self}
  }

  /** The dependencies recorded for one spec. */
  function SpecDeps(specs: map<string, SpecEntry>, inferDefault: bool,
                    infer: SpecEntry -> Option<set<string>>, sr: string): (r: set<string>)
    requires sr in specs
    ensures r <= specs.Keys && sr !in r
    ensures forall d :: d in r ==>
      d in ExplicitDeps(IterDepsValue(Get(specs[sr].kwargs, "deps")), sr, specs.Keys)
      || (InferEnabled(specs[sr], inferDefault) && infer(specs[sr]).Some? && d in infer(specs[sr]).value)
    ensures ExplicitDeps(IterDepsValue(Get(specs[sr].kwargs, "deps")), sr, specs.Keys) <= r
    ensures InferEnabled(specs[sr], inferDefault) ==> InferredDeps(infer(specs[sr]), sr, specs.Keys) <= r
  {
    ExplicitDeps(IterDepsValue(Get(specs[sr].kwargs, "deps")), sr, specs.Keys)
    + (if InferEnabled(specs[sr], inferDefault) then InferredDeps(infer(specs[sr]), sr, specs.Keys) else {})
  }

  /** `build_spec_graph(specs, infer_default=...)`. `infer(e)` stands for the
      best-effort source analysis of `e`'s definition. */
  function BuildSpecGraph(specs: map<string, SpecEntry>, inferDefault: bool,
                          infer: SpecEntry -> Option<set<string>>): (g: Graph)
    ensures g.Keys == specs.Keys
    ensures Nodes(g) == specs.Keys
    ensures forall sr :: sr in g ==> sr !in g[sr]
    ensures forall sr, d :: sr in g && d in g[sr] ==>
      d in ExplicitDeps(IterDepsValue(Get(specs[sr].kwargs, "deps")), sr, specs.Keys)
      || (InferEnabled(specs[sr], inferDefault) && infer(specs[sr]).Some? && d in infer(specs[sr]).value)
    ensures forall sr :: sr in g ==> ExplicitDeps(IterDepsValue(Get(specs[sr].kwargs, "deps")), sr, specs.Keys) <= g[sr]
    ensures forall sr :: sr in g && InferEnabled(specs[sr], inferDefault) ==>
      InferredDeps(infer(specs[sr]), sr, specs.Keys) <= g[sr]
  {
    var g := map sr | sr in specs :: SpecDeps(specs, inferDefault, infer, sr);
    ClosedNodes(g);
    g
  }

  /** Explicit edges survive whatever inference does. */
  lemma ExplicitEdgesKept(specs: map<string, SpecEntry>, inferDefault: bool,
                          infer: SpecEntry -> Option<set<string>>, sr: string, dep: Value)
    requires sr in specs
    requires dep in IterDepsValue(Get(specs[sr].kwargs, "deps"))
    requires NormalizeDep(dep).Some?
    requires NormalizeDep(dep).value in specs && NormalizeDep(dep).value != sr
    ensures Edge(BuildSpecGraph(specs, inferDefault, infer), sr, NormalizeDep(dep).value)
  {
    var deps := IterDepsValue(Get(specs[sr].kwargs, "deps"));
    var i :| 0 <= i < |deps| && deps[i] == dep;
    assert NormalizeDep(deps[i]) == Some(NormalizeDep(dep).value);
  }

  /** With inference off, the graph holds the explicit edges only, so it does
      not depend on the analysis at all. */
  lemma NoInferenceExplicitOnly(specs: map<string, SpecEntry>, inferDefault: bool,
                                infer1: SpecEntry -> Option<set<string>>,
                                infer2: SpecEntry -> Option<set<string>>)
    requires forall sr :: sr in specs ==> !InferEnabled(specs[sr], inferDefault)
    ensures BuildSpecGraph(specs, inferDefault, infer1) == BuildSpecGraph(specs, inferDefault, infer2)
  {
  }

  /** A failing analysis contributes no edge: the result is the same as
      with inference disabled for that entry. */
  lemma FailedInferenceAddsNothing(specs: map<string, SpecEntry>, inferDefault: bool,
                                   infer: SpecEntry -> Option<set<string>>, sr: string)
    requires sr in specs && infer(specs[sr]).None?
    ensures BuildSpecGraph(specs, inferDefault, infer)[sr]
      == ExplicitDeps(IterDepsValue(Get(specs[sr].kwargs, "deps")), sr, specs.Keys)
  {
  }

  // ---------------------------------------------------------------------------
  // Module-level graph.
  // ---------------------------------------------------------------------------

  /** `mod_of(sr)`: the text before the first colon. */
  function ModOf(sr: string): (m: string)
    ensures ':' !in m
    ensures IsCanonical(sr) ==> sr == m + ":" + SplitOnce(sr, ':').1.value
  {
    Head(sr, ':')
  }

  /** The module-level edges out of `m`: modules of dependencies of `m`'s
      specs, other than `m` itself. */
  function ModuleDeps(sg: Graph, m: string): (r: set<string>)
    ensures m !in r
    ensures forall a, b :: Edge(sg, a, b) && ModOf(a) == m && ModOf(b) != m ==> ModOf(b) in r
  {
    set sr, d | sr in sg && d in sg[sr] && ModOf(sr) == m && ModOf(d) != m :: ModOf(d)
  }

  /** `collapse_to_module_dag(spec_graph)`. */
  function CollapseToModuleDag(sg: Graph): (mg: Graph)
    ensures mg.Keys == set x | x in Nodes(sg) :: ModOf(x)
    ensures forall m :: m in mg ==> m !in mg[m]
    ensures forall a, b :: Edge(sg, a, b) && ModOf(a) != ModOf(b) ==> Edge(mg, ModOf(a), ModOf(b))
    ensures forall m, dm :: Edge(mg, m, dm) ==>
      exists sr, d :: sr in sg && d in sg[sr] && ModOf(sr) == m && ModOf(d) == dm
  {
    var mods := set x | x in Nodes(sg) :: ModOf(x);
    map m | m in mods :: ModuleDeps(sg, m)
  }
}

=== FILE: deps_order.dfy ===
/** The depth-first search shared by `toposort` and `find_cycles`
    (jaunt/deps.py), and both of those operations. */
module DepsOrder {
  import opened Wrappers
  import opened Strings
  import opened Sorting
  import opened Text
  import opened Graphs

  /** Search state: finished nodes, nodes on the current path (as a set and
      as the recursion stack), the post-order, and each back-edge cycle in
      the order the search meets it (`stack[i:]` for the re-entered node). */
  datatype Dfs = Dfs(
    perm: set<string>,
    temp: set<string>,
    stack: seq<string>,
    order: seq<string>,
    found: seq<seq<string>>)

  function Elems(s: seq<string>): set<string> {
    set x | x in s
  }

  ghost predicate StackPath(g: Graph, stack: seq<string>) {
    forall i :: 0 <= i < |stack| - 1 ==> Edge(g, stack[i], stack[i + 1])
  }

  ghost predicate Inv(g: Graph, s: Dfs) {
    s.temp <= Nodes(g) && s.perm <= Nodes(g)
    && Elems(s.stack) == s.temp && Distinct(s.stack)
    && StackPath(g, s.stack)
    && s.perm !! s.temp
    && Elems(s.order) == s.perm && Distinct(s.order)
    && (s.found == [] ==> DepsFirst(g, s.order))
    && (forall k :: 0 <= k < |s.found| ==> IsCycle(g, s.found[k]) && Distinct(s.found[k]))
  }

  /** What a call leaves alone or only extends. */
  ghost predicate Extends(s: Dfs, r: Dfs) {
    r.temp == s.temp && r.stack == s.stack && s.perm <= r.perm
    && |s.order| <= |r.order| && r.order[..|s.order|] == s.order
    && |s.found| <= |r.found| && r.found[..|s.found|] == s.found
  }

  lemma ExtendsTrans(a: Dfs, b: Dfs, c: Dfs)
    requires Extends(a, b) && Extends(b, c)
    ensures Extends(a, c)
  {
    assert c.order[..|a.order|] == c.order[..|b.order|][..|a.order|];
    assert c.found[..|a.found|] == c.found[..|b.found|][..|a.found|];
  }

  /** `visit(n)`: re-entering a node on the stack records the cycle
      `stack[stack.index(n):]`; a new node is searched through its
      dependencies in sorted order and then appended to the post-order. */
  function Visit(g: Graph, n: string, s: Dfs): (r: Dfs)
    requires Inv(g, s) && n in Nodes(g)
    requires s.stack == [] || Edge(g, s.stack[|s.stack| - 1], n)
    ensures Inv(g, r) && Extends(s, r)
    ensures r.found == s.found ==> n in r.perm
    decreases |Nodes(g) - s.temp|, 1
  {
    if n in s.perm then s
    else if n in s.temp then Revisit(g, n, s)
    else Expand(g, n, s)
  }

  /** Re-entering `n`, which is on the stack: the cycle from its position to
      the top is recorded. */
  function Revisit(g: Graph, n: string, s: Dfs): (r: Dfs)
    requires Inv(g, s) && n in s.temp
    requires s.stack == [] || Edge(g, s.stack[|s.stack| - 1], n)
    ensures Inv(g, r) && Extends(s, r)
    ensures |r.found| == |s.found| + 1
  {
    var i := Pos(s.stack, n);
    BackEdge(g, s, n, i);
    s.(found := s.found + [s.stack[i..]])
  }

  /** Entering a new node: its dependencies in sorted order, then the node
      itself in the post-order. */
  function Expand(g: Graph, n: string, s: Dfs): (r: Dfs)
    requires Inv(g, s) && n in Nodes(g) && n !in s.temp && n !in s.perm
    requires s.stack == [] || Edge(g, s.stack[|s.stack| - 1], n)
    ensures Inv(g, r) && Extends(s, r)
    ensures r.found == s.found ==> n in r.perm
    decreases |Nodes(g) - s.temp|, 0
  {
    var s1 := Push(g, s, n);
    var s2 := VisitAll(g, n, SortSet(Succ(g, n)), s1);
    Pop(g, s, n, s1, s2)
  }

  /** `temp.add(n)` and `stack.append(n)`. */
  function Push(g: Graph, s: Dfs, n: string): (s1: Dfs)
    requires Inv(g, s) && n in Nodes(g) && n !in s.temp && n !in s.perm
    requires s.stack == [] || Edge(g, s.stack[|s.stack| - 1], n)
    ensures Inv(g, s1) && s1 == s.(temp := s.temp + {n}, stack := s.stack + [n])
    ensures |s1.stack| > 0 && s1.stack[|s1.stack| - 1] == n
    ensures |Nodes(g) - s1.temp| < |Nodes(g) - s.temp|
  {
    var s1 := s.(temp := s.temp + {n}, stack := s.stack + [n]);
    Enter(g, s, n);
    assert Nodes(g) - s1.temp < Nodes(g) - s.temp by { assert n in Nodes(g) - s.temp; }
    s1
  }

  /** `stack.pop()`, `temp.remove(n)`, `perm.add(n)`, `order.append(n)`. */
  function Pop(g: Graph, s: Dfs, n: string, s1: Dfs, s2: Dfs): (r: Dfs)
    requires Inv(g, s) && n in Nodes(g) && n !in s.temp && n !in s.perm
    requires s1 == s.(temp := s.temp + {n}, stack := s.stack + [n])
    requires Inv(g, s2) && Extends(s1, s2)
    requires s2.found == s1.found ==> Succ(g, n) <= s2.perm
    ensures Inv(g, r) && Extends(s, r) && (r.found == s.found ==> n in r.perm)
  {
    var r := Dfs(s2.perm + {n}, s2.temp - {n}, s.stack, s2.order + [n], s2.found);
    Leave(g, s, n, s1, s2, r);
    r
  }

  /** The loop over one node's dependencies. */
  function VisitAll(g: Graph, parent: string, deps: seq<string>, s: Dfs): (r: Dfs)
    requires Inv(g, s) && |s.stack| > 0 && s.stack[|s.stack| - 1] == parent
    requires forall i :: 0 <= i < |deps| ==> deps[i] in Succ(g, parent)
    ensures Inv(g, r) && Extends(s, r)
    ensures r.found == s.found ==> forall i :: 0 <= i < |deps| ==> deps[i] in r.perm
    decreases |Nodes(g) - s.temp|, |deps| + 2
  {
    if |deps| == 0 then s
    else
      DepIsNode(g, parent, deps[0]);
      var s1 := Visit(g, deps[0], s);
      var r := VisitAll(g, parent, deps[1..], s1);
      ExtendsTrans(s, s1, r);
      TailCovers(deps, s, s1, r);
      r
  }

  lemma DepIsNode(g: Graph, parent: string, d: string)
    requires d in Succ(g, parent)
    ensures d in Nodes(g) && Edge(g, parent, d)
  {
  }

  /** If nothing new was found over the whole list, nothing was found on its
      first element either, so every element finished. */
  lemma TailCovers(xs: seq<string>, s: Dfs, s1: Dfs, r: Dfs)
    requires |xs| > 0
    requires Extends(s, s1) && Extends(s1, r)
    requires s1.found == s.found ==> xs[0] in s1.perm
    requires r.found == s1.found ==> forall i :: 0 <= i < |xs| - 1 ==> xs[1..][i] in r.perm
    ensures r.found == s.found ==> forall i :: 0 <= i < |xs| ==> xs[i] in r.perm
  {
    if r.found == s.found {
      assert s1.found == r.found[..|s1.found|];
      assert s1.found == s.found;
      forall i | 0 <= i < |xs| ensures xs[i] in r.perm {
        if i > 0 { assert xs[i] == xs[1..][i - 1]; }
      }
    }
  }

  lemma BackEdge(g: Graph, s: Dfs, n: string, i: nat)
    requires Inv(g, s) && n in s.temp && n in s.stack && i == Pos(s.stack, n)
    requires s.stack == [] || Edge(g, s.stack[|s.stack| - 1], n)
    ensures Inv(g, s.(found := s.found + [s.stack[i..]]))
  {
    var c := s.stack[i..];
    assert c[0] == n;
    forall j | 0 <= j < |c| - 1 ensures Edge(g, c[j], c[j + 1]) {
      assert c[j] == s.stack[i + j] && c[j + 1] == s.stack[i + j + 1];
    }
    assert c[|c| - 1] == s.stack[|s.stack| - 1];
    assert IsCycle(g, c);
  }

  lemma Enter(g: Graph, s: Dfs, n: string)
    requires Inv(g, s) && n in Nodes(g) && n !in s.temp && n !in s.perm
    requires s.stack == [] || Edge(g, s.stack[|s.stack| - 1], n)
    ensures Inv(g, s.(temp := s.temp + {n}, stack := s.stack + [n]))
  {
    var st := s.stack + [n];
    assert Elems(st) == s.temp + {n};
    forall i | 0 <= i < |st| - 1 ensures Edge(g, st[i], st[i + 1]) {
      if i < |s.stack| - 1 { assert st[i] == s.stack[i] && st[i + 1] == s.stack[i + 1]; }
    }
  }

  lemma Leave(g: Graph, s: Dfs, n: string, s1: Dfs, s2: Dfs, r: Dfs)
    requires Inv(g, s) && n in Nodes(g) && n !in s.temp && n !in s.perm
    requires s1 == s.(temp := s.temp + {n}, stack := s.stack + [n])
    requires Inv(g, s2) && Extends(s1, s2)
    requires s2.found == s1.found ==> Succ(g, n) <= s2.perm
    requires r == Dfs(s2.perm + {n}, s2.temp - {n}, s.stack, s2.order + [n], s2.found)
    ensures Inv(g, r) && Extends(s, r) && (r.found == s.found ==> n in r.perm)
  {
    assert n in s2.temp;
    assert n !in s2.perm;
    assert r.temp == s.temp;
    assert Elems(r.order) == r.perm;
    assert Distinct(r.order) by {
      forall i, j | 0 <= i < j < |r.order| ensures r.order[i] != r.order[j] {
        if j == |r.order| - 1 { assert r.order[i] in s2.order; }
      }
    }
    if r.found == [] {
      assert s2.found == s1.found;
      assert forall i :: 0 <= i < |s2.order| ==> r.order[..i] == s2.order[..i];
      assert r.order[..|s2.order|] == s2.order;
      assert Succ(g, r.order[|s2.order|]) <= Elems(s2.order);
    }
    assert r.order[..|s.order|] == s2.order[..|s1.order|];
  }

  /** The top-level loop over every node in sorted order. */
  function VisitRoots(g: Graph, roots: seq<string>, s: Dfs): (r: Dfs)
    requires Inv(g, s) && s.stack == []
    requires forall i :: 0 <= i < |roots| ==> roots[i] in Nodes(g)
    ensures Inv(g, r) && Extends(s, r)
    ensures r.found == s.found ==> forall i :: 0 <= i < |roots| ==> roots[i] in r.perm
    decreases |roots|
  {
    if |roots| == 0 then s
    else
      var s1 := if roots[0] !in s.perm then Visit(g, roots[0], s) else s;
      var r := VisitRoots(g, roots[1..], s1);
      ExtendsTrans(s, s1, r);
      TailCovers(roots, s, s1, r);
      r
  }

  const Start: Dfs := Dfs({}, {}, [], [], [])

  lemma StartInv(g: Graph)
    ensures Inv(g, Start)
  {
  }

  /** The whole search. With no back edge it finishes every node in a
      dependencies-first order; every back edge it meets is a cycle. */
  function Search(g: Graph): (r: Dfs)
    ensures Inv(g, r) && r.temp == {} && r.stack == []
    ensures r.found == [] ==> r.perm == Nodes(g)
  {
    var roots := SortSet(Nodes(g));
    StartInv(g);
    VisitEveryNode(g, roots)
  }

  function VisitEveryNode(g: Graph, roots: seq<string>): (r: Dfs)
    requires forall x :: x in roots <==> x in Nodes(g)
    ensures Inv(g, r) && r.temp == {} && r.stack == []
    ensures r.found == [] ==> r.perm == Nodes(g)
  {
    StartInv(g);
    var r := VisitRoots(g, roots, Start);
    if r.found == [] then
      AllRootsFinished(g, roots, r.perm);
      r
    else r
  }

  lemma AllRootsFinished(g: Graph, roots: seq<string>, perm: set<string>)
    requires forall x :: x in roots <==> x in Nodes(g)
    requires perm <= Nodes(g)
    requires forall i :: 0 <= i < |roots| ==> roots[i] in perm
    ensures perm == Nodes(g)
  {
  }

  lemma SearchFindsCycleIffCyclic(g: Graph)
    ensures Search(g).found == [] <==> Acyclic(g)
  {
    var r := Search(g);
    if r.found == [] {
      DepsFirstImpliesAcyclic(g, r.order);
    } else {
      assert IsCycle(g, r.found[0]);
    }
  }

  /** The cycle error's message: the path from the first node round the
      cycle and back to it, so it starts and ends at the same node. */
  function CycleMessage(c: seq<string>): (r: string)
    requires |c| > 0
    ensures StartsWith(r, "Dependency cycle detected: " + c[0])
    ensures EndsWith(r, " -> " + c[0])
  {
    var path := Join(c, " -> ");
    JoinSnoc(c, c[0], " -> ");
    JoinStartsWithFirst(c, " -> ");
    var r := "Dependency cycle detected: " + Join(c + [c[0]], " -> ");
    assert r == "Dependency cycle detected: " + path + (" -> " + c[0]);
    assert r[..27 + |c[0]|] == "Dependency cycle detected: " + path[..|c[0]|];
    r
  }

  /** `toposort(graph)`: every node exactly once, dependencies before
      dependents; on a cycle, a cycle error naming the cycle's path. */
  function Toposort(g: Graph): (r: Result<seq<string>>)
    ensures r.Ok? <==> Acyclic(g)
    ensures r.Ok? ==> Distinct(r.value) && Elems(r.value) == Nodes(g) && DepsFirst(g, r.value)
    ensures r.Err? ==> exists c :: IsCycle(g, c) && r.error == CycleError(CycleMessage(c))
  {
    var s := Search(g);
    SearchFindsCycleIffCyclic(g);
    if s.found == [] then Ok(s.order)
    else
      assert IsCycle(g, s.found[0]);
      Err(CycleError(CycleMessage(s.found[0])))
  }

  /** Rotates a cycle so that its smallest node (by `str`) comes first,
      picking the first smallest position as `min(range(...), key=...)` does. */
  function Rotate(c: seq<string>): (r: seq<string>)
    requires |c| > 0
    ensures |r| == |c| && multiset(r) == multiset(c)
    ensures forall i :: 0 <= i < |r| ==> LexLe(r[0], r[i])
    ensures exists k :: 0 <= k < |c| && r == c[k..] + c[..k]
  {
    LexLeTotalPreorder();
    var k := ArgMin(c, LexLe);
    RotationAt(c, k);
    c[k..] + c[..k]
  }

  /** Rotating `c` to start at position `k`: a permutation whose element
      `i` is element `(k + i) mod |c|` of `c`. */
  lemma RotationAt(c: seq<string>, k: nat)
    requires k < |c|
    ensures var r := c[k..] + c[..k];
      |r| == |c| && multiset(r) == multiset(c) && r[0] == c[k]
      && forall i :: 0 <= i < |r| ==> r[i] == c[if i < |c| - k then k + i else i - (|c| - k)]
  {
    assert c == c[..k] + c[k..];
  }

  lemma RotateDistinct(c: seq<string>, k: nat)
    requires Distinct(c) && k < |c|
    ensures Distinct(c[k..] + c[..k])
  {
    var r := c[k..] + c[..k];
    forall i, j | 0 <= i < j < |r| ensures r[i] != r[j] {
      var ii := if i < |c| - k then k + i else i - (|c| - k);
      var jj := if j < |c| - k then k + j else j - (|c| - k);
      assert r[i] == c[ii];
      assert r[j] == c[jj];
      assert ii != jj;
    }
  }

  lemma RotateKeepsCycle(g: Graph, c: seq<string>)
    requires IsCycle(g, c) && Distinct(c)
    ensures IsCycle(g, Rotate(c)) && Distinct(Rotate(c))
  {
    var k :| 0 <= k < |c| && Rotate(c) == c[k..] + c[..k];
    RotateCycle(g, c, k);
    RotateDistinct(c, k);
  }

  /** Keeps the first occurrence of each cycle not already in `seen`. */
  function Dedupe(cs: seq<seq<string>>, seen: set<seq<string>>): (r: seq<seq<string>>)
    ensures forall k :: 0 <= k < |r| ==> r[k] in cs && r[k] !in seen
    ensures forall k :: 0 <= k < |cs| && cs[k] !in seen ==> cs[k] in r
    ensures forall i, j :: 0 <= i < j < |r| ==> r[i] != r[j]
  {
    if |cs| == 0 then []
    else if cs[0] in seen then Dedupe(cs[1..], seen)
    else
      var rest := Dedupe(cs[1..], seen + {cs[0]});
      assert forall k :: 1 <= k < |cs| ==> cs[k] == cs[1..][k - 1];
      [cs[0]] + rest
  }

  function RotateAll(cs: seq<seq<string>>): (r: seq<seq<string>>)
    requires forall k :: 0 <= k < |cs| ==> |cs[k]| > 0
    ensures |r| == |cs| && forall k :: 0 <= k < |cs| ==> r[k] == Rotate(cs[k])
  {
    if |cs| == 0 then [] else [Rotate(cs[0])] + RotateAll(cs[1..])
  }

  lemma FoundCycles(g: Graph, s: Dfs)
    requires Inv(g, s)
    ensures forall k :: 0 <= k < |s.found| ==> |s.found[k]| > 0
    ensures forall k :: 0 <= k < |s.found| ==> IsCycle(g, s.found[k]) && Distinct(s.found[k])
  {
  }

  lemma SearchFoundCycles(g: Graph)
    ensures forall k :: 0 <= k < |Search(g).found| ==> |Search(g).found[k]| > 0
    ensures forall k :: 0 <= k < |Search(g).found| ==> IsCycle(g, Search(g).found[k]) && Distinct(Search(g).found[k])
  {
    FoundCycles(g, Search(g));
  }

  /** Rotating and de-duplicating a list of distinct cycles keeps them
      cycles, puts each one's smallest node first and loses none of them. */
  lemma NormalizeCycles(g: Graph, cs: seq<seq<string>>)
    requires forall k :: 0 <= k < |cs| ==> |cs[k]| > 0
    requires forall k :: 0 <= k < |cs| ==> IsCycle(g, cs[k]) && Distinct(cs[k])
    ensures Dedupe(RotateAll(cs), {}) == [] <==> cs == []
    ensures var r := Dedupe(RotateAll(cs), {});
      && (forall k :: 0 <= k < |r| ==> IsCycle(g, r[k]) && Distinct(r[k]))
      && (forall k, i :: 0 <= k < |r| && 0 <= i < |r[k]| ==> LexLe(r[k][0], r[k][i]))
  {
    var rotated := RotateAll(cs);
    var r := Dedupe(rotated, {});
    if |rotated| > 0 {
      assert rotated[0] in r;
    }
    forall k | 0 <= k < |r|
      ensures IsCycle(g, r[k]) && Distinct(r[k])
      ensures forall i :: 0 <= i < |r[k]| ==> LexLe(r[k][0], r[k][i])
    {
      NormalizedAt(g, cs, rotated, r[k]);
    }
  }

  lemma NormalizedAt(g: Graph, cs: seq<seq<string>>, rotated: seq<seq<string>>, c: seq<string>)
    requires forall k :: 0 <= k < |cs| ==> |cs[k]| > 0
    requires forall k :: 0 <= k < |cs| ==> IsCycle(g, cs[k]) && Distinct(cs[k])
    requires rotated == RotateAll(cs) && c in rotated
    ensures IsCycle(g, c) && Distinct(c)
    ensures forall i :: 0 <= i < |c| ==> LexLe(c[0], c[i])
  {
    var k :| 0 <= k < |rotated| && rotated[k] == c;
    assert c == Rotate(cs[k]);
    RotateKeepsCycle(g, cs[k]);
  }

  lemma NormalizedEmptyIffAcyclic(g: Graph)
    ensures forall k :: 0 <= k < |Search(g).found| ==> |Search(g).found[k]| > 0
    ensures Dedupe(RotateAll(Search(g).found), {}) == [] <==> Acyclic(g)
  {
    FoundCycles(g, Search(g));
    NormalizeCycles(g, Search(g).found);
    SearchFindsCycleIffCyclic(g);
  }

  /** The cycles the search found, rotated and de-duplicated. */
  function NormalizedCycles(g: Graph): seq<seq<string>> {
    SearchFoundCycles(g);
    Dedupe(RotateAll(Search(g).found), {})
  }

  lemma NormalizedCyclesFacts(g: Graph)
    ensures var r := NormalizedCycles(g);
      && (forall k :: 0 <= k < |r| ==> IsCycle(g, r[k]) && Distinct(r[k]))
      && (forall k, i :: 0 <= k < |r| && 0 <= i < |r[k]| ==> LexLe(r[k][0], r[k][i]))
      && (forall i, j :: 0 <= i < j < |r| ==> r[i] != r[j])
  {
    SearchFoundCycles(g);
    var f := Search(g).found;
    NormalizeCycles(g, f);
    assert NormalizedCycles(g) == Dedupe(RotateAll(f), {});
  }

  /** `find_cycles(graph)`: the distinct elementary cycles met by the
      search, each starting at its smallest node; empty exactly when the
      graph is acyclic. */
  function FindCycles(g: Graph): (r: seq<seq<string>>)
    ensures r == [] <==> Acyclic(g)
    ensures forall k :: 0 <= k < |r| ==> IsCycle(g, r[k]) && Distinct(r[k])
    ensures forall k, i :: 0 <= k < |r| && 0 <= i < |r[k]| ==> LexLe(r[k][0], r[k][i])
    ensures forall i, j :: 0 <= i < j < |r| ==> r[i] != r[j]
  {
    NormalizedCyclesFacts(g);
    NormalizedEmptyIffAcyclic(g);
    NormalizedCycles(g)
  }
}

=== FILE: diagnostics.dfy ===
/** Error summaries and actionable hints for the command line
    (jaunt/diagnostics.py). */
module Diagnostics {
  import opened Wrappers
  import opened Text
  import opened PyValues
  import Strings

  // ---------------------------------------------------------------------
  // Failure summaries

  /** Module name to the error messages recorded for it. */
  type Failures = map<string, seq<string>>

  function BuildHeader(n: nat): string {
    "Build failed for " + NatToString(n) + " module(s):\n"
  }

  function TestGenerationHeader(n: nat): string {
    "Test generation failed for " + NatToString(n) + " module(s):\n"
  }

  const Bullet: string := "    - "

  function ModuleLine(mod: string): (r: string)
    ensures |r| == |mod| + 3 && r[|r| - 1] == ':'
  {
    "  " + mod + ":"
  }

  function Bullets(errs: seq<string>): (r: seq<string>)
    ensures |r| == |errs|
    ensures forall i :: 0 <= i < |errs| ==> r[i] == Bullet + errs[i]
  {
    seq(|errs|, i requires 0 <= i < |errs| => Bullet + errs[i])
  }

  /** The lines of one module: its name, one bullet per error, a blank line. */
  function Section(mod: string, errs: seq<string>): seq<string> {
    [ModuleLine(mod)] + Bullets(errs) + [""]
  }

  function Sections(mods: seq<string>, failed: Failures): seq<string>
    requires forall i :: 0 <= i < |mods| ==> mods[i] in failed
  {
    if mods == [] then []
    else Section(mods[0], failed[mods[0]]) + Sections(mods[1..], failed)
  }

  /** `sorted(failed)`: every failed module once, in increasing order. */
  function ModuleOrder(failed: Failures): (r: seq<string>)
    ensures |r| == |failed|
    ensures forall m :: m in r <==> m in failed
    ensures Strings.StrictlySorted(r)
  {
    Strings.SortSet(failed.Keys)
  }

  /** The header followed by the modules' sections, in sorted order. */
  function FailureLines(header: string, failed: Failures): seq<string> {
    [header] + Sections(ModuleOrder(failed), failed)
  }

  /** The shared body of `format_build_failures` and
      `format_test_generation_failures`: nothing when nothing failed;
      otherwise the lines joined by line breaks, with trailing whitespace
      replaced by a single line break. */
  function FormatFailures(header: string, failed: Failures): (r: string)
    ensures |failed| == 0 <==> r == ""
    ensures |failed| > 0 ==>
      StartsWith(r, header + "\n" + ModuleLine(ModuleOrder(failed)[0]))
      && |r| >= 2 && r[|r| - 1] == '\n' && !IsSpace(r[|r| - 2])
  {
    if |failed| == 0 then ""
    else
      var text := Join(FailureLines(header, failed), "\n");
      FailureTextStart(header, failed);
      RStrip(text) + "\n"
  }

  /** The joined lines begin with the header, a blank line and the first
      module's line, whose last character is visible; so the right strip
      keeps all of that. */
  lemma FailureTextStart(header: string, failed: Failures)
    requires |failed| > 0
    ensures var text := Join(FailureLines(header, failed), "\n");
      var p := header + "\n" + ModuleLine(ModuleOrder(failed)[0]);
      StartsWith(text, p) && StartsWith(RStrip(text), p)
  {
    var mods := ModuleOrder(failed);
    var secs := Sections(mods, failed);
    var lines := FailureLines(header, failed);
    var first := ModuleLine(mods[0]);
    assert secs[0] == first;
    assert lines[1..] == secs;
    JoinStartsWithFirst(secs, "\n");
    var text := Join(lines, "\n");
    var p := header + "\n" + first;
    assert text == header + "\n" + Join(secs, "\n");
    assert text[..|p|] == p;
    VisibleNotSpace(':');
    assert !IsSpace(text[|p| - 1]);
  }

  /** `format_build_failures(failed)`. */
  function FormatBuildFailures(failed: Failures): (r: string)
    ensures |failed| == 0 <==> r == ""
    ensures |failed| > 0 ==> StartsWith(r, BuildHeader(|failed|) + "\n")
  {
    FormatStartsWithHeader(BuildHeader(|failed|), failed);
    FormatFailures(BuildHeader(|failed|), failed)
  }

  /** `format_test_generation_failures(failed)`: the same shape under its
      own header. */
  function FormatTestGenerationFailures(failed: Failures): (r: string)
    ensures |failed| == 0 <==> r == ""
    ensures |failed| > 0 ==> StartsWith(r, TestGenerationHeader(|failed|) + "\n")
  {
    FormatStartsWithHeader(TestGenerationHeader(|failed|), failed);
    FormatFailures(TestGenerationHeader(|failed|), failed)
  }

  lemma FormatStartsWithHeader(header: string, failed: Failures)
    ensures |failed| > 0 ==> StartsWith(FormatFailures(header, failed), header + "\n")
  {
    if |failed| > 0 {
      var s := FormatFailures(header, failed);
      var p := header + "\n";
      var q := ModuleLine(ModuleOrder(failed)[0]);
      assert s[..|p|] == (p + q)[..|p|];
    }
  }

  // ---------------------------------------------------------------------
  // Reading a summary back

  /** Bullet lines up to a blank line: their messages and the lines after
      the blank one. */
  function ParseBullets(ls: seq<string>): (r: Option<(seq<string>, seq<string>)>)
    ensures r.Some? ==> |r.value.1| < |ls|
  {
    if ls == [] then None
    else if ls[0] == "" then Some(([], ls[1..]))
    else if StartsWith(ls[0], Bullet) then
      match ParseBullets(ls[1..])
      case None => None
      case Some(p) => Some(([ls[0][|Bullet|..]] + p.0, p.1))
    else None
  }

  /** Module sections: a `  name:` line, then its bullets. */
  function ParseSections(ls: seq<string>): Option<seq<(string, seq<string>)>>
    decreases |ls|
  {
    if ls == [] then Some([])
    else
      var h := ls[0];
      if !(|h| >= 3 && h[..2] == "  " && h[|h| - 1] == ':') then None
      else
        match ParseBullets(ls[1..])
        case None => None
        case Some(p) =>
          match ParseSections(p.1)
          case None => None
          case Some(more) => Some([(h[2..|h| - 1], p.0)] + more)
  }

  /** Each module of `mods` with its errors. */
  function Entries(mods: seq<string>, failed: Failures): (r: seq<(string, seq<string>)>)
    requires forall i :: 0 <= i < |mods| ==> mods[i] in failed
    ensures |r| == |mods|
    ensures forall i :: 0 <= i < |mods| ==> r[i] == (mods[i], failed[mods[i]])
  {
    seq(|mods|, i requires 0 <= i < |mods| => (mods[i], failed[mods[i]]))
  }

  lemma {:induction false} BulletsRoundTrip(errs: seq<string>, rest: seq<string>)
    ensures ParseBullets(Bullets(errs) + [""] + rest) == Some((errs, rest))
    decreases |errs|
  {
    var ls := Bullets(errs) + [""] + rest;
    if errs == [] {
      assert ls[0] == "" && ls[1..] == rest;
    } else {
      assert ls[0] == Bullet + errs[0];
      assert (Bullet + errs[0])[..|Bullet|] == Bullet;
      assert (Bullet + errs[0])[|Bullet|..] == errs[0];
      assert ls[1..] == Bullets(errs[1..]) + [""] + rest;
      BulletsRoundTrip(errs[1..], rest);
      assert [errs[0]] + errs[1..] == errs;
    }
  }

  lemma SectionRoundTrip(mod: string, errs: seq<string>, rest: seq<string>)
    ensures var ls := Section(mod, errs) + rest;
      var h := ls[0];
      |h| >= 3 && h[..2] == "  " && h[|h| - 1] == ':' && h[2..|h| - 1] == mod
      && ParseBullets(ls[1..]) == Some((errs, rest))
  {
    var ls := Section(mod, errs) + rest;
    assert ls[1..] == Bullets(errs) + [""] + rest;
    BulletsRoundTrip(errs, rest);
  }

  /** The sections read back as the modules with their errors, in order. */
  lemma {:induction false} SectionsRoundTrip(mods: seq<string>, failed: Failures)
    requires forall i :: 0 <= i < |mods| ==> mods[i] in failed
    ensures ParseSections(Sections(mods, failed)) == Some(Entries(mods, failed))
    decreases |mods|
  {
    if mods != [] {
      var rest := Sections(mods[1..], failed);
      SectionRoundTrip(mods[0], failed[mods[0]], rest);
      SectionsRoundTrip(mods[1..], failed);
      assert Entries(mods, failed) == [(mods[0], failed[mods[0]])] + Entries(mods[1..], failed);
    }
  }

  /** A summary's lines are its header, then every failed module with all
      of its errors in their order, in the order `ModuleOrder` gives (each
      module once, sorted). */
  lemma FailureLinesRead(header: string, failed: Failures)
    ensures var ls := FailureLines(header, failed);
      ls[0] == header && ParseSections(ls[1..]) == Some(Entries(ModuleOrder(failed), failed))
  {
    var mods := ModuleOrder(failed);
    assert FailureLines(header, failed)[1..] == Sections(mods, failed);
    SectionsRoundTrip(mods, failed);
  }

  /** The sections end with the last module's section. */
  lemma {:induction false} SectionsEnd(mods: seq<string>, failed: Failures)
    requires |mods| > 0 && forall i :: 0 <= i < |mods| ==> mods[i] in failed
    ensures var s := Sections(mods, failed);
      var last := Section(mods[|mods| - 1], failed[mods[|mods| - 1]]);
      |last| <= |s| && s[|s| - |last|..] == last
    decreases |mods|
  {
    if |mods| > 1 {
      SectionsEnd(mods[1..], failed);
      var s := Sections(mods, failed);
      var t := Sections(mods[1..], failed);
      var head := Section(mods[0], failed[mods[0]]);
      assert s == head + t;
      assert s[|s| - |t|..] == t;
    }
  }

  /** The last two lines: the last module's last line, then the blank one. */
  lemma LinesEnd(header: string, failed: Failures)
    requires |failed| > 0
    ensures var mods := ModuleOrder(failed);
      var m := mods[|mods| - 1];
      var errs := failed[m];
      var ls := FailureLines(header, failed);
      |ls| >= 3 && ls[|ls| - 1] == "" && ls[|ls| - 2] == LastSectionLine(m, errs)
  {
    var mods := ModuleOrder(failed);
    var m := mods[|mods| - 1];
    var errs := failed[m];
    var secs := Sections(mods, failed);
    SectionsEnd(mods, failed);
    var last := Section(m, errs);
    var ls := FailureLines(header, failed);
    assert ls == [header] + secs;
    assert ls[|ls| - 1] == last[|last| - 1];
    assert ls[|ls| - 2] == last[|last| - 2];
  }

  /** The last line of a module's section: its last error, or the module
      line when it has none. */
  function LastSectionLine(m: string, errs: seq<string>): string {
    if errs == [] then ModuleLine(m) else Bullet + errs[|errs| - 1]
  }

  /** The line is not empty and its last character is not whitespace. */
  predicate EndsVisibly(x: string) {
    x != "" && !IsSpace(x[|x| - 1])
  }

  /** Joining lines that end with a blank one and right-stripping removes
      just that blank line, when the line before it ends visibly. */
  lemma JoinBlankStripped(init: seq<string>)
    requires |init| > 0 && EndsVisibly(init[|init| - 1])
    ensures RStrip(Join(init + [""], "\n")) == Join(init, "\n")
  {
    JoinSnoc(init, "", "\n");
    JoinEndsWithLast(init, "\n");
    var j := Join(init, "\n");
    var x := init[|init| - 1];
    assert j[|j| - 1] == x[|x| - 1];
    assert (j + "\n" + "")[..|j|] == j;
  }

  lemma LastLineVisible(header: string, failed: Failures)
    requires |failed| > 0
    requires var mods := ModuleOrder(failed);
      var errs := failed[mods[|mods| - 1]];
      errs == [] || EndsVisibly(errs[|errs| - 1])
    ensures var ls := FailureLines(header, failed);
      |ls| >= 3 && ls[|ls| - 1] == "" && EndsVisibly(ls[|ls| - 2])
  {
    var mods := ModuleOrder(failed);
    LinesEnd(header, failed);
    SectionEndVisible(mods[|mods| - 1], failed[mods[|mods| - 1]]);
  }

  /** The last line of a module's section ends visibly when its last error does. */
  lemma SectionEndVisible(m: string, errs: seq<string>)
    requires errs == [] || EndsVisibly(errs[|errs| - 1])
    ensures EndsVisibly(LastSectionLine(m, errs))
  {
    if errs == [] {
      VisibleNotSpace(':');
    } else {
      var last := errs[|errs| - 1];
      var x := Bullet + last;
      assert x[|x| - 1] == last[|last| - 1];
    }
  }

  lemma FormatUnfolds(header: string, failed: Failures)
    requires |failed| > 0
    ensures FormatFailures(header, failed) == RStrip(Join(FailureLines(header, failed), "\n")) + "\n"
  {
  }

  lemma BlankEndStripped(ls: seq<string>)
    requires |ls| >= 2 && ls[|ls| - 1] == "" && EndsVisibly(ls[|ls| - 2])
    ensures RStrip(Join(ls, "\n")) == Join(ls[..|ls| - 1], "\n")
  {
    var init := ls[..|ls| - 1];
    assert init[|init| - 1] == ls[|ls| - 2];
    assert ls == init + [""];
    JoinBlankStripped(init);
  }

  /** When the last module's last line ends in a visible character, the
      summary is exactly every line but the closing blank one, each followed
      by a line break. */
  lemma FormatIsLines(header: string, failed: Failures)
    requires |failed| > 0
    requires var mods := ModuleOrder(failed);
      var errs := failed[mods[|mods| - 1]];
      errs == [] || EndsVisibly(errs[|errs| - 1])
    ensures var ls := FailureLines(header, failed);
      |ls| >= 2 && ls[|ls| - 1] == ""
      && FormatFailures(header, failed) == Join(ls[..|ls| - 1], "\n") + "\n"
  {
    var ls := FailureLines(header, failed);
    LastLineVisible(header, failed);
    FormatUnfolds(header, failed);
    BlankEndStripped(ls);
  }

  // ---------------------------------------------------------------------
  // Hints

  /** Which error class was raised: the four that carry hints, and any
      other exception. */
  datatype Kind = ConfigKind | DiscoveryKind | CycleKind | OtherKind

  /** An exception as far as the formatting sees it: `KeyError` with its
      arguments, or another exception with its `str()` and `repr()`. */
  datatype Exc =
    | Raised(kind: Kind, text: string, repr: string)
    | KeyErr(args: seq<Value>)

  /** `str(exc)`: a `KeyError` shows its one argument's `repr`, or the
      argument tuple's when there are several. */
  function ExcStr(e: Exc): string {
    match e
    case Raised(_, text, _) => text
    case KeyErr(args) =>
      if |args| == 0 then "" else if |args| == 1 then Repr(args[0]) else Repr(TupleV(args))
  }

  /** `repr(exc)`. */
  function ExcRepr(e: Exc): string {
    match e
    case Raised(_, _, repr) => repr
    case KeyErr(args) => "KeyError(" + ReprItems(args) + ")"
  }

  /** The name of a missing variable: a `KeyError` whose first argument is
      a non-empty `str`. */
  function MissingName(e: Exc): (r: Option<string>)
    ensures r.Some? <==> e.KeyErr? && |e.args| > 0 && e.args[0].StrV? && e.args[0].s != ""
    ensures r.Some? ==> r.value != "" && r.value == e.args[0].s
  {
    if e.KeyErr? && |e.args| > 0 && e.args[0].StrV? && e.args[0].s != "" then Some(e.args[0].s)
    else None
  }

  const InitHint: string := "run `jaunt init` to create a new project"
  const EnvFileHint: string := "create a .env file in your project root with the key"
  const SourceRootsHint: string := "check that paths.source_roots in jaunt.toml includes the correct directories"
  const CycleHint: string := "break the cycle by removing a `deps=` reference or setting `infer_deps=False` on one spec"
  const EnvVarHint: string := "create a .env file in your project root or export the variable in your shell"

  /** The message says the project file could not be found. */
  predicate MissingProjectFile(msg: string) {
    IsInfix("jaunt.toml", msg) && IsInfix("find", Lower(msg))
  }

  predicate MissingApiKey(msg: string) {
    IsInfix("Missing API key", msg)
  }

  /** `format_hint(exc)`. */
  function FormatHint(e: Exc): (r: Option<string>)
    ensures e.Raised? && e.kind == ConfigKind ==>
      (r.Some? <==> MissingProjectFile(e.text) || MissingApiKey(e.text))
      && (MissingProjectFile(e.text) ==> r == Some(InitHint))
      && (!MissingProjectFile(e.text) && MissingApiKey(e.text) ==> r == Some(EnvFileHint))
    ensures e.Raised? && e.kind == DiscoveryKind ==> r == Some(SourceRootsHint)
    ensures e.Raised? && e.kind == CycleKind ==> r == Some(CycleHint)
    ensures e.Raised? && e.kind == OtherKind ==> r == None
    ensures e.KeyErr? ==> (r.Some? <==> MissingName(e).Some?) && (r.Some? ==> r.value == EnvVarHint)
  {
    match e
    case Raised(kind, msg, _) =>
      (match kind
       case ConfigKind =>
         if MissingProjectFile(msg) then Some(InitHint)
         else if MissingApiKey(msg) then Some(EnvFileHint)
         else None
       case DiscoveryKind => Some(SourceRootsHint)
       case CycleKind => Some(CycleHint)
       case OtherKind => None)
    case KeyErr(_) =>
      if MissingName(e).Some? then Some(EnvVarHint) else None
  }

  /** The message part of `format_error_with_hint`: a missing variable is
      named; anything else is its `str()` (its `repr()` when that is
      empty), stripped. */
  function ErrorMessage(e: Exc): (r: string)
    ensures MissingName(e).Some? ==> r == "missing environment variable " + MissingName(e).value
    ensures MissingName(e).None? ==> r == [] || (!IsSpace(r[0]) && !IsSpace(r[|r| - 1]))
    ensures MissingName(e).None? && ExcStr(e) != "" ==> IsInfix(r, ExcStr(e))
  {
    match MissingName(e)
    case Some(name) => "missing environment variable " + name
    case None => Strip(if ExcStr(e) != "" then ExcStr(e) else ExcRepr(e))
  }

  const ErrorPrefix: string := "error: "
  const HintPrefix: string := "\nhint: "

  /** The error line for a message, then a hint line when there is a hint. */
  function WithHint(msg: string, hint: Option<string>): (r: string)
    ensures StartsWith(r, ErrorPrefix + msg)
    ensures hint.None? ==> r == ErrorPrefix + msg
    ensures hint.Some? ==> EndsWith(r, HintPrefix + hint.value)
  {
    var head := ErrorPrefix + msg;
    match hint
    case None => head
    case Some(h) =>
      assert (head + HintPrefix + h)[..|head|] == head;
      assert (head + HintPrefix + h)[|head|..] == HintPrefix + h;
      head + HintPrefix + h
  }

  /** `format_error_with_hint(exc)`. */
  function FormatErrorWithHint(e: Exc): (r: string)
    ensures StartsWith(r, ErrorPrefix + ErrorMessage(e))
    ensures FormatHint(e).None? ==> r == ErrorPrefix + ErrorMessage(e)
    ensures FormatHint(e).Some? ==> EndsWith(r, HintPrefix + FormatHint(e).value)
  {
    WithHint(ErrorMessage(e), FormatHint(e))
  }

  /** The error line reads back: after the `error: ` prefix, the text up to
      the first line break is the message, and the rest is the hint line,
      present exactly when there is a hint. */
  lemma WithHintRoundTrip(msg: string, hint: Option<string>)
    requires '\n' !in msg
    ensures var rest := WithHint(msg, hint)[|ErrorPrefix|..];
      SplitOnce(rest, '\n').0 == msg
      && (SplitOnce(rest, '\n').1.Some? <==> hint.Some?)
      && (hint.Some? ==> SplitOnce(rest, '\n').1 == Some("hint: " + hint.value))
  {
    var rest := WithHint(msg, hint)[|ErrorPrefix|..];
    match hint
    case None =>
      assert rest == msg;
    case Some(h) =>
      HintRest(msg, h);
      var p := SplitOnce(rest, '\n');
      SplitAtFirst(msg, "hint: " + h, p.0, p.1.value, '\n');
  }

  /** After the `error: ` prefix come the message, a line break and the hint line. */
  lemma HintRest(msg: string, h: string)
    ensures WithHint(msg, Some(h))[|ErrorPrefix|..] == msg + ['\n'] + ("hint: " + h)
  {
    assert HintPrefix == ['\n'] + "hint: ";
    DropFront(ErrorPrefix, msg + HintPrefix + h);
  }

  lemma DropFront<T>(a: seq<T>, b: seq<T>)
    ensures (a + b)[|a|..] == b
  {
  }

  /** So a formatted error gives back its message and hint, when the
      message is a single line. */
  lemma ErrorWithHintRoundTrip(e: Exc)
    requires '\n' !in ErrorMessage(e)
    ensures var rest := FormatErrorWithHint(e)[|ErrorPrefix|..];
      SplitOnce(rest, '\n').0 == ErrorMessage(e)
      && (SplitOnce(rest, '\n').1.Some? <==> FormatHint(e).Some?)
      && (FormatHint(e).Some? ==> SplitOnce(rest, '\n').1 == Some("hint: " + FormatHint(e).value))
  {
    WithHintRoundTrip(ErrorMessage(e), FormatHint(e));
  }
}

=== FILE: digest.dfy ===
/** Stable digests for incremental rebuild decisions (jaunt/digest.py).
    sha256 is the parameter `h` and `json.dumps(..., sort_keys=True)` the
    parameter `dump`; both are uninterpreted. */
module Digest {
  import opened Wrappers
  import opened Strings
  import opened Sorting
  import opened Text
  import opened PyValues
  import opened SpecRefs
  import opened Graphs
  import opened Registry
  import opened Deps

  // ---------------------------------------------------------------------------
  // Source segment normalisation (the tail of `extract_source_segment`).
  // ---------------------------------------------------------------------------

  /** CRLF, then any remaining CR, become LF. */
  function UnifyNewlines(s: string): (r: string)
    ensures '\r' !in r
  {
    var t := Replace(s, "\r\n", "\n");
    ReplaceCharRemoves(t, '\r', "\n");
    Replace(t, "\r", "\n")
  }

  /** Text without CR is left alone. */
  lemma UnifyNewlinesFixed(s: string)
    requires '\r' !in s
    ensures UnifyNewlines(s) == s
  {
    NotInfixWith(s, "\r\n", 0);
    ReplaceAbsent(s, "\r\n", "\n");
    NotInfixChar(s, '\r');
    ReplaceAbsent(s, "\r", "\n");
  }

  function RStripLines(lines: seq<string>): (r: seq<string>)
    ensures |r| == |lines|
    ensures forall i :: 0 <= i < |r| ==> r[i] == RStrip(lines[i])
  {
    if |lines| == 0 then [] else [RStrip(lines[0])] + RStripLines(lines[1..])
  }

  /** `while lines and lines[-1] == "": lines.pop()`. */
  function DropTrailingBlank(lines: seq<string>): (r: seq<string>)
    ensures |r| <= |lines| && r == lines[..|r|]
    ensures r == [] || r[|r| - 1] != ""
    ensures forall i :: |r| <= i < |lines| ==> lines[i] == ""
  {
    if |lines| > 0 && lines[|lines| - 1] == "" then DropTrailingBlank(lines[..|lines| - 1]) else lines
  }

  /** Right-strips every line and drops the trailing blank ones. */
  function CleanLines(parts: seq<string>): (r: seq<string>)
    requires forall i :: 0 <= i < |parts| ==> '\n' !in parts[i] && '\r' !in parts[i]
    ensures forall i :: 0 <= i < |r| ==> '\n' !in r[i] && '\r' !in r[i] && RStrip(r[i]) == r[i]
    ensures r == [] || r[|r| - 1] != ""
  {
    var lines := RStripLines(parts);
    forall i | 0 <= i < |lines| ensures '\n' !in lines[i] && '\r' !in lines[i] && RStrip(lines[i]) == lines[i] {
      CleanLine(parts[i]);
    }
    var r := DropTrailingBlank(lines);
    assert forall i :: 0 <= i < |r| ==> r[i] == lines[i];
    r
  }

  /** A right-stripped line keeps out what the line kept out and is already
      stripped. */
  lemma CleanLine(p: string)
    requires '\n' !in p && '\r' !in p
    ensures '\n' !in RStrip(p) && '\r' !in RStrip(p) && RStrip(RStrip(p)) == RStrip(p)
  {
    RStripIdempotent(p);
    PrefixKeepsOut(p, |RStrip(p)|);
  }

  lemma PrefixKeepsOut(s: string, k: nat)
    requires k <= |s|
    ensures forall x :: x in s[..k] ==> x in s
  {
    forall x | x in s[..k] ensures x in s {
      var i :| 0 <= i < k && s[..k][i] == x;
      assert s[i] == x;
    }
  }

  /** The lines of a normalised segment: LF-separated, each without trailing
      whitespace, and no trailing blank line. */
  function SegmentLines(seg: string): (r: seq<string>)
    ensures forall i :: 0 <= i < |r| ==> '\n' !in r[i] && '\r' !in r[i] && RStrip(r[i]) == r[i]
    ensures r == [] || r[|r| - 1] != ""
  {
    var u := UnifyNewlines(seg);
    var parts := Split(u, '\n');
    JoinSplit(u, '\n');
    JoinKeepsOut(parts, '\n', '\r');
    CleanLines(parts)
  }

  /** A character absent from a join is absent from every part. */
  lemma JoinKeepsOut(parts: seq<string>, sep: char, c: char)
    requires c !in Join(parts, [sep])
    ensures forall i :: 0 <= i < |parts| ==> c !in parts[i]
  {
    forall i | 0 <= i < |parts| ensures c !in parts[i] {
      JoinHasPart(parts, [sep], i);
    }
  }

  predicate NoTrailingSpace(r: string) {
    r == "" || !IsSpace(r[|r| - 1])
  }

  /** Joining clean lines gives text without CR that splits back into the
      same lines and does not end in whitespace. */
  lemma JoinCleanLines(lines: seq<string>)
    requires forall i :: 0 <= i < |lines| ==> '\n' !in lines[i] && '\r' !in lines[i] && RStrip(lines[i]) == lines[i]
    requires lines == [] || lines[|lines| - 1] != ""
    ensures '\r' !in Join(lines, "\n")
    ensures lines != [] ==> Split(Join(lines, "\n"), '\n') == lines
    ensures lines == [] <==> Join(lines, "\n") == ""
    ensures NoTrailingSpace(Join(lines, "\n"))
  {
    JoinWithoutChar(lines, '\n', '\r');
    if lines != [] {
      SplitJoin(lines, '\n');
      JoinLastClean(lines, lines[|lines| - 1]);
    }
  }

  lemma JoinLastClean(lines: seq<string>, last: string)
    requires lines != [] && last == lines[|lines| - 1]
    requires last != "" && RStrip(last) == last
    ensures NoTrailingSpace(Join(lines, "\n"))
  {
    JoinEndsWithLast(lines, "\n");
    EndsWithLastChar(Join(lines, "\n"), last);
  }

  /** Text that ends with a non-empty string ends with that string's last
      character. */
  lemma EndsWithLastChar(r: string, last: string)
    requires EndsWith(r, last) && last != []
    ensures r != [] && r[|r| - 1] == last[|last| - 1]
  {
    assert r[|r| - |last|..][|last| - 1] == r[|r| - 1];
  }

  /** The normalised segment: its lines, rejoined with LF. */
  function NormalizeSegment(seg: string): (r: string)
    ensures '\r' !in r
    ensures SegmentLines(seg) == [] <==> r == ""
    ensures NoTrailingSpace(r)
  {
    JoinCleanLines(SegmentLines(seg));
    Join(SegmentLines(seg), "\n")
  }

  /** The normal form splits back into the segment's clean lines. */
  lemma NormalizeSegmentSplits(seg: string)
    ensures SegmentLines(seg) != [] ==> Split(NormalizeSegment(seg), '\n') == SegmentLines(seg)
  {
    JoinCleanLines(SegmentLines(seg));
  }

  lemma NormalizeSegmentIdempotent(seg: string)
    ensures NormalizeSegment(NormalizeSegment(seg)) == NormalizeSegment(seg)
  {
    NormalizeOfClean(SegmentLines(seg));
  }

  /** Joined clean lines are already normal. */
  lemma NormalizeOfClean(lines: seq<string>)
    requires forall i :: 0 <= i < |lines| ==> '\n' !in lines[i] && '\r' !in lines[i] && RStrip(lines[i]) == lines[i]
    requires lines == [] || lines[|lines| - 1] != ""
    ensures NormalizeSegment(Join(lines, "\n")) == Join(lines, "\n")
  {
    JoinCleanLines(lines);
    SegmentLinesOfJoin(Join(lines, "\n"), lines);
  }

  /** Normalising text that is already the join of clean lines finds those
      lines again. */
  lemma SegmentLinesOfJoin(r: string, lines: seq<string>)
    requires forall i :: 0 <= i < |lines| ==> '\n' !in lines[i] && '\r' !in lines[i] && RStrip(lines[i]) == lines[i]
    requires lines == [] || lines[|lines| - 1] != ""
    requires '\r' !in r && (lines != [] ==> Split(r, '\n') == lines) && (lines == [] <==> r == "")
    ensures SegmentLines(r) == lines
  {
    UnifyNewlinesFixed(r);
    if lines == [] {
      assert Split("", '\n') == [""];
      assert RStripLines([""]) == [""];
    } else {
      RStripLinesFixed(lines);
    }
  }

  lemma RStripLinesFixed(lines: seq<string>)
    requires forall i :: 0 <= i < |lines| ==> RStrip(lines[i]) == lines[i]
    ensures RStripLines(lines) == lines
  {
  }

  // ---------------------------------------------------------------------------
  // `_jsonable` and `_normalize_deps_for_kwargs`.
  // ---------------------------------------------------------------------------

  /** What `_jsonable` produces: scalars, lists, and dicts with distinct
      string keys. */
  predicate IsJsonData(v: Value)
    decreases v
  {
    match v
    case NoneV => true
    case BoolV(_) => true
    case IntV(_) => true
    case FloatV(_) => true
    case StrV(_) => true
    case ListV(items) => forall i :: 0 <= i < |items| ==> IsJsonData(items[i])
    case DictV(entries) => JsonEntries(entries)
    case TupleV(_) => false
    case SetV(_) => false
    case ObjV(_, _, _, _) => false
  }

  predicate JsonEntries(entries: seq<(Value, Value)>)
    decreases entries
  {
    if |entries| == 0 then true
    else
      var (k, x) := entries[0];
      assert x < entries[0];
      k.StrV? && IsJsonData(x) && KeyAbsent(entries[1..], k) && JsonEntries(entries[1..])
  }

  predicate KeyAbsent(entries: seq<(Value, Value)>, k: Value) {
    forall j :: 0 <= j < |entries| ==> entries[j].0 != k
  }

  /** `d[k] = x` on an insertion-ordered dict: an existing key keeps its
      position and takes the new value; a new key goes last. */
  function Put(d: seq<(Value, Value)>, k: Value, x: Value): (r: seq<(Value, Value)>)
    ensures |r| == |d| || |r| == |d| + 1
    ensures KeyAbsent(d, k) ==> r == d + [(k, x)]
    ensures forall j :: 0 <= j < |r| ==> r[j].0 == k || exists i :: 0 <= i < |d| && d[i] == r[j]
    ensures (k, x) in r
  {
    if |d| == 0 then [(k, x)]
    else if d[0].0 == k then [(k, x)] + d[1..]
    else
      var rest := Put(d[1..], k, x);
      assert forall i :: 0 <= i < |d| - 1 ==> d[1..][i] == d[i + 1];
      [d[0]] + rest
  }

  lemma {:induction false} PutKeepsJson(d: seq<(Value, Value)>, k: Value, x: Value)
    requires JsonEntries(d) && k.StrV? && IsJsonData(x)
    ensures JsonEntries(Put(d, k, x))
    decreases |d|
  {
    if |d| > 0 && d[0].0 != k {
      PutKeepsJson(d[1..], k, x);
      var rest := Put(d[1..], k, x);
      assert KeyAbsent(rest, d[0].0) by {
        forall j | 0 <= j < |rest| ensures rest[j].0 != d[0].0 {
          if rest[j].0 != k {
            var i :| 0 <= i < |d[1..]| && d[1..][i] == rest[j];
          }
        }
      }
      assert Put(d, k, x) == [d[0]] + rest;
    }
  }

  /** `str(a) <= str(b)`: the key `_jsonable` sorts set members by. */
  predicate StrLe(a: Value, b: Value) {
    LexLe(Str(a), Str(b))
  }

  lemma StrLeTotalPreorder()
    ensures TotalPreorder(StrLe)
  {
    LexLeIsTotalOrder();
  }

  /** `_jsonable(value)` with set members ordered by `le`: scalars stay,
      dict keys become their `str`, tuples become lists, sets become sorted
      lists, and any other object becomes its `str`. */
  function JsonableBy(v: Value, le: (Value, Value) -> bool): (r: Value)
    requires TotalPreorder(le)
    ensures IsJsonData(r)
    decreases v
  {
    match v
    case NoneV => v
    case BoolV(_) => v
    case IntV(_) => v
    case FloatV(_) => v
    case StrV(_) => v
    case DictV(entries) => DictV(JsonableEntries(entries, [], le))
    case ListV(items) => ListV(JsonableItems(items, le))
    case TupleV(items) => ListV(JsonableItems(items, le))
    case SetV(items) =>
      var xs := JsonableItems(items, le);
      var sorted := SortBy(xs, le);
      assert forall i :: 0 <= i < |sorted| ==> IsJsonData(sorted[i]) by {
        forall i | 0 <= i < |sorted| ensures IsJsonData(sorted[i]) {
          assert sorted[i] in multiset(xs);
        }
      }
      ListV(sorted)
    case ObjV(_, _, _, _) => StrV(Str(v))
  }

  function JsonableItems(items: seq<Value>, le: (Value, Value) -> bool): (r: seq<Value>)
    requires TotalPreorder(le)
    ensures |r| == |items|
    ensures forall i :: 0 <= i < |r| ==> IsJsonData(r[i])
    decreases items
  {
    if |items| == 0 then [] else [JsonableBy(items[0], le)] + JsonableItems(items[1..], le)
  }

  /** The dict comprehension `{str(k): _jsonable(v) for k, v in entries}`,
      continuing from `acc`. */
  function JsonableEntries(entries: seq<(Value, Value)>, acc: seq<(Value, Value)>,
                           le: (Value, Value) -> bool): (r: seq<(Value, Value)>)
    requires TotalPreorder(le)
    requires JsonEntries(acc)
    ensures JsonEntries(r)
    decreases entries
  {
    if |entries| == 0 then acc
    else
      var (k, x) := entries[0];
      assert x < entries[0];
      var jx := JsonableBy(x, le);
      PutKeepsJson(acc, StrV(Str(k)), jx);
      JsonableEntries(entries[1..], Put(acc, StrV(Str(k)), jx), le)
  }

  /** `_jsonable` as written: set members sorted by `str`. */
  function Jsonable(v: Value): (r: Value)
    ensures IsJsonData(r)
  {
    StrLeTotalPreorder();
    JsonableBy(v, StrLe)
  }

  lemma AppendFirst<T>(a: seq<T>, b: seq<T>)
    requires |b| > 0
    ensures (a + [b[0]]) + b[1..] == a + b
  {
    assert b == [b[0]] + b[1..];
  }

  /** `_jsonable` leaves JSON data alone, so applying it twice changes
      nothing more. */
  lemma {:induction false} JsonableFixesJson(v: Value, le: (Value, Value) -> bool)
    requires TotalPreorder(le) && IsJsonData(v)
    ensures JsonableBy(v, le) == v
    decreases v
  {
    match v
    case ListV(items) => JsonItemsFixed(items, le);
    case DictV(entries) => JsonEntriesFixed(entries, [], le);
    case _ =>
  }

  lemma {:induction false} JsonItemsFixed(items: seq<Value>, le: (Value, Value) -> bool)
    requires TotalPreorder(le)
    requires forall i :: 0 <= i < |items| ==> IsJsonData(items[i])
    ensures JsonableItems(items, le) == items
    decreases items
  {
    if |items| > 0 {
      JsonableFixesJson(items[0], le);
      JsonItemsFixed(items[1..], le);
    }
  }

  lemma {:induction false} JsonEntriesFixed(entries: seq<(Value, Value)>, acc: seq<(Value, Value)>,
                                            le: (Value, Value) -> bool)
    requires TotalPreorder(le)
    requires JsonEntries(entries) && JsonEntries(acc)
    requires forall i, j :: 0 <= i < |acc| && 0 <= j < |entries| ==> acc[i].0 != entries[j].0
    ensures JsonableEntries(entries, acc, le) == acc + entries
    decreases entries
  {
    if |entries| > 0 {
      var (k, x) := entries[0];
      assert x < entries[0];
      JsonableFixesJson(x, le);
      assert StrV(Str(k)) == k;
      assert KeyAbsent(acc, k) by {
        forall i | 0 <= i < |acc| ensures acc[i].0 != k {
          assert acc[i].0 != entries[0].0;
        }
      }
      var acc' := Put(acc, k, x);
      assert acc' == acc + [entries[0]];
      PutKeepsJson(acc, k, x);
      forall i, j | 0 <= i < |acc'| && 0 <= j < |entries| - 1 ensures acc'[i].0 != entries[1..][j].0 {
        assert entries[1..][j] == entries[j + 1];
      }
      assert JsonableEntries(entries, acc, le) == JsonableEntries(entries[1..], acc', le);
      JsonEntriesFixed(entries[1..], acc', le);
      AppendFirst(acc, entries);
    }
  }

  // ---------------------------------------------------------------------------
  // Ordering set members: by `str` (as written) or by JSON text.
  // ---------------------------------------------------------------------------

  /** `_jsonable` as written orders set members by `str` and keeps ties in
      iteration order. `1` and `"1"` tie, and a set's iteration order is not
      fixed (string hashing is randomised per process), so the same set can
      give two different JSON lists. */
  lemma JsonableSetOrderDepends()
    ensures multiset([IntV(1), StrV("1")]) == multiset([StrV("1"), IntV(1)])
    ensures Jsonable(SetV([IntV(1), StrV("1")])) == ListV([IntV(1), StrV("1")])
    ensures Jsonable(SetV([StrV("1"), IntV(1)])) == ListV([StrV("1"), IntV(1)])
  {
    StrLeTotalPreorder();
    StrOfOne();
    JsonablePairOfTies(IntV(1), StrV("1"));
    JsonablePairOfTies(StrV("1"), IntV(1));
  }

  lemma StrOfOne()
    ensures Str(IntV(1)) == "1"
  {
    assert NatToString(1) == [DigitChar(1)];
  }

  /** Two scalars whose `str` ties keep their iteration order. */
  lemma JsonablePairOfTies(x: Value, y: Value)
    requires x.IntV? || x.StrV?
    requires y.IntV? || y.StrV?
    requires Str(x) == Str(y)
    ensures Jsonable(SetV([x, y])) == ListV([x, y])
  {
    StrLeTotalPreorder();
    LexLeRefl(Str(x));
    assert StrLe(x, y);
    var xs := JsonableItems([x, y], StrLe);
    assert JsonableBy(x, StrLe) == x && JsonableBy(y, StrLe) == y;
    assert JsonableItems([y], StrLe) == [y];
    assert [x, y][1..] == [y];
    assert xs == [x, y];
    assert SortBy([y], StrLe) == [y];
    assert SortBy(xs, StrLe) == InsertBy(x, [y], StrLe);
    assert InsertBy(x, [y], StrLe) == [x, y];
    JsonableSet([x, y], StrLe);
  }

  /** `str` shows a nested string the way `repr` does, so a string holding
      a single quote is shown in double quotes: for the set
      `{("a",), ("it's",)}` the key `["it's"]` sorts before `['a']`, since
      `"` comes before `'`. */
  lemma JsonableQuoteOrder()
    ensures QuoteOf("it's") == '"' && QuoteOf("a") == '\''
    ensures StrLe(ListV([StrV("it's")]), ListV([StrV("a")]))
    ensures !StrLe(ListV([StrV("a")]), ListV([StrV("it's")]))
    ensures Jsonable(SetV([TupleV([StrV("a")]), TupleV([StrV("it's")])]))
         == ListV([ListV([StrV("it's")]), ListV([StrV("a")])])
  {
    QuotedSortsFirst("it's", "a");
    JsonablePairSwapped(StrV("a"), StrV("it's"));
  }

  /** A one-string list whose string `repr` writes in double quotes sorts
      strictly before one whose string it writes in single quotes. */
  lemma QuotedSortsFirst(dq: string, sq: string)
    requires '\'' in dq && '"' !in dq && '\'' !in sq
    ensures QuoteOf(dq) == '"' && QuoteOf(sq) == '\''
    ensures StrLe(ListV([StrV(dq)]), ListV([StrV(sq)]))
    ensures !StrLe(ListV([StrV(sq)]), ListV([StrV(dq)]))
  {
    StrOfSingleton(dq);
    StrOfSingleton(sq);
    LexLeAtSecond(Str(ListV([StrV(dq)])), Str(ListV([StrV(sq)])));
  }

  lemma StrOfSingleton(s: string)
    ensures Str(ListV([StrV(s)])) == "[" + StrRepr(s) + "]"
    ensures Str(ListV([StrV(s)]))[0] == '[' && Str(ListV([StrV(s)]))[1] == QuoteOf(s)
  {
    assert ReprItems([StrV(s)]) == Repr(StrV(s));
  }

  lemma LexLeAtSecond(a: string, b: string)
    requires |a| >= 2 && |b| >= 2 && a[0] == b[0] && a[1] < b[1]
    ensures LexLe(a, b) && !LexLe(b, a)
  {
    assert LexLe(a[1..], b[1..]);
    assert !LexLe(b[1..], a[1..]);
  }

  /** Two one-element tuples of strings convert to lists; when the second's
      `str` sorts strictly first, the sorted list swaps them. */
  lemma JsonablePairSwapped(a: Value, b: Value)
    requires a.StrV? && b.StrV?
    requires !StrLe(ListV([a]), ListV([b]))
    ensures Jsonable(SetV([TupleV([a]), TupleV([b])])) == ListV([ListV([b]), ListV([a])])
  {
    StrLeTotalPreorder();
    TupleOfString(a);
    TupleOfString(b);
    PairItems(TupleV([a]), TupleV([b]), StrLe);
    SortPairSwapped(ListV([a]), ListV([b]), StrLe);
    JsonableSet([TupleV([a]), TupleV([b])], StrLe);
  }

  lemma TupleOfString(a: Value)
    requires a.StrV? && TotalPreorder(StrLe)
    ensures JsonableBy(TupleV([a]), StrLe) == ListV([a])
  {
    assert JsonableItems([a], StrLe) == [a];
  }

  lemma PairItems(x: Value, y: Value, le: (Value, Value) -> bool)
    requires TotalPreorder(le)
    ensures JsonableItems([x, y], le) == [JsonableBy(x, le), JsonableBy(y, le)]
  {
    assert [x, y][1..] == [y];
  }

  lemma JsonableSet(items: seq<Value>, le: (Value, Value) -> bool)
    requires TotalPreorder(le)
    ensures JsonableBy(SetV(items), le) == ListV(SortBy(JsonableItems(items, le), le))
  {
  }

  /** Order by JSON text: a total key once `dump` is injective. */
  function DumpLe(dump: Value -> string): (Value, Value) -> bool {
    (a: Value, b: Value) => LexLe(dump(a), dump(b))
  }

  lemma DumpLeTotalPreorder(dump: Value -> string)
    ensures TotalPreorder(DumpLe(dump))
  {
    LexLeIsTotalOrder();
  }

  lemma DumpLeAntisymmetric(dump: Value -> string)
    requires Injective(dump)
    ensures Antisymmetric(DumpLe(dump))
  {
    LexLeIsTotalOrder();
  }

  /** `_jsonable` with set members ordered by their JSON text. */
  function StableJsonable(v: Value, dump: Value -> string): (r: Value)
    ensures IsJsonData(r)
  {
    DumpLeTotalPreorder(dump);
    JsonableBy(v, DumpLe(dump))
  }

  lemma {:induction false} JsonableItemsAsMap(items: seq<Value>, le: (Value, Value) -> bool, f: Value -> Value)
    requires TotalPreorder(le)
    requires forall x :: f(x) == JsonableBy(x, le)
    ensures JsonableItems(items, le) == MapSeq(f, items)
    decreases |items|
  {
    if |items| > 0 {
      JsonableItemsAsMap(items[1..], le, f);
    }
  }

  /** Under an antisymmetric member order, a set's record does not depend on
      its iteration order. */
  lemma SetOrderFree(a: seq<Value>, b: seq<Value>, le: (Value, Value) -> bool)
    requires TotalPreorder(le) && Antisymmetric(le)
    requires multiset(a) == multiset(b)
    ensures JsonableBy(SetV(a), le) == JsonableBy(SetV(b), le)
  {
    JsonableItemsPermutation(a, b, le);
    SortByPermutationInvariant(JsonableItems(a, le), JsonableItems(b, le), le);
    JsonableSet(a, le);
    JsonableSet(b, le);
  }

  lemma JsonableItemsPermutation(a: seq<Value>, b: seq<Value>, le: (Value, Value) -> bool)
    requires TotalPreorder(le)
    requires multiset(a) == multiset(b)
    ensures multiset(JsonableItems(a, le)) == multiset(JsonableItems(b, le))
  {
    var f: Value -> Value := x => JsonableBy(x, le);
    JsonableItemsAsMap(a, le, f);
    JsonableItemsAsMap(b, le, f);
    MapSeqPermutation(f, a, b);
  }

  /** Ordering by JSON text makes the record of a set independent of its
      iteration order. */
  lemma StableJsonableSetOrderFree(a: seq<Value>, b: seq<Value>, dump: Value -> string)
    requires Injective(dump)
    requires multiset(a) == multiset(b)
    ensures StableJsonable(SetV(a), dump) == StableJsonable(SetV(b), dump)
  {
    DumpLeTotalPreorder(dump);
    DumpLeAntisymmetric(dump);
    SetOrderFree(a, b, DumpLe(dump));
  }

  ghost predicate Injective<A(!new), B>(f: A -> B) {
    forall a, b :: f(a) == f(b) ==> a == b
  }

  /** One dependency as `_normalize_deps_for_kwargs` records it: its
      canonical ref, or its `str` when normalisation fails. */
  function DepText(dep: Value): string {
    var n := NormalizeDep(dep);
    if n.Some? then n.value else Str(dep)
  }

  /** `_normalize_deps_for_kwargs(value)`: the recorded texts of the listed
      dependencies, sorted. */
  function NormalizeDepsForKwargs(v: Value): (r: seq<string>)
    ensures Strings.Sorted(r)
    ensures |r| == |IterDepsValue(v)|
    ensures multiset(r) == multiset(MapSeq(DepText, IterDepsValue(v)))
  {
    SortSeq(MapSeq(DepText, IterDepsValue(v)))
  }

  /** The order in which dependencies are listed does not matter, and a set
      gives the same record as a list of its members. */
  lemma DepsOrderIrrelevant(v: Value, w: Value)
    requires multiset(IterDepsValue(v)) == multiset(IterDepsValue(w))
    ensures NormalizeDepsForKwargs(v) == NormalizeDepsForKwargs(w)
  {
    MapSeqPermutation(DepText, IterDepsValue(v), IterDepsValue(w));
    SortSeqPermutationInvariant(MapSeq(DepText, IterDepsValue(v)), MapSeq(DepText, IterDepsValue(w)));
  }

  /** Each listed dependency is recorded by its canonical ref when it has
      one, and by its `str` otherwise. */
  lemma DepsRecorded(v: Value, i: nat)
    requires i < |IterDepsValue(v)|
    ensures var dep := IterDepsValue(v)[i];
      NormalizeDep(dep).Some? ==> NormalizeDep(dep).value in NormalizeDepsForKwargs(v)
    ensures var dep := IterDepsValue(v)[i];
      NormalizeDep(dep).None? ==> Str(dep) in NormalizeDepsForKwargs(v)
  {
    var texts := MapSeq(DepText, IterDepsValue(v));
    MapSeqAt(DepText, IterDepsValue(v));
    assert texts[i] in multiset(texts);
    assert texts[i] in multiset(NormalizeDepsForKwargs(v));
  }

  function StrList(ss: seq<string>): (r: seq<Value>)
    ensures |r| == |ss|
    ensures forall i :: 0 <= i < |r| ==> r[i] == StrV(ss[i])
  {
    seq(|ss|, i requires 0 <= i < |ss| => StrV(ss[i]))
  }

  /** The JSON value `local_digest` records for keyword `k`: the normalised
      dependency list for "deps", and otherwise the value converted with set
      members ordered by `le` (`str` as written, see `LocalDigest`). */
  function KwargJson(k: string, v: Value, le: (Value, Value) -> bool): (r: Value)
    requires TotalPreorder(le)
    ensures IsJsonData(r)
    ensures k == "deps" ==> r == ListV(StrList(NormalizeDepsForKwargs(v)))
    ensures k != "deps" && IsJsonData(v) ==> r == v
  {
    if k == "deps" then ListV(StrList(NormalizeDepsForKwargs(v)))
    else
      JsonDataKept(v, le);
      JsonableBy(v, le)
  }

  lemma JsonDataKept(v: Value, le: (Value, Value) -> bool)
    requires TotalPreorder(le)
    ensures IsJsonData(v) ==> JsonableBy(v, le) == v
  {
    if IsJsonData(v) {
      JsonableFixesJson(v, le);
    }
  }

  /** The keyword arguments as the dict `json.dumps(..., sort_keys=True)`
      lays out: keys in sorted order. */
  function KwargsJson(kwargs: map<string, Value>, le: (Value, Value) -> bool): Value
    requires TotalPreorder(le)
  {
    var keys := SortSet(kwargs.Keys);
    DictV(KwargEntries(keys, kwargs, le))
  }

  /** The `(name, JSON value)` entries for the given names. */
  function KwargEntries(keys: seq<string>, kwargs: map<string, Value>, le: (Value, Value) -> bool)
    : (r: seq<(Value, Value)>)
    requires TotalPreorder(le)
    requires forall i :: 0 <= i < |keys| ==> keys[i] in kwargs
    ensures |r| == |keys|
    ensures forall i :: 0 <= i < |keys| ==> r[i].0 == StrV(keys[i])
    ensures forall i :: 0 <= i < |keys| ==> r[i].1 == KwargJson(keys[i], kwargs[keys[i]], le)
  {
    seq(|keys|, i requires 0 <= i < |keys| => (StrV(keys[i]), KwargJson(keys[i], kwargs[keys[i]], le)))
  }

  /** Keyword arguments with the same names and the same per-keyword JSON
      values give the same dict. */
  lemma KwargsJsonPointwise(kw1: map<string, Value>, kw2: map<string, Value>, le: (Value, Value) -> bool)
    requires TotalPreorder(le)
    requires kw1.Keys == kw2.Keys
    requires forall k :: k in kw1 ==> KwargJson(k, kw1[k], le) == KwargJson(k, kw2[k], le)
    ensures KwargsJson(kw1, le) == KwargsJson(kw2, le)
  {
    var keys := SortSet(kw1.Keys);
    assert SortSet(kw2.Keys) == keys;
    EntriesPointwise(keys, kw1, kw2, le);
  }

  lemma EntriesPointwise(keys: seq<string>, kw1: map<string, Value>, kw2: map<string, Value>,
                         le: (Value, Value) -> bool)
    requires TotalPreorder(le)
    requires kw1.Keys == kw2.Keys
    requires forall i :: 0 <= i < |keys| ==> keys[i] in kw1
    requires forall k :: k in kw1 ==> KwargJson(k, kw1[k], le) == KwargJson(k, kw2[k], le)
    ensures KwargEntries(keys, kw1, le) == KwargEntries(keys, kw2, le)
  {
  }

  /** Keyword arguments with the same names whose JSON values differ at one
      name give different dicts. */
  lemma KwargsJsonSeparates(kw1: map<string, Value>, kw2: map<string, Value>, key: string,
                            le: (Value, Value) -> bool)
    requires TotalPreorder(le)
    requires kw1.Keys == kw2.Keys && key in kw1
    requires KwargJson(key, kw1[key], le) != KwargJson(key, kw2[key], le)
    ensures KwargsJson(kw1, le) != KwargsJson(kw2, le)
  {
    var keys := SortSet(kw1.Keys);
    assert SortSet(kw2.Keys) == keys;
    assert key in keys;
    var i :| 0 <= i < |keys| && keys[i] == key;
    EntriesDiffer(keys, kw1, kw2, i, le);
    assert KwargsJson(kw1, le) == DictV(KwargEntries(keys, kw1, le));
    assert KwargsJson(kw2, le) == DictV(KwargEntries(keys, kw2, le));
  }

  lemma EntriesDiffer(keys: seq<string>, kw1: map<string, Value>, kw2: map<string, Value>, i: nat,
                      le: (Value, Value) -> bool)
    requires TotalPreorder(le)
    requires forall j :: 0 <= j < |keys| ==> keys[j] in kw1 && keys[j] in kw2
    requires i < |keys| && KwargJson(keys[i], kw1[keys[i]], le) != KwargJson(keys[i], kw2[keys[i]], le)
    ensures KwargEntries(keys, kw1, le) != KwargEntries(keys, kw2, le)
  {
    assert KwargEntries(keys, kw1, le)[i].1 != KwargEntries(keys, kw2, le)[i].1;
  }

  /** The `json.dumps(kwargs, sort_keys=True, ...)` text, with set members
      ordered by `le`. `dump` stands for `json.dumps` with sorted keys,
      compact separators and ASCII escapes. */
  function KwargsRecordBy(kwargs: map<string, Value>, dump: Value -> string, le: (Value, Value) -> bool): string
    requires TotalPreorder(le)
  {
    dump(KwargsJson(kwargs, le))
  }

  /** The record as written: set members ordered by `str`. */
  function KwargsRecord(kwargs: map<string, Value>, dump: Value -> string): string {
    StrLeTotalPreorder();
    KwargsRecordBy(kwargs, dump, StrLe)
  }

  /** The digest of a segment and its keyword arguments, with set members
      ordered by `le`; `h` stands for the hex SHA-256 of the UTF-8
      payload. */
  function LocalDigestBy(seg: string, kwargs: map<string, Value>, dump: Value -> string,
                         h: string -> string, le: (Value, Value) -> bool): string
    requires TotalPreorder(le)
  {
    h(NormalizeSegment(seg) + "\n" + KwargsRecordBy(kwargs, dump, le))
  }

  /** `local_digest(entry)` as written, given the extracted source segment
      `seg` of the entry's definition: set members ordered by `str`, as
      `_jsonable` does. */
  function LocalDigest(seg: string, kwargs: map<string, Value>, dump: Value -> string,
                       h: string -> string): string {
    StrLeTotalPreorder();
    LocalDigestBy(seg, kwargs, dump, h, StrLe)
  }

  /** The corrected local digest: set members ordered by their JSON text,
      so that a set's iteration order no longer matters. */
  function StableLocalDigest(seg: string, kwargs: map<string, Value>, dump: Value -> string,
                             h: string -> string): string {
    DumpLeTotalPreorder(dump);
    LocalDigestBy(seg, kwargs, dump, h, DumpLe(dump))
  }

  /** What `json.dumps(..., ensure_ascii=True)` guarantees: no raw newline. */
  ghost predicate NewlineFree<A(!new)>(f: A -> string) {
    forall a :: '\n' !in f(a)
  }

  /** Hashing `a + "\n" + x` with a collision-free `h` and a newline-free
      tail `x` pins down both `a` and `x`. */
  lemma PayloadTail(h: string -> string, a: string, x: string, b: string, y: string)
    requires Injective(h)
    requires '\n' !in x && '\n' !in y
    ensures h(a + "\n" + x) == h(b + "\n" + y) <==> a == b && x == y
  {
    if h(a + "\n" + x) == h(b + "\n" + y) {
      SplitAtLast(a, x, b, y, '\n');
    }
  }

  /** Layout-only edits (line endings, trailing blanks) leave the digest
      alone: it depends on the segment only through its normal form. */
  lemma LocalDigestOfNormalized(seg: string, kwargs: map<string, Value>, dump: Value -> string,
                                h: string -> string)
    ensures LocalDigest(NormalizeSegment(seg), kwargs, dump, h) == LocalDigest(seg, kwargs, dump, h)
  {
    NormalizeSegmentIdempotent(seg);
  }

  /** With a collision-free hash, the digest tells apart exactly the
      segments whose normal forms differ and exactly the keyword arguments
      whose JSON records differ. */
  lemma LocalDigestSensitive(seg1: string, seg2: string, kw1: map<string, Value>, kw2: map<string, Value>,
                             dump: Value -> string, h: string -> string)
    requires Injective(h) && NewlineFree(dump)
    ensures LocalDigest(seg1, kw1, dump, h) == LocalDigest(seg2, kw2, dump, h)
      <==> NormalizeSegment(seg1) == NormalizeSegment(seg2) && KwargsRecord(kw1, dump) == KwargsRecord(kw2, dump)
  {
    var d1, d2 := KwargsRecord(kw1, dump), KwargsRecord(kw2, dump);
    assert '\n' !in d1 && '\n' !in d2;
    PayloadTail(h, NormalizeSegment(seg1), d1, NormalizeSegment(seg2), d2);
  }

  /** Reordering the `deps=` list, or giving it as a set, does not change
      the digest. */
  lemma LocalDigestDepsOrder(seg: string, kw1: map<string, Value>, kw2: map<string, Value>,
                             dump: Value -> string, h: string -> string)
    requires kw1.Keys == kw2.Keys
    requires forall k :: k in kw1 && k != "deps" ==> kw1[k] == kw2[k]
    requires "deps" in kw1 ==> multiset(IterDepsValue(kw1["deps"])) == multiset(IterDepsValue(kw2["deps"]))
    ensures LocalDigest(seg, kw1, dump, h) == LocalDigest(seg, kw2, dump, h)
  {
    StrLeTotalPreorder();
    if "deps" in kw1 {
      DepsOrderIrrelevant(kw1["deps"], kw2["deps"]);
    }
    forall k | k in kw1 ensures KwargJson(k, kw1[k], StrLe) == KwargJson(k, kw2[k], StrLe) {
    }
    KwargsJsonPointwise(kw1, kw2, StrLe);
  }

  /** As written, the iteration order of a set given as a keyword argument
      can change the digest: `{1, "1"}` iterated in its two orders gives two
      digests (for an injective hash and serialisation), whatever the other
      keyword arguments are. */
  lemma LocalDigestSetOrderDepends(seg: string, kw1: map<string, Value>, kw2: map<string, Value>, key: string,
                                   dump: Value -> string, h: string -> string)
    requires Injective(h) && Injective(dump) && NewlineFree(dump)
    requires kw1.Keys == kw2.Keys && key in kw1 && key != "deps"
    requires kw1[key] == SetV([IntV(1), StrV("1")]) && kw2[key] == SetV([StrV("1"), IntV(1)])
    ensures LocalDigest(seg, kw1, dump, h) != LocalDigest(seg, kw2, dump, h)
  {
    StrLeTotalPreorder();
    JsonableSetOrderDepends();
    assert KwargJson(key, kw1[key], StrLe) == Jsonable(SetV([IntV(1), StrV("1")]));
    assert KwargJson(key, kw2[key], StrLe) == Jsonable(SetV([StrV("1"), IntV(1)]));
    LocalDigestSeparates(seg, kw1, kw2, key, dump, h);
  }

  /** As written, keyword arguments whose JSON values differ at one name
      give different digests (for an injective hash and serialisation). */
  lemma LocalDigestSeparates(seg: string, kw1: map<string, Value>, kw2: map<string, Value>, key: string,
                             dump: Value -> string, h: string -> string)
    requires Injective(h) && Injective(dump) && NewlineFree(dump)
    requires kw1.Keys == kw2.Keys && key in kw1
    requires TotalPreorder(StrLe) && KwargJson(key, kw1[key], StrLe) != KwargJson(key, kw2[key], StrLe)
    ensures LocalDigest(seg, kw1, dump, h) != LocalDigest(seg, kw2, dump, h)
  {
    KwargsJsonSeparates(kw1, kw2, key, StrLe);
    LocalDigestSensitive(seg, seg, kw1, kw2, dump, h);
  }

  /** With set members ordered by their JSON text, the iteration order of a
      set given as a keyword argument does not change the digest (given an
      injective `dump`). */
  lemma StableLocalDigestSetOrder(seg: string, kw1: map<string, Value>, kw2: map<string, Value>, key: string,
                                  a: seq<Value>, b: seq<Value>, dump: Value -> string, h: string -> string)
    requires Injective(dump)
    requires kw1.Keys == kw2.Keys && key in kw1 && key != "deps"
    requires forall k :: k in kw1 && k != key ==> kw1[k] == kw2[k]
    requires kw1[key] == SetV(a) && kw2[key] == SetV(b) && multiset(a) == multiset(b)
    ensures StableLocalDigest(seg, kw1, dump, h) == StableLocalDigest(seg, kw2, dump, h)
  {
    DumpLeTotalPreorder(dump);
    StableJsonableSetOrderFree(a, b, dump);
    forall k | k in kw1 ensures KwargJson(k, kw1[k], DumpLe(dump)) == KwargJson(k, kw2[k], DumpLe(dump)) {
    }
    KwargsJsonPointwise(kw1, kw2, DumpLe(dump));
  }

  // ---------------------------------------------------------------------------
  // `graph_digest` and `module_digest`.
  // ---------------------------------------------------------------------------

  lemma VisitShrinks(keys: set<string>, visiting: set<string>, x: string)
    requires x in keys && x !in visiting
    ensures |keys - (visiting + {x})| < |keys - visiting|
  {
    assert keys - (visiting + {x}) == (keys - visiting) - {x};
  }

  /** `compute(sr)` inside `graph_digest`; `visiting` holds the refs whose
      computation is under way. `local(e)` stands for `local_digest(e)`,
      which fails when the definition cannot be found; `h` for the hex
      SHA-256 of the UTF-8 payload. */
  function Digest(specs: map<string, SpecEntry>, g: Graph, local: SpecEntry -> Result<string>,
                  h: string -> string, x: string, visiting: set<string>): (r: Result<string>)
    decreases |specs.Keys - visiting|, 0, 0
  {
    if x in visiting then Err(CycleError("Dependency cycle detected while hashing: " + x))
    else if x !in specs then Err(KeyError(x))
    else
      var l := local(specs[x]);
      if l.Err? then Err(l.error)
      else
        VisitShrinks(specs.Keys, visiting, x);
        var ds := DigestAll(specs, g, local, h, SortSet(Succ(g, x)), visiting + {x});
        if ds.Err? then Err(ds.error)
        else Ok(h(l.value + "\n" + Join(ds.value, "\n")))
  }

  /** The list comprehension over the sorted dependencies: digests in
      order, stopping at the first failure. */
  function DigestAll(specs: map<string, SpecEntry>, g: Graph, local: SpecEntry -> Result<string>,
                     h: string -> string, deps: seq<string>, visiting: set<string>): Result<seq<string>>
    decreases |specs.Keys - visiting|, 1, |deps|
  {
    if |deps| == 0 then Ok([])
    else
      var d := Digest(specs, g, local, h, deps[0], visiting);
      if d.Err? then Err(d.error)
      else
        var rest := DigestAll(specs, g, local, h, deps[1..], visiting);
        if rest.Err? then Err(rest.error)
        else Ok([d.value] + rest.value)
  }

  /** The comprehension succeeds exactly when every dependency's digest
      does, and then lists those digests in order. */
  lemma {:induction false} DigestAllSpec(specs: map<string, SpecEntry>, g: Graph, local: SpecEntry -> Result<string>,
                                         h: string -> string, deps: seq<string>, visiting: set<string>)
    ensures var r := DigestAll(specs, g, local, h, deps, visiting);
      r.Ok? <==> forall i :: 0 <= i < |deps| ==> Digest(specs, g, local, h, deps[i], visiting).Ok?
    ensures var r := DigestAll(specs, g, local, h, deps, visiting);
      r.Ok? ==> (|r.value| == |deps|
        && forall i :: 0 <= i < |deps| ==> r.value[i] == Digest(specs, g, local, h, deps[i], visiting).value)
    decreases |deps|
  {
    if |deps| > 0 {
      DigestAllSpec(specs, g, local, h, deps[1..], visiting);
      var d := Digest(specs, g, local, h, deps[0], visiting);
      var r := DigestAll(specs, g, local, h, deps, visiting);
      var rest := DigestAll(specs, g, local, h, deps[1..], visiting);
      assert r == if d.Err? then Err(d.error) else if rest.Err? then Err(rest.error) else Ok([d.value] + rest.value);
      assert forall i :: 1 <= i < |deps| ==> deps[1..][i - 1] == deps[i];
    }
  }

  /** The comprehension over any digest function `f`: results in order,
      stopping at the first failure. */
  function MapAll(f: string -> Result<string>, xs: seq<string>): Result<seq<string>>
    decreases |xs|
  {
    if |xs| == 0 then Ok([])
    else
      var d := f(xs[0]);
      if d.Err? then Err(d.error)
      else
        var rest := MapAll(f, xs[1..]);
        if rest.Err? then Err(rest.error) else Ok([d.value] + rest.value)
  }

  lemma {:induction false} MapAllFirstFailure(f: string -> Result<string>, xs: seq<string>)
    requires MapAll(f, xs).Err?
    ensures exists i :: (0 <= i < |xs| && (forall j :: 0 <= j < i ==> f(xs[j]).Ok?) && f(xs[i]).Err?
                         && MapAll(f, xs).error == f(xs[i]).error)
    decreases |xs|
  {
    if f(xs[0]).Ok? {
      var rest := xs[1..];
      MapAllFirstFailure(f, rest);
      var i :| 0 <= i < |rest| && (forall j :: 0 <= j < i ==> f(rest[j]).Ok?) && f(rest[i]).Err?
        && MapAll(f, rest).error == f(rest[i]).error;
      forall j | 0 <= j < i + 1 ensures f(xs[j]).Ok? {
        if j > 0 {
          assert xs[j] == rest[j - 1];
        }
      }
      assert xs[i + 1] == rest[i];
    }
  }

  lemma {:induction false} DigestAllIsMapAll(specs: map<string, SpecEntry>, g: Graph,
                                             local: SpecEntry -> Result<string>, h: string -> string,
                                             deps: seq<string>, visiting: set<string>)
    ensures DigestAll(specs, g, local, h, deps, visiting) == MapAll(x => Digest(specs, g, local, h, x, visiting), deps)
    decreases |deps|
  {
    if |deps| > 0 {
      DigestAllIsMapAll(specs, g, local, h, deps[1..], visiting);
      var f := x => Digest(specs, g, local, h, x, visiting);
      assert f(deps[0]) == Digest(specs, g, local, h, deps[0], visiting);
    }
  }

  /** The failure the comprehension raises is that of the first dependency
      whose digest fails. */
  lemma DigestAllFirstFailure(specs: map<string, SpecEntry>, g: Graph,
                              local: SpecEntry -> Result<string>, h: string -> string,
                              deps: seq<string>, visiting: set<string>)
    requires DigestAll(specs, g, local, h, deps, visiting).Err?
    ensures exists i ::
      && 0 <= i < |deps|
      && (forall j :: 0 <= j < i ==> Digest(specs, g, local, h, deps[j], visiting).Ok?)
      && Digest(specs, g, local, h, deps[i], visiting).Err?
      && DigestAll(specs, g, local, h, deps, visiting).error == Digest(specs, g, local, h, deps[i], visiting).error
  {
    var f := x => Digest(specs, g, local, h, x, visiting);
    DigestAllIsMapAll(specs, g, local, h, deps, visiting);
    MapAllFirstFailure(f, deps);
    var i :| 0 <= i < |deps| && (forall j :: 0 <= j < i ==> f(deps[j]).Ok?) && f(deps[i]).Err?
      && MapAll(f, deps).error == f(deps[i]).error;
    assert forall j :: 0 <= j < i ==> Digest(specs, g, local, h, deps[j], visiting).Ok?;
  }

  /** `graph_digest(spec_ref, specs, spec_graph)`. The memo is not modelled:
      it only hands back digests that completed, which recomputation
      reproduces. */
  function GraphDigest(specs: map<string, SpecEntry>, g: Graph, local: SpecEntry -> Result<string>,
                       h: string -> string, x: string): Result<string> {
    Digest(specs, g, local, h, x, {})
  }

  /** Hashing a node on a cycle fails: the walk comes back to a ref still
      being visited, unless some other failure stops it first. */
  lemma {:induction false} OnCycleFails(specs: map<string, SpecEntry>, g: Graph, local: SpecEntry -> Result<string>,
                                        h: string -> string, c: seq<string>, i: nat, visiting: set<string>)
    requires IsCycle(g, c) && i < |c|
    requires c[0] in visiting || i == 0
    ensures Digest(specs, g, local, h, c[i], visiting).Err?
    decreases |specs.Keys - visiting|
  {
    var x := c[i];
    if x !in visiting && x in specs && local(specs[x]).Ok? {
      var j := if i == |c| - 1 then 0 else i + 1;
      assert Edge(g, x, c[j]);
      var deps := SortSet(Succ(g, x));
      assert c[j] in deps;
      var k :| 0 <= k < |deps| && deps[k] == c[j];
      VisitShrinks(specs.Keys, visiting, x);
      OnCycleFails(specs, g, local, h, c, j, visiting + {x});
      DigestAllSpec(specs, g, local, h, deps, visiting + {x});
      assert !Digest(specs, g, local, h, deps[k], visiting + {x}).Ok?;
    }
  }

  /** `graph_digest` of a spec on a dependency cycle raises. */
  lemma GraphDigestCycleFails(specs: map<string, SpecEntry>, g: Graph, local: SpecEntry -> Result<string>,
                              h: string -> string, c: seq<string>)
    requires IsCycle(g, c)
    ensures GraphDigest(specs, g, local, h, c[0]).Err?
  {
    OnCycleFails(specs, g, local, h, c, 0, {});
  }

  /** Every ref reachable from `x` is a spec whose local digest succeeds. */
  ghost predicate LocallyComputable(specs: map<string, SpecEntry>, g: Graph, local: SpecEntry -> Result<string>,
                                    x: string) {
    forall y :: Reaches(g, x, y) ==> y in specs && local(specs[y]).Ok?
  }

  lemma {:induction false} AcyclicDigestOk(specs: map<string, SpecEntry>, g: Graph, local: SpecEntry -> Result<string>,
                                           h: string -> string, x: string, visiting: set<string>)
    requires Acyclic(g) && LocallyComputable(specs, g, local, x)
    requires forall v :: v in visiting ==> !Reaches(g, x, v)
    ensures Digest(specs, g, local, h, x, visiting).Ok?
    decreases |specs.Keys - visiting|
  {
    ReachesSelf(g, x);
    var deps := SortSet(Succ(g, x));
    var v' := visiting + {x};
    VisitShrinks(specs.Keys, visiting, x);
    forall k | 0 <= k < |deps| ensures Digest(specs, g, local, h, deps[k], v').Ok? {
      var d := deps[k];
      assert Edge(g, x, d);
      DependencyPremises(specs, g, local, x, d, visiting);
      AcyclicDigestOk(specs, g, local, h, d, v');
    }
    DigestAllSpec(specs, g, local, h, deps, v');
    assert DigestAll(specs, g, local, h, deps, v').Ok?;
  }

  /** What `AcyclicDigestOk` needs of `x` carries over to its dependency `d`
      once `x` is being visited. */
  lemma DependencyPremises(specs: map<string, SpecEntry>, g: Graph, local: SpecEntry -> Result<string>,
                           x: string, d: string, visiting: set<string>)
    requires Acyclic(g) && LocallyComputable(specs, g, local, x) && Edge(g, x, d)
    requires forall v :: v in visiting ==> !Reaches(g, x, v)
    ensures LocallyComputable(specs, g, local, d)
    ensures forall v :: v in visiting + {x} ==> !Reaches(g, d, v)
  {
    forall y | Reaches(g, d, y) ensures y in specs && local(specs[y]).Ok? {
      ReachesStep(g, x, d, y);
    }
    forall v | v in visiting + {x} ensures !Reaches(g, d, v) {
      if Reaches(g, d, v) {
        if v == x {
          PathBackIsCycle(g, x, d);
        } else {
          ReachesStep(g, x, d, v);
        }
      }
    }
  }

  /** When every spec's local digest succeeds and every dependency is a
      spec, all graph digests succeed exactly when the graph has no cycle. */
  lemma GraphDigestOkIffAcyclic(specs: map<string, SpecEntry>, g: Graph, local: SpecEntry -> Result<string>,
                                h: string -> string)
    requires Nodes(g) <= specs.Keys
    requires forall y :: y in specs ==> local(specs[y]).Ok?
    ensures (forall x :: x in specs ==> GraphDigest(specs, g, local, h, x).Ok?) <==> Acyclic(g)
  {
    if Acyclic(g) {
      forall x | x in specs ensures GraphDigest(specs, g, local, h, x).Ok? {
        forall y | Reaches(g, x, y) ensures y in specs {
          if y != x {
            ReachedIsNode(g, x, y);
          }
        }
        AcyclicDigestOk(specs, g, local, h, x, {});
      }
    } else {
      var c :| IsCycle(g, c);
      assert c[0] in Nodes(g);
      GraphDigestCycleFails(specs, g, local, h, c);
    }
  }

  /** Local digests are single-line (hex) strings. */
  ghost predicate LocalNewlineFree(local: SpecEntry -> Result<string>) {
    forall e :: local(e).Ok? ==> '\n' !in local(e).value
  }

  lemma DigestsNewlineFree(specs: map<string, SpecEntry>, g: Graph, local: SpecEntry -> Result<string>,
                           h: string -> string, deps: seq<string>, visiting: set<string>)
    requires NewlineFree(h)
    requires DigestAll(specs, g, local, h, deps, visiting).Ok?
    ensures var ds := DigestAll(specs, g, local, h, deps, visiting).value;
      forall i :: 0 <= i < |ds| ==> '\n' !in ds[i]
  {
    DigestAllSpec(specs, g, local, h, deps, visiting);
    var ds := DigestAll(specs, g, local, h, deps, visiting).value;
    forall i | 0 <= i < |ds| ensures '\n' !in ds[i] {
      DigestNewlineFree(specs, g, local, h, deps[i], visiting);
    }
  }

  lemma DigestNewlineFree(specs: map<string, SpecEntry>, g: Graph, local: SpecEntry -> Result<string>,
                          h: string -> string, x: string, visiting: set<string>)
    requires NewlineFree(h)
    requires Digest(specs, g, local, h, x, visiting).Ok?
    ensures '\n' !in Digest(specs, g, local, h, x, visiting).value
  {
  }

  /** One step down: equal digests of `x` mean equal local digests of `x`
      and equal digests of each of its dependencies. */
  lemma DigestStep(specs1: map<string, SpecEntry>, specs2: map<string, SpecEntry>,
                   g: Graph, local: SpecEntry -> Result<string>, h: string -> string,
                   x: string, visiting: set<string>)
    requires Injective(h) && NewlineFree(h) && LocalNewlineFree(local)
    requires Digest(specs1, g, local, h, x, visiting).Ok?
    requires Digest(specs1, g, local, h, x, visiting) == Digest(specs2, g, local, h, x, visiting)
    ensures x in specs1 && x in specs2 && local(specs1[x]) == local(specs2[x])
    ensures forall d :: Edge(g, x, d) ==>
      && Digest(specs1, g, local, h, d, visiting + {x}).Ok?
      && Digest(specs1, g, local, h, d, visiting + {x}) == Digest(specs2, g, local, h, d, visiting + {x})
  {
    assert x in specs1 && x in specs2 && x !in visiting;
    var l1, l2 := local(specs1[x]), local(specs2[x]);
    var deps := SortSet(Succ(g, x));
    var v' := visiting + {x};
    var ds1 := DigestAll(specs1, g, local, h, deps, v');
    var ds2 := DigestAll(specs2, g, local, h, deps, v');
    DigestAllSpec(specs1, g, local, h, deps, v');
    DigestAllSpec(specs2, g, local, h, deps, v');
    assert l1.Ok? && l2.Ok? && ds1.Ok? && ds2.Ok?;
    assert h(l1.value + "\n" + Join(ds1.value, "\n")) == h(l2.value + "\n" + Join(ds2.value, "\n"));
    DigestsNewlineFree(specs1, g, local, h, deps, v');
    DigestsNewlineFree(specs2, g, local, h, deps, v');
    PayloadParts(h, l1.value, ds1.value, l2.value, ds2.value);
    assert ds1 == ds2;
    forall d | Edge(g, x, d)
      ensures Digest(specs1, g, local, h, d, v').Ok?
      ensures Digest(specs1, g, local, h, d, v') == Digest(specs2, g, local, h, d, v')
    {
      assert d in deps;
      DigestAllSameAt(specs1, specs2, g, local, h, deps, v', d);
    }
  }

  /** The payload hashed for a node, its local digest and its dependencies'
      digests one per line, determines both parts when nothing in it but
      the separators is a newline. */
  lemma PayloadParts(h: string -> string, a1: string, ds1: seq<string>, a2: string, ds2: seq<string>)
    requires Injective(h)
    requires '\n' !in a1 && '\n' !in a2 && |ds1| == |ds2|
    requires forall i :: 0 <= i < |ds1| ==> '\n' !in ds1[i]
    requires forall i :: 0 <= i < |ds2| ==> '\n' !in ds2[i]
    requires h(a1 + "\n" + Join(ds1, "\n")) == h(a2 + "\n" + Join(ds2, "\n"))
    ensures a1 == a2 && ds1 == ds2
  {
    var j1, j2 := Join(ds1, "\n"), Join(ds2, "\n");
    SplitAtFirst(a1, j1, a2, j2, '\n');
    if |ds1| > 0 {
      SplitJoin(ds1, '\n');
      SplitJoin(ds2, '\n');
    }
  }

  /** Equal successful comprehensions agree on each listed dependency. */
  lemma DigestAllSameAt(specs1: map<string, SpecEntry>, specs2: map<string, SpecEntry>,
                        g: Graph, local: SpecEntry -> Result<string>, h: string -> string,
                        deps: seq<string>, visiting: set<string>, d: string)
    requires DigestAll(specs1, g, local, h, deps, visiting).Ok?
    requires DigestAll(specs1, g, local, h, deps, visiting) == DigestAll(specs2, g, local, h, deps, visiting)
    requires d in deps
    ensures Digest(specs1, g, local, h, d, visiting).Ok?
    ensures Digest(specs1, g, local, h, d, visiting) == Digest(specs2, g, local, h, d, visiting)
  {
    var k :| 0 <= k < |deps| && deps[k] == d;
    DigestAllSpec(specs1, g, local, h, deps, visiting);
    DigestAllSpec(specs2, g, local, h, deps, visiting);
    var ds1 := DigestAll(specs1, g, local, h, deps, visiting);
    assert ds1.value[k] == DigestAll(specs2, g, local, h, deps, visiting).value[k];
  }

  /** Equal digests of the first node of a path force equal local digests
      at its last node. */
  lemma {:induction false} DigestPinsLocals(specs1: map<string, SpecEntry>, specs2: map<string, SpecEntry>,
                                            g: Graph, local: SpecEntry -> Result<string>, h: string -> string,
                                            p: seq<string>, visiting: set<string>)
    requires Injective(h) && NewlineFree(h) && LocalNewlineFree(local)
    requires IsPath(g, p)
    requires Digest(specs1, g, local, h, p[0], visiting).Ok?
    requires Digest(specs1, g, local, h, p[0], visiting) == Digest(specs2, g, local, h, p[0], visiting)
    ensures var y := p[|p| - 1];
      y in specs1 && y in specs2 && local(specs1[y]) == local(specs2[y])
    decreases |p|
  {
    DigestStep(specs1, specs2, g, local, h, p[0], visiting);
    if |p| > 1 {
      assert Edge(g, p[0], p[1]);
      var q := p[1..];
      assert q[0] == p[1] && q[|q| - 1] == p[|p| - 1];
      assert IsPath(g, q) by {
        forall i | 0 <= i < |q| - 1 ensures Edge(g, q[i], q[i + 1]) {
          assert q[i] == p[i + 1] && q[i + 1] == p[i + 2];
        }
      }
      DigestPinsLocals(specs1, specs2, g, local, h, q, visiting + {p[0]});
    }
  }

  /** A change to the local digest of any transitive dependency changes the
      graph digest: equal graph digests mean equal local digests all the
      way down (given a collision-free hash). */
  lemma GraphDigestPinsLocals(specs1: map<string, SpecEntry>, specs2: map<string, SpecEntry>,
                              g: Graph, local: SpecEntry -> Result<string>, h: string -> string,
                              x: string, y: string)
    requires Injective(h) && NewlineFree(h) && LocalNewlineFree(local)
    requires Reaches(g, x, y)
    requires GraphDigest(specs1, g, local, h, x).Ok?
    requires GraphDigest(specs1, g, local, h, x) == GraphDigest(specs2, g, local, h, x)
    ensures y in specs1 && y in specs2 && local(specs1[y]) == local(specs2[y])
  {
    var p :| IsPath(g, p) && p[0] == x && p[|p| - 1] == y;
    DigestPinsLocals(specs1, specs2, g, local, h, p, {});
  }

  function SpecRefOf(e: SpecEntry): string {
    e.specRef
  }

  /** `module_digest(module_name, module_specs, specs, spec_graph)`: the graph
      digests of the module's specs, taken in spec-ref order (the first
      failure is raised), then sorted and hashed together. */
  function ModuleDigest(moduleSpecs: seq<SpecEntry>, specs: map<string, SpecEntry>, g: Graph,
                        local: SpecEntry -> Result<string>, h: string -> string): (r: Result<string>)
    ensures r.Ok? <==> forall e :: e in moduleSpecs ==> GraphDigest(specs, g, local, h, e.specRef).Ok?
  {
    var refs := SortSeq(MapSeq(SpecRefOf, moduleSpecs));
    var ds := DigestAll(specs, g, local, h, refs, {});
    DigestAllSpec(specs, g, local, h, refs, {});
    RefsOfMembers(moduleSpecs, refs);
    if ds.Err? then Err(ds.error) else Ok(h(Join(SortSeq(ds.value), "\n")))
  }

  /** The sorted refs name exactly the module's specs. */
  lemma RefsOfMembers(moduleSpecs: seq<SpecEntry>, refs: seq<string>)
    requires multiset(refs) == multiset(MapSeq(SpecRefOf, moduleSpecs))
    ensures forall e :: e in moduleSpecs ==> e.specRef in refs
    ensures forall i :: 0 <= i < |refs| ==> exists e :: e in moduleSpecs && e.specRef == refs[i]
  {
    MapSeqAt(SpecRefOf, moduleSpecs);
    var m := MapSeq(SpecRefOf, moduleSpecs);
    forall e | e in moduleSpecs ensures e.specRef in refs {
      var i :| 0 <= i < |moduleSpecs| && moduleSpecs[i] == e;
      assert m[i] in multiset(refs);
    }
    forall i | 0 <= i < |refs| ensures exists e :: e in moduleSpecs && e.specRef == refs[i] {
      assert refs[i] in multiset(m);
      var j :| 0 <= j < |m| && m[j] == refs[i];
      assert moduleSpecs[j] in moduleSpecs;
    }
  }

  /** The order in which the module's specs are listed does not matter. */
  lemma ModuleDigestOrderFree(ms1: seq<SpecEntry>, ms2: seq<SpecEntry>, specs: map<string, SpecEntry>,
                              g: Graph, local: SpecEntry -> Result<string>, h: string -> string)
    requires multiset(ms1) == multiset(ms2)
    ensures ModuleDigest(ms1, specs, g, local, h) == ModuleDigest(ms2, specs, g, local, h)
  {
    MapSeqPermutation(SpecRefOf, ms1, ms2);
    SortSeqPermutationInvariant(MapSeq(SpecRefOf, ms1), MapSeq(SpecRefOf, ms2));
  }
}

=== FILE: discovery.dfy ===
/** Finding the modules under the source roots (jaunt/discovery.py).

    A root is the sequence of the regular files below it, in walk order,
    each given as its path relative to the root (the sequence of its
    components). Glob matching (`fnmatch.fnmatchcase(name, pattern)`) is a
    parameter. A module prefix of "" means "no prefix": the source treats an
    empty prefix like a missing one. */
module Discovery {
  import opened Wrappers
  import opened Text
  import opened Strings
  import opened Paths

  type RelPath = seq<string>

  /** `fnmatch.fnmatchcase(name, pattern)`. */
  type Matcher = (string, string) -> bool

  const InitFile: string := "__init__.py"
  const StarDir: string := "**/"  // a leading "any directories" glob

  /** The message of the `ValueError` raised by `Path('.').with_suffix(".py")`. */
  const EmptyNameMessage: string := "PosixPath('.') has an empty name"

  // ---------------------------------------------------------------------
  // Exclusion patterns

  /** The first `k` three-character blocks of `pat` are each `StarDir`. */
  ghost predicate StarPrefix(pat: string, k: nat) {
    3 * k <= |pat| && forall j :: 0 <= j < k ==> pat[3 * j..3 * j + 3] == StarDir
  }

  /** The retries after the first match attempt: strip one leading `StarDir` at
      a time and match again, while the pattern still starts with it. */
  function StripsMatch(rel: string, pat: string, matches: Matcher): bool
    decreases |pat|
  {
    if StartsWith(pat, StarDir) then
      matches(rel, pat[3..]) || StripsMatch(rel, pat[3..], matches)
    else false
  }

  /** `_is_excluded(rel_posix, exclude=...)`. */
  function IsExcluded(rel: string, exclude: seq<string>, matches: Matcher): (r: bool)
    ensures exclude == [] ==> !r
    ensures (exists i :: 0 <= i < |exclude| && matches(rel, exclude[i])) ==> r
    ensures r ==> exists i :: 0 <= i < |exclude| && (matches(rel, exclude[i]) || StripsMatch(rel, exclude[i], matches))
  {
    if exclude == [] then false
    else (matches(rel, exclude[0]) || StripsMatch(rel, exclude[0], matches)
          || IsExcluded(rel, exclude[1..], matches))
  }

  lemma StarPrefixShift(pat: string, k: nat)
    requires StartsWith(pat, StarDir)
    ensures StarPrefix(pat, k + 1) <==> StarPrefix(pat[3..], k)
    ensures 3 * (k + 1) <= |pat| ==> pat[3 * (k + 1)..] == pat[3..][3 * k..]
  {
    var t := pat[3..];
    if 3 * (k + 1) <= |pat| {
      forall j | 0 <= j < k ensures pat[3 * (j + 1)..3 * (j + 1) + 3] == t[3 * j..3 * j + 3] { }
      assert pat[0..3] == StarDir;
      if StarPrefix(t, k) {
        forall j | 0 <= j < k + 1 ensures pat[3 * j..3 * j + 3] == StarDir {
          if j > 0 { assert pat[3 * j..3 * j + 3] == t[3 * (j - 1)..3 * (j - 1) + 3]; }
        }
      }
      if StarPrefix(pat, k + 1) {
        forall j | 0 <= j < k ensures t[3 * j..3 * j + 3] == StarDir {
          assert pat[3 * (j + 1)..3 * (j + 1) + 3] == StarDir;
        }
      }
    }
  }

  /** The retries succeed exactly when the pattern with one or more leading
      `StarDir` blocks removed matches. */
  lemma {:induction false} StripsMatchIff(rel: string, pat: string, matches: Matcher)
    ensures StripsMatch(rel, pat, matches)
        <==> exists k: nat :: 1 <= k && StarPrefix(pat, k) && matches(rel, pat[3 * k..])
    decreases |pat|
  {
    if StartsWith(pat, StarDir) {
      var t := pat[3..];
      StripsMatchIff(rel, t, matches);
      if StripsMatch(rel, pat, matches) {
        if matches(rel, t) {
          StarPrefixShift(pat, 0);
          assert StarPrefix(pat, 1) && pat[3 * 1..] == t;
        } else {
          var k: nat :| 1 <= k && StarPrefix(t, k) && matches(rel, t[3 * k..]);
          StarPrefixShift(pat, k);
          assert StarPrefix(pat, k + 1) && matches(rel, pat[3 * (k + 1)..]);
        }
      }
      if exists k: nat :: 1 <= k && StarPrefix(pat, k) && matches(rel, pat[3 * k..]) {
        var k: nat :| 1 <= k && StarPrefix(pat, k) && matches(rel, pat[3 * k..]);
        StarPrefixShift(pat, k - 1);
        if k > 1 {
          assert 1 <= k - 1 && StarPrefix(t, k - 1) && matches(rel, t[3 * (k - 1)..]);
        } else {
          assert matches(rel, t);
        }
      }
    } else {
      forall k: nat | 1 <= k ensures !StarPrefix(pat, k) {
        if 3 * k <= |pat| { assert pat[3 * 0..3 * 0 + 3] == pat[..3]; }
      }
    }
  }

  /** A path is excluded exactly when some pattern, with zero or more of its
      leading `StarDir` blocks removed, matches it. */
  lemma {:induction false} ExcludedIff(rel: string, exclude: seq<string>, matches: Matcher)
    ensures IsExcluded(rel, exclude, matches)
        <==> exists i, k: nat :: 0 <= i < |exclude| && StarPrefix(exclude[i], k)
               && matches(rel, exclude[i][3 * k..])
    decreases |exclude|
  {
    if exclude != [] {
      var p := exclude[0];
      ExcludedIff(rel, exclude[1..], matches);
      StripsMatchIff(rel, p, matches);
      if IsExcluded(rel, exclude, matches) {
        if matches(rel, p) {
          assert StarPrefix(exclude[0], 0) && exclude[0][3 * 0..] == p;
        } else if StripsMatch(rel, p, matches) {
          var k: nat :| 1 <= k && StarPrefix(p, k) && matches(rel, p[3 * k..]);
          assert StarPrefix(exclude[0], k) && matches(rel, exclude[0][3 * k..]);
        } else {
          var i, k: nat :| 0 <= i < |exclude[1..]| && StarPrefix(exclude[1..][i], k)
            && matches(rel, exclude[1..][i][3 * k..]);
          assert exclude[1..][i] == exclude[i + 1];
        }
      }
      if exists i, k: nat :: 0 <= i < |exclude| && StarPrefix(exclude[i], k)
           && matches(rel, exclude[i][3 * k..]) {
        var i, k: nat :| 0 <= i < |exclude| && StarPrefix(exclude[i], k)
          && matches(rel, exclude[i][3 * k..]);
        if i == 0 {
          if k == 0 {
            assert p[3 * 0..] == p;
          } else {
            assert 1 <= k && StarPrefix(p, k) && matches(rel, p[3 * k..]);
          }
        } else {
          assert exclude[1..][i - 1] == exclude[i];
          assert 0 <= i - 1 < |exclude[1..]| && StarPrefix(exclude[1..][i - 1], k)
            && matches(rel, exclude[1..][i - 1][3 * k..]);
        }
      }
    }
  }

  // ---------------------------------------------------------------------
  // From a file to a module name

  /** `Path(name).with_suffix("")` for a name ending in ".py": the suffix
      goes, unless the whole name is ".py" (a dot-file has no suffix). */
  function StemOf(name: string): string {
    if |name| > 3 && EndsWith(name, ".py") then name[..|name| - 3] else name
  }

  /** What `root.rglob("*.py")` yields: a non-empty path whose file name
      ends in ".py". */
  predicate IsPyFile(rel: RelPath) {
    |rel| >= 1 && EndsWith(rel[|rel| - 1], ".py")
  }

  /** The module a file defines, without prefix: a package's `__init__.py`
      names its directory, any other file names itself without ".py". */
  function BaseModule(rel: RelPath): string
    requires |rel| >= 1
  {
    var last := rel[|rel| - 1];
    if last == InitFile then Join(rel[..|rel| - 1], ".")
    else Join(rel[..|rel| - 1] + [StemOf(last)], ".")
  }

  /** Put the prefix in front of a module name ("" for the root package). */
  function Qualify(prefix: string, base: string): string {
    if prefix == "" then base
    else if base == "" then prefix
    else prefix + "." + base
  }

  /** The name the scan records for a file it keeps: None for the root
      `__init__.py` when there is no prefix. */
  function NameOf(rel: RelPath, prefix: string): (r: Option<string>)
    requires |rel| >= 1
    ensures r.None? <==> prefix == "" && BaseModule(rel) == ""
    ensures r.Some? && prefix != "" ==> r.value == prefix || StartsWith(r.value, prefix + ".")
  {
    var base := BaseModule(rel);
    if base == "" && prefix == "" then None
    else
      assert prefix != "" && base != "" ==> (prefix + "." + base)[..|prefix + "."|] == prefix + ".";
      Some(Qualify(prefix, base))
  }

  /** The scan's settings. */
  datatype ScanConfig = ScanConfig(exclude: seq<string>, generatedDir: string, prefix: string)

  /** The file survives the three filters of the scan loop: it is a Python
      file, no component is the generated directory, and no exclusion
      pattern matches its slash-joined path. */
  predicate Kept(rel: RelPath, cfg: ScanConfig, matches: Matcher) {
    IsPyFile(rel)
    && !(cfg.generatedDir != "" && cfg.generatedDir in rel)
    && !IsExcluded(Join(rel, "/"), cfg.exclude, matches)
  }

  /** What one file contributes to the scan's set. */
  function ScanName(rel: RelPath, cfg: ScanConfig, matches: Matcher): Option<string> {
    if Kept(rel, cfg, matches) then NameOf(rel, cfg.prefix) else None
  }

  /** The names `name` gives the files, one file at a time in walk order. */
  function Collect(files: seq<RelPath>, name: RelPath -> Option<string>): set<string> {
    if files == [] then {}
    else
      var last := name(files[|files| - 1]);
      Collect(files[..|files| - 1], name) + (if last.Some? then {last.value} else {})
  }

  lemma {:induction false} CollectExact(files: seq<RelPath>, name: RelPath -> Option<string>, x: string)
    ensures x in Collect(files, name) <==> exists k :: 0 <= k < |files| && name(files[k]) == Some(x)
    decreases |files|
  {
    if files != [] {
      var init := files[..|files| - 1];
      CollectExact(init, name, x);
      if exists k :: 0 <= k < |files| && name(files[k]) == Some(x) {
        var k :| 0 <= k < |files| && name(files[k]) == Some(x);
        if k < |init| { assert init[k] == files[k]; }
      }
      if exists k :: 0 <= k < |init| && name(init[k]) == Some(x) {
        var k :| 0 <= k < |init| && name(init[k]) == Some(x);
        assert files[k] == init[k];
      }
    }
  }

  /** The scan loop: the set of names of the files it keeps. */
  function Scan(files: seq<RelPath>, cfg: ScanConfig, matches: Matcher): (r: set<string>)
    ensures forall k :: 0 <= k < |files| && Kept(files[k], cfg, matches) && NameOf(files[k], cfg.prefix).Some? ==>
              NameOf(files[k], cfg.prefix).value in r
    ensures forall x :: x in r ==>
              exists k :: 0 <= k < |files| && Kept(files[k], cfg, matches) && NameOf(files[k], cfg.prefix) == Some(x)
  {
    var name := rel => ScanName(rel, cfg, matches);
    forall x ensures x in Collect(files, name) <==> exists k :: 0 <= k < |files| && name(files[k]) == Some(x) {
      CollectExact(files, name, x);
    }
    Collect(files, name)
  }

  /** The scan holds exactly the names of the files it keeps. */
  lemma ScanExact(files: seq<RelPath>, cfg: ScanConfig, matches: Matcher, x: string)
    ensures x in Scan(files, cfg, matches)
        <==> exists k :: 0 <= k < |files| && ScanName(files[k], cfg, matches) == Some(x)
  {
    CollectExact(files, rel => ScanName(rel, cfg, matches), x);
  }

  /** A file inside the generated directory contributes nothing, and
      neither does a file an exclusion pattern matches. */
  lemma FilteredFilesSkipped(rel: RelPath, cfg: ScanConfig, matches: Matcher)
    requires (cfg.generatedDir != "" && cfg.generatedDir in rel)
          || (exists i :: 0 <= i < |cfg.exclude| && matches(Join(rel, "/"), cfg.exclude[i]))
    ensures ScanName(rel, cfg, matches) == None
  {
    if exists i :: 0 <= i < |cfg.exclude| && matches(Join(rel, "/"), cfg.exclude[i]) {
      var i :| 0 <= i < |cfg.exclude| && matches(Join(rel, "/"), cfg.exclude[i]);
      ExcludedIff(Join(rel, "/"), cfg.exclude, matches);
      assert StarPrefix(cfg.exclude[i], 0) && cfg.exclude[i][3 * 0..] == cfg.exclude[i];
    }
  }

  /** The root package's `__init__.py` is named only with a prefix, and then
      by the prefix itself. */
  lemma RootInitName(prefix: string)
    ensures NameOf([InitFile], prefix) == (if prefix == "" then None else Some(prefix))
  {
    assert [InitFile][..0] == [];
  }

  /** Appending ".py" and taking it off again gives the name back. */
  lemma StemOfPy(last: string)
    requires last != ""
    ensures StemOf(last + ".py") == last
    ensures last + ".py" == InitFile <==> last == "__init__"
  {
    var f := last + ".py";
    assert f[|f| - 3..] == ".py";
    assert EndsWith(f, ".py");
    assert f[..|f| - 3] == last;
    if f == InitFile { assert last == InitFile[..|InitFile| - 3]; }
  }

  /** The file `a/b/c.py` is the module `a.b.c`. */
  lemma BaseOfModuleFile(parts: seq<string>)
    requires parts != [] && parts[|parts| - 1] != "" && parts[|parts| - 1] != "__init__"
    ensures BaseModule(WithPy(parts)) == Join(parts, ".")
  {
    var n := |parts|;
    var last := parts[n - 1];
    var f := WithPy(parts);
    StemOfPy(last);
    assert f[..|f| - 1] == parts[..n - 1];
    assert f[|f| - 1] == last + ".py";
    InitLast(parts);
  }

  lemma InitLast<T>(s: seq<T>)
    requires s != []
    ensures s[..|s| - 1] + [s[|s| - 1]] == s
  {
  }

  /** The file `a/b/__init__.py` is the package `a.b`. */
  lemma BaseOfPackageInit(parts: seq<string>)
    ensures BaseModule(parts + [InitFile]) == Join(parts, ".")
  {
    assert (parts + [InitFile])[..|parts|] == parts;
  }

  /** Partner of `Paths.ModuleToRelpath`: the file where a module lives is
      named back as that module (unless its last part is `__init__`, which
      names its package). */
  lemma ModulePathRoundTrip(m: string)
    requires WellFormedModule(m)
    requires var parts := Split(m, '.'); |parts| == 1 || parts[|parts| - 1] != "__init__"
    ensures var p := ModuleToRelpath(m); |p| >= 1 && BaseModule(p) == m
  {
    var parts := Split(m, '.');
    RelpathParts(parts);
    JoinSplit(m, '.');
    if |parts| == 1 {
      assert ModuleToRelpath(m) == parts + [InitFile];
      BaseOfPackageInit(parts);
    } else {
      assert ModuleToRelpath(m) == WithPy(parts);
      BaseOfModuleFile(parts);
    }
  }

  // ---------------------------------------------------------------------
  // The fast path for named targets

  /** The target with the prefix taken off: `prefix.rest` gives `rest`, the
      prefix itself gives "" (the root package). */
  function Relative(mod: string, prefix: string): string {
    if prefix != "" && StartsWith(mod, prefix + ".") then mod[|prefix| + 1..]
    else if prefix != "" && mod == prefix then ""
    else mod
  }

  /** Taking the prefix off undoes putting it on. */
  lemma RelativeQualify(prefix: string, base: string)
    ensures Relative(Qualify(prefix, base), prefix) == base
  {
    if prefix != "" && base != "" {
      var q := prefix + "." + base;
      assert q[..|prefix + "."|] == prefix + ".";
      assert q[|prefix| + 1..] == base;
    }
  }

  /** `Path(*parts)` for a non-empty relative target. */
  function TargetPath(rel: string): RelPath {
    MkPath(Split(rel, '.'))
  }

  /** `with_suffix(".py")` would fail: the path has no components left. */
  predicate EmptyName(rel: string) {
    rel != "" && TargetPath(rel) == []
  }

  /** `Path(*parts).with_suffix(".py")`: the parts carry no dot, so the
      suffix is appended to the last one. */
  function WithPy(ps: RelPath): RelPath
    requires ps != []
  {
    ps[..|ps| - 1] + [ps[|ps| - 1] + ".py"]
  }

  /** One root holds the target: its `__init__.py` for the root package,
      otherwise the module file or the package's `__init__.py`. */
  predicate HoldsModule(files: set<RelPath>, rel: string) {
    if rel == "" then [InitFile] in files
    else
      var ps := TargetPath(rel);
      ps != [] && (WithPy(ps) in files || ps + [InitFile] in files)
  }

  predicate InSomeRoot(roots: seq<set<RelPath>>, rel: string) {
    exists i :: 0 <= i < |roots| && HoldsModule(roots[i], rel)
  }

  /** The targets the fast path reports. */
  ghost function Found(targets: set<string>, roots: seq<set<RelPath>>, prefix: string): set<string> {
    set m | m in targets && InSomeRoot(roots, Relative(m, prefix))
  }

  /** The loop over the roots, stopping at the first that holds the target. */
  method FindInRoots(roots: seq<set<RelPath>>, rel: string) returns (hit: bool)
    ensures hit == InSomeRoot(roots, rel)
  {
    hit := false;
    var i := 0;
    while i < |roots| && !hit
      invariant 0 <= i <= |roots|
      invariant hit <==> exists j :: 0 <= j < i && HoldsModule(roots[j], rel)
    {
      hit := HoldsModule(roots[i], rel);
      i := i + 1;
    }
  }

  lemma FoundStep(done: set<string>, m: string, roots: seq<set<RelPath>>, prefix: string)
    ensures Found(done + {m}, roots, prefix)
         == Found(done, roots, prefix) + (if InSomeRoot(roots, Relative(m, prefix)) then {m} else {})
  {
  }

  /** The fast path: each target is looked up in the roots in order; a
      target whose path has no components raises `ValueError` at the first
      root. */
  method FastPath(targets: set<string>, roots: seq<set<RelPath>>, prefix: string)
    returns (r: Result<seq<string>>)
    ensures r.Err? <==> |roots| > 0 && exists m :: m in targets && EmptyName(Relative(m, prefix))
    ensures r.Err? ==> r.error == ValueError(EmptyNameMessage)
    ensures r.Ok? ==> StrictlySorted(r.value)
    ensures r.Ok? ==> forall m :: m in r.value <==> m in targets && InSomeRoot(roots, Relative(m, prefix))
  {
    var rest := targets;
    var found: set<string> := {};
    while rest != {}
      invariant rest <= targets
      invariant forall m :: m in targets - rest ==> !(|roots| > 0 && EmptyName(Relative(m, prefix)))
      invariant found == Found(targets - rest, roots, prefix)
      decreases |rest|
    {
      var m :| m in rest;
      var rel := Relative(m, prefix);
      if |roots| > 0 && EmptyName(rel) {
        return Err(ValueError(EmptyNameMessage));
      }
      var hit := FindInRoots(roots, rel);
      FoundStep(targets - rest, m, roots, prefix);
      assert targets - (rest - {m}) == (targets - rest) + {m};
      if hit {
        found := found + {m};
      }
      rest := rest - {m};
    }
    assert targets - rest == targets;
    r := Ok(SortSet(found));
  }

  /** Partner of the scan: a target the fast path finds in a root is a
      name the full scan gives to one of that root's files (before the
      exclusion filters), unless the target's last part is `__init__`. */
  lemma FastPathAgreesWithScan(files: set<RelPath>, rel: string)
    requires HoldsModule(files, rel)
    requires rel != "" ==> WellFormedModule(rel)
    requires var parts := Split(rel, '.'); parts[|parts| - 1] != "__init__"
    ensures exists f :: f in files && IsPyFile(f) && BaseModule(f) == rel
  {
    if rel == "" {
      BaseOfPackageInit([]);
      assert [] + [InitFile] == [InitFile];
      var f: RelPath := [InitFile];
      assert f in files && IsPyFile(f) && BaseModule(f) == rel;
    } else {
      var parts := Split(rel, '.');
      MkPathKeeps(parts);
      JoinSplit(rel, '.');
      FileOfParts(files, parts);
    }
  }

  /** A module file or package `__init__.py` for `parts` names them back. */
  lemma FileOfParts(files: set<RelPath>, parts: seq<string>)
    requires parts != [] && parts[|parts| - 1] != "" && parts[|parts| - 1] != "__init__"
    requires WithPy(parts) in files || parts + [InitFile] in files
    ensures exists f :: f in files && IsPyFile(f) && BaseModule(f) == Join(parts, ".")
  {
    BaseOfPackageInit(parts);
    if WithPy(parts) in files {
      BaseOfModuleFile(parts);
      StemOfPy(parts[|parts| - 1]);
      var f := WithPy(parts);
      assert f in files && IsPyFile(f) && BaseModule(f) == Join(parts, ".");
    } else {
      var f := parts + [InitFile];
      assert f in files && IsPyFile(f) && BaseModule(f) == Join(parts, ".");
    }
  }

  // ---------------------------------------------------------------------
  // discover_modules

  /** All files of all roots, root after root. */
  function Flatten(roots: seq<seq<RelPath>>): seq<RelPath> {
    if roots == [] then [] else roots[0] + Flatten(roots[1..])
  }

  function FileSet(files: seq<RelPath>): set<RelPath> {
    set f | f in files
  }

  /** `module_prefix or None`. */
  function PrefixOf(modulePrefix: Option<string>): string {
    if modulePrefix.Some? then modulePrefix.value else ""
  }

  /** `discover_modules(...)`: with targets, the fast path; otherwise the
      scan of every root, sorted. */
  method DiscoverModules(roots: seq<seq<RelPath>>, exclude: seq<string>, generatedDir: string,
                         modulePrefix: Option<string>, targets: Option<set<string>>, matches: Matcher)
    returns (r: Result<seq<string>>)
    ensures r.Ok? ==> StrictlySorted(r.value)
    ensures targets.None? ==> r.Ok?
    ensures targets.None? ==> forall x :: x in r.value <==>
      x in Scan(Flatten(roots), ScanConfig(exclude, generatedDir, PrefixOf(modulePrefix)), matches)
    ensures targets.Some? && r.Ok? ==> forall m :: m in r.value <==>
      m in targets.value && InSomeRoot(seq(|roots|, i requires 0 <= i < |roots| => FileSet(roots[i])),
                                      Relative(m, PrefixOf(modulePrefix)))
    ensures targets.Some? ==> (r.Err? <==> (|roots| > 0
      && exists m :: m in targets.value && EmptyName(Relative(m, PrefixOf(modulePrefix)))))
  {
    var prefix := PrefixOf(modulePrefix);
    if targets.Some? {
      var sets := seq(|roots|, i requires 0 <= i < |roots| => FileSet(roots[i]));
      r := FastPath(targets.value, sets, prefix);
    } else {
      r := Ok(SortSet(Scan(Flatten(roots), ScanConfig(exclude, generatedDir, prefix), matches)));
    }
  }
}

=== FILE: dotenv.dfy ===
/** The `.env` reader (jaunt/dotenv.py, repeated in examples/_dotenv.py):
    `KEY=VALUE` lines, an optional `export ` prefix, one pair of matching
    quotes, later keys overwriting earlier ones; and the merge into an
    environment that never overrides a key already present. */
module Dotenv {
  import opened Wrappers
  import opened Text
  import opened Strings

  /** One pair of matching surrounding quotes removed, when there are two
      characters at least. */
  function Unquote(v: string): (r: string)
    ensures Quoted(v) ==> r == v[1..|v| - 1]
    ensures !Quoted(v) ==> r == v
  {
    if Quoted(v) then v[1..|v| - 1] else v
  }

  /** Two characters at least, the first a quote and the last the same. */
  predicate Quoted(v: string) {
    |v| >= 2 && (v[0] == '\'' || v[0] == '"') && v[|v| - 1] == v[0]
  }

  /** Empty, or ending in something other than a blank. */
  predicate TrimmedEnd(v: string) {
    v == "" || !IsSpace(v[|v| - 1])
  }

  /** A value written bare that reads back as itself: no surrounding
      blanks and no surrounding quotes. */
  predicate BareValueText(v: string) {
    TrimmedEnd(v) && (v == "" || !IsSpace(v[0])) && !Quoted(v)
  }

  /** The line with an `export ` prefix (and the blanks after it) removed. */
  function WithoutExport(line: string): string {
    if StartsWith(line, "export ") then LStrip(line[7..]) else line
  }

  /** What one line contributes: nothing for a blank or comment line, a
      line without `=`, or an empty key; else the trimmed key and the
      trimmed, unquoted value. */
  function ParseLine(raw: string): (r: Option<(string, string)>)
    ensures Strip(raw) == "" || StartsWith(Strip(raw), "#") ==> r.None?
    ensures r.Some? ==> r.value.0 != "" && Strip(r.value.0) == r.value.0 && '=' !in r.value.0
  {
    ParseStripped(Strip(raw))
  }

  function ParseStripped(line: string): (r: Option<(string, string)>)
    ensures line == "" || StartsWith(line, "#") ==> r.None?
    ensures r.Some? ==> r.value.0 != "" && Strip(r.value.0) == r.value.0 && '=' !in r.value.0
  {
    if line == "" || StartsWith(line, "#") then None else ParseBody(WithoutExport(line))
  }

  /** The line after the `export ` prefix: nothing without an `=`, else
      split at the first `=`. */
  function ParseBody(body: string): (r: Option<(string, string)>)
    ensures '=' !in body ==> r.None?
    ensures r.Some? ==> r.value.0 != "" && Strip(r.value.0) == r.value.0 && '=' !in r.value.0
  {
    if '=' !in body then None
    else
      var kv := SplitOnce(body, '=');
      ParsePair(kv.0, kv.1.value)
  }

  /** The key and value either side of the first `=`. */
  function ParsePair(key: string, value: string): (r: Option<(string, string)>)
    requires '=' !in key
    ensures r.None? <==> Strip(key) == ""
    ensures r.Some? ==> r.value.0 != "" && Strip(r.value.0) == r.value.0 && '=' !in r.value.0
  {
    var k := Strip(key);
    StripIdempotent(key);
    if k == "" then None
    else
      assert '=' !in k by {
        NotInInfix(k, key, '=');
      }
      Some((k, Unquote(Strip(value))))
  }

  /** A character absent from a text is absent from its pieces. */
  lemma NotInInfix(sub: string, s: string, c: char)
    requires IsInfix(sub, s) && c !in s
    ensures c !in sub
  {
    var i :| 0 <= i <= |s| && SliceAt(s, i, sub);
    assert forall j :: 0 <= j < |sub| ==> sub[j] == s[i + j];
  }

  /** A key without blanks, `=` or a leading `#`: what a writer of a
      `.env` line puts before the `=`. */
  predicate PlainKey(k: string) {
    k != "" && NoSpaceIn(k) && '=' !in k && k[0] != '#'
  }

  /** A plain key is its own strip. */
  lemma PlainKeyStripped(k: string)
    requires PlainKey(k)
    ensures Strip(k) == k
  {
    StripFixed(k);
  }

  /** `k=rest` with a plain key is not an `export` line. */
  lemma NotExport(k: string, rest: string)
    requires PlainKey(k)
    ensures !StartsWith(k + "=" + rest, "export ")
  {
    var line := k + "=" + rest;
    if |k| >= 7 {
      assert line[6] == k[6];
    } else {
      assert line[|k|] == '=';
    }
  }

  /** A line `k=rest` with a plain key and a trimmed end is read at the
      `=` after the key. */
  lemma ParseAtKey(k: string, rest: string)
    requires PlainKey(k)
    requires TrimmedEnd(rest)
    ensures ParseLine(k + "=" + rest) == Some((k, Unquote(Strip(rest))))
  {
    LineIsBody(k, rest);
    BodyAtKey(k, rest);
    PlainKeyStripped(k);
  }

  /** Such a line is read as a whole: no blanks to strip, no comment, no
      `export ` prefix. */
  lemma LineIsBody(k: string, rest: string)
    requires PlainKey(k)
    requires TrimmedEnd(rest)
    ensures ParseLine(k + "=" + rest) == ParseBody(k + "=" + rest)
  {
    var line := k + "=" + rest;
    assert line[0] == k[0];
    StripFixed(line);
    NotExport(k, rest);
    assert !StartsWith(line, "#");
  }

  lemma BodyAtKey(k: string, rest: string)
    requires PlainKey(k)
    ensures ParseBody(k + "=" + rest) == ParsePair(k, rest)
  {
    var line := k + "=" + rest;
    assert line == k + ['='] + rest;
    assert line[|k|] == '=';
    var kv := SplitOnce(line, '=');
    SplitAtFirst(kv.0, kv.1.value, k, rest, '=');
  }

  /** Any value written in double quotes after a plain key reads back
      unchanged, blanks, quotes and `=` included. */
  lemma ParseQuoted(k: string, v: string)
    requires PlainKey(k)
    ensures ParseLine(k + "=" + "\"" + v + "\"") == Some((k, v))
  {
    var rest := "\"" + v + "\"";
    assert k + "=" + "\"" + v + "\"" == k + "=" + rest;
    ParseAtKey(k, rest);
    QuotedValue(v);
  }

  /** A double-quoted value reads as what is between the quotes. */
  lemma QuotedValue(v: string)
    ensures Unquote(Strip("\"" + v + "\"")) == v
  {
    var rest := "\"" + v + "\"";
    StripFixed(rest);
    assert rest[1..|rest| - 1] == v;
  }

  /** A value without surrounding blanks or quotes reads back unchanged
      when written bare. */
  lemma ParseBare(k: string, v: string)
    requires PlainKey(k)
    requires BareValueText(v)
    ensures ParseLine(k + "=" + v) == Some((k, v))
  {
    ParseAtKey(k, v);
    BareValue(v);
  }

  /** A trimmed value without surrounding quotes reads as itself. */
  lemma BareValue(v: string)
    requires BareValueText(v)
    ensures Unquote(Strip(v)) == v
  {
    if v != "" {
      StripFixed(v);
    } else {
      assert LStrip(v) == v && RStrip(v) == v;
    }
  }

  /** An `export ` prefix does not change what a `k=v` line says. */
  lemma ExportIgnored(k: string, v: string)
    requires PlainKey(k)
    requires TrimmedEnd(v)
    ensures ParseLine("export " + k + "=" + v) == ParseLine(k + "=" + v)
  {
    ExportLine(k, v);
    LineIsBody(k, v);
  }

  /** The prefixed line is read as the line after the prefix. */
  lemma ExportLine(k: string, v: string)
    requires PlainKey(k)
    requires TrimmedEnd(v)
    ensures ParseLine("export " + k + "=" + v) == ParseBody(k + "=" + v)
  {
    var line := k + "=" + v;
    var full := "export " + k + "=" + v;
    assert full == "export " + line;
    assert line[0] == k[0];
    assert full[|full| - 1] == line[|line| - 1];
    StripFixed(full);
    assert full[0] == 'e';
    ReadWhole(full);
    ExportRemoved(line);
  }

  /** A line with nothing to strip and no leading `#` is read past the
      `export ` prefix. */
  lemma ReadWhole(line: string)
    requires Strip(line) == line && line != "" && line[0] != '#'
    ensures ParseLine(line) == ParseBody(WithoutExport(line))
  {
    assert !StartsWith(line, "#") by {
      assert line[..1] == [line[0]];
    }
  }

  /** The prefix and nothing more is removed from a line that does not
      start with a blank. */
  lemma ExportRemoved(line: string)
    requires line != "" && !IsSpace(line[0])
    ensures WithoutExport("export " + line) == line
  {
    var full := "export " + line;
    assert StartsWith(full, "export ");
    assert full[7..] == line;
    assert LStrip(line) == line;
  }

  /** The key line `i` sets, if any. */
  function KeyAt(lines: seq<string>, parse: string -> Option<(string, string)>, i: int): Option<string>
    requires 0 <= i < |lines|
  {
    if parse(lines[i]).Some? then Some(parse(lines[i]).value.0) else None
  }

  /** Some line sets `k`. */
  ghost predicate SetsKey(lines: seq<string>, parse: string -> Option<(string, string)>, k: string) {
    exists i :: 0 <= i < |lines| && KeyAt(lines, parse, i) == Some(k)
  }

  /** No line after `i` sets the key line `i` sets. */
  ghost predicate LastSetter(lines: seq<string>, parse: string -> Option<(string, string)>, i: int)
    requires 0 <= i < |lines|
  {
    forall j :: i < j < |lines| ==> KeyAt(lines, parse, j) != KeyAt(lines, parse, i)
  }

  /** The lines' assignments applied in order. */
  function Assign(lines: seq<string>, parse: string -> Option<(string, string)>): map<string, string>
    decreases |lines|
  {
    if |lines| == 0 then map[]
    else
      var m := Assign(lines[..|lines| - 1], parse);
      var p := parse(lines[|lines| - 1]);
      if p.Some? then m[p.value.0 := p.value.1] else m
  }

  /** `load_dotenv` on the file's text: a key is loaded exactly when some
      line sets it, and with the value of the last line that does. */
  function Load(text: string): (r: map<string, string>)
    ensures forall k :: k in r <==> SetsKey(SplitLines(text), ParseLine, k)
    ensures var lines := SplitLines(text);
      forall i :: 0 <= i < |lines| && ParseLine(lines[i]).Some? && LastSetter(lines, ParseLine, i) ==>
        (ParseLine(lines[i]).value.0 in r && r[ParseLine(lines[i]).value.0] == ParseLine(lines[i]).value.1)
  {
    var lines := SplitLines(text);
    AssignLaws(lines, ParseLine);
    Assign(lines, ParseLine)
  }

  /** `AssignKeys` and `AssignLast` for every key and line at once. */
  lemma AssignLaws(lines: seq<string>, parse: string -> Option<(string, string)>)
    ensures forall k :: k in Assign(lines, parse) <==> SetsKey(lines, parse, k)
    ensures var r := Assign(lines, parse);
      forall i :: 0 <= i < |lines| && parse(lines[i]).Some? && LastSetter(lines, parse, i) ==>
        (parse(lines[i]).value.0 in r && r[parse(lines[i]).value.0] == parse(lines[i]).value.1)
  {
    forall k ensures k in Assign(lines, parse) <==> exists i :: 0 <= i < |lines| && KeyAt(lines, parse, i) == Some(k) {
      AssignKeys(lines, parse, k);
    }
    forall i | 0 <= i < |lines| && parse(lines[i]).Some? && LastSetter(lines, parse, i)
      ensures parse(lines[i]).value.0 in Assign(lines, parse)
      ensures Assign(lines, parse)[parse(lines[i]).value.0] == parse(lines[i]).value.1
    {
      AssignLast(lines, parse, i);
    }
  }

  /** A key is loaded exactly when some line sets it. */
  lemma {:induction false} AssignKeys(lines: seq<string>, parse: string -> Option<(string, string)>, k: string)
    ensures k in Assign(lines, parse) <==> exists i :: 0 <= i < |lines| && KeyAt(lines, parse, i) == Some(k)
    decreases |lines|
  {
    if |lines| > 0 {
      var n := |lines| - 1;
      var pre := lines[..n];
      AssignKeys(pre, parse, k);
      assert forall i :: 0 <= i < n ==> pre[i] == lines[i];
      assert forall i :: 0 <= i < n ==> KeyAt(pre, parse, i) == KeyAt(lines, parse, i);
      if k in Assign(pre, parse) {
        var i :| 0 <= i < n && KeyAt(pre, parse, i) == Some(k);
        assert KeyAt(lines, parse, i) == Some(k);
      }
      var last := parse(lines[n]);
      assert Assign(lines, parse) == if last.Some? then Assign(pre, parse)[last.value.0 := last.value.1]
                                     else Assign(pre, parse);
      if k in Assign(lines, parse) && k !in Assign(pre, parse) {
        assert KeyAt(lines, parse, n) == Some(k);
      }
      if exists i :: 0 <= i < |lines| && KeyAt(lines, parse, i) == Some(k) {
        var i :| 0 <= i < |lines| && KeyAt(lines, parse, i) == Some(k);
        if i < n {
          assert KeyAt(pre, parse, i) == Some(k);
        }
      }
    }
  }

  /** The value loaded for a key is the one on the last line setting it. */
  lemma {:induction false} AssignLast(lines: seq<string>, parse: string -> Option<(string, string)>, i: int)
    requires 0 <= i < |lines| && parse(lines[i]).Some? && LastSetter(lines, parse, i)
    ensures parse(lines[i]).value.0 in Assign(lines, parse)
    ensures Assign(lines, parse)[parse(lines[i]).value.0] == parse(lines[i]).value.1
    decreases |lines|
  {
    var n := |lines| - 1;
    if i < n {
      var pre := lines[..n];
      assert pre[i] == lines[i];
      assert forall j :: i < j < n ==> pre[j] == lines[j];
      assert forall j :: i < j < n ==> KeyAt(pre, parse, j) == KeyAt(lines, parse, j);
      assert KeyAt(pre, parse, i) == KeyAt(lines, parse, i);
      AssignLast(pre, parse, i);
      assert KeyAt(lines, parse, n) != KeyAt(lines, parse, i);
    }
  }

  /** The merge that never overrides: keys already present keep their
      value, even an empty one; the file fills in the rest. */
  function MergeAbsent(env: map<string, string>, vals: map<string, string>): (r: map<string, string>)
    ensures r.Keys == env.Keys + vals.Keys
    ensures forall k :: k in env ==> r[k] == env[k]
    ensures forall k :: k in vals && k !in env ==> r[k] == vals[k]
  {
    map k | k in env.Keys + vals.Keys :: if k in env then env[k] else vals[k]
  }

  /** Merging the same file twice changes nothing the first merge did not. */
  lemma MergeAbsentIdempotent(env: map<string, string>, vals: map<string, string>)
    ensures MergeAbsent(MergeAbsent(env, vals), vals) == MergeAbsent(env, vals)
  {
  }

  /** `load_dotenv_into_environ`: `false` and no change when the file is
      missing or unreadable (`text` is `None`), else every loaded key not
      already in the environment is added, in the dict's order. */
  method LoadIntoEnviron(environ: map<string, string>, isFile: bool, text: Option<string>)
    returns (loaded: bool, env: map<string, string>)
    ensures !isFile || text.None? ==> !loaded && env == environ
    ensures isFile && text.Some? ==> loaded && env == MergeAbsent(environ, Load(text.value))
  {
    if !isFile || text.None? {
      return false, environ;
    }
    env := MergeKeys(environ, Load(text.value));
    loaded := true;
  }

  /** The merge loop over the loaded keys, one at a time, in whatever
      order the dict yields them. */
  method MergeKeys(environ: map<string, string>, vals: map<string, string>) returns (env: map<string, string>)
    ensures env == MergeAbsent(environ, vals)
  {
    env := environ;
    var rest := vals.Keys;
    while rest != {}
      invariant rest <= vals.Keys
      invariant forall k :: k in environ ==> k in env && env[k] == environ[k]
      invariant forall k :: k in env ==> k in environ || k in vals
      invariant forall k :: k in env && k !in environ ==> env[k] == vals[k]
      invariant forall k :: k in vals && k !in rest ==> k in env
      decreases |rest|
    {
      var k :| k in rest;
      if k !in env {
        env := env[k := vals[k]];
      }
      rest := rest - {k};
    }
    MergedAll(environ, vals, env);
  }

  /** Once every loaded key has been seen, the loop's result is the merge. */
  lemma MergedAll(environ: map<string, string>, vals: map<string, string>, env: map<string, string>)
    requires forall k :: k in environ ==> k in env && env[k] == environ[k]
    requires forall k :: k in env ==> k in environ || k in vals
    requires forall k :: k in env && k !in environ ==> env[k] == vals[k]
    requires forall k :: k in vals ==> k in env
    ensures env == MergeAbsent(environ, vals)
  {
    assert env.Keys == environ.Keys + vals.Keys;
  }
}

/** The examples' helper that makes sure an OpenAI key is configured,
    reading the repository's `.env` (with the same line rules) as a
    fallback (examples/_dotenv.py). */
module ExampleDotenv {
  import opened Wrappers
  import opened Text
  import opened Dotenv

  const KeyName := "OPENAI_API_KEY"
  const MissingKeyMessage := "Missing OPENAI_API_KEY. Set it in the environment or add it to <repo_root>/.env."

  /** `(env.get(KEY) or "").strip()` is not empty. */
  predicate HasKey(env: map<string, string>) {
    KeyName in env && Strip(env[KeyName]) != ""
  }

  /** `ensure_openai_key`: a copy of the environment when it already has a
      key; else the environment with the `.env` values it lacks, provided
      that yields a key; a `RuntimeError` otherwise. `text` is `None` when
      the file cannot be read. */
  function EnsureOpenAiKey(env: map<string, string>, isFile: bool, text: Option<string>): (r: Result<map<string, string>>)
    ensures HasKey(env) ==> r == Ok(env)
    ensures r.Ok? ==> HasKey(r.value)
    ensures r.Ok? ==> forall k :: k in env ==> k in r.value && r.value[k] == env[k]
    ensures r.Ok? ==> forall k :: k in r.value && k !in env ==> isFile && text.Some? && k in Load(text.value)
    ensures r.Err? ==> r.error == RuntimeError(MissingKeyMessage)
  {
    if HasKey(env) then Ok(env)
    else
      var vals := if isFile && text.Some? then Load(text.value) else map[];
      var merged := MergeAbsent(env, vals);
      if HasKey(merged) then Ok(merged) else Err(RuntimeError(MissingKeyMessage))
  }

  /** The key comes from the file exactly when the environment does not
      hold that name at all and the file sets a non-blank value. */
  lemma KeyFromFile(env: map<string, string>, isFile: bool, text: Option<string>)
    requires !HasKey(env)
    ensures EnsureOpenAiKey(env, isFile, text).Ok? <==>
      KeyName !in env && isFile && text.Some? && KeyName in Load(text.value) && Strip(Load(text.value)[KeyName]) != ""
  {
  }
}

=== FILE: external_imports.dfy ===
/** Finding the installed third-party distributions a project imports
    (jaunt/external_imports.py): name normalisation per section "Normalized
    Names" of PEP 503, the dotted-name heuristic, the choice among the
    distributions that provide a top-level package, and the scan over the
    sorted imports. Installed metadata is an oracle parameter. */
module ExternalImports {
  import opened Wrappers
  import opened Text
  import opened Strings
  import opened Sorting

  // ---------------------------------------------------------------------------
  // PEP 503 normalisation
  // ---------------------------------------------------------------------------

  /** A character of the class `[-_.]`. */
  predicate IsSep(c: char) {
    c == '-' || c == '_' || c == '.'
  }

  /** What a character becomes after separator runs are collapsed. */
  function SepImage(c: char): char {
    if IsSep(c) then '-' else c
  }

  /** Length of the run of separators `s` starts with. */
  function SepRun(s: string): (n: nat)
    ensures n <= |s|
    ensures forall k :: 0 <= k < n ==> IsSep(s[k])
    ensures n < |s| ==> !IsSep(s[n])
  {
    if |s| == 0 || !IsSep(s[0]) then 0 else 1 + SepRun(s[1..])
  }

  /** `re.sub(r"[-_.]+", "-", s)`: every maximal run of separators becomes
      one `-`. */
  function CollapseSeps(s: string): (r: string)
    ensures |r| == 0 <==> |s| == 0
    ensures |s| > 0 ==> r[0] == SepImage(s[0]) && r[|r| - 1] == SepImage(s[|s| - 1])
    ensures forall i :: 0 <= i < |r| ==> r[i] != '_' && r[i] != '.'
    ensures forall i :: 0 <= i < |r| - 1 ==> !(r[i] == '-' && r[i + 1] == '-')
    decreases |s|
  {
    if s == "" then ""
    else if IsSep(s[0]) then
      var n := SepRun(s);
      assert IsSep(s[n - 1]);
      "-" + CollapseSeps(s[n..])
    else [s[0]] + CollapseSeps(s[1..])
  }

  /** Text with no `_`, no `.` and no two adjacent `-`. */
  predicate Collapsed(s: string) {
    (forall i :: 0 <= i < |s| ==> s[i] != '_' && s[i] != '.')
    && forall i :: 0 <= i < |s| - 1 ==> !(s[i] == '-' && s[i + 1] == '-')
  }

  /** Collapsing text that has no runs to collapse changes nothing. */
  lemma {:induction false} CollapseFixed(s: string)
    requires Collapsed(s)
    ensures CollapseSeps(s) == s
    decreases |s|
  {
    if s != "" {
      var t := s[1..];
      assert Collapsed(t);
      CollapseFixed(t);
      if IsSep(s[0]) {
        assert |s| > 1 ==> !IsSep(s[1]);
        assert SepRun(s) == 1;
        assert CollapseSeps(s) == "-" + t;
        assert s == [s[0]] + t;
      } else {
        assert CollapseSeps(s) == [s[0]] + t;
      }
    }
  }

  /** `pep503_normalize`: strip, collapse separator runs to `-`, lower-case. */
  function Normalize(name: string): (r: string)
    ensures Collapsed(r)
  {
    NormalizeStripped(Strip(name))
  }

  /** The collapse and lower-casing steps, on already stripped text. */
  function NormalizeStripped(t: string): (r: string)
    ensures Collapsed(r)
  {
    var c := CollapseSeps(t);
    LowerCollapsed(c);
    Lower(c)
  }

  /** Lower-casing only turns letters into letters, so it keeps text
      collapsed. */
  lemma LowerCollapsed(s: string)
    requires Collapsed(s)
    ensures Collapsed(Lower(s))
  {
  }

  /** Lower-casing is idempotent. */
  lemma LowerIdempotent(s: string)
    ensures Lower(Lower(s)) == Lower(s)
  {
  }

  /** Lower-casing never turns a non-blank into a blank. */
  lemma LowerCharNotSpace(c: char)
    requires !IsSpace(c)
    ensures !IsSpace(LowerChar(c))
  {
  }

  /** Without blanks at the ends of the stripped name, there are none at the
      ends of its normalisation. */
  lemma NormalizedEnds(t: string)
    requires t == [] || (!IsSpace(t[0]) && !IsSpace(t[|t| - 1]))
    ensures var n := NormalizeStripped(t); n == [] || (!IsSpace(n[0]) && !IsSpace(n[|n| - 1]))
  {
    if t != [] {
      var c := CollapseSeps(t);
      assert !IsSpace(c[0]) && !IsSpace(c[|c| - 1]);
      LowerCharNotSpace(c[0]);
      LowerCharNotSpace(c[|c| - 1]);
    }
  }

  /** A normalised name is its own strip. */
  lemma NormalizeEnds(name: string)
    ensures Strip(Normalize(name)) == Normalize(name)
  {
    NormalizedEnds(Strip(name));
    StripFixed(Normalize(name));
  }

  /** Normalising a normalised name changes nothing. */
  lemma NormalizeIdempotent(name: string)
    ensures Normalize(Normalize(name)) == Normalize(name)
  {
    var n := Normalize(name);
    NormalizeEnds(name);
    CollapseFixed(n);
    LowerIdempotent(CollapseSeps(Strip(name)));
  }

  // ---------------------------------------------------------------------------
  // Installed metadata and the dotted-name heuristic
  // ---------------------------------------------------------------------------

  /** `metadata.version(dist)`: a version, `PackageNotFoundError`, or any other
      exception (its `"Type: message"` text). */
  datatype Lookup = Installed(version: string) | NotInstalled | LookupFailed(error: string)

  /** `[p for p in mod.split(".") if p]`. */
  function NonEmptyParts(ps: seq<string>): (r: seq<string>)
    ensures forall i :: 0 <= i < |r| ==> r[i] != ""
    ensures forall x :: x in r <==> x in ps && x != ""
  {
    if ps == [] then []
    else (if ps[0] == "" then [] else [ps[0]]) + NonEmptyParts(ps[1..])
  }

  function DottedParts(mod: string): seq<string> {
    NonEmptyParts(Split(mod, '.'))
  }

  /** The names the heuristic tries for `mod`: `"-".join(parts[:k])` for `k`
      from the number of parts down to 1. */
  function Candidates(mod: string): (r: seq<string>)
    ensures |r| == |DottedParts(mod)|
  {
    var ps := DottedParts(mod);
    seq(|ps|, i requires 0 <= i < |ps| => Join(ps[..|ps| - i], "-"))
  }

  /** Candidates are tried longest first: each extends the next by one more
      dotted part, and the last is the first part alone. */
  lemma CandidatesLongestFirst(mod: string)
    ensures var r := Candidates(mod); var ps := DottedParts(mod);
      (forall i :: 0 <= i < |r| - 1 ==> r[i] == r[i + 1] + "-" + ps[|ps| - 1 - i])
      && (|r| > 0 ==> r[|r| - 1] == ps[0])
      && (|r| > 0 ==> r[0] == Join(ps, "-"))
  {
    var r := Candidates(mod);
    var ps := DottedParts(mod);
    forall i | 0 <= i < |r| - 1
      ensures r[i] == r[i + 1] + "-" + ps[|ps| - 1 - i]
    {
      var k := |ps| - i;
      assert ps[..k] == ps[..k - 1] + [ps[k - 1]];
      JoinSnoc(ps[..k - 1], ps[k - 1], "-");
    }
    if |r| > 0 {
      assert ps[..|ps|] == ps;
      assert r[|r| - 1] == Join(ps[..1], "-");
      assert ps[..1] == [ps[0]];
    }
  }

  /** Position of the first candidate whose version lookup succeeds, or the
      number of candidates when none does. */
  function FirstInstalledAt(cands: seq<string>, lookup: string -> Lookup): (k: nat)
    ensures k <= |cands|
    ensures forall j :: 0 <= j < k ==> !lookup(cands[j]).Installed?
    ensures k < |cands| ==> lookup(cands[k]).Installed?
  {
    if cands == [] || lookup(cands[0]).Installed? then 0
    else
      assert forall j :: 1 <= j < |cands| ==> cands[j] == cands[1..][j - 1];
      1 + FirstInstalledAt(cands[1..], lookup)
  }

  /** The first candidate whose version lookup succeeds, with that version. */
  function FirstInstalled(cands: seq<string>, lookup: string -> Lookup): (r: Option<(string, string)>)
    ensures r.None? <==> forall i :: 0 <= i < |cands| ==> !lookup(cands[i]).Installed?
    ensures r.Some? ==> exists i :: (0 <= i < |cands| && cands[i] == r.value.0
      && lookup(cands[i]) == Installed(r.value.1)
      && forall j :: 0 <= j < i ==> !lookup(cands[j]).Installed?)
  {
    var k := FirstInstalledAt(cands, lookup);
    if k == |cands| then None else Some((cands[k], lookup(cands[k]).version))
  }

  /** `_resolve_dist_by_name_heuristic`. */
  function ByNameHeuristic(mod: string, lookup: string -> Lookup): Option<(string, string)> {
    FirstInstalled(Candidates(mod), lookup)
  }

  // ---------------------------------------------------------------------------
  // Choosing among the distributions that provide a top-level package
  // ---------------------------------------------------------------------------

  /** Order by a key. */
  function ByKey(key: string -> string): (string, string) -> bool {
    (a: string, b: string) => LexLe(key(a), key(b))
  }

  lemma ByKeyPreorder(key: string -> string)
    ensures TotalPreorder(ByKey(key))
  {
    LexLeIsTotalOrder();
  }

  /** Does a candidate have key `k`? */
  function KeyIs(key: string -> string, k: string): string -> bool {
    (c: string) => key(c) == k
  }

  /** `[x for x in s if p(x)]`. */
  function Keep<T(!new)>(s: seq<T>, p: T -> bool): (r: seq<T>)
    ensures forall x :: x in r <==> x in s && p(x)
    decreases |s|
  {
    if s == [] then []
    else Keep(s[..|s| - 1], p) + (if p(s[|s| - 1]) then [s[|s| - 1]] else [])
  }

  /** The first kept element is the first element of `s` satisfying `p`. */
  lemma {:induction false} KeepFirst<T(!new)>(s: seq<T>, p: T -> bool)
    requires Keep(s, p) != []
    ensures exists i :: (0 <= i < |s| && s[i] == Keep(s, p)[0] && p(s[i])
      && forall j :: 0 <= j < i ==> !p(s[j]))
    decreases |s|
  {
    var pre := s[..|s| - 1];
    assert forall j :: 0 <= j < |s| - 1 ==> pre[j] == s[j];
    if Keep(pre, p) != [] {
      KeepFirst(pre, p);
      var i :| 0 <= i < |pre| && pre[i] == Keep(pre, p)[0] && p(pre[i])
        && forall j :: 0 <= j < i ==> !p(pre[j]);
      assert s[i] == Keep(s, p)[0];
    } else {
      assert forall j :: 0 <= j < |s| - 1 ==> !p(s[j]) by {
        forall j | 0 <= j < |s| - 1 ensures !p(s[j]) {
          assert pre[j] in pre;
        }
      }
      assert s[|s| - 1] == Keep(s, p)[0];
    }
  }

  /** The choice of `_choose_dist_for_top_level` for any key: nothing from
      no candidates, the only one from one; otherwise, among the candidates
      whose key is the top level's, the first in sorted order, and failing
      those the first of all candidates in sorted order (Python's sort is
      stable). */
  function ChooseBy(topKey: string, cands: seq<string>, key: string -> string): (r: Option<string>)
    ensures r.None? <==> cands == []
    ensures |cands| == 1 ==> r == Some(cands[0])
    ensures r.Some? ==> r.value in cands
  {
    if cands == [] then None
    else if |cands| == 1 then Some(cands[0])
    else
      ByKeyPreorder(key);
      var exact := Keep(cands, KeyIs(key, topKey));
      if exact != [] then Some(exact[ArgMin(exact, ByKey(key))])
      else Some(cands[ArgMin(cands, ByKey(key))])
  }

  /** With several candidates, a candidate keyed like the top level wins, and
      it is the FIRST such candidate: those candidates share one key, so
      sorting them keeps their order. */
  lemma ChooseByExact(topKey: string, cands: seq<string>, key: string -> string)
    requires |cands| > 1
    requires exists i :: 0 <= i < |cands| && key(cands[i]) == topKey
    ensures exists i :: (0 <= i < |cands| && ChooseBy(topKey, cands, key) == Some(cands[i])
      && key(cands[i]) == topKey
      && forall j :: 0 <= j < i ==> key(cands[j]) != topKey)
  {
    ByKeyPreorder(key);
    var p := KeyIs(key, topKey);
    var i :| 0 <= i < |cands| && key(cands[i]) == topKey;
    assert cands[i] in Keep(cands, p);
    SameKeyArgMin(Keep(cands, p), key, topKey);
    assert ChooseBy(topKey, cands, key) == Some(Keep(cands, p)[0]);
    KeepFirst(cands, p);
  }

  /** Among elements sharing one key, the first sorts first. */
  lemma SameKeyArgMin(s: seq<string>, key: string -> string, k: string)
    requires TotalPreorder(ByKey(key))
    requires |s| > 0 && forall x :: x in s ==> key(x) == k
    ensures ArgMin(s, ByKey(key)) == 0
  {
    var m := ArgMin(s, ByKey(key));
    assert s[0] in s && s[m] in s;
    LexLeRefl(k);
    assert ByKey(key)(s[0], s[m]);
  }

  /** With several candidates and none keyed like the top level, the first
      candidate with the least key wins. */
  lemma ChooseBySmallest(topKey: string, cands: seq<string>, key: string -> string)
    requires |cands| > 1
    requires forall i :: 0 <= i < |cands| ==> key(cands[i]) != topKey
    ensures exists i :: (0 <= i < |cands| && ChooseBy(topKey, cands, key) == Some(cands[i])
      && (forall j :: 0 <= j < |cands| ==> LexLe(key(cands[i]), key(cands[j])))
      && forall j :: 0 <= j < i ==> key(cands[j]) != key(cands[i]))
  {
    ByKeyPreorder(key);
    KeepNone(cands, KeyIs(key, topKey));
    var k := ArgMin(cands, ByKey(key));
    assert ChooseBy(topKey, cands, key) == Some(cands[k]);
    LexLeRefl(key(cands[k]));
    assert forall j :: 0 <= j < |cands| ==> ByKey(key)(cands[k], cands[j]);
  }

  /** Nothing is kept when no element qualifies. */
  lemma {:induction false} KeepNone<T(!new)>(s: seq<T>, p: T -> bool)
    requires forall i :: 0 <= i < |s| ==> !p(s[i])
    ensures Keep(s, p) == []
    decreases |s|
  {
    if s != [] {
      KeepNone(s[..|s| - 1], p);
    }
  }

  /** `_choose_dist_for_top_level`, keyed by the normalised name. */
  function ChooseDist(top: string, cands: seq<string>): (r: Option<string>)
    ensures r.None? <==> cands == []
    ensures |cands| == 1 ==> r == Some(cands[0])
    ensures r.Some? ==> r.value in cands
  {
    ChooseBy(Normalize(top), cands, Normalize)
  }

  /** With several candidates, the first one normalising like the top level
      is chosen. */
  lemma ChooseExact(top: string, cands: seq<string>)
    requires |cands| > 1
    requires exists i :: 0 <= i < |cands| && Normalize(cands[i]) == Normalize(top)
    ensures exists i :: (0 <= i < |cands| && ChooseDist(top, cands) == Some(cands[i])
      && Normalize(cands[i]) == Normalize(top)
      && forall j :: 0 <= j < i ==> Normalize(cands[j]) != Normalize(top))
  {
    ChooseByExact(Normalize(top), cands, Normalize);
  }

  /** With several candidates and no exact match, the first with the least
      normalised name is chosen. */
  lemma ChooseSmallest(top: string, cands: seq<string>)
    requires |cands| > 1
    requires forall i :: 0 <= i < |cands| ==> Normalize(cands[i]) != Normalize(top)
    ensures exists i :: (0 <= i < |cands| && ChooseDist(top, cands) == Some(cands[i])
      && (forall j :: 0 <= j < |cands| ==> LexLe(Normalize(cands[i]), Normalize(cands[j])))
      && forall j :: 0 <= j < i ==> Normalize(cands[j]) != Normalize(cands[i]))
  {
    ChooseBySmallest(Normalize(top), cands, Normalize);
  }

  // ---------------------------------------------------------------------------
  // Resolving each import and scanning the sorted imports
  // ---------------------------------------------------------------------------

  /** What the scan knows about the environment: `sys.stdlib_module_names`,
      the project's own top-level modules, `packages_distributions()` (an
      empty map when it raised) and `metadata.version`. */
  datatype ImportEnv = ImportEnv(
    stdlib: set<string>,
    internal: set<string>,
    pkgToDists: map<string, seq<string>>,
    lookup: string -> Lookup)

  /** The outcome for one imported module. */
  datatype Resolution = Skipped | Resolved(dist: string, version: string) | Unresolved(warning: string)

  /** `mod.split(".", 1)[0]`. */
  function TopLevel(mod: string): string {
    Head(mod, '.')
  }

  /** Imports the scan never reports: an empty top level, jaunt itself,
      the standard library, and the project's own modules. */
  predicate Excluded(top: string, env: ImportEnv) {
    top == "" || top == "jaunt" || top in env.stdlib || top in env.internal
  }

  function DistsFor(top: string, env: ImportEnv): seq<string> {
    if top in env.pkgToDists then env.pkgToDists[top] else []
  }

  /** One iteration of the loop over the sorted imports. */
  function ResolveImport(mod: string, env: ImportEnv): (r: Resolution)
    ensures r.Skipped? <==> Excluded(TopLevel(mod), env)
    ensures r.Resolved? ==> env.lookup(r.dist) == Installed(r.version)
    ensures r.Resolved? ==> r.dist in Candidates(mod) || r.dist in DistsFor(TopLevel(mod), env)
    ensures !Excluded(TopLevel(mod), env) && ByNameHeuristic(mod, env.lookup).Some? ==>
      r == Resolved(ByNameHeuristic(mod, env.lookup).value.0, ByNameHeuristic(mod, env.lookup).value.1)
    ensures r.Unresolved? ==> ByNameHeuristic(mod, env.lookup).None?
  {
    var top := TopLevel(mod);
    if Excluded(top, env) then Skipped
    else
      var byName := ByNameHeuristic(mod, env.lookup);
      if byName.Some? then Resolved(byName.value.0, byName.value.1)
      else
        var dist := ChooseDist(top, DistsFor(top, env));
        if dist.None? || dist.value == "" then
          Unresolved("could not resolve installed distribution for import '" + mod + "'")
        else
          match env.lookup(dist.value)
          case Installed(v) => Resolved(dist.value, v)
          case NotInstalled =>
            Unresolved("could not resolve installed version for distribution '" + dist.value
                       + "' (import '" + mod + "')")
          case LookupFailed(err) =>
            Unresolved("could not resolve installed version for distribution '" + dist.value
                       + "': " + err)
  }

  /** The loop body applied in order: `out.setdefault(dist, ver)` for a
      resolution, `warnings.append(...)` for a failure. */
  function Scan(rs: seq<Resolution>): (r: (map<string, string>, seq<string>))
    ensures |r.0| + |r.1| <= |rs|
    decreases |rs|
  {
    if rs == [] then (map[], [])
    else
      var (out, warnings) := Scan(rs[..|rs| - 1]);
      match rs[|rs| - 1]
      case Skipped => (out, warnings)
      case Resolved(d, v) => (if d in out then out else out[d := v], warnings)
      case Unresolved(w) => (out, warnings + [w])
  }

  /** No earlier resolution names `d`. */
  predicate FirstFor(rs: seq<Resolution>, i: int, d: string)
    requires 0 <= i <= |rs|
  {
    forall j :: 0 <= j < i ==> !(rs[j].Resolved? && rs[j].dist == d)
  }

  /** A distribution is reported exactly when some resolution names it. */
  lemma {:induction false} ScanKeys(rs: seq<Resolution>)
    ensures forall d :: d in Scan(rs).0 <==> exists i :: 0 <= i < |rs| && rs[i].Resolved? && rs[i].dist == d
    decreases |rs|
  {
    if rs != [] {
      var pre := rs[..|rs| - 1];
      ScanKeys(pre);
      assert forall j :: 0 <= j < |rs| - 1 ==> pre[j] == rs[j];
    }
  }

  /** A reported distribution has the version of the first resolution naming
      it. */
  lemma {:induction false} ScanFirst(rs: seq<Resolution>, i: nat)
    requires i < |rs| && rs[i].Resolved? && FirstFor(rs, i, rs[i].dist)
    ensures rs[i].dist in Scan(rs).0 && Scan(rs).0[rs[i].dist] == rs[i].version
    decreases |rs|
  {
    var n := |rs| - 1;
    var pre := rs[..n];
    assert forall j :: 0 <= j < n ==> pre[j] == rs[j];
    if i < n {
      assert FirstFor(pre, i, rs[i].dist);
      ScanFirst(pre, i);
    } else {
      ScanKeys(pre);
    }
  }

  /** Every reported distribution carries the version of some resolution
      naming it. */
  lemma {:induction false} ScanReported(rs: seq<Resolution>, d: string)
    requires d in Scan(rs).0
    ensures exists i :: 0 <= i < |rs| && rs[i] == Resolved(d, Scan(rs).0[d])
    decreases |rs|
  {
    var n := |rs| - 1;
    var pre := rs[..n];
    assert forall j :: 0 <= j < n ==> pre[j] == rs[j];
    if d in Scan(pre).0 {
      ScanReported(pre, d);
      var i :| 0 <= i < n && pre[i] == Resolved(d, Scan(pre).0[d]);
      assert rs[i] == pre[i];
    } else {
      assert rs[n] == Resolved(d, Scan(rs).0[d]);
    }
  }

  function IsUnresolved(x: Resolution): bool {
    x.Unresolved?
  }

  function WarningOf(x: Resolution): string {
    if x.Unresolved? then x.warning else ""
  }

  /** The warnings are those of the unresolved imports, in scan order. */
  lemma {:induction false} ScanWarnings(rs: seq<Resolution>)
    ensures Scan(rs).1 == MapSeq(WarningOf, Keep(rs, IsUnresolved))
    decreases |rs|
  {
    if rs != [] {
      var pre := rs[..|rs| - 1];
      ScanWarnings(pre);
      var x := rs[|rs| - 1];
      MapSeqConcat(WarningOf, Keep(pre, IsUnresolved), if x.Unresolved? then [x] else []);
      assert MapSeq(WarningOf, [x]) == [WarningOf(x)];
    }
  }

  /** Every import in sorted order, resolved. */
  function ResolveAll(mods: seq<string>, f: string -> Resolution): (r: seq<Resolution>)
    ensures |r| == |mods|
    ensures forall i :: 0 <= i < |mods| ==> r[i] == f(mods[i])
  {
    seq(|mods|, i requires 0 <= i < |mods| => f(mods[i]))
  }

  /** The scan over the sorted imports, for any per-import resolution. */
  function DiscoverWith(imports: set<string>, f: string -> Resolution): (map<string, string>, seq<string>) {
    Scan(ResolveAll(SortSet(imports), f))
  }

  function Resolver(env: ImportEnv): string -> Resolution {
    (m: string) => ResolveImport(m, env)
  }

  /** `discover_external_distributions_with_warnings` once the imports have
      been collected: `(dist -> version, warnings)`. */
  function Discover(imports: set<string>, env: ImportEnv): (r: (map<string, string>, seq<string>))
    ensures imports == {} ==> r.0 == map[] && r.1 == []
    ensures |r.0| + |r.1| <= |imports|
  {
    DiscoverWith(imports, Resolver(env))
  }

  lemma DiscoverWithReported(imports: set<string>, f: string -> Resolution, d: string)
    requires d in DiscoverWith(imports, f).0
    ensures exists m :: m in imports && f(m) == Resolved(d, DiscoverWith(imports, f).0[d])
  {
    var mods := SortSet(imports);
    var rs := ResolveAll(mods, f);
    ScanReported(rs, d);
    var i :| 0 <= i < |rs| && rs[i] == Resolved(d, Scan(rs).0[d]);
    assert mods[i] in imports;
  }

  /** Every reported distribution comes from an import that is not excluded,
      and its version is what the installed metadata says. */
  lemma DiscoverReported(imports: set<string>, env: ImportEnv, d: string)
    requires d in Discover(imports, env).0
    ensures exists m :: (m in imports && !Excluded(TopLevel(m), env)
      && ResolveImport(m, env) == Resolved(d, Discover(imports, env).0[d]))
    ensures env.lookup(d) == Installed(Discover(imports, env).0[d])
  {
    DiscoverWithReported(imports, Resolver(env), d);
    var m :| m in imports && Resolver(env)(m) == Resolved(d, Discover(imports, env).0[d]);
    assert ResolveImport(m, env).Resolved?;
  }

  lemma DiscoverWithFirstWins(imports: set<string>, f: string -> Resolution, m: string)
    requires m in imports && f(m).Resolved?
    requires forall m' :: m' in imports && LexLt(m', m) ==> !(f(m').Resolved? && f(m').dist == f(m).dist)
    ensures f(m).dist in DiscoverWith(imports, f).0
    ensures DiscoverWith(imports, f).0[f(m).dist] == f(m).version
  {
    var mods := SortSet(imports);
    var rs := ResolveAll(mods, f);
    var i :| 0 <= i < |mods| && mods[i] == m;
    assert forall j :: 0 <= j < i ==> mods[j] in imports && LexLt(mods[j], m);
    assert FirstFor(rs, i, rs[i].dist);
    ScanFirst(rs, i);
  }

  /** The first import in sorted order that resolves to a distribution
      decides its version. */
  lemma DiscoverFirstWins(imports: set<string>, env: ImportEnv, m: string)
    requires m in imports && ResolveImport(m, env).Resolved?
    requires forall m' :: m' in imports && LexLt(m', m) ==>
      !(ResolveImport(m', env).Resolved? && ResolveImport(m', env).dist == ResolveImport(m, env).dist)
    ensures ResolveImport(m, env).dist in Discover(imports, env).0
    ensures Discover(imports, env).0[ResolveImport(m, env).dist] == ResolveImport(m, env).version
  {
    var f := Resolver(env);
    assert forall m' :: f(m') == ResolveImport(m', env);
    DiscoverWithFirstWins(imports, f, m);
  }

  lemma DiscoverWithWarns(imports: set<string>, f: string -> Resolution, m: string)
    requires m in imports && f(m).Unresolved?
    ensures f(m).warning in DiscoverWith(imports, f).1
  {
    var mods := SortSet(imports);
    var rs := ResolveAll(mods, f);
    ScanWarnings(rs);
    var i :| 0 <= i < |mods| && mods[i] == m;
    assert rs[i] in Keep(rs, IsUnresolved);
    var ks := Keep(rs, IsUnresolved);
    var k :| 0 <= k < |ks| && ks[k] == rs[i];
    MapSeqAt(WarningOf, ks);
  }

  /** An import that cannot be resolved adds its warning. */
  lemma UnresolvedWarns(imports: set<string>, env: ImportEnv, m: string)
    requires m in imports && ResolveImport(m, env).Unresolved?
    ensures ResolveImport(m, env).warning in Discover(imports, env).1
  {
    DiscoverWithWarns(imports, Resolver(env), m);
  }
}

=== FILE: generation.dfy ===
/** What `build_one` (jaunt/builder.py) and `gen_one` (jaunt/tester.py) share:
    the generation context handed to the backend
    (`ModuleSpecContext` in jaunt/generate/base.py), its per-spec tables, and
    the outside code both call, as parameters. */
module Generation {
  import opened Wrappers
  import opened PyValues
  import opened Registry
  import opened Retry
  import opened Validation
  import opened Staleness

  /** `ModuleSpecContext`. Spec refs are written as their `str`. */
  datatype ModuleSpecContext = ModuleSpecContext(
    kind: string,
    specModule: string,
    generatedModule: string,
    expectedNames: seq<string>,
    specSources: map<string, string>,
    decoratorPrompts: map<string, string>,
    dependencyApis: map<string, string>,
    dependencyGeneratedModules: map<string, string>,
    skillsBlock: string)

  /** The code a generation task calls and this model does not see:
      `extract_source_segment`, the backend's `generate_with_retry` (whose
      default loop is `Retry.GenerateWithRetry`), Python's parser,
      `module_digest` and `format_header`. Each that can raise returns a
      `Result`. */
  datatype Oracles = Oracles(
    segment: SpecEntry -> Result<string>,
    generate: ModuleSpecContext -> Result<GenerationResult>,
    parse: string -> Parsed,
    md: (string, seq<SpecEntry>) -> Result<string>,
    format: HeaderFields -> string)

  /** `[e.qualname for e in entries]`. */
  function ExpectedNames(entries: seq<SpecEntry>): (r: seq<string>)
    ensures |r| == |entries|
    ensures forall i :: 0 <= i < |entries| ==> r[i] == entries[i].qualname
  {
    seq(|entries|, i requires 0 <= i < |entries| => entries[i].qualname)
  }

  /** `[str(e.spec_ref) for e in entries]`. */
  function SpecRefs(entries: seq<SpecEntry>): (r: seq<string>)
    ensures |r| == |entries|
    ensures forall i :: 0 <= i < |entries| ==> r[i] == entries[i].specRef
  {
    seq(|entries|, i requires 0 <= i < |entries| => entries[i].specRef)
  }

  /** No entry after position `i` files a value under the same spec ref. */
  ghost predicate LastFor(es: seq<SpecEntry>, f: SpecEntry -> Option<string>, i: int)
    requires 0 <= i < |es|
  {
    forall j :: i < j < |es| && es[j].specRef == es[i].specRef ==> f(es[j]).None?
  }

  /** A dict filled by `d[e.spec_ref] = v` for each entry, in order, that
      yields a value `v`. */
  function Collect(es: seq<SpecEntry>, f: SpecEntry -> Option<string>): (r: map<string, string>)
    decreases |es|
  {
    if |es| == 0 then map[]
    else
      var m := Collect(es[..|es| - 1], f);
      var e := es[|es| - 1];
      if f(e).Some? then m[e.specRef := f(e).value] else m
  }

  /** A ref is a key exactly when some entry files a value under it, and
      then holds the value filed last. */
  lemma {:induction false} CollectFacts(es: seq<SpecEntry>, f: SpecEntry -> Option<string>)
    ensures forall k :: k in Collect(es, f) <==> exists i :: 0 <= i < |es| && es[i].specRef == k && f(es[i]).Some?
    ensures forall i :: 0 <= i < |es| && f(es[i]).Some? && LastFor(es, f, i) ==>
      Collect(es, f)[es[i].specRef] == f(es[i]).value
  {
    CollectKeys(es, f);
    CollectLast(es, f);
  }

  lemma {:induction false} CollectKeys(es: seq<SpecEntry>, f: SpecEntry -> Option<string>)
    ensures forall k :: k in Collect(es, f) <==> exists i :: 0 <= i < |es| && es[i].specRef == k && f(es[i]).Some?
    decreases |es|
  {
    if |es| > 0 {
      var n := |es| - 1;
      var pre := es[..n];
      CollectKeys(pre, f);
      assert forall i :: 0 <= i < n ==> pre[i] == es[i];
    }
  }

  lemma {:induction false} CollectLast(es: seq<SpecEntry>, f: SpecEntry -> Option<string>)
    ensures forall i :: 0 <= i < |es| && f(es[i]).Some? && LastFor(es, f, i) ==>
      es[i].specRef in Collect(es, f) && Collect(es, f)[es[i].specRef] == f(es[i]).value
    decreases |es|
  {
    if |es| > 0 {
      var n := |es| - 1;
      var pre := es[..n];
      CollectLast(pre, f);
      forall i | 0 <= i < n && f(es[i]).Some? && LastFor(es, f, i)
        ensures es[i].specRef in Collect(es, f) && Collect(es, f)[es[i].specRef] == f(es[i]).value
      {
        assert pre[i] == es[i];
        assert LastFor(pre, f, i);
      }
    }
  }

  /** An entry that yields a value puts its ref among the keys. */
  lemma CollectHas(es: seq<SpecEntry>, f: SpecEntry -> Option<string>, e: SpecEntry)
    requires e in es && f(e).Some?
    ensures e.specRef in Collect(es, f)
  {
    var i :| 0 <= i < |es| && es[i] == e;
    CollectFacts(es, f);
  }

  /** `extract_source_segment` with its failure swallowed. */
  function TrySegment(segment: SpecEntry -> Result<string>): SpecEntry -> Option<string> {
    (e: SpecEntry) => if segment(e).Ok? then Some(segment(e).value) else None
  }

  /** `extract_source_segment` of every entry, the first failure raised. */
  function SpecSources(entries: seq<SpecEntry>, segment: SpecEntry -> Result<string>): (r: Result<map<string, string>>)
    ensures r.Ok? <==> forall i :: 0 <= i < |entries| ==> segment(entries[i]).Ok?
    ensures r.Err? ==> exists i :: 0 <= i < |entries| && segment(entries[i]) == Err(r.error) &&
                                   (forall j :: 0 <= j < i ==> segment(entries[j]).Ok?)
    ensures r.Ok? ==> r.value == Collect(entries, TrySegment(segment))
    decreases |entries|
  {
    if |entries| == 0 then Ok(map[])
    else if segment(entries[0]).Err? then Err(segment(entries[0]).error)
    else
      var rest := SpecSources(entries[1..], segment);
      assert forall i :: 1 <= i < |entries| ==> entries[i] == entries[1..][i - 1];
      if rest.Err? then
        FirstFailureShifted(entries, segment, rest.error);
        Err(rest.error)
      else Ok(Collect(entries, TrySegment(segment)))
  }

  /** The first failure among the entries after the first, when the first
      succeeds, is the first failure of them all. */
  lemma FirstFailureShifted(entries: seq<SpecEntry>, segment: SpecEntry -> Result<string>, e: Error)
    requires |entries| >= 1 && segment(entries[0]).Ok?
    requires exists i :: 0 <= i < |entries[1..]| && segment(entries[1..][i]) == Err(e) &&
                         (forall j :: 0 <= j < i ==> segment(entries[1..][j]).Ok?)
    ensures exists i :: 0 <= i < |entries| && segment(entries[i]) == Err(e) &&
                        (forall j :: 0 <= j < i ==> segment(entries[j]).Ok?)
  {
    var i :| 0 <= i < |entries[1..]| && segment(entries[1..][i]) == Err(e) &&
             (forall j :: 0 <= j < i ==> segment(entries[1..][j]).Ok?);
    assert segment(entries[i + 1]) == Err(e);
    forall j | 0 <= j < i + 1 ensures segment(entries[j]).Ok? {
      if j > 0 { assert entries[j] == entries[1..][j - 1]; }
    }
  }

  /** The `prompt` decorator argument when it is a non-empty string. */
  function PromptOf(e: SpecEntry): (r: Option<string>)
    ensures r.Some? <==> "prompt" in e.kwargs && e.kwargs["prompt"].StrV? && e.kwargs["prompt"].s != ""
    ensures r.Some? ==> r.value == e.kwargs["prompt"].s
  {
    if "prompt" in e.kwargs && e.kwargs["prompt"].StrV? && e.kwargs["prompt"].s != "" then
      Some(e.kwargs["prompt"].s)
    else None
  }

  /** `decorator_prompts`: the non-empty string prompts, by spec ref. */
  function DecoratorPrompts(entries: seq<SpecEntry>): map<string, string> {
    Collect(entries, PromptOf)
  }

  /** Only specs with a prompt appear, each with the prompt of its last
      entry that has one. */
  lemma DecoratorPromptsExact(entries: seq<SpecEntry>, k: string)
    ensures k in DecoratorPrompts(entries) <==>
      exists i :: 0 <= i < |entries| && entries[i].specRef == k && PromptOf(entries[i]).Some?
    ensures forall i :: (0 <= i < |entries| && entries[i].specRef == k && PromptOf(entries[i]).Some? &&
                         LastFor(entries, PromptOf, i)) ==> DecoratorPrompts(entries)[k] == PromptOf(entries[i]).value
  {
    CollectFacts(entries, PromptOf);
  }

  /** The header a successful task writes. */
  function HeaderFor(toolVersion: string, kind: string, m: string, digest: string, entries: seq<SpecEntry>): (h: HeaderFields)
    ensures h.moduleDigest == digest && h.sourceModule == m && h.kind == kind
    ensures h.specRefs == SpecRefs(entries)
  {
    HeaderFields(toolVersion, kind, m, digest, SpecRefs(entries))
  }

  /** What a module job makes of a generation result: `None` for a source that
      can be written, or the failure `(ok=False, errors)` otherwise. */
  function Rejection(res: GenerationResult, parse: string -> Parsed, expected: seq<string>): (r: Option<seq<string>>)
    ensures res.source.None? ==> r == Some(if res.errors == [] then ["No source returned."] else res.errors)
    ensures res.source.Some? ==>
      (r.None? <==> ValidateGeneratedSource(parse, res.source.value, Some(expected)) == [])
    ensures res.source.Some? && r.Some? ==> r.value == ValidateGeneratedSource(parse, res.source.value, Some(expected))
    ensures r.Some? ==> r.value != []
  {
    if res.source.None? then Some(if res.errors == [] then ["No source returned."] else res.errors)
    else
      var errors := ValidateGeneratedSource(parse, res.source.value, Some(expected));
      if errors != [] then Some(errors) else None
  }
}

=== FILE: graphs.dfy ===
/** Dependency graphs: each node maps to the set of nodes it depends on
    (edges point to dependencies). */
module Graphs {

  type Graph = map<string, set<string>>

  /** Every node named as a key or as a dependency. */
  function Nodes(g: Graph): (ns: set<string>)
    ensures forall a :: a in g ==> a in ns && g[a] <= ns
  {
    g.Keys + (set a, b | a in g && b in g[a] :: b)
  }

  /** A graph whose dependencies are all keys has no other nodes. */
  lemma ClosedNodes(g: Graph)
    requires forall a :: a in g ==> g[a] <= g.Keys
    ensures Nodes(g) == g.Keys
  {
  }

  /** `graph.get(n, set())`. */
  function Succ(g: Graph, n: string): set<string> {
    if n in g then g[n] else {}
  }

  predicate Edge(g: Graph, a: string, b: string) {
    a in g && b in g[a]
  }

  /** `c[0] -> c[1] -> ... -> c[|c|-1] -> c[0]`. */
  ghost predicate IsCycle(g: Graph, c: seq<string>) {
    |c| >= 1
    && (forall i :: 0 <= i < |c| - 1 ==> Edge(g, c[i], c[i + 1]))
    && Edge(g, c[|c| - 1], c[0])
  }

  ghost predicate Acyclic(g: Graph) {
    forall c :: !IsCycle(g, c)
  }

  predicate Distinct(s: seq<string>) {
    forall i, j :: 0 <= i < j < |s| ==> s[i] != s[j]
  }

  /** Each element's dependencies occur before it. */
  ghost predicate DepsFirst(g: Graph, order: seq<string>) {
    forall i :: 0 <= i < |order| ==> Succ(g, order[i]) <= set x | x in order[..i]
  }

  /** Position of `x` in a sequence that contains it. */
  function Pos(s: seq<string>, x: string): (i: nat)
    requires x in s
    ensures i < |s| && s[i] == x && x !in s[..i]
  {
    if s[0] == x then 0 else 1 + Pos(s[1..], x)
  }

  lemma PosDistinct(s: seq<string>, i: nat)
    requires Distinct(s) && i < |s|
    ensures Pos(s, s[i]) == i
  {
  }

  /** Along an edge of a dependencies-first order, positions strictly drop. */
  lemma EdgeDescends(g: Graph, order: seq<string>, a: string, b: string)
    requires DepsFirst(g, order) && Distinct(order)
    requires a in order && Edge(g, a, b)
    ensures b in order && Pos(order, b) < Pos(order, a)
  {
    var i := Pos(order, a);
    assert b in Succ(g, order[i]);
    assert b in set x | x in order[..i];
    var j :| 0 <= j < i && order[j] == b;
    PosDistinct(order, j);
  }

  lemma {:induction false} PathDescends(g: Graph, order: seq<string>, c: seq<string>, k: nat)
    requires DepsFirst(g, order) && Distinct(order)
    requires 1 <= k < |c| && c[0] in order
    requires forall i :: 0 <= i < |c| - 1 ==> Edge(g, c[i], c[i + 1])
    ensures c[k] in order && Pos(order, c[k]) < Pos(order, c[0])
  {
    if k == 1 {
      EdgeDescends(g, order, c[0], c[1]);
    } else {
      PathDescends(g, order, c, k - 1);
      EdgeDescends(g, order, c[k - 1], c[k]);
    }
  }

  /** A dependencies-first arrangement of all nodes exists only for an
      acyclic graph. */
  lemma DepsFirstImpliesAcyclic(g: Graph, order: seq<string>)
    requires DepsFirst(g, order) && Distinct(order)
    requires Nodes(g) <= set x | x in order
    ensures Acyclic(g)
  {
    forall c | IsCycle(g, c) ensures false {
      assert c[0] in g[c[|c| - 1]];
      assert c[0] in Nodes(g);
      if |c| > 1 {
        PathDescends(g, order, c, |c| - 1);
        EdgeDescends(g, order, c[|c| - 1], c[0]);
      }
    }
  }

  /** A rotation of a cycle is a cycle. */
  lemma RotateCycle(g: Graph, c: seq<string>, k: nat)
    requires IsCycle(g, c) && k < |c|
    ensures IsCycle(g, c[k..] + c[..k])
  {
    var r := c[k..] + c[..k];
    forall i | 0 <= i < |r| - 1 ensures Edge(g, r[i], r[i + 1]) {
      if i < |c| - k - 1 {
        assert r[i] == c[k + i] && r[i + 1] == c[k + i + 1];
      } else if i == |c| - k - 1 {
        assert r[i] == c[|c| - 1] && r[i + 1] == c[0];
      } else {
        assert r[i] == c[i - (|c| - k)] && r[i + 1] == c[i - (|c| - k) + 1];
      }
    }
    if k == 0 {
      assert r == c;
    } else {
      assert r[|r| - 1] == c[k - 1] && r[0] == c[k];
    }
  }

  /** `p[0] -> p[1] -> ... -> p[|p|-1]`. */
  ghost predicate IsPath(g: Graph, p: seq<string>) {
    |p| >= 1 && forall i :: 0 <= i < |p| - 1 ==> Edge(g, p[i], p[i + 1])
  }

  /** `b` is `a` itself or one of its transitive dependencies. */
  ghost predicate Reaches(g: Graph, a: string, b: string) {
    exists p :: IsPath(g, p) && p[0] == a && p[|p| - 1] == b
  }

  lemma ReachesSelf(g: Graph, a: string)
    ensures Reaches(g, a, a)
  {
    assert IsPath(g, [a]);
  }

  lemma ReachesStep(g: Graph, a: string, b: string, c: string)
    requires Edge(g, a, b) && Reaches(g, b, c)
    ensures Reaches(g, a, c)
  {
    var p :| IsPath(g, p) && p[0] == b && p[|p| - 1] == c;
    var q := [a] + p;
    assert forall i :: 1 <= i < |q| ==> q[i] == p[i - 1];
    assert IsPath(g, q);
  }

  /** Everything reachable from `a` other than `a` is a node of the graph. */
  lemma ReachedIsNode(g: Graph, a: string, b: string)
    requires Reaches(g, a, b) && a != b
    ensures b in Nodes(g)
  {
    var p :| IsPath(g, p) && p[0] == a && p[|p| - 1] == b;
    assert Edge(g, p[|p| - 2], p[|p| - 1]);
  }

  /** A way back to `a` from one of its dependencies closes a cycle. */
  lemma PathBackIsCycle(g: Graph, a: string, b: string)
    requires Edge(g, a, b) && Reaches(g, b, a)
    ensures !Acyclic(g)
  {
    var p :| IsPath(g, p) && p[0] == b && p[|p| - 1] == a;
    var c := [a] + p[..|p| - 1];
    forall i | 0 <= i < |c| - 1 ensures Edge(g, c[i], c[i + 1]) {
      if i > 0 {
        assert c[i] == p[i - 1] && c[i + 1] == p[i];
      }
    }
    assert IsCycle(g, c);
  }

  /** Reachability composes. */
  lemma ReachesTrans(g: Graph, a: string, b: string, c: string)
    requires Reaches(g, a, b) && Reaches(g, b, c)
    ensures Reaches(g, a, c)
  {
    var p :| IsPath(g, p) && p[0] == a && p[|p| - 1] == b;
    var q :| IsPath(g, q) && q[0] == b && q[|q| - 1] == c;
    var r := p + q[1..];
    forall i | 0 <= i < |r| - 1 ensures Edge(g, r[i], r[i + 1]) {
      if i < |p| - 1 {
        assert r[i] == p[i] && r[i + 1] == p[i + 1];
      } else {
        assert r[i] == q[i - |p| + 1] && r[i + 1] == q[i - |p| + 2];
      }
    }
    assert IsPath(g, r);
  }
}

=== FILE: path_layout.dfy ===
/** Where generated files land relative to the spec files they come from
    (jaunt/paths.py): the generated tree mirrors the spec tree one level
    down, inside the top package's generated directory. */
module PathLayout {
  import opened Text
  import opened Paths

  /** With the default directory, the generated module's file mirrors the
      spec module's file one level down, inside `<top>/__generated__/`. */
  lemma GeneratedPathMirrorsSpecPath(m: string)
    requires Mirrorable(m)
    ensures var gm := SpecModuleToGeneratedModule(m, DefaultGeneratedDir);
      GeneratedModuleToRelpath(gm) == [Split(m, '.')[0], DefaultGeneratedDir] + ModuleToRelpath(m)[1..]
  {
    GeneratedParts(m);
    MirrorModule(m, SpecModuleToGeneratedModule(m, DefaultGeneratedDir));
  }

  /** `GeneratedPathMirrorsSpecPath` stated for every module. */
  lemma MirrorsWhenMirrorable(m: string)
    ensures Mirrorable(m) ==>
      GeneratedModuleToRelpath(SpecModuleToGeneratedModule(m, DefaultGeneratedDir))
        == [Split(m, '.')[0], DefaultGeneratedDir] + ModuleToRelpath(m)[1..]
  {
    if Mirrorable(m) {
      GeneratedPathMirrorsSpecPath(m);
    }
  }

  /** The generated module's parts: the top part, the generated directory,
      then the rest. */
  lemma GeneratedParts(m: string)
    requires Mirrorable(m)
    ensures var parts := Split(m, '.');
      Split(SpecModuleToGeneratedModule(m, DefaultGeneratedDir), '.') == [parts[0], DefaultGeneratedDir] + parts[1..]
  {
    assert '.' !in DefaultGeneratedDir;
  }

  /** The mirroring, once the generated module's parts are known. */
  lemma MirrorModule(m: string, gm: string)
    requires Mirrorable(m)
    requires var parts := Split(m, '.'); Split(gm, '.') == [parts[0], DefaultGeneratedDir] + parts[1..]
    ensures GeneratedModuleToRelpath(gm) == [Split(m, '.')[0], DefaultGeneratedDir] + ModuleToRelpath(m)[1..]
  {
    if |Split(m, '.')| == 1 {
      MirrorSingleModule(m, gm);
    } else {
      MirrorNestedModule(m, gm);
    }
  }

  lemma MirrorSingleModule(m: string, gm: string)
    requires WellFormedModule(m) && |Split(m, '.')| == 1
    requires var parts := Split(m, '.'); Split(gm, '.') == [parts[0], DefaultGeneratedDir] + parts[1..]
    ensures GeneratedModuleToRelpath(gm) == [Split(m, '.')[0], DefaultGeneratedDir] + ModuleToRelpath(m)[1..]
  {
    var parts := Split(m, '.');
    var gp := Split(gm, '.');
    assert gp[|gp| - 1] == DefaultGeneratedDir;
    assert GeneratedModuleToRelpath(gm) == MkPath(gp) + ["__init__.py"];
    assert ModuleToRelpath(m) == MkPath([parts[0], "__init__.py"]);
    MirrorSingle(parts, gp);
  }

  lemma MirrorNestedModule(m: string, gm: string)
    requires Mirrorable(m) && |Split(m, '.')| >= 2
    requires var parts := Split(m, '.'); Split(gm, '.') == [parts[0], DefaultGeneratedDir] + parts[1..]
    ensures GeneratedModuleToRelpath(gm) == [Split(m, '.')[0], DefaultGeneratedDir] + ModuleToRelpath(m)[1..]
  {
    var parts := Split(m, '.');
    var gp := Split(gm, '.');
    ShiftedLast(parts, gp, parts[0], DefaultGeneratedDir);
    assert LastPart(gm) == LastPart(m);
    GeneratedRelpathNested(gm);
    RelpathNested(m);
    MirrorNested(parts, gp);
  }

  /** Unfolding `generated_module_to_relpath` for a module that is not the
      generated package itself. */
  lemma GeneratedRelpathNested(gm: string)
    requires |Split(gm, '.')| >= 2 && LastPart(gm) != DefaultGeneratedDir
    ensures var gp := Split(gm, '.');
      GeneratedModuleToRelpath(gm) == MkPath(gp[..|gp| - 1] + [gp[|gp| - 1] + ".py"])
  {
    RelpathNested(gm);
  }

  /** Unfolding `module_to_relpath` for a module with at least two parts. */
  lemma RelpathNested(m: string)
    requires |Split(m, '.')| >= 2
    ensures var parts := Split(m, '.');
      ModuleToRelpath(m) == MkPath(parts[..|parts| - 1] + [parts[|parts| - 1] + ".py"])
  {
  }

  lemma ShiftedLast<T>(parts: seq<T>, gp: seq<T>, a: T, b: T)
    requires |parts| >= 2 && gp == [a, b] + parts[1..]
    ensures |gp| == |parts| + 1 && gp[|gp| - 1] == parts[|parts| - 1]
  {
    assert gp[|gp| - 1] == parts[1..][|parts| - 2];
  }

  lemma MirrorSingle(parts: seq<string>, gp: seq<string>)
    requires |parts| == 1 && parts[0] != ""
    requires gp == [parts[0], DefaultGeneratedDir] + parts[1..]
    ensures MkPath(gp) + ["__init__.py"] == [parts[0], DefaultGeneratedDir] + MkPath([parts[0], "__init__.py"])[1..]
  {
    assert gp == [parts[0], DefaultGeneratedDir];
    MkPathKeeps(gp);
    RelpathParts(parts);
  }

  lemma MirrorNested(parts: seq<string>, gp: seq<string>)
    requires |parts| >= 2 && forall i :: 0 <= i < |parts| ==> parts[i] != ""
    requires gp == [parts[0], DefaultGeneratedDir] + parts[1..]
    ensures var q := parts[..|parts| - 1] + [parts[|parts| - 1] + ".py"];
      var gq := gp[..|gp| - 1] + [gp[|gp| - 1] + ".py"];
      MkPath(gq) == [parts[0], DefaultGeneratedDir] + MkPath(q)[1..]
  {
    var q := parts[..|parts| - 1] + [parts[|parts| - 1] + ".py"];
    var gq := gp[..|gp| - 1] + [gp[|gp| - 1] + ".py"];
    assert gq == [parts[0], DefaultGeneratedDir] + q[1..];
    RelpathParts(parts);
    RelpathParts(gp);
  }
}

=== FILE: paths.dfy ===
/** Mapping spec modules to generated modules and to relative file paths
    (jaunt/paths.py). A path is the sequence of its components. */
module Paths {
  import opened Text

  const DefaultGeneratedDir: string := "__generated__"

  /** `Path(*parts)`: empty components vanish. */
  function MkPath(parts: seq<string>): (p: seq<string>)
    ensures forall i :: 0 <= i < |p| ==> p[i] != ""
    ensures |p| <= |parts|
  {
    if |parts| == 0 then []
    else (if parts[0] == "" then [] else [parts[0]]) + MkPath(parts[1..])
  }

  lemma {:induction false} MkPathKeeps(parts: seq<string>)
    requires forall i :: 0 <= i < |parts| ==> parts[i] != ""
    ensures MkPath(parts) == parts
  {
    if |parts| > 0 {
      MkPathKeeps(parts[1..]);
      assert parts == [parts[0]] + parts[1..];
    }
  }

  lemma {:induction false} MkPathConcat(a: seq<string>, b: seq<string>)
    ensures MkPath(a + b) == MkPath(a) + MkPath(b)
  {
    if |a| > 0 {
      assert (a + b)[1..] == a[1..] + b;
      MkPathConcat(a[1..], b);
    } else {
      assert a + b == b;
    }
  }

  /** The module's dotted parts are all non-empty. */
  predicate WellFormedModule(m: string) {
    var parts := Split(m, '.');
    forall i :: 0 <= i < |parts| ==> parts[i] != ""
  }

  /** `spec_module_to_generated_module(module, generated_dir)`: `g` becomes
      the second dotted part, unless it already is. */
  function SpecModuleToGeneratedModule(m: string, g: string): (r: string)
    ensures var parts := Split(m, '.');
      |parts| >= 2 && parts[1] == g ==> r == m
    ensures var parts := Split(m, '.');
      '.' !in g && !(|parts| >= 2 && parts[1] == g) ==> Split(r, '.') == [parts[0], g] + parts[1..]
  {
    var parts := Split(m, '.');
    if |parts| == 1 then
      assert Join([parts[0], g], ".") == parts[0] + "." + g;
      if '.' !in g then
        SplitJoin([parts[0], g], '.');
        parts[0] + "." + g
      else parts[0] + "." + g
    else if parts[1] == g then m
    else
      var q := [parts[0], g] + parts[1..];
      if '.' !in g then
        SplitJoin(q, '.');
        Join(q, ".")
      else Join(q, ".")
  }

  /** Mapping twice is mapping once, for a generated-directory name without dots. */
  lemma GeneratedModuleIdempotent(m: string, g: string)
    requires '.' !in g
    ensures SpecModuleToGeneratedModule(SpecModuleToGeneratedModule(m, g), g)
         == SpecModuleToGeneratedModule(m, g)
  {
  }

  /** `module_to_relpath(module)`: a one-part module is a package
      (`p/__init__.py`); otherwise the last part is a `.py` file inside the
      directories named by the other parts. */
  function ModuleToRelpath(m: string): (p: seq<string>)
    ensures WellFormedModule(m) ==> |p| == |Split(m, '.')| + (if |Split(m, '.')| == 1 then 1 else 0)
    ensures WellFormedModule(m) ==> |p| >= 2 && EndsWith(p[|p| - 1], ".py")
    ensures WellFormedModule(m) && '.' !in m ==> p == [m, "__init__.py"]
    ensures WellFormedModule(m) && '.' in m ==>
      var parts := Split(m, '.');
      p == parts[..|parts| - 1] + [parts[|parts| - 1] + ".py"]
  {
    var parts := Split(m, '.');
    RelpathParts(parts);
    PartsRelpath(parts)
  }

  /** The relative path of a module given its dotted parts. */
  function PartsRelpath(parts: seq<string>): seq<string>
    requires |parts| >= 1
  {
    if |parts| == 1 then MkPath([parts[0], "__init__.py"])
    else MkPath(parts[..|parts| - 1] + [parts[|parts| - 1] + ".py"])
  }

  lemma RelpathParts(parts: seq<string>)
    requires |parts| >= 1
    ensures var q := parts[..|parts| - 1] + [parts[|parts| - 1] + ".py"];
      (forall i :: 0 <= i < |parts| ==> parts[i] != "") ==> MkPath(q) == q
    ensures parts[0] != "" ==> MkPath([parts[0], "__init__.py"]) == [parts[0], "__init__.py"]
  {
    var q := parts[..|parts| - 1] + [parts[|parts| - 1] + ".py"];
    if forall i :: 0 <= i < |parts| ==> parts[i] != "" {
      assert forall i :: 0 <= i < |q| ==> q[i] != "" by {
        forall i | 0 <= i < |q| ensures q[i] != "" {
          if i < |q| - 1 { assert q[i] == parts[i]; }
        }
      }
      MkPathKeeps(q);
    }
    if parts[0] != "" { MkPathKeeps([parts[0], "__init__.py"]); }
  }

  /** A well-formed module's parts are a path as they stand. */
  lemma ModulePathKept(m: string)
    ensures WellFormedModule(m) ==> MkPath(Split(m, '.')) == Split(m, '.')
  {
    if WellFormedModule(m) {
      MkPathKeeps(Split(m, '.'));
    }
  }

  /** `generated_module_to_relpath(module)`: a module whose last part is the
      literal "__generated__" is the generated package's `__init__.py`. */
  function GeneratedModuleToRelpath(m: string): (p: seq<string>)
    ensures WellFormedModule(m) && LastPart(m) == DefaultGeneratedDir ==> p == Split(m, '.') + ["__init__.py"]
    ensures LastPart(m) != DefaultGeneratedDir ==> p == ModuleToRelpath(m)
  {
    if LastPart(m) == DefaultGeneratedDir then
      ModulePathKept(m);
      MkPath(Split(m, '.')) + ["__init__.py"]
    else ModuleToRelpath(m)
  }

  /** The last dotted part of a module name. */
  function LastPart(m: string): string {
    var parts := Split(m, '.');
    parts[|parts| - 1]
  }

  /** A well-formed module that does not itself name the generated
      directory after its top part or as its last part. */
  predicate Mirrorable(m: string) {
    WellFormedModule(m)
    && var parts := Split(m, '.');
       |parts| == 1 || (parts[1] != DefaultGeneratedDir && LastPart(m) != DefaultGeneratedDir)
  }
}

=== FILE: planning.dfy ===
/** What the build and test schedulers decide before any generation starts
    (jaunt/builder.py and jaunt/tester.py): the dependency subgraph induced
    on the stale modules, its reverse, the critical-path priorities and the
    order in which the ready heap hands modules out. */
module Planning {
  import opened Wrappers
  import opened Strings
  import opened Graphs

  // ---------------------------------------------------------------------------
  // The induced subgraph.
  // ---------------------------------------------------------------------------

  /** `deps_in_stale`: each stale module's dependencies that are stale too. */
  function InducedDeps(stale: set<string>, dag: Graph): (r: Graph)
    ensures r.Keys == stale
    ensures forall m, d :: m in stale ==> (d in r[m] <==> Edge(dag, m, d) && d in stale)
  {
    map m | m in stale :: Succ(dag, m) * stale
  }

  /** `dependents`: for each stale module, the stale modules that depend on it. */
  function DependentsIn(stale: set<string>, deps: Graph): (r: Graph)
    ensures r.Keys == stale
    ensures forall d, m :: d in stale ==> (m in r[d] <==> m in stale && Edge(deps, m, d))
  {
    map d | d in stale :: set m | m in stale && Edge(deps, m, d)
  }

  /** The scheduling problem: the stale modules, the induced dependencies and
      their reverse, the priorities and the (clamped) job limit. */
  datatype Plan = Plan(stale: set<string>, deps: Graph, dependents: Graph, prio: map<string, int>, jobs: nat)

  /** The reverse relation is exact and every edge stays inside `stale`. */
  ghost predicate WellFormed(p: Plan) {
    && p.deps.Keys == p.stale
    && p.dependents.Keys == p.stale
    && p.jobs >= 1
    && (forall m :: m in p.deps ==> p.deps[m] <= p.stale)
    && (forall d :: d in p.dependents ==> p.dependents[d] <= p.stale)
    && (forall d, m :: d in p.dependents && m in p.deps ==> (m in p.dependents[d] <==> d in p.deps[m]))
  }

  /** Priorities play no part in a plan being well formed. */
  lemma WellFormedAnyPrio(p: Plan, prio: map<string, int>)
    requires WellFormed(p)
    ensures WellFormed(p.(prio := prio))
  {
  }

  /** `jobs = max(1, int(jobs))`. */
  function ClampJobs(jobs: int): (r: nat)
    ensures r >= 1
    ensures jobs >= 1 ==> r == jobs
  {
    if jobs < 1 then 1 else jobs
  }

  /** The plan both schedulers set up over `stale`. */
  function MakePlan(stale: set<string>, dag: Graph, prio: map<string, int>, jobs: int): (p: Plan)
    ensures WellFormed(p)
    ensures p.stale == stale && p.jobs == ClampJobs(jobs)
    ensures forall m, d :: m in stale ==> (d in p.deps[m] <==> Edge(dag, m, d) && d in stale)
  {
    var deps := InducedDeps(stale, dag);
    Plan(stale, deps, DependentsIn(stale, deps), prio, ClampJobs(jobs))
  }

  // ---------------------------------------------------------------------------
  // Critical-path priorities.
  // ---------------------------------------------------------------------------

  /** A height for every module that drops along every edge to a dependent,
      as `|order| - Pos(order, m)` does for a dependencies-first `order`. */
  ghost predicate Falling(dependents: Graph, rank: map<string, nat>) {
    forall x, c :: x in dependents && c in dependents[x] ==> x in rank && c in rank && rank[c] < rank[x]
  }

  /** The height of each module of `order`: how far from the end it sits. */
  function RankOf(order: seq<string>): (rank: map<string, nat>)
    ensures rank.Keys == set x | x in order
    ensures forall x :: x in order ==> rank[x] == |order| - Pos(order, x)
  {
    map x | x in order :: |order| - Pos(order, x)
  }

  /** A dependencies-first order of the dependencies gives heights that
      fall towards dependents. */
  lemma DepsFirstFalling(stale: set<string>, deps: Graph, order: seq<string>)
    requires deps.Keys == stale && (forall m :: m in deps ==> deps[m] <= stale)
    requires Distinct(order) && (forall x :: x in stale ==> x in order)
    requires DepsFirst(deps, order)
    ensures Falling(DependentsIn(stale, deps), RankOf(order))
  {
    var r := DependentsIn(stale, deps);
    var rank := RankOf(order);
    forall x, c | x in r && c in r[x] ensures x in rank && c in rank && rank[c] < rank[x] {
      EdgeDescends(deps, order, c, x);
    }
  }

  /** `length(m)` inside `_critical_path_lengths`: 0 without dependents,
      else one more than the longest of theirs. */
  function Length(dependents: Graph, rank: map<string, nat>, m: string): (n: nat)
    requires Falling(dependents, rank) && m in rank
    ensures n <= rank[m]
    decreases rank[m], 1, 0
  {
    if m !in dependents || dependents[m] == {} then 0
    else 1 + MaxLength(dependents, rank, m, SortSet(dependents[m]))
  }

  /** The larger `Length` among `ks`, all dependents of `m`, taken left to
      right like `max(...)`. */
  function MaxLength(dependents: Graph, rank: map<string, nat>, m: string, ks: seq<string>): (n: nat)
    requires Falling(dependents, rank) && m in rank && m in dependents
    requires |ks| > 0 && forall k :: k in ks ==> k in dependents[m]
    ensures n < rank[m]
    decreases rank[m], 0, |ks|
  {
    assert ks[0] in dependents[m];
    var here := Length(dependents, rank, ks[0]);
    if |ks| == 1 then here
    else
      assert forall k :: k in ks[1..] ==> k in ks;
      var rest := MaxLength(dependents, rank, m, ks[1..]);
      if here >= rest then here else rest
  }

  /** `MaxLength` is the maximum: at least every dependent's length, and
      equal to one of them. */
  lemma {:induction false} MaxLengthIsMax(dependents: Graph, rank: map<string, nat>, m: string, ks: seq<string>)
    requires Falling(dependents, rank) && m in rank && m in dependents
    requires |ks| > 0 && forall k :: k in ks ==> k in dependents[m]
    ensures forall i :: 0 <= i < |ks| ==> ks[i] in rank && MaxLength(dependents, rank, m, ks) >= Length(dependents, rank, ks[i])
    ensures exists i :: 0 <= i < |ks| && ks[i] in rank && MaxLength(dependents, rank, m, ks) == Length(dependents, rank, ks[i])
    decreases |ks|
  {
    assert ks[0] in dependents[m];
    if |ks| > 1 {
      var tail := ks[1..];
      assert forall k :: k in tail ==> k in ks;
      MaxLengthIsMax(dependents, rank, m, tail);
      var here := Length(dependents, rank, ks[0]);
      var rest := MaxLength(dependents, rank, m, tail);
      var n := MaxLength(dependents, rank, m, ks);
      assert n == if here >= rest then here else rest;
      forall i | 1 <= i < |ks| ensures ks[i] in rank && n >= Length(dependents, rank, ks[i]) {
        assert ks[i] == tail[i - 1];
      }
      var j :| 0 <= j < |tail| && tail[j] in rank && rest == Length(dependents, rank, tail[j]);
      if here < rest {
        assert ks[j + 1] == tail[j];
      }
    }
  }

  /** The critical-path length is 0 exactly for modules without dependents;
      otherwise it is one more than a dependent's and at least one more than
      every dependent's. */
  lemma LengthIsOnePlusMax(dependents: Graph, rank: map<string, nat>, m: string)
    requires Falling(dependents, rank) && m in rank
    ensures Length(dependents, rank, m) == 0 <==> m !in dependents || dependents[m] == {}
    ensures forall c :: m in dependents && c in dependents[m] ==>
      c in rank && Length(dependents, rank, m) >= Length(dependents, rank, c) + 1
    ensures m in dependents && dependents[m] != {} ==>
      exists c :: c in dependents[m] && c in rank && Length(dependents, rank, m) == Length(dependents, rank, c) + 1
  {
    if m in dependents && dependents[m] != {} {
      var ks := SortSet(dependents[m]);
      MaxLengthIsMax(dependents, rank, m, ks);
      forall c | c in dependents[m] ensures c in rank && Length(dependents, rank, m) >= Length(dependents, rank, c) + 1 {
        var i :| 0 <= i < |ks| && ks[i] == c;
      }
      var i :| 0 <= i < |ks| && ks[i] in rank && MaxLength(dependents, rank, m, ks) == Length(dependents, rank, ks[i]);
      assert ks[i] in dependents[m];
    }
  }

  /** `c[0] <- c[1] <- ...`: each module is a dependent of the one before. */
  ghost predicate DependentChain(dependents: Graph, c: seq<string>) {
    forall i :: 0 <= i < |c| - 1 ==> c[i] in dependents && c[i + 1] in dependents[c[i]]
  }

  /** The critical-path length bounds every chain of dependents starting at
      the module: it is the number of edges on the longest one. */
  lemma {:induction false} LengthBoundsChains(dependents: Graph, rank: map<string, nat>, c: seq<string>)
    requires Falling(dependents, rank) && |c| > 0 && c[0] in rank
    requires DependentChain(dependents, c)
    ensures Length(dependents, rank, c[0]) >= |c| - 1
    decreases |c|
  {
    if |c| > 1 {
      LengthIsOnePlusMax(dependents, rank, c[0]);
      assert c[1..][0] == c[1];
      assert DependentChain(dependents, c[1..]) by {
        forall i | 0 <= i < |c[1..]| - 1 ensures c[1..][i] in dependents && c[1..][i + 1] in dependents[c[1..][i]] {
          assert c[1..][i] == c[i + 1] && c[1..][i + 1] == c[i + 2];
        }
      }
      LengthBoundsChains(dependents, rank, c[1..]);
    }
  }

  /** `_critical_path_lengths(modules, dag)` on an acyclic induced graph,
      given heights falling towards dependents. */
  function CriticalPathLengths(p: Plan, rank: map<string, nat>): (r: map<string, int>)
    requires Falling(p.dependents, rank)
    requires forall m :: m in p.stale ==> m in rank
    ensures r.Keys == p.stale
    ensures forall m :: m in p.stale ==> r[m] == Length(p.dependents, rank, m)
  {
    map m | m in p.stale :: Length(p.dependents, rank, m)
  }

  // ---------------------------------------------------------------------------
  // The recursion as written, which has no cycle guard.
  // ---------------------------------------------------------------------------

  /** The message of the `RecursionError` Python raises once `limit` frames
      are on the stack. */
  const RecursionMessage := "maximum recursion depth exceeded"

  /** `length(m)` as the interpreter runs it: without the acyclicity that
      `Length` demands, it is the recursion limit that stops it. The memo is
      left out: it caches results but never stops a recursion that is
      still in progress. */
  function LengthAsWritten(dependents: Graph, m: string, depth: nat, limit: nat): (r: Result<nat>)
    ensures depth >= limit ==> r.Err?
    ensures r.Err? ==> r.error == RuntimeError(RecursionMessage)
    ensures r.Ok? ==> r.value < limit - depth
    decreases limit - depth, 1, 0
  {
    if depth >= limit then Err(RuntimeError(RecursionMessage))
    else if m !in dependents || dependents[m] == {} then Ok(0)
    else
      var best :- MaxLengthAsWritten(dependents, SortSet(dependents[m]), depth + 1, limit);
      Ok(1 + best)
  }

  function MaxLengthAsWritten(dependents: Graph, ks: seq<string>, depth: nat, limit: nat): (r: Result<nat>)
    requires |ks| > 0 && depth <= limit
    ensures r.Err? ==> r.error == RuntimeError(RecursionMessage)
    ensures r.Ok? ==> r.value < limit - depth
    decreases limit - depth + 1, 0, |ks|
  {
    var here :- LengthAsWritten(dependents, ks[0], depth, limit);
    if |ks| == 1 then Ok(here)
    else
      var rest :- MaxLengthAsWritten(dependents, ks[1..], depth, limit);
      Ok(if here >= rest then here else rest)
  }

  /** On the two-module cycle `a <-> b` the recursion never bottoms out, so
      whatever the limit, it raises `RecursionError` instead of a cycle
      error. */
  lemma {:induction false} TwoCycleExhaustsRecursion(depth: nat, limit: nat)
    ensures LengthAsWritten(map["a" := {"b"}, "b" := {"a"}], "a", depth, limit) == Err(RuntimeError(RecursionMessage))
    ensures LengthAsWritten(map["a" := {"b"}, "b" := {"a"}], "b", depth, limit) == Err(RuntimeError(RecursionMessage))
    decreases limit - depth
  {
    var dependents := map["a" := {"b"}, "b" := {"a"}];
    if depth < limit {
      TwoCycleExhaustsRecursion(depth + 1, limit);
      SortSetSingleton("a");
      SortSetSingleton("b");
      assert MaxLengthAsWritten(dependents, ["b"], depth + 1, limit) == Err(RuntimeError(RecursionMessage));
      assert MaxLengthAsWritten(dependents, ["a"], depth + 1, limit) == Err(RuntimeError(RecursionMessage));
    }
  }

  lemma SortSetSingleton(x: string)
    ensures SortSet({x}) == [x]
  {
    var r := SortSet({x});
    assert r[0] in {x};
  }

  /** With acyclic dependents and more stack than the height of the module, the
      recursion as written computes the critical-path length. */
  lemma {:induction false} LengthAsWrittenAgrees(dependents: Graph, rank: map<string, nat>, m: string, depth: nat, limit: nat)
    requires Falling(dependents, rank) && m in rank
    requires depth + rank[m] < limit
    ensures LengthAsWritten(dependents, m, depth, limit) == Ok(Length(dependents, rank, m))
    decreases rank[m], 1, 0
  {
    if m in dependents && dependents[m] != {} {
      var ks := SortSet(dependents[m]);
      MaxAsWrittenAgrees(dependents, rank, m, ks, depth + 1, limit);
      assert LengthAsWritten(dependents, m, depth, limit) == Ok(1 + MaxLength(dependents, rank, m, ks));
    }
  }

  lemma {:induction false} MaxAsWrittenAgrees(dependents: Graph, rank: map<string, nat>, m: string, ks: seq<string>,
                                              depth: nat, limit: nat)
    requires Falling(dependents, rank) && m in rank && m in dependents
    requires |ks| > 0 && forall k :: k in ks ==> k in dependents[m]
    requires depth + rank[m] <= limit
    ensures MaxLengthAsWritten(dependents, ks, depth, limit) == Ok(MaxLength(dependents, rank, m, ks))
    decreases rank[m], 0, |ks|
  {
    assert ks[0] in dependents[m];
    LengthAsWrittenAgrees(dependents, rank, ks[0], depth, limit);
    if |ks| > 1 {
      var tail := ks[1..];
      assert forall k :: k in tail ==> k in ks;
      MaxAsWrittenAgrees(dependents, rank, m, tail, depth, limit);
      var here := Length(dependents, rank, ks[0]);
      var rest := MaxLength(dependents, rank, m, tail);
      assert MaxLengthAsWritten(dependents, ks, depth, limit) == Ok(if here >= rest then here else rest);
    }
  }

  // ---------------------------------------------------------------------------
  // The ready heap.
  // ---------------------------------------------------------------------------

  /** `prio.get(m, 0)`. */
  function Prio(prio: map<string, int>, m: string): int {
    if m in prio then prio[m] else 0
  }

  /** The heap's order on entries `(-prio.get(m, 0), m)`: higher priority
      first, ties broken by the smaller name. */
  predicate HeapLe(prio: map<string, int>, a: string, b: string) {
    Prio(prio, a) > Prio(prio, b) || (Prio(prio, a) == Prio(prio, b) && LexLe(a, b))
  }

  /** The least entry of a name-sorted, non-empty list. */
  function Best(prio: map<string, int>, xs: seq<string>): (r: string)
    requires |xs| > 0 && StrictlySorted(xs)
    ensures r in xs
    ensures forall x :: x in xs ==> HeapLe(prio, r, x)
    decreases |xs|
  {
    if |xs| == 1 then
      LexLeRefl(xs[0]);
      xs[0]
    else
      var b := Best(prio, xs[1..]);
      assert b in xs;
      if Prio(prio, xs[0]) >= Prio(prio, b) then
        forall x | x in xs ensures HeapLe(prio, xs[0], x) {
          if x == xs[0] { LexLeRefl(x); }
          else {
            assert x in xs[1..];
            var j :| 0 <= j < |xs| && xs[j] == x;
            assert LexLt(xs[0], x);
          }
        }
        xs[0]
      else
        forall x | x in xs ensures HeapLe(prio, b, x) {
          if x != xs[0] { assert x in xs[1..]; }
        }
        b
  }

  /** `heapq.heappop(ready)`. */
  function PopNext(prio: map<string, int>, ready: set<string>): (r: string)
    requires ready != {}
    ensures r in ready
    ensures forall x :: x in ready ==> HeapLe(prio, r, x)
  {
    Best(prio, SortSet(ready))
  }

  /** Names are distinct, so the heap's least entry is unique: no other ready
      module has as high a priority and as small a name. */
  lemma PopNextUnique(prio: map<string, int>, ready: set<string>, y: string)
    requires ready != {} && y in ready
    requires forall x :: x in ready ==> HeapLe(prio, y, x)
    ensures y == PopNext(prio, ready)
  {
    var r := PopNext(prio, ready);
    assert HeapLe(prio, r, y) && HeapLe(prio, y, r);
    LexLeAntisym(r, y);
  }
}

=== FILE: progress.dfy ===
// The terminal progress bar shown while modules build (src/jaunt/progress.py).
//
// The bar is a value; every operation returns the next value. Everything the
// bar reads from the outside world is a parameter: the clock reading, the
// terminal width and whether the stream accepts the next write.
module Progress {
  import opened PyValues

  /**
   * What the outside world answers during one call: the clock reading in
   * seconds, the terminal width in columns and, for the n-th write ever made
   * to the stream, whether `write` and `flush` both succeed.
   */
  datatype Env = Env(now: real, columns: int, accepts: nat -> bool)

  /**
   * A progress bar. `output` is everything written to the stream so far, one
   * element per successful write.
   */
  datatype Bar = Bar(
    caption: string,
    total: int,
    enabled: bool,
    width: int,
    minInterval: real,
    done: int,
    ok: int,
    fail: int,
    lastRender: real,
    finished: bool,
    output: seq<string>)

  /** The counters agree: every finished item either succeeded or failed. */
  predicate Counted(b: Bar) {
    b.ok >= 0 && b.fail >= 0 && b.done == b.ok + b.fail
  }

  /** `b` and `r` differ at most in the stream state (`enabled`, `output`). */
  predicate SameExceptStream(b: Bar, r: Bar) {
    r.(enabled := b.enabled, output := b.output) == b
  }

  /** `b` and `r` differ at most in what rendering touches. */
  predicate SameExceptRendering(b: Bar, r: Bar) {
    r.(enabled := b.enabled, output := b.output, lastRender := b.lastRender) == b
  }

  /** The output only ever grows at the end. */
  predicate Extends(b: Bar, r: Bar) {
    |b.output| <= |r.output| && r.output[..|b.output|] == b.output
  }

  // ---------------------------------------------------------------------------
  // Clamping and the bar's fill
  // ---------------------------------------------------------------------------

  function Max(a: int, b: int): int { if a >= b then a else b }

  function Min(a: int, b: int): int { if a <= b then a else b }

  /** The total that is shown: a negative total is shown as 0. */
  function ShownTotal(total: int): (r: nat)
    ensures total >= 0 ==> r == total
    ensures total < 0 ==> r == 0
  {
    Max(0, total)
  }

  /**
   * The done count that is shown: clamped into [0, total] when there is a
   * positive total, and shown as it is otherwise.
   */
  function ShownDone(total: int, done: int): (r: int)
    ensures total > 0 ==> 0 <= r <= total
    ensures total > 0 && 0 <= done <= total ==> r == done
    ensures total > 0 && done < 0 ==> r == 0
    ensures total > 0 && done > total ==> r == total
    ensures total <= 0 ==> r == done
  {
    var t := ShownTotal(total);
    if t != 0 then Min(Max(0, done), t) else done
  }

  /**
   * x is the integer nearest to p / q, ties going to the even one, written
   * without division: twice the error of q * x against p is within q.
   */
  predicate Nearest(p: int, q: int, x: int) {
    -q <= 2 * (q * x - p) <= q
    && ((2 * (q * x - p) == q || 2 * (q * x - p) == -q) ==> x % 2 == 0)
  }

  /** Python's `round(p / q)`, with the quotient taken exactly. */
  function RoundHalfEven(p: int, q: int): (r: int)
    requires q > 0
    ensures Nearest(p, q, r)
  {
    var f := p / q;
    var rem := p % q;
    assert p == q * f + rem;
    if 2 * rem < q then f
    else if 2 * rem > q then f + 1
    else if f % 2 == 0 then f
    else f + 1
  }

  /** Multiplying by a non-negative factor keeps an order. */
  lemma MulMonotone(a: int, b: int, c: int)
    requires a >= 0 && b <= c
    ensures a * b <= a * c
  {
    assert a * c - a * b == a * (c - b);
  }

  /** Two nearest integers are the same one. */
  lemma NearestUnique(p: int, q: int, n: int, m: int)
    requires q > 0 && n <= m
    requires Nearest(p, q, n) && Nearest(p, q, m)
    ensures n == m
  {
    if n < m {
      MulMonotone(q, n + 1, m);
      assert q * (n + 1) == q * n + q;
      if m > n + 1 {
        MulMonotone(q, n + 2, m);
      }
    }
  }

  /** Rounding gives the one nearest integer, so it is characterised by it. */
  lemma RoundHalfEvenUnique(p: int, q: int, n: int)
    requires q > 0
    requires Nearest(p, q, n)
    ensures n == RoundHalfEven(p, q)
  {
    var r := RoundHalfEven(p, q);
    if n <= r {
      NearestUnique(p, q, n, r);
    } else {
      NearestUnique(p, q, r, n);
    }
  }

  /** How many of the bar's `width` cells are filled. */
  function Fill(width: int, total: int, done: int): (r: int)
    ensures width >= 0 ==> 0 <= r <= width
  {
    var t := ShownTotal(total);
    var d := ShownDone(total, done);
    var raw := if t != 0 then RoundHalfEven(width * d, t) else width;
    Min(Max(0, raw), width)
  }

  /**
   * With a positive total, the fill is the shown fraction of the width,
   * rounded to the nearest cell (ties to even).
   */
  lemma FillIsRoundedFraction(width: int, total: int, done: int)
    requires width >= 0 && total > 0 && 0 <= done <= total
    ensures -total <= 2 * (total * Fill(width, total, done) - width * done) <= total
  {
    MulMonotone(width, 0, done);
    MulMonotone(width, done, total);
    NearestInRange(width * done, total, width, RoundHalfEven(width * done, total));
  }

  /** A value between 0 and q * w rounds, after division by q, into [0, w]. */
  lemma NearestInRange(p: int, q: int, w: int, x: int)
    requires q > 0 && 0 <= p <= w * q
    requires Nearest(p, q, x)
    ensures 0 <= x <= w
  {
    if x < 0 {
      MulMonotone(q, x, -1);
    }
    if x > w {
      MulMonotone(q, w + 1, x);
    }
  }

  /** No work done shows an empty bar; all of it shows a full one. */
  lemma FillEnds(width: int, total: int)
    requires width >= 0 && total > 0
    ensures Fill(width, total, 0) == 0
    ensures Fill(width, total, total) == width
  {
    assert RoundHalfEven(width * total, total) == width by {
      RoundHalfEvenUnique(width * total, total, width);
    }
    assert RoundHalfEven(0, total) == 0 by {
      RoundHalfEvenUnique(0, total, 0);
    }
  }

  /** Without a positive total the bar is shown full. */
  lemma FillWithoutTotal(width: int, total: int, done: int)
    requires width >= 0 && total <= 0
    ensures Fill(width, total, done) == width
  {
  }

  /** `c * n`, empty for n <= 0. */
  function Repeat(c: char, n: int): (r: string)
    ensures |r| == Max(0, n)
    ensures forall i :: 0 <= i < |r| ==> r[i] == c
    decreases n
  {
    if n <= 0 then [] else [c] + Repeat(c, n - 1)
  }

  /** The bar itself: `fill` hashes followed by dashes up to `width`. */
  function BarText(width: int, fill: int): (r: string)
    requires 0 <= fill <= width
    ensures |r| == width
    ensures forall i :: 0 <= i < |r| ==> (r[i] == '#' <==> i < fill)
    ensures forall i :: 0 <= i < |r| ==> (r[i] == '-' <==> fill <= i)
  {
    Repeat('#', fill) + Repeat('-', width - fill)
  }

  /** The bar for any width: empty when the width is negative. */
  function BarFor(width: int, total: int, done: int): (r: string)
    ensures |r| == Max(0, width)
  {
    if width >= 0 then BarText(width, Fill(width, total, done)) else ""
  }

  // ---------------------------------------------------------------------------
  // Rendering and writing
  // ---------------------------------------------------------------------------

  /** `s[:n]` for a non-negative n. */
  function Truncate(s: string, n: int): (r: string)
    ensures |r| == Min(Max(0, n), |s|)
    ensures r == s[..|r|]
  {
    s[..Min(Max(0, n), |s|)]
  }

  /** The status line before it is cut to the terminal width. */
  function Line(b: Bar, item: string): string {
    var total := ShownTotal(b.total);
    var done := ShownDone(b.total, b.done);
    b.caption + " [" + BarFor(b.width, b.total, b.done) + "] "
      + IntToString(done) + "/" + IntToString(total)
      + " ok=" + IntToString(b.ok) + " fail=" + IntToString(b.fail)
      + (if item != "" then "  " + item else "")
  }

  /** The head of the status line: the caption and the bar between brackets. */
  lemma LineStartsWithBar(b: Bar, item: string)
    ensures var head := b.caption + " [" + BarFor(b.width, b.total, b.done) + "] ";
      |head| <= |Line(b, item)| && Line(b, item)[..|head|] == head
  {
  }

  /**
   * One write to the stream. A disabled bar writes nothing; a write the
   * stream rejects disables the bar for good and leaves nothing behind.
   */
  function Write(b: Bar, s: string, accepts: nat -> bool): (r: Bar)
    ensures SameExceptStream(b, r)
    ensures Extends(b, r) && |r.output| <= |b.output| + 1
    ensures r.enabled ==> b.enabled && r.output == b.output + [s]
    ensures !r.enabled ==> r.output == b.output
    ensures r.enabled <==> b.enabled && accepts(|b.output|)
  {
    if !b.enabled then b
    else if accepts(|b.output|) then b.(output := b.output + [s])
    else b.(enabled := false)
  }

  /** The status line actually written: carriage return, then the cut line. */
  function StatusText(b: Bar, item: string, columns: int): (r: string)
    ensures |r| >= 1 && r[0] == '\r'
    ensures |r| - 1 == Min(Max(0, columns - 1), |Line(b, item)|)
    ensures r[1..] == Line(b, item)[..|r| - 1]
  {
    "\r" + Truncate(Line(b, item), columns - 1)
  }

  /** A line that fits the terminal is written whole. */
  lemma StatusFits(b: Bar, item: string, columns: int)
    requires |Line(b, item)| < columns
    ensures StatusText(b, item, columns) == "\r" + Line(b, item)
  {
  }

  /** Whether a render at `now` happens: forced, or the interval has passed. */
  predicate Due(b: Bar, force: bool, now: real) {
    force || now - b.lastRender >= b.minInterval
  }

  /**
   * Redraw the status line. Nothing happens when the bar is disabled or when
   * the previous redraw was less than `minInterval` ago and this one is not
   * forced.
   */
  function Render(b: Bar, item: string, force: bool, env: Env): (r: Bar)
    ensures SameExceptRendering(b, r)
    ensures Extends(b, r) && |r.output| <= |b.output| + 1
    ensures r.enabled ==> b.enabled
    ensures !b.enabled || !Due(b, force, env.now) ==> r == b
    ensures b.enabled && Due(b, force, env.now) && env.accepts(|b.output|)
      ==> r.enabled && r.output == b.output + [StatusText(b, item, env.columns)]
    ensures b.enabled && Due(b, force, env.now) && !env.accepts(|b.output|)
      ==> !r.enabled && r.output == b.output
  {
    if !b.enabled then b
    else if !Due(b, force, env.now) then b
    else Write(b.(lastRender := env.now), StatusText(b, item, env.columns), env.accepts)
  }

  // ---------------------------------------------------------------------------
  // The public operations
  // ---------------------------------------------------------------------------

  /** A new bar: nothing done yet, and the empty status line drawn once. */
  function Init(caption: string, total: int, enabled: bool, width: int, minInterval: real, env: Env): (r: Bar)
    ensures r.caption == caption && r.total == total && r.width == width && r.minInterval == minInterval
    ensures r.done == 0 && r.ok == 0 && r.fail == 0 && !r.finished
    ensures Counted(r)
    ensures |r.output| <= 1
    ensures r.enabled ==> enabled
    ensures !enabled ==> r.output == []
  {
    Render(Bar(caption, total, enabled, width, minInterval, 0, 0, 0, 0.0, false, []), "", false, env)
  }

  /** A stream that rejects the first write disables a new bar at once. */
  lemma BrokenStreamDisables(caption: string, total: int, width: int, minInterval: real, env: Env)
    requires env.now >= minInterval
    requires !env.accepts(0)
    ensures !Init(caption, total, true, width, minInterval, env).enabled
    ensures Init(caption, total, true, width, minInterval, env).output == []
  {
  }

  /**
   * One item is finished. Before `finish` this counts it as a success or a
   * failure and redraws; afterwards it does nothing.
   */
  function Advance(b: Bar, item: string, ok: bool, env: Env): (r: Bar)
    ensures b.finished ==> r == b
    ensures !b.finished ==> r.done == b.done + 1
    ensures !b.finished && ok ==> r.ok == b.ok + 1 && r.fail == b.fail
    ensures !b.finished && !ok ==> r.fail == b.fail + 1 && r.ok == b.ok
    ensures r.finished == b.finished && r.total == b.total && r.caption == b.caption
    ensures Counted(b) ==> Counted(r)
    ensures Extends(b, r) && (r.enabled ==> b.enabled)
  {
    if b.finished then b
    else
      var counted := if ok then b.(done := b.done + 1, ok := b.ok + 1)
                     else b.(done := b.done + 1, fail := b.fail + 1);
      Render(counted, item, false, env)
  }

  /** The last status line, forced, then a newline; only the first call counts. */
  function Finish(b: Bar, env: Env): (r: Bar)
    ensures r.finished
    ensures b.finished ==> r == b
    ensures r.done == b.done && r.ok == b.ok && r.fail == b.fail
    ensures Counted(b) ==> Counted(r)
    ensures Extends(b, r) && |r.output| <= |b.output| + 2
    ensures r.enabled ==> b.enabled
    ensures !b.enabled ==> r.output == b.output
  {
    if b.finished then b
    else Write(Render(b.(finished := true), "done", true, env), "\n", env.accepts)
  }

  /**
   * When the stream takes both writes, finishing draws the final status line
   * regardless of the interval and then ends it with a newline.
   */
  lemma FinishEndsLine(b: Bar, env: Env)
    requires b.enabled && !b.finished
    requires env.accepts(|b.output|) && env.accepts(|b.output| + 1)
    ensures Finish(b, env).output
      == b.output + [StatusText(b.(finished := true), "done", env.columns), "\n"]
    ensures Finish(b, env).enabled
  {
  }

  /** Finishing twice is finishing once, whatever the second call sees. */
  lemma FinishIdempotent(b: Bar, e1: Env, e2: Env)
    ensures Finish(Finish(b, e1), e2) == Finish(b, e1)
  {
  }

  /** An advance inside the redraw interval counts the item but writes nothing. */
  lemma AdvanceThrottled(b: Bar, item: string, ok: bool, env: Env)
    requires !b.finished
    requires env.now - b.lastRender < b.minInterval
    ensures Advance(b, item, ok, env).output == b.output
    ensures Advance(b, item, ok, env).enabled == b.enabled
  {
  }

  // ---------------------------------------------------------------------------
  // Runs of operations
  // ---------------------------------------------------------------------------

  datatype Step = AdvanceStep(item: string, ok: bool, env: Env) | FinishStep(env: Env)

  function Apply(b: Bar, s: Step): Bar {
    match s
    case AdvanceStep(item, ok, env) => Advance(b, item, ok, env)
    case FinishStep(env) => Finish(b, env)
  }

  /** The bar after a sequence of calls. */
  function Run(b: Bar, steps: seq<Step>): Bar
    decreases |steps|
  {
    if |steps| == 0 then b else Run(Apply(b, steps[0]), steps[1..])
  }

  /** Items reported before the first `finish`, and how many of them succeeded. */
  function Advances(steps: seq<Step>): (r: nat)
    ensures r <= |steps|
  {
    if |steps| == 0 || steps[0].FinishStep? then 0 else 1 + Advances(steps[1..])
  }

  function Successes(steps: seq<Step>): (r: nat)
    ensures r <= Advances(steps)
  {
    if |steps| == 0 || steps[0].FinishStep? then 0
    else (if steps[0].ok then 1 else 0) + Successes(steps[1..])
  }

  /** Every run keeps the counters consistent and only appends to the output. */
  lemma {:induction false} RunCounted(b: Bar, steps: seq<Step>)
    requires Counted(b)
    ensures Counted(Run(b, steps))
    ensures Extends(b, Run(b, steps))
    ensures Run(b, steps).enabled ==> b.enabled
    decreases |steps|
  {
    if |steps| > 0 {
      var next := Apply(b, steps[0]);
      RunCounted(next, steps[1..]);
    }
  }

  /** Once finished, no further call changes anything. */
  lemma {:induction false} FinishedIsFinal(b: Bar, steps: seq<Step>)
    requires b.finished
    ensures Run(b, steps) == b
    decreases |steps|
  {
    if |steps| > 0 {
      assert Apply(b, steps[0]) == b;
      FinishedIsFinal(b, steps[1..]);
    }
  }

  /** A disabled bar never writes and never comes back. */
  lemma {:induction false} DisabledIsSilent(b: Bar, steps: seq<Step>)
    requires !b.enabled
    ensures Run(b, steps).output == b.output
    ensures !Run(b, steps).enabled
    decreases |steps|
  {
    if |steps| > 0 {
      var next := Apply(b, steps[0]);
      assert next.output == b.output && !next.enabled;
      DisabledIsSilent(next, steps[1..]);
    }
  }

  /**
   * The counters count exactly the items reported before the first `finish`:
   * `done` all of them, `ok` the successes and `fail` the rest.
   */
  lemma {:induction false} RunCounts(b: Bar, steps: seq<Step>)
    requires !b.finished
    ensures Run(b, steps).done == b.done + Advances(steps)
    ensures Run(b, steps).ok == b.ok + Successes(steps)
    ensures Run(b, steps).fail == b.fail + (Advances(steps) - Successes(steps))
    decreases |steps|
  {
    if |steps| > 0 {
      var next := Apply(b, steps[0]);
      if steps[0].FinishStep? {
        FinishedIsFinal(next, steps[1..]);
      } else {
        RunCounts(next, steps[1..]);
      }
    }
  }

  // ---------------------------------------------------------------------------
  // A worked run
  // ---------------------------------------------------------------------------

  /** The status line of a bar that has counted two successes and a failure out of three. */
  lemma ThreeItemLine(b: Bar)
    requires b.caption == "build" && b.total == 3 && b.width == 28
    requires b.done == 3 && b.ok == 2 && b.fail == 1
    ensures Line(b, "done") == "build [" + Repeat('#', 28) + "] 3/3 ok=2 fail=1  done"
  {
    var bar := BarFor(28, 3, 3);
    FullBar(28, 3);
    assert IntToString(3) == "3" && IntToString(2) == "2" && IntToString(1) == "1";
    assert Line(b, "done") == "build" + " [" + bar + "] " + "3" + "/" + "3"
      + " ok=" + "2" + " fail=" + "1" + ("  " + "done");
    LineLiteral(bar);
  }

  /** A bar whose items are all done is all hashes. */
  lemma FullBar(width: nat, total: int)
    requires total > 0
    ensures BarFor(width, total, total) == Repeat('#', width)
  {
    FillEnds(width, total);
    var r := BarFor(width, total, total);
    assert forall i :: 0 <= i < width ==> r[i] == '#';
  }

  lemma LineLiteral(x: string)
    ensures "build" + " [" + x + "] " + "3" + "/" + "3" + " ok=" + "2" + " fail=" + "1" + ("  " + "done")
      == "build [" + x + "] 3/3 ok=2 fail=1  done"
  {
  }

  /** That line fits an 80-column terminal, so it is written whole. */
  lemma ThreeItemStatus(b: Bar)
    requires b.caption == "build" && b.total == 3 && b.width == 28
    requires b.done == 3 && b.ok == 2 && b.fail == 1
    ensures StatusText(b, "done", 80) == "\rbuild [" + Repeat('#', 28) + "] 3/3 ok=2 fail=1  done"
  {
    ThreeItemLine(b);
    StatusFits(b, "done", 80);
    StatusLiteral(Repeat('#', 28));
  }

  lemma StatusLiteral(x: string)
    ensures "\r" + ("build [" + x + "] 3/3 ok=2 fail=1  done") == "\rbuild [" + x + "] 3/3 ok=2 fail=1  done"
  {
  }

  /** A new bar on a stream that takes the first write draws one line. */
  lemma InitWrites(caption: string, total: int, width: int, minInterval: real, env: Env)
    requires env.now >= minInterval && env.accepts(0)
    ensures var r := Init(caption, total, true, width, minInterval, env);
      r.enabled && |r.output| == 1 && r.lastRender == env.now
  {
  }

  /** An advance on an enabled bar with no redraw interval writes one line. */
  lemma AdvanceWrites(b: Bar, item: string, ok: bool, env: Env)
    requires b.enabled && !b.finished && b.minInterval == 0.0 && b.lastRender <= env.now
    requires env.accepts(|b.output|)
    ensures var r := Advance(b, item, ok, env);
      r.enabled && |r.output| == |b.output| + 1 && r.lastRender == env.now
      && SameExceptRendering(Advance(b, item, ok, env).(done := b.done, ok := b.ok, fail := b.fail), b)
  {
  }

  /** One step of a run. */
  lemma RunStep(b: Bar, steps: seq<Step>)
    requires |steps| > 0
    ensures Run(b, steps) == Run(Apply(b, steps[0]), steps[1..])
  {
  }

  /**
   * Three items reported to a fresh, drawn bar of three, the second failing,
   * then `finish`: the last two writes are the final status line and the
   * newline.
   */
  lemma ThreeItemsCounted(b: Bar, env: Env, steps: seq<Step>)
    requires b.enabled && !b.finished && b.minInterval == 0.0 && b.lastRender <= env.now
    requires b.caption == "build" && b.total == 3 && b.width == 28
    requires b.done == 0 && b.ok == 0 && b.fail == 0
    requires env.columns == 80
    requires forall n: nat :: env.accepts(n)
    requires steps == [AdvanceStep("mod_a", true, env), AdvanceStep("mod_b", false, env),
                       AdvanceStep("mod_c", true, env), FinishStep(env)]
    ensures var r := Run(b, steps);
      |r.output| == |b.output| + 5
      && r.output[|b.output| + 3] == "\rbuild [" + Repeat('#', 28) + "] 3/3 ok=2 fail=1  done"
      && r.output[|b.output| + 4] == "\n"
  {
    var b1 := Advance(b, "mod_a", true, env);
    AdvanceWrites(b, "mod_a", true, env);
    RunStep(b, steps);
    var b2 := Advance(b1, "mod_b", false, env);
    AdvanceWrites(b1, "mod_b", false, env);
    RunStep(b1, steps[1..]);
    var b3 := Advance(b2, "mod_c", true, env);
    AdvanceWrites(b2, "mod_c", true, env);
    RunStep(b2, steps[2..]);
    var b4 := Finish(b3, env);
    RunStep(b3, steps[3..]);
    assert Run(b4, steps[4..]) == b4;
    FinishEndsLine(b3, env);
    ThreeItemStatus(b3.(finished := true));
  }

  /**
   * Three modules, the second failing, on a stream that takes every write:
   * the final status line reads `3/3 ok=2 fail=1` over a full bar and the
   * output ends with a newline.
   */
  lemma ThreeItemRun(env: Env, steps: seq<Step>)
    requires env.now == 1.0 && env.columns == 80
    requires forall n: nat :: env.accepts(n)
    requires steps == [AdvanceStep("mod_a", true, env), AdvanceStep("mod_b", false, env),
                       AdvanceStep("mod_c", true, env), FinishStep(env)]
    ensures |Run(Init("build", 3, true, 28, 0.0, env), steps).output| == 6
    ensures Run(Init("build", 3, true, 28, 0.0, env), steps).output[4]
      == "\rbuild [" + Repeat('#', 28) + "] 3/3 ok=2 fail=1  done"
    ensures Run(Init("build", 3, true, 28, 0.0, env), steps).output[5] == "\n"
  {
    var b0 := Init("build", 3, true, 28, 0.0, env);
    InitWrites("build", 3, 28, 0.0, env);
    ThreeItemsCounted(b0, env, steps);
  }
}

=== FILE: pyvalues.dfy ===
/** The Python objects that flow through decorator keyword arguments,
    dependency lists and configuration values, with `str()` and `repr()`. */
module PyValues {

  import opened Wrappers

  /** One Python object. A `SetV` is a set or frozenset in its iteration
      order; an `ObjV` is any other object (a decorated function or class):
      its `__module__` and `__qualname__` when present, its
      `__jaunt_spec_ref__` attribute (`NoneV` when absent), and its `repr`. */
  datatype Value =
    | NoneV
    | BoolV(b: bool)
    | IntV(i: int)
    | FloatV(text: string)
    | StrV(s: string)
    | ListV(items: seq<Value>)
    | TupleV(items: seq<Value>)
    | SetV(items: seq<Value>)
    | DictV(entries: seq<(Value, Value)>)
    | ObjV(modAttr: Option<string>, qualAttr: Option<string>, override: Value, repr: string)
  {
    /** `isinstance(v, (list, tuple, set, frozenset))`. */
    predicate IsCollection() {
      ListV? || TupleV? || SetV?
    }
  }

  function DigitChar(d: nat): (c: char)
    requires d < 10
    ensures '0' <= c <= '9'
  {
    ['0', '1', '2', '3', '4', '5', '6', '7', '8', '9'][d]
  }

  /** Decimal digits of a natural number, most significant first. */
  function NatToString(n: nat): (r: string)
    ensures |r| > 0
    ensures forall i :: 0 <= i < |r| ==> '0' <= r[i] <= '9'
  {
    if n < 10 then [DigitChar(n)] else NatToString(n / 10) + [DigitChar(n % 10)]
  }

  function IntToString(i: int): string {
    if i < 0 then "-" + NatToString(-i) else NatToString(i)
  }

  /** `str(v)`: a string is itself, everything else is its `repr`. */
  function Str(v: Value): string {
    if v.StrV? then v.s else Repr(v)
  }

  // ---------------------------------------------------------------------------
  // `repr` of a string: the quote Python picks and the escapes it writes.
  // ---------------------------------------------------------------------------

  /** The quote `repr` puts around a string: a double quote when the text
      holds a single quote and no double quote, a single quote otherwise. */
  function QuoteOf(s: string): (q: char)
    ensures q == '"' || q == '\''
    ensures q == '"' <==> '\'' in s && '"' !in s
  {
    if '\'' in s && '"' !in s then '"' else '\''
  }

  function HexDigit(d: nat): (c: char)
    requires d < 16
    ensures IsHexDigit(c)
  {
    "0123456789abcdef"[d]
  }

  predicate IsHexDigit(c: char) {
    '0' <= c <= '9' || 'a' <= c <= 'f'
  }

  function HexValue(c: char): (d: nat)
    requires IsHexDigit(c)
    ensures d < 16
  {
    if c <= '9' then c as int - '0' as int else c as int - 'a' as int + 10
  }

  lemma HexDigitValue(d: nat)
    requires d < 16
    ensures IsHexDigit(HexDigit(d)) && HexValue(HexDigit(d)) == d
  {
  }

  /** The characters `repr` writes as `\xhh`: the ASCII control characters
      other than tab, newline and carriage return, DEL, the Latin-1 controls,
      the no-break space and the soft hyphen. */
  predicate HexEscaped(c: char) {
    c as int < 0x20 || 0x7f <= c as int <= 0xa0 || c as int == 0xad
  }

  /** How `repr` writes one character inside quotes `q`. */
  function EscapeChar(c: char, q: char): (r: string)
    ensures 1 <= |r| <= 4
  {
    if c == q || c == '\\' then ['\\', c]
    else if c == '\t' then "\\t"
    else if c == '\n' then "\\n"
    else if c == '\r' then "\\r"
    else if HexEscaped(c) then ['\\', 'x', HexDigit(c as int / 16), HexDigit(c as int % 16)]
    else [c]
  }

  /** The text between the quotes of `repr(s)`. */
  function Escape(s: string, q: char): string
    decreases |s|
  {
    if |s| == 0 then [] else EscapeChar(s[0], q) + Escape(s[1..], q)
  }

  function Cons(c: char, rest: Option<string>): Option<string> {
    if rest.Some? then Some([c] + rest.value) else None
  }

  /** Reading the escapes of a string literal back, as Python's parser does
      for the escapes `repr` writes: `\t`, `\n`, `\r`, `\xhh`, and a
      backslash before any other character standing for that character. */
  function Unescape(t: string): Option<string>
    decreases |t|
  {
    if |t| == 0 then Some([])
    else if t[0] != '\\' then Cons(t[0], Unescape(t[1..]))
    else if |t| < 2 then None
    else if t[1] == 't' then Cons('\t', Unescape(t[2..]))
    else if t[1] == 'n' then Cons('\n', Unescape(t[2..]))
    else if t[1] == 'r' then Cons('\r', Unescape(t[2..]))
    else if t[1] == 'x' then
      if |t| < 4 || !IsHexDigit(t[2]) || !IsHexDigit(t[3]) then None
      else Cons((HexValue(t[2]) * 16 + HexValue(t[3])) as char, Unescape(t[4..]))
    else Cons(t[1], Unescape(t[2..]))
  }

  lemma EscapeCharRead(c: char, q: char, rest: string)
    requires q == '"' || q == '\''
    ensures Unescape(EscapeChar(c, q) + rest) == Cons(c, Unescape(rest))
  {
    var t := EscapeChar(c, q) + rest;
    if c == q || c == '\\' {
      assert t[2..] == rest;
    } else if c == '\t' || c == '\n' || c == '\r' {
      assert t[2..] == rest;
    } else if HexEscaped(c) {
      HexDigitValue(c as int / 16);
      HexDigitValue(c as int % 16);
      assert t[4..] == rest;
    } else {
      assert t[1..] == rest;
    }
  }

  /** Reading the escapes back recovers the text. */
  lemma {:induction false} UnescapeEscape(s: string, q: char)
    requires q == '"' || q == '\''
    ensures Unescape(Escape(s, q)) == Some(s)
    decreases |s|
  {
    if |s| > 0 {
      UnescapeEscape(s[1..], q);
      EscapeCharRead(s[0], q, Escape(s[1..], q));
      assert [s[0]] + s[1..] == s;
    }
  }

  /** No character `repr` writes for `c` is a line break, and a quote `q`
      among them follows a backslash. */
  predicate OneLine(e: string, q: char) {
    forall k :: 0 <= k < |e| ==> e[k] != '\n' && e[k] != '\r' && (e[k] == q ==> 0 < k && e[k - 1] == '\\')
  }

  lemma EscapeCharOneLine(c: char, q: char)
    requires q == '"' || q == '\''
    ensures OneLine(EscapeChar(c, q), q)
  {
  }

  lemma ConcatOneLine(a: string, b: string, q: char)
    requires OneLine(a, q) && OneLine(b, q)
    ensures OneLine(a + b, q)
  {
    var t := a + b;
    forall k | 0 <= k < |t|
      ensures t[k] != '\n' && t[k] != '\r' && (t[k] == q ==> 0 < k && t[k - 1] == '\\')
    {
      if k >= |a| {
        var j := k - |a|;
        assert t[k] == b[j];
        assert b[j] != '\n' && b[j] != '\r' && (b[j] == q ==> 0 < j && b[j - 1] == '\\');
        if j > 0 {
          assert t[k - 1] == b[j - 1];
        }
      } else {
        assert t[k] == a[k];
        assert a[k] != '\n' && a[k] != '\r' && (a[k] == q ==> 0 < k && a[k - 1] == '\\');
        if k > 0 {
          assert t[k - 1] == a[k - 1];
        }
      }
    }
  }

  /** Inside its quotes no character of `repr(s)` is a line break, and every
      quote `q` is preceded by a backslash. */
  lemma {:induction false} EscapeOneLine(s: string, q: char)
    requires q == '"' || q == '\''
    ensures OneLine(Escape(s, q), q)
    decreases |s|
  {
    if |s| > 0 {
      EscapeOneLine(s[1..], q);
      EscapeCharOneLine(s[0], q);
      ConcatOneLine(EscapeChar(s[0], q), Escape(s[1..], q), q);
    }
  }

  /** `repr(s)`: the text between the quote Python picks, with its escapes. */
  function StrRepr(s: string): (r: string)
    ensures |r| >= 2 && r[0] == r[|r| - 1] == QuoteOf(s)
    ensures Unescape(r[1..|r| - 1]) == Some(s)
  {
    var q := QuoteOf(s);
    var r := [q] + Escape(s, q) + [q];
    assert r[1..|r| - 1] == Escape(s, q);
    UnescapeEscape(s, q);
    r
  }

  /** Text without a backslash, quote or escaped character is written as it
      is between the quotes. */
  lemma {:induction false} EscapePlain(s: string, q: char)
    requires q == '"' || q == '\''
    requires forall i :: 0 <= i < |s| ==> s[i] != q && s[i] != '\\' && s[i] != '\t' && s[i] != '\n' && s[i] != '\r' && !HexEscaped(s[i])
    ensures Escape(s, q) == s
    decreases |s|
  {
    if |s| > 0 {
      EscapePlain(s[1..], q);
      assert [s[0]] + s[1..] == s;
    }
  }

  /** `repr(v)`. Strings are written as `StrRepr` writes them. */
  function Repr(v: Value): string
    decreases v
  {
    match v
    case NoneV => "None"
    case BoolV(b) => if b then "True" else "False"
    case IntV(i) => IntToString(i)
    case FloatV(t) => t
    case StrV(s) => StrRepr(s)
    case ListV(items) => "[" + ReprItems(items) + "]"
    case TupleV(items) => if |items| == 1 then "(" + Repr(items[0]) + ",)" else "(" + ReprItems(items) + ")"
    case SetV(items) => if |items| == 0 then "set()" else "{" + ReprItems(items) + "}"
    case DictV(entries) => "{" + ReprEntries(entries) + "}"
    case ObjV(_, _, _, r) => r
  }

  function ReprItems(items: seq<Value>): string
    decreases items
  {
    if |items| == 0 then ""
    else if |items| == 1 then Repr(items[0])
    else Repr(items[0]) + ", " + ReprItems(items[1..])
  }

  function ReprEntries(entries: seq<(Value, Value)>): string
    decreases entries
  {
    if |entries| == 0 then ""
    else
      var (k, x) := entries[0];
      assert k < entries[0] && x < entries[0];
      var e := Repr(k) + ": " + Repr(x);
      if |entries| == 1 then e else e + ", " + ReprEntries(entries[1..])
  }

  /** Python truthiness, `bool(v)`. */
  predicate Truthy(v: Value) {
    match v
    case NoneV => false
    case BoolV(b) => b
    case IntV(i) => i != 0
    case FloatV(t) => t != "0.0" && t != "-0.0"
    case StrV(s) => s != ""
    case ListV(items) => items != []
    case TupleV(items) => items != []
    case SetV(items) => items != []
    case DictV(entries) => entries != []
    case ObjV(_, _, _, _) => true
  }
}

=== FILE: registry.dfy ===
/** The magic and test spec registries and their per-module grouping
    (jaunt/registry.py). */
module Registry {
  import opened Strings
  import opened Sorting
  import opened PyValues

  datatype Kind = Magic | Test

  /** One registered spec. `kwargs` are the decorator's keyword arguments. */
  datatype SpecEntry = SpecEntry(
    kind: Kind,
    specRef: string,
    moduleName: string,
    qualname: string,
    sourceFile: string,
    kwargs: map<string, Value>)

  /** Both global registries, keyed by spec ref. */
  datatype Registries = Registries(magic: map<string, SpecEntry>, test: map<string, SpecEntry>)

  /** Every entry is filed under its own spec ref. */
  ghost predicate KeyedByRef(reg: map<string, SpecEntry>) {
    forall k :: k in reg ==> reg[k].specRef == k
  }

  ghost predicate Valid(rs: Registries) {
    KeyedByRef(rs.magic) && KeyedByRef(rs.test)
  }

  const Empty: Registries := Registries(map[], map[])

  function Registry(rs: Registries, kind: Kind): map<string, SpecEntry> {
    if kind == Magic then rs.magic else rs.test
  }

  /** `register_magic` / `register_test`: last write wins, and only the
      registry of `kind` changes. */
  function Register(rs: Registries, kind: Kind, e: SpecEntry): (r: Registries)
    ensures Registry(r, kind).Keys == Registry(rs, kind).Keys + {e.specRef}
    ensures Registry(r, kind)[e.specRef] == e
    ensures forall k :: k in Registry(rs, kind) && k != e.specRef ==> Registry(r, kind)[k] == Registry(rs, kind)[k]
    ensures kind == Magic ==> r.test == rs.test
    ensures kind == Test ==> r.magic == rs.magic
    ensures Valid(rs) ==> Valid(r)
  {
    if kind == Magic then rs.(magic := rs.magic[e.specRef := e])
    else rs.(test := rs.test[e.specRef := e])
  }

  /** A later registration of the same spec ref replaces the earlier one. */
  lemma LastWriteWins(rs: Registries, kind: Kind, e1: SpecEntry, e2: SpecEntry)
    requires e1.specRef == e2.specRef
    ensures Register(Register(rs, kind, e1), kind, e2) == Register(rs, kind, e2)
  {
  }

  /** `clear_registries`. */
  function Clear(rs: Registries): (r: Registries)
    ensures r.magic == map[] && r.test == map[]
  {
    Empty
  }

  /** Order within a module's group: by qualname, then by spec ref. */
  predicate EntryLe(a: SpecEntry, b: SpecEntry) {
    LexLt(a.qualname, b.qualname) || (a.qualname == b.qualname && LexLe(a.specRef, b.specRef))
  }

  lemma EntryLeTotalPreorder()
    ensures TotalPreorder(EntryLe)
  {
    LexLeIsTotalOrder();
  }

  /** The spec refs of `reg` whose entry belongs to module `m`. */
  function RefsOf(reg: map<string, SpecEntry>, m: string): set<string> {
    set k | k in reg && reg[k].moduleName == m
  }

  function ModulesOf(reg: map<string, SpecEntry>): set<string> {
    set k | k in reg :: reg[k].moduleName
  }

  /** One module's entries, in spec-ref order. */
  function Members(reg: map<string, SpecEntry>, m: string): (es: seq<SpecEntry>)
    ensures |es| == |RefsOf(reg, m)|
    ensures forall e :: e in es <==> exists k :: k in reg && reg[k] == e && e.moduleName == m
  {
    var refs := SortSet(RefsOf(reg, m));
    assert forall i :: 0 <= i < |refs| ==> refs[i] in RefsOf(reg, m);
    var es := seq(|refs|, i requires 0 <= i < |refs| => reg[refs[i]]);
    forall e | e in es ensures exists k :: k in reg && reg[k] == e && e.moduleName == m {
      var i :| 0 <= i < |es| && es[i] == e;
      assert refs[i] in RefsOf(reg, m);
    }
    forall e | (exists k :: k in reg && reg[k] == e && e.moduleName == m) ensures e in es {
      var k :| k in reg && reg[k] == e && e.moduleName == m;
      assert k in RefsOf(reg, m);
      var i :| 0 <= i < |refs| && refs[i] == k;
      assert es[i] == e;
    }
    es
  }

  /** One module's entries, ordered by (qualname, spec ref). */
  function Group(reg: map<string, SpecEntry>, m: string): (g: seq<SpecEntry>)
    ensures SortedBy(g, EntryLe)
    ensures |g| == |RefsOf(reg, m)|
    ensures forall e :: e in g <==> exists k :: k in reg && reg[k] == e && e.moduleName == m
  {
    var es := Members(reg, m);
    EntryLeTotalPreorder();
    var g := SortBy(es, EntryLe);
    forall e ensures e in g <==> e in es {
      assert e in g <==> e in multiset(g);
      assert e in es <==> e in multiset(es);
    }
    g
  }

  lemma GroupNonEmpty(reg: map<string, SpecEntry>, m: string)
    requires m in ModulesOf(reg)
    ensures |Group(reg, m)| > 0
  {
    var k :| k in reg && reg[k].moduleName == m;
    assert k in RefsOf(reg, m);
  }

  /** `get_specs_by_module(kind)`: one non-empty, ordered group per module
      that has an entry, holding exactly that module's entries. */
  function SpecsByModule(rs: Registries, kind: Kind): (r: map<string, seq<SpecEntry>>)
    ensures r.Keys == ModulesOf(Registry(rs, kind))
    ensures forall m :: m in r ==> |r[m]| > 0 && SortedBy(r[m], EntryLe)
    ensures forall m, e :: m in r && e in r[m] ==> e.moduleName == m
    ensures forall m, k :: m in r && k in Registry(rs, kind) && Registry(rs, kind)[k].moduleName == m ==> Registry(rs, kind)[k] in r[m]
    ensures forall m, e :: m in r && e in r[m] ==> exists k :: k in Registry(rs, kind) && Registry(rs, kind)[k] == e
  {
    var reg := Registry(rs, kind);
    forall m | m in ModulesOf(reg) ensures |Group(reg, m)| > 0 {
      GroupNonEmpty(reg, m);
    }
    map m | m in ModulesOf(reg) :: Group(reg, m)
  }

  /** Each registered entry lands in exactly one group: its own module's. */
  lemma EntryInExactlyOneGroup(rs: Registries, kind: Kind, k: string)
    requires k in Registry(rs, kind)
    ensures var r := SpecsByModule(rs, kind);
      var e := Registry(rs, kind)[k];
      e.moduleName in r && e in r[e.moduleName] && forall m :: m in r && m != e.moduleName ==> e !in r[m]
  {
  }
}

=== FILE: retry.dfy ===
/** The generation retry loop shared by every backend
    (jaunt/generate/base.py). The backend's `generate_module` is a parameter
    `gen(attempt, extra)`: the source it returns for the given 0-based
    attempt and extra error context. */
module Retry {
  import opened Wrappers

  datatype GenerationResult = GenerationResult(attempts: nat, source: Option<string>, errors: seq<string>)

  /** The retry context line for one validation error. */
  function RetryLine(e: string): string {
    "previous output errors: " + e
  }

  function RetryLines(errs: seq<string>): (r: seq<string>)
    ensures |r| == |errs|
    ensures forall i :: 0 <= i < |errs| ==> r[i] == RetryLine(errs[i])
  {
    seq(|errs|, i requires 0 <= i < |errs| => RetryLine(errs[i]))
  }

  /** The extra context the attempt after `outputs` receives: nothing for
      the first attempt, then the retry lines of every earlier attempt's
      errors, oldest first. */
  function ContextAfter(outputs: seq<string>, validate: string -> seq<string>): (r: Option<seq<string>>)
    ensures |outputs| == 0 <==> r.None?
    decreases |outputs|
  {
    if |outputs| == 0 then None
    else
      var before := ContextAfter(outputs[..|outputs| - 1], validate);
      Some(before.GetOr([]) + RetryLines(validate(outputs[|outputs| - 1])))
  }

  /** The extra context of every call, given what the calls returned. */
  function CallsFor(outputs: seq<string>, validate: string -> seq<string>): (calls: seq<Option<seq<string>>>)
    ensures |calls| == |outputs|
    ensures forall k :: 0 <= k < |outputs| ==> calls[k] == ContextAfter(outputs[..k], validate)
  {
    seq(|outputs|, k requires 0 <= k < |outputs| => ContextAfter(outputs[..k], validate))
  }

  /** Each output is what the backend returned for its attempt and the
      context built from the outputs before it. */
  ghost predicate Replayed(gen: (nat, Option<seq<string>>) -> string, validate: string -> seq<string>,
                           outputs: seq<string>) {
    forall k :: 0 <= k < |outputs| ==> outputs[k] == gen(k, ContextAfter(outputs[..k], validate))
  }

  /** `generate_with_retry(ctx, max_attempts=...)`. `calls` records the extra
      context passed to each backend call, and `outputs` what each returned. */
  method GenerateWithRetry(gen: (nat, Option<seq<string>>) -> string, validate: string -> seq<string>,
                           maxAttempts: int)
    returns (r: GenerationResult, calls: seq<Option<seq<string>>>, outputs: seq<string>)
    ensures r.attempts == |calls| == |outputs|
    ensures maxAttempts <= 0 ==> r == GenerationResult(0, None, [])
    ensures r.attempts <= if maxAttempts <= 0 then 0 else maxAttempts
    ensures forall k :: 0 <= k < |calls| ==> calls[k] == ContextAfter(outputs[..k], validate)
    ensures forall k :: 0 <= k < |outputs| ==> outputs[k] == gen(k, calls[k])
    ensures forall k :: 0 <= k < |outputs| - 1 ==> validate(outputs[k]) != []
    ensures r.attempts > 0 ==> r.source == Some(outputs[|outputs| - 1]) && r.errors == validate(outputs[|outputs| - 1])
    ensures r.attempts > 0 && r.errors != [] ==> r.attempts == maxAttempts
  {
    var attempts, lastSource, lastErrors;
    attempts, lastSource, lastErrors, outputs := Attempts(gen, validate, maxAttempts);
    r := GenerationResult(attempts, lastSource, lastErrors);
    calls := CallsFor(outputs, validate);
    ReplayedCalls(gen, validate, outputs, calls);
  }

  /** The loop of `generate_with_retry`: the attempts made, the last source
      and its errors, and every source the backend returned. */
  method Attempts(gen: (nat, Option<seq<string>>) -> string, validate: string -> seq<string>,
                  maxAttempts: int)
    returns (attempts: nat, lastSource: Option<string>, lastErrors: seq<string>, outputs: seq<string>)
    ensures attempts == |outputs| && Replayed(gen, validate, outputs)
    ensures attempts <= if maxAttempts <= 0 then 0 else maxAttempts
    ensures attempts == 0 ==> lastSource.None? && lastErrors == []
    ensures attempts > 0 ==> lastSource == Some(outputs[attempts - 1]) && lastErrors == validate(outputs[attempts - 1])
    ensures forall k :: 0 <= k < attempts - 1 ==> validate(outputs[k]) != []
    ensures attempts > 0 && lastErrors != [] ==> attempts == maxAttempts
  {
    attempts := 0;
    lastSource := None;
    lastErrors := [];
    var extra: Option<seq<string>> := None;
    outputs := [];
    while attempts < maxAttempts
      invariant attempts == |outputs|
      invariant attempts <= if maxAttempts <= 0 then 0 else maxAttempts
      invariant extra == ContextAfter(outputs, validate)
      invariant Replayed(gen, validate, outputs)
      invariant forall k :: 0 <= k < |outputs| ==> validate(outputs[k]) != []
      invariant attempts == 0 ==> lastSource.None? && lastErrors == []
      invariant attempts > 0 ==> lastSource == Some(outputs[attempts - 1]) && lastErrors == validate(outputs[attempts - 1])
      decreases maxAttempts - attempts
    {
      attempts := attempts + 1;
      var src := gen(|outputs|, extra);
      ReplayedExtend(gen, validate, outputs, src);
      ContextStep(outputs, src, validate);
      outputs := outputs + [src];
      lastSource := Some(src);
      lastErrors := validate(src);
      if lastErrors == [] {
        return;
      }
      if attempts >= maxAttempts {
        break;
      }
      extra := Some(extra.GetOr([]) + RetryLines(lastErrors));
    }
  }

  /** The calls recorded for replayed outputs are the ones that produced them. */
  lemma ReplayedCalls(gen: (nat, Option<seq<string>>) -> string, validate: string -> seq<string>,
                      outputs: seq<string>, calls: seq<Option<seq<string>>>)
    requires Replayed(gen, validate, outputs) && calls == CallsFor(outputs, validate)
    ensures forall k :: 0 <= k < |outputs| ==> outputs[k] == gen(k, calls[k])
  {
  }

  lemma ContextStep(outputs: seq<string>, src: string, validate: string -> seq<string>)
    ensures ContextAfter(outputs + [src], validate)
         == Some(ContextAfter(outputs, validate).GetOr([]) + RetryLines(validate(src)))
  {
    assert (outputs + [src])[..|outputs|] == outputs;
  }

  lemma ReplayedExtend(gen: (nat, Option<seq<string>>) -> string, validate: string -> seq<string>,
                       outputs: seq<string>, src: string)
    requires Replayed(gen, validate, outputs)
    requires src == gen(|outputs|, ContextAfter(outputs, validate))
    ensures Replayed(gen, validate, outputs + [src])
  {
    var o := outputs + [src];
    forall k | 0 <= k < |o| ensures o[k] == gen(k, ContextAfter(o[..k], validate)) {
      assert o[..k] == outputs[..k] || k == |outputs|;
      if k == |outputs| { assert o[..k] == outputs; }
    }
  }

  /** The default backend capability: no provider-native structured output
      unless a backend says otherwise. */
  function SupportsStructuredOutput(declared: Option<bool>): (r: bool)
    ensures declared.None? ==> !r
    ensures declared.Some? ==> r == declared.value
  {
    declared.GetOr(false)
  }
}

=== FILE: scheduler.dfy ===
/** The scheduling loop shared by `run_build` (jaunt/builder.py) and
    `run_test_generation` (jaunt/tester.py), as a sequential state machine.
    Starting a task is a `Dispatched` event; which in-flight tasks
    `asyncio.wait(..., FIRST_COMPLETED)` hands back is chosen
    nondeterministically; a task's outcome comes from `work`, which also
    threads the state the jobs share (the generated-source cache and the
    disk). */
module Scheduler {
  import opened Wrappers
  import PyValues
  import opened Strings
  import opened Graphs
  import opened Planning

  /** What the loop does that can be observed from outside: creating a task
      (with the number of tasks then in flight, and the modules left waiting
      on the heap) and each `progress.advance(module, ok=...)` call. */
  datatype Event = Dispatched(name: string, running: nat, waiting: set<string>) | Advanced(name: string, ok: bool)

  /** What a finished task returns: `(ok, errors)` and, for tests, the path
      of the written file. */
  datatype TaskResult = TaskResult(ok: bool, errors: seq<string>, out: Option<seq<string>>)

  datatype State<W> = State(
    indeg: map<string, int>,
    ready: set<string>,
    inFlight: set<string>,
    completed: set<string>,
    generated: set<string>,
    failed: map<string, seq<string>>,
    files: seq<seq<string>>,
    world: W,
    events: seq<Event>)

  // ---------------------------------------------------------------------------
  // Messages.
  // ---------------------------------------------------------------------------

  function DependencyFailed(d: string): string {
    "Dependency failed: " + d
  }

  /** One "Dependency failed" line per failed dependency. Python lists them
      in the set's iteration order; the model takes `str` order. */
  function DependencyFailures(bad: set<string>): (r: seq<string>)
    ensures |r| == |bad|
    ensures forall i :: 0 <= i < |r| ==> r[i] == DependencyFailed(SortSet(bad)[i])
  {
    var ds := SortSet(bad);
    seq(|ds|, i requires 0 <= i < |ds| => DependencyFailed(ds[i]))
  }

  /** Every failed dependency is named, and every line names one. */
  lemma DependencyFailuresNameExactly(bad: set<string>, d: string)
    ensures DependencyFailed(d) in DependencyFailures(bad) <==> d in bad
  {
    var r := DependencyFailures(bad);
    var ds := SortSet(bad);
    if DependencyFailed(d) in r {
      var i :| 0 <= i < |r| && r[i] == DependencyFailed(d);
      assert d == DependencyFailed(d)[|"Dependency failed: "|..];
      assert ds[i] == DependencyFailed(ds[i])[|"Dependency failed: "|..];
      assert ds[i] in bad;
    }
    if d in bad {
      var i :| 0 <= i < |ds| && ds[i] == d;
      assert r[i] == DependencyFailed(d);
    }
  }

  /** The class name Python shows for each error. */
  function ClassName(e: Error): string {
    match e
    case ValueError(_) => "ValueError"
    case TypeError(_) => "TypeError"
    case KeyError(_) => "KeyError"
    case ConfigError(_) => "JauntConfigError"
    case DiscoveryError(_) => "JauntDiscoveryError"
    case CycleError(_) => "JauntDependencyCycleError"
    case GenerationError(_) => "JauntGenerationError"
    case RuntimeError(_) => "RuntimeError"
    case AttributeError(_) => "AttributeError"
  }

  /** The single argument the error was raised with. */
  function Argument(e: Error): string {
    if e.KeyError? then e.key else e.msg
  }

  /** `r` is a call `c(...)` whose one argument is a string literal that reads
      back as `arg`, in the quotes `repr` picks for `arg`. */
  predicate CallRepr(r: string, c: string, arg: string) {
    var n := |c|;
    && |r| >= n + 4
    && r[..n + 1] == c + "(" && r[|r| - 1] == ')'
    && r[n + 1] == r[|r| - 2] == PyValues.QuoteOf(arg)
    && PyValues.Unescape(r[n + 2..|r| - 2]) == Some(arg)
  }

  lemma Parenthesised(c: string, arg: string)
    ensures CallRepr(c + "(" + PyValues.StrRepr(arg) + ")", c, arg)
  {
    var q := PyValues.StrRepr(arg);
    var r := c + "(" + q + ")";
    assert r[|c| + 2..|r| - 2] == q[1..|q| - 1];
  }

  /** `repr(e)` of a raised exception: its class, then its argument as
      `repr` writes a string, in parentheses. */
  function ErrorRepr(e: Error): (r: string)
    ensures CallRepr(r, ClassName(e), Argument(e))
  {
    Parenthesised(ClassName(e), Argument(e));
    ClassName(e) + "(" + PyValues.StrRepr(Argument(e)) + ")"
  }

  /** The `(ok, errs)` the loop takes from a finished task: a raised
      exception becomes one "Unhandled error" line. */
  function Outcome(res: Result<TaskResult>): (r: (bool, seq<string>))
    ensures res.Err? ==> r == (false, ["Unhandled error: " + ErrorRepr(res.error)])
    ensures res.Ok? ==> r == (res.value.ok, res.value.errors)
  {
    if res.Err? then (false, ["Unhandled error: " + ErrorRepr(res.error)]) else (res.value.ok, res.value.errors)
  }

  // ---------------------------------------------------------------------------
  // The trace.
  // ---------------------------------------------------------------------------

  ghost function DispatchedIn(ev: seq<Event>): set<string> {
    set i | 0 <= i < |ev| && ev[i].Dispatched? :: ev[i].name
  }

  ghost function AdvancedIn(ev: seq<Event>): set<string> {
    set i | 0 <= i < |ev| && ev[i].Advanced? :: ev[i].name
  }

  ghost function AdvancedOkIn(ev: seq<Event>): set<string> {
    set i | 0 <= i < |ev| && ev[i].Advanced? && ev[i].ok :: ev[i].name
  }

  lemma EventsAppend(ev: seq<Event>, e: Event)
    ensures DispatchedIn(ev + [e]) == DispatchedIn(ev) + (if e.Dispatched? then {e.name} else {})
    ensures AdvancedIn(ev + [e]) == AdvancedIn(ev) + (if e.Advanced? then {e.name} else {})
    ensures AdvancedOkIn(ev + [e]) == AdvancedOkIn(ev) + (if e.Advanced? && e.ok then {e.name} else {})
  {
    var ev2 := ev + [e];
    assert ev2[|ev|] == e;
    assert forall i :: 0 <= i < |ev| ==> ev2[i] == ev[i];
  }

  // ---------------------------------------------------------------------------
  // The invariant.
  // ---------------------------------------------------------------------------

  /** Ready, in-flight and completed modules are disjoint stale modules;
      completed ones are generated or failed, never both. */
  ghost predicate Partition<W>(p: Plan, s: State<W>) {
    && s.ready <= p.stale && s.inFlight <= p.stale && s.completed <= p.stale
    && s.ready !! s.inFlight && s.ready !! s.completed && s.inFlight !! s.completed
    && s.generated !! s.failed.Keys && s.generated + s.failed.Keys == s.completed
    && |s.inFlight| <= p.jobs
  }

  /** `indeg` counts the unfinished dependencies plus the finished ones whose
      `complete` has not yet reached the module (`extra`); exactly the
      unfinished modules whose count is 0 are ready or in flight. */
  ghost predicate Counts<W>(p: Plan, s: State<W>, extra: map<string, set<string>>) {
    forall x {:trigger CountOk(p, s, extra, x)} :: x in p.deps && x !in s.completed ==> CountOk(p, s, extra, x)
  }

  /** The count of one unfinished module. */
  ghost predicate CountOk<W>(p: Plan, s: State<W>, extra: map<string, set<string>>, x: string) {
    && x in p.deps && x in s.indeg && x in extra
    && extra[x] <= p.deps[x] * s.completed
    && s.indeg[x] == |p.deps[x] - s.completed| + |extra[x]|
    && ((x in s.ready || x in s.inFlight) <==> s.indeg[x] == 0)
  }

  /** A module's count survives any step that leaves everything it looks at
      alone. */
  lemma CountFrame<W>(p: Plan, s: State<W>, e: map<string, set<string>>, r: State<W>, e2: map<string, set<string>>,
                      x: string)
    requires CountOk(p, s, e, x) && r.completed == s.completed
    requires x in r.indeg && r.indeg[x] == s.indeg[x] && x in e2 && e2[x] == e[x]
    requires (x in r.ready || x in r.inFlight) == (x in s.ready || x in s.inFlight)
    ensures CountOk(p, r, e2, x)
  {
  }

  /** Ready and in-flight modules have every dependency generated; completed
      modules have every dependency completed, generated ones generated. */
  ghost predicate Settled<W>(p: Plan, s: State<W>) {
    && (forall x :: x in s.ready || x in s.inFlight ==> x in p.deps && p.deps[x] <= s.generated)
    && (forall x :: x in s.completed ==> x in p.deps && p.deps[x] <= s.completed)
    && (forall x :: x in s.generated ==> x in p.deps && p.deps[x] <= s.generated)
  }

  /** Failure records are non-empty, and a module with a failed dependency
      records exactly the "Dependency failed" lines. */
  ghost predicate Records<W>(p: Plan, s: State<W>) {
    forall x :: x in s.failed ==>
      && x in p.deps && s.failed[x] != []
      && (p.deps[x] * s.failed.Keys != {} ==> s.failed[x] == DependencyFailures(p.deps[x] * s.failed.Keys))
  }

  /** The trace matches the state: the advanced modules are the completed
      ones, successfully exactly the generated ones; a finished module was
      dispatched iff its dependencies were all generated; a task is only ever
      created once its dependencies were advanced successfully, with at most
      `jobs` in flight. */
  ghost predicate Traced<W>(p: Plan, s: State<W>) {
    && AdvancedIn(s.events) == s.completed
    && AdvancedOkIn(s.events) == s.generated
    && (forall x :: x in s.inFlight ==> x in DispatchedIn(s.events))
    && (forall x :: x in p.stale && x !in s.completed && x !in s.inFlight ==> x !in DispatchedIn(s.events))
    && (forall x :: x in s.completed && x in p.deps ==> (x in DispatchedIn(s.events) <==> p.deps[x] <= s.generated))
    && DispatchOrder(p, s.events)
    && PriorityOrder(p.prio, s.events)
  }

  ghost predicate DispatchOrder(p: Plan, ev: seq<Event>) {
    forall i :: 0 <= i < |ev| && ev[i].Dispatched? ==>
      && ev[i].name in p.deps && 1 <= ev[i].running <= p.jobs
      && p.deps[ev[i].name] <= AdvancedOkIn(ev[..i])
  }

  /** Each task was created for the best module on the heap: by `HeapLe`
      it comes before every module left waiting there. */
  ghost predicate PriorityOrder(prio: map<string, int>, ev: seq<Event>) {
    forall i, y :: 0 <= i < |ev| && ev[i].Dispatched? && y in ev[i].waiting ==> HeapLe(prio, ev[i].name, y)
  }

  /** The clauses of the invariant, by name. */
  datatype Clause = PartitionClause | CountsClause | SettledClause | RecordsClause | TracedClause

  ghost predicate Holds<W>(c: Clause, p: Plan, s: State<W>, extra: map<string, set<string>>) {
    match c
    case PartitionClause => Partition(p, s)
    case CountsClause => Counts(p, s, extra)
    case SettledClause => Settled(p, s)
    case RecordsClause => Records(p, s)
    case TracedClause => Traced(p, s)
  }

  /** The scheduler invariant: every clause holds. Stated over the clause
      names so that a proof step passing the invariant along need not look
      inside it; `Unpack` and `Pack` convert to and from the clauses. */
  ghost predicate Inv<W>(p: Plan, s: State<W>, extra: map<string, set<string>>) {
    forall c: Clause :: Holds(c, p, s, extra)
  }

  lemma Unpack<W>(p: Plan, s: State<W>, extra: map<string, set<string>>)
    requires Inv(p, s, extra)
    ensures Partition(p, s) && Counts(p, s, extra) && Settled(p, s) && Records(p, s) && Traced(p, s)
  {
    assert Holds(PartitionClause, p, s, extra) && Holds(CountsClause, p, s, extra);
    assert Holds(SettledClause, p, s, extra) && Holds(RecordsClause, p, s, extra);
    assert Holds(TracedClause, p, s, extra);
  }

  lemma Pack<W>(p: Plan, s: State<W>, extra: map<string, set<string>>)
    requires Partition(p, s) && Counts(p, s, extra) && Settled(p, s) && Records(p, s) && Traced(p, s)
    ensures Inv(p, s, extra)
  {
    forall c: Clause ensures Holds(c, p, s, extra) {
      match c
      case PartitionClause =>
      case CountsClause =>
      case SettledClause =>
      case RecordsClause =>
      case TracedClause =>
    }
  }

  /** No decrement is pending. */
  ghost function NoExtra(p: Plan): (e: map<string, set<string>>)
    ensures e.Keys == p.deps.Keys && forall x :: x in e ==> e[x] == {}
  {
    map x | x in p.deps :: {}
  }

  lemma CountsWithoutPending<W>(p: Plan, s: State<W>, extra: map<string, set<string>>)
    requires WellFormed(p) && Counts(p, s, extra)
    requires forall x :: x in p.deps && x !in s.completed ==> x in extra && extra[x] == {}
    ensures Counts(p, s, NoExtra(p))
  {
    forall x | x in p.deps && x !in s.completed ensures CountOk(p, s, NoExtra(p), x) {
      assert CountOk(p, s, extra, x);
    }
  }

  // ---------------------------------------------------------------------------
  // Transitions.
  // ---------------------------------------------------------------------------

  /** The state before the loop: every module's count of stale dependencies,
      and the modules without any on the heap. */
  function Init<W>(p: Plan, w: W): (s: State<W>)
    requires WellFormed(p)
    ensures Inv(p, s, NoExtra(p))
    ensures s.ready == set m | m in p.stale && p.deps[m] == {}
    ensures s.inFlight == {} && s.completed == {} && s.generated == {} && s.events == [] && s.world == w
  {
    var s := State(map m | m in p.stale :: |p.deps[m]|, set m | m in p.stale && p.deps[m] == {},
                   {}, {}, {}, map[], [], w, []);
    assert AdvancedIn([]) == {} && AdvancedOkIn([]) == {} && DispatchedIn([]) == {};
    InitCounts(p, s);
    Pack(p, s, NoExtra(p));
    s
  }

  lemma InitCounts<W>(p: Plan, s: State<W>)
    requires WellFormed(p) && s.completed == {} && s.inFlight == {}
    requires s.indeg == map m | m in p.stale :: |p.deps[m]|
    requires s.ready == set m | m in p.stale && p.deps[m] == {}
    ensures Counts(p, s, NoExtra(p))
  {
    forall x | x in p.deps && x !in s.completed ensures CountOk(p, s, NoExtra(p), x) {
      assert p.deps[x] - s.completed == p.deps[x];
    }
  }

  /** Creates the job of `m`, just popped from the heap. */
  function DispatchOne<W>(s: State<W>, m: string): (r: State<W>)
    ensures r.ready == s.ready - {m} && r.inFlight == s.inFlight + {m}
    ensures r.events == s.events + [Dispatched(m, |s.inFlight + {m}|, s.ready - {m})]
    ensures r.completed == s.completed && r.generated == s.generated && r.failed == s.failed
  {
    s.(ready := s.ready - {m}, inFlight := s.inFlight + {m},
       events := s.events + [Dispatched(m, |s.inFlight + {m}|, s.ready - {m})])
  }

  lemma DispatchOnePreserves<W>(p: Plan, s: State<W>, m: string)
    requires WellFormed(p) && Inv(p, s, NoExtra(p)) && m in s.ready && |s.inFlight| < p.jobs
    requires forall y :: y in s.ready ==> HeapLe(p.prio, m, y)
    ensures Inv(p, DispatchOne(s, m), NoExtra(p))
  {
    var r := DispatchOne(s, m);
    Unpack(p, s, NoExtra(p));
    assert Partition(p, r) by { DispatchPartition(p, s, m); }
    assert Counts(p, r, NoExtra(p)) by { DispatchCounts(p, s, NoExtra(p), m); }
    assert Settled(p, r) by { DispatchSettled(p, s, m); }
    assert Traced(p, r) by { DispatchTraced(p, s, m, r); }
    Pack(p, r, NoExtra(p));
  }

  lemma DispatchPartition<W>(p: Plan, s: State<W>, m: string)
    requires Partition(p, s) && m in s.ready && |s.inFlight| < p.jobs
    ensures Partition(p, DispatchOne(s, m))
  {
    assert |s.inFlight + {m}| == |s.inFlight| + 1;
  }

  lemma DispatchCounts<W>(p: Plan, s: State<W>, extra: map<string, set<string>>, m: string)
    requires Counts(p, s, extra) && m in s.ready
    ensures Counts(p, DispatchOne(s, m), extra)
  {
    var r := DispatchOne(s, m);
    forall x | x in p.deps && x !in r.completed ensures CountOk(p, r, extra, x) {
      assert CountOk(p, s, extra, x);
      assert (x in r.ready || x in r.inFlight) == (x in s.ready || x in s.inFlight);
      CountFrame(p, s, extra, r, extra, x);
    }
  }

  lemma DispatchSettled<W>(p: Plan, s: State<W>, m: string)
    requires Settled(p, s) && m in s.ready
    ensures Settled(p, DispatchOne(s, m))
  {
  }

  lemma DispatchTraced<W>(p: Plan, s: State<W>, m: string, r: State<W>)
    requires Traced(p, s) && m in p.stale && m !in s.completed && m !in s.inFlight
    requires m in p.deps && p.deps[m] <= s.generated && |s.inFlight| < p.jobs
    requires forall y :: y in s.ready ==> HeapLe(p.prio, m, y)
    requires r.inFlight == s.inFlight + {m} && r.events == s.events + [Dispatched(m, |s.inFlight + {m}|, s.ready - {m})]
    requires r.completed == s.completed && r.generated == s.generated
    ensures Traced(p, r)
  {
    var d := Dispatched(m, |s.inFlight + {m}|, s.ready - {m});
    EventsAppend(s.events, d);
    DispatchedSets(p, s, m, r.inFlight, DispatchedIn(r.events));
    assert |s.inFlight + {m}| == |s.inFlight| + 1;
    DispatchOrderAppend(p, s.events, d);
  }

  lemma DispatchedSets<W>(p: Plan, s: State<W>, m: string, inFlight: set<string>, after: set<string>)
    requires Traced(p, s) && m !in s.completed
    requires inFlight == s.inFlight + {m} && after == DispatchedIn(s.events) + {m}
    ensures forall x :: x in inFlight ==> x in after
    ensures forall x :: x in p.stale && x !in s.completed && x !in inFlight ==> x !in after
    ensures forall x :: x in s.completed && x in p.deps ==> (x in after <==> p.deps[x] <= s.generated)
  {
  }

  lemma DispatchOrderAppend(p: Plan, ev: seq<Event>, e: Event)
    requires DispatchOrder(p, ev) && PriorityOrder(p.prio, ev)
    requires e.Dispatched? ==> e.name in p.deps && 1 <= e.running <= p.jobs && p.deps[e.name] <= AdvancedOkIn(ev)
    requires e.Dispatched? ==> forall y :: y in e.waiting ==> HeapLe(p.prio, e.name, y)
    ensures DispatchOrder(p, ev + [e]) && PriorityOrder(p.prio, ev + [e])
  {
    var r := ev + [e];
    assert forall i :: 0 <= i < |ev| ==> r[i] == ev[i];
    forall i | 0 <= i < |r| && r[i].Dispatched?
      ensures r[i].name in p.deps && 1 <= r[i].running <= p.jobs
      ensures p.deps[r[i].name] <= AdvancedOkIn(r[..i])
    {
      if i < |ev| {
        assert r[i] == ev[i] && r[..i] == ev[..i];
      } else {
        assert r[..i] == ev;
      }
    }
  }

  /** Records a finished task: completed, and generated or failed with its
      errors (or "Unknown error." when it gave none); a successful test task's
      file is collected. */
  function Record<W>(s: State<W>, m: string, res: Result<TaskResult>, w: W): (r: State<W>)
    ensures r.inFlight == s.inFlight - {m} && r.completed == s.completed + {m} && r.ready == s.ready
    ensures r.world == w && r.indeg == s.indeg
    ensures Outcome(res).0 ==> r.generated == s.generated + {m} && r.failed == s.failed
    ensures !Outcome(res).0 ==>
      (r.generated == s.generated && r.failed == s.failed[m := if Outcome(res).1 == [] then ["Unknown error."] else Outcome(res).1])
    ensures r.files == if Outcome(res).0 && res.Ok? && res.value.out.Some? then s.files + [res.value.out.value] else s.files
    ensures r.events == s.events + [Advanced(m, Outcome(res).0)]
  {
    var (ok, errs) := Outcome(res);
    var files := if ok && res.Ok? && res.value.out.Some? then s.files + [res.value.out.value] else s.files;
    s.(inFlight := s.inFlight - {m}, completed := s.completed + {m},
       generated := if ok then s.generated + {m} else s.generated,
       failed := if ok then s.failed else s.failed[m := if errs == [] then ["Unknown error."] else errs],
       files := files, world := w, events := s.events + [Advanced(m, ok)])
  }

  /** After recording `m`, each module that depends on it owes one
      decrement for `m`. */
  ghost function Owe(p: Plan, m: string): (e: map<string, set<string>>)
    ensures e.Keys == p.deps.Keys
    ensures forall x :: x in p.deps ==> e[x] == p.deps[x] * {m}
  {
    map x | x in p.deps :: p.deps[x] * {m}
  }

  /** What recording a finished task changes, whatever its result. */
  ghost predicate Finished<W>(s: State<W>, r: State<W>, m: string, ok: bool) {
    && r.inFlight == s.inFlight - {m} && r.completed == s.completed + {m}
    && r.ready == s.ready && r.indeg == s.indeg
    && r.events == s.events + [Advanced(m, ok)]
    && (ok ==> r.generated == s.generated + {m} && r.failed == s.failed)
    && (!ok ==> (&& r.generated == s.generated && r.failed.Keys == s.failed.Keys + {m} && r.failed[m] != []
                 && forall x :: x in s.failed ==> r.failed[x] == s.failed[x]))
  }

  lemma RecordFinished<W>(s: State<W>, m: string, res: Result<TaskResult>, w: W)
    requires m !in s.failed
    ensures Finished(s, Record(s, m, res, w), m, Outcome(res).0)
  {
  }

  lemma RecordPreserves<W>(p: Plan, s: State<W>, m: string, res: Result<TaskResult>, w: W)
    requires WellFormed(p) && Inv(p, s, NoExtra(p)) && m in s.inFlight
    ensures var r := Record(s, m, res, w);
      && Inv(p, r, Owe(p, m))
      && forall y :: y in p.deps && y !in r.completed ==> (m in Owe(p, m)[y] <==> m in p.deps[y])
  {
    var r := Record(s, m, res, w);
    var ok := Outcome(res).0;
    Unpack(p, s, NoExtra(p));
    RecordFinished(s, m, res, w);
    FinishedPieces(p, s, r, m, ok);
    assert Counts(p, r, Owe(p, m)) by { CountsAfterFinish(p, s, NoExtra(p), r, m); }
    Pack(p, r, Owe(p, m));
  }

  lemma FinishedPieces<W>(p: Plan, s: State<W>, r: State<W>, m: string, ok: bool)
    requires Partition(p, s) && Settled(p, s) && Records(p, s) && Traced(p, s) && m in s.inFlight
    requires Finished(s, r, m, ok)
    ensures Partition(p, r) && Settled(p, r) && Records(p, r) && Traced(p, r)
  {
    RecordPartition(p, s, r, m, ok);
    RecordSettled(p, s, r, m, ok);
    RecordRecords(p, s, r, m, ok);
    RecordTraced(p, s, r, m, ok);
  }

  lemma RecordPartition<W>(p: Plan, s: State<W>, r: State<W>, m: string, ok: bool)
    requires Partition(p, s) && m in s.inFlight && Finished(s, r, m, ok)
    ensures Partition(p, r)
  {
    assert r.generated !! r.failed.Keys && r.generated + r.failed.Keys == s.completed + {m} by {
      if ok {
        assert m !in s.failed;
      } else {
        assert m !in s.generated;
      }
    }
    PartitionAfterFinish(p, s, r, m);
  }

  lemma PartitionAfterFinish<W>(p: Plan, s: State<W>, r: State<W>, m: string)
    requires Partition(p, s) && m in s.inFlight
    requires r.inFlight == s.inFlight - {m} && r.completed == s.completed + {m} && r.ready == s.ready
    requires r.generated !! r.failed.Keys && r.generated + r.failed.Keys == r.completed
    ensures Partition(p, r)
  {
    assert |r.inFlight| < |s.inFlight| by {
      assert s.inFlight == r.inFlight + {m};
    }
  }

  /** Counting does not look at results, files, the world or the trace. */
  lemma CountsAfterFinish<W>(p: Plan, s: State<W>, extra: map<string, set<string>>, r: State<W>, m: string)
    requires Counts(p, s, extra) && m in s.inFlight && m !in s.completed
    requires forall x :: x in p.deps && x !in s.completed ==> x in extra && extra[x] == {}
    requires r.indeg == s.indeg && r.ready == s.ready && r.inFlight == s.inFlight - {m}
    requires r.completed == s.completed + {m}
    ensures Counts(p, r, Owe(p, m))
  {
    var e := Owe(p, m);
    forall x | x in p.deps && x !in r.completed ensures CountOk(p, r, e, x) {
      assert CountOk(p, s, extra, x);
      DiffCard(p.deps[x], s.completed, m);
      if m in p.deps[x] { assert e[x] == {m}; } else { assert e[x] == {}; }
    }
  }

  lemma RecordSettled<W>(p: Plan, s: State<W>, r: State<W>, m: string, ok: bool)
    requires Partition(p, s) && Settled(p, s) && m in s.inFlight && Finished(s, r, m, ok)
    ensures Settled(p, r)
  {
  }

  lemma RecordRecords<W>(p: Plan, s: State<W>, r: State<W>, m: string, ok: bool)
    requires Partition(p, s) && Settled(p, s) && Records(p, s) && m in s.inFlight && Finished(s, r, m, ok)
    ensures Records(p, r)
  {
    forall x | x in r.failed
      ensures x in p.deps && r.failed[x] != []
      ensures p.deps[x] * r.failed.Keys != {} ==> r.failed[x] == DependencyFailures(p.deps[x] * r.failed.Keys)
    {
      if x != m {
        FailedKeysAfter(p.deps[x], s.failed.Keys, r.failed.Keys, m);
      } else {
        NoFailedDependency(p.deps[m], s.generated, s.failed.Keys, r.failed.Keys, m);
      }
    }
  }

  /** A newly failed module is not among those the older failures looked at. */
  lemma FailedKeysAfter(deps: set<string>, f: set<string>, f2: set<string>, m: string)
    requires m !in deps && f2 <= f + {m}
    requires f <= f2
    ensures deps * f2 == deps * f
  {
  }

  /** A module whose dependencies were all generated has no failed one. */
  lemma NoFailedDependency(deps: set<string>, g: set<string>, f: set<string>, f2: set<string>, m: string)
    requires deps <= g && g !! f && m !in deps && f2 <= f + {m}
    ensures deps * f2 == {}
  {
    forall d | d in deps * f2 ensures false {
    }
  }

  lemma RecordTraced<W>(p: Plan, s: State<W>, r: State<W>, m: string, ok: bool)
    requires Partition(p, s) && Settled(p, s) && Traced(p, s) && m in s.inFlight && Finished(s, r, m, ok)
    ensures Traced(p, r)
  {
    EventsAppend(s.events, Advanced(m, ok));
    forall x | x in r.completed && x in p.deps
      ensures x in DispatchedIn(r.events) <==> p.deps[x] <= r.generated
    {
      if x != m {
        assert p.deps[x] <= r.generated <==> p.deps[x] <= s.generated;
      }
    }
    DispatchOrderAppend(p, s.events, Advanced(m, ok));
  }

  /** Finishing `m` removes it from the unfinished dependencies of exactly
      the modules that depend on it. */
  /** Finishing `y` moves it, for each dependent, from the unfinished
      dependencies to the pending decrements. */
  lemma MoveCount(a: set<string>, c: set<string>, ez: set<string>, y: string)
    requires y !in c && ez <= a * c
    ensures var ez2 := if y in a then ez + {y} else ez;
      && ez2 <= a * (c + {y}) && |a - (c + {y})| + |ez2| == |a - c| + |ez|
  {
    DiffCard(a, c, y);
    if y in a {
      assert y !in ez;
      assert |ez + {y}| == |ez| + 1;
    }
  }

  lemma DiffCard(a: set<string>, c: set<string>, m: string)
    requires m !in c
    ensures |a - c| == |a - (c + {m})| + (if m in a then 1 else 0)
  {
    if m in a {
      assert a - c == (a - (c + {m})) + {m};
    } else {
      assert a - c == a - (c + {m});
    }
  }

  // ---------------------------------------------------------------------------
  // `complete(m)`: releasing the dependents of a finished module.
  // ---------------------------------------------------------------------------

  /** `indeg[dep] -= 1`. */
  function Decrement<W>(s: State<W>, y: string): (r: State<W>)
    requires y in s.indeg
  {
    s.(indeg := s.indeg[y := s.indeg[y] - 1])
  }

  /** A released module with a failed dependency: failed with one line per
      failed dependency, completed, and advanced as not ok. */
  function Cascade<W>(p: Plan, s: State<W>, y: string): (r: State<W>)
    requires y in p.deps
  {
    var bad := p.deps[y] * s.failed.Keys;
    s.(completed := s.completed + {y}, failed := s.failed[y := DependencyFailures(bad)],
       events := s.events + [Advanced(y, false)])
  }

  /** A released module whose dependencies all succeeded goes on the heap. */
  function Push<W>(s: State<W>, y: string): (r: State<W>)
  {
    s.(ready := s.ready + {y})
  }

  /** The decrements a cascaded module now owes its own dependents. */
  ghost function AddOwed(p: Plan, e: map<string, set<string>>, y: string): (r: map<string, set<string>>)
    ensures r.Keys == e.Keys
    ensures forall z :: z in e ==> r[z] == if z in p.deps && y in p.deps[z] then e[z] + {y} else e[z]
  {
    map z | z in e :: if z in p.deps && y in p.deps[z] then e[z] + {y} else e[z]
  }

  /** The facts every release of `y` on behalf of `m` starts from. */
  ghost predicate Releasable<W>(p: Plan, s: State<W>, e: map<string, set<string>>, m: string, y: string) {
    y in p.deps && y in p.stale && y !in s.completed && y in e && m in e[y] && y in s.indeg
  }

  /** Counting is local: changing one unfinished module's count, pending
      decrements and readiness consistently keeps the counts. */
  lemma CountsUpdateOne<W>(p: Plan, s: State<W>, e: map<string, set<string>>, y: string,
                           r: State<W>, v: int, ey: set<string>)
    requires Counts(p, s, e) && y in p.deps && y !in s.completed
    requires r.completed == s.completed && r.inFlight == s.inFlight && r.ready - {y} == s.ready - {y}
    requires r.indeg == s.indeg[y := v]
    requires ey <= p.deps[y] * s.completed && v == |p.deps[y] - s.completed| + |ey|
    requires (y in r.ready || y in r.inFlight) <==> v == 0
    ensures Counts(p, r, e[y := ey])
  {
    var e2 := e[y := ey];
    forall x | x in p.deps && x !in r.completed ensures CountOk(p, r, e2, x) {
      assert CountOk(p, s, e, x);
      if x != y {
        assert (x in r.ready - {y}) == (x in s.ready - {y});
        CountFrame(p, s, e, r, e2, x);
      } else {
        assert e2[x] == ey && r.indeg[x] == v;
      }
    }
  }

  lemma DecrementCounts<W>(p: Plan, s: State<W>, e: map<string, set<string>>, m: string, y: string)
    requires Counts(p, s, e) && Releasable(p, s, e, m, y) && s.indeg[y] != 1
    ensures Counts(p, Decrement(s, y), e[y := e[y] - {m}])
  {
    assert CountOk(p, s, e, y);
    assert |e[y] - {m}| == |e[y]| - 1 by { assert e[y] == (e[y] - {m}) + {m}; }
    CountsUpdateOne(p, s, e, y, Decrement(s, y), s.indeg[y] - 1, e[y] - {m});
  }

  lemma KeepPreserves<W>(p: Plan, s: State<W>, e: map<string, set<string>>, m: string, y: string)
    requires Inv(p, s, e) && Releasable(p, s, e, m, y) && s.indeg[y] != 1
    ensures Inv(p, Decrement(s, y), e[y := e[y] - {m}])
  {
    Unpack(p, s, e);
    DecrementCounts(p, s, e, m, y);
    Pack(p, Decrement(s, y), e[y := e[y] - {m}]);
  }

  /** After the last decrement the module has no unfinished dependency. */
  lemma LastDecrement<W>(p: Plan, s: State<W>, e: map<string, set<string>>, m: string, y: string)
    requires Counts(p, s, e) && Releasable(p, s, e, m, y) && s.indeg[y] == 1
    ensures p.deps[y] <= s.completed && e[y] == {m}
    ensures y !in s.ready && y !in s.inFlight
  {
    assert CountOk(p, s, e, y);
    assert e[y] == (e[y] - {m}) + {m};
    assert |e[y] - {m}| == 0;
    assert e[y] - {m} == {};
    assert p.deps[y] - s.completed == {};
    forall b | b in p.deps[y] ensures b in s.completed {
      assert b !in p.deps[y] - s.completed;
    }
  }

  lemma PushCounts<W>(p: Plan, s: State<W>, e: map<string, set<string>>, m: string, y: string, r: State<W>)
    requires Counts(p, s, e) && Releasable(p, s, e, m, y) && s.indeg[y] == 1
    requires r.indeg == s.indeg[y := 0] && r.ready == s.ready + {y}
    requires r.inFlight == s.inFlight && r.completed == s.completed
    ensures Counts(p, r, e[y := e[y] - {m}])
  {
    LastDecrement(p, s, e, m, y);
    assert p.deps[y] - s.completed == {} && e[y] - {m} == {};
    CountsUpdateOne(p, s, e, y, r, 0, e[y] - {m});
  }

  lemma PushRest<W>(p: Plan, s: State<W>, y: string)
    requires Partition(p, s) && Settled(p, s) && Records(p, s) && Traced(p, s)
    requires y in p.deps && y in p.stale && y !in s.completed && y !in s.inFlight
    requires p.deps[y] <= s.completed && p.deps[y] * s.failed.Keys == {}
    ensures Partition(p, Push(s, y)) && Settled(p, Push(s, y)) && Records(p, Push(s, y)) && Traced(p, Push(s, y))
  {
    forall b | b in p.deps[y] ensures b in s.generated {
      assert b !in p.deps[y] * s.failed.Keys;
    }
  }

  lemma PushPreserves<W>(p: Plan, s: State<W>, e: map<string, set<string>>, m: string, y: string)
    requires Inv(p, s, e) && Releasable(p, s, e, m, y) && s.indeg[y] == 1
    requires p.deps[y] * s.failed.Keys == {}
    ensures Inv(p, Push(Decrement(s, y), y), e[y := e[y] - {m}])
  {
    Unpack(p, s, e);
    LastDecrement(p, s, e, m, y);
    PushCounts(p, s, e, m, y, Push(Decrement(s, y), y));
    PushRest(p, Decrement(s, y), y);
    Pack(p, Push(Decrement(s, y), y), e[y := e[y] - {m}]);
  }

  lemma CascadeCounts<W>(p: Plan, s: State<W>, e: map<string, set<string>>, m: string, y: string,
                         r: State<W>, e2: map<string, set<string>>)
    requires Counts(p, s, e) && Releasable(p, s, e, m, y) && s.indeg[y] == 1
    requires r.indeg == s.indeg[y := 0] && r.ready == s.ready
    requires r.inFlight == s.inFlight && r.completed == s.completed + {y}
    requires e2 == AddOwed(p, e[y := e[y] - {m}], y)
    ensures Counts(p, r, e2)
  {
    forall z | z in p.deps && z !in r.completed ensures CountOk(p, r, e2, z) {
      assert CountOk(p, s, e, z);
      assert y !in e[z] && z != y;
      MoveCount(p.deps[z], s.completed, e[z], y);
    }
  }

  lemma CascadePartition<W>(p: Plan, s: State<W>, y: string, r: State<W>)
    requires Partition(p, s)
    requires y in p.stale && y !in s.completed && y !in s.ready && y !in s.inFlight
    requires r.ready == s.ready && r.inFlight == s.inFlight && r.completed == s.completed + {y}
    requires r.generated == s.generated && r.failed.Keys == s.failed.Keys + {y}
    ensures Partition(p, r)
  {
    assert y !in s.generated && y !in s.failed.Keys;
  }

  lemma CascadeSettled<W>(p: Plan, s: State<W>, y: string, r: State<W>)
    requires Settled(p, s) && y in p.deps && p.deps[y] <= s.completed
    requires r.ready == s.ready && r.inFlight == s.inFlight && r.completed == s.completed + {y}
    requires r.generated == s.generated
    ensures Settled(p, r)
  {
    forall x | x in r.completed ensures x in p.deps && p.deps[x] <= r.completed {
      if x != y {
        assert x in s.completed;
      }
    }
  }

  lemma CascadeRecords<W>(p: Plan, s: State<W>, y: string, r: State<W>)
    requires Records(p, s) && s.failed.Keys <= s.completed
    requires (forall x :: x in s.completed ==> x in p.deps && p.deps[x] <= s.completed)
    requires y in p.deps && y !in s.completed && p.deps[y] <= s.completed
    requires p.deps[y] * s.failed.Keys != {}
    requires r.failed == s.failed[y := DependencyFailures(p.deps[y] * s.failed.Keys)]
    ensures Records(p, r)
  {
    var bad := p.deps[y] * s.failed.Keys;
    assert r.failed.Keys == s.failed.Keys + {y};
    forall x | x in r.failed
      ensures x in p.deps && r.failed[x] != []
      ensures p.deps[x] * r.failed.Keys != {} ==> r.failed[x] == DependencyFailures(p.deps[x] * r.failed.Keys)
    {
      if x == y {
        assert y !in p.deps[y];
        CascadeRecordNew(p, s, y, r);
      } else {
        assert x in s.completed;
        CascadeRecordOld(p, s, y, r, x);
      }
    }
  }

  /** The cascaded module's own record. */
  lemma CascadeRecordNew<W>(p: Plan, s: State<W>, y: string, r: State<W>)
    requires y in p.deps && y !in s.failed && y !in p.deps[y] && p.deps[y] * s.failed.Keys != {}
    requires r.failed == s.failed[y := DependencyFailures(p.deps[y] * s.failed.Keys)]
    ensures r.failed[y] != []
    ensures r.failed[y] == DependencyFailures(p.deps[y] * r.failed.Keys)
  {
    var bad := p.deps[y] * s.failed.Keys;
    assert |DependencyFailures(bad)| == |bad| > 0;
    assert r.failed.Keys == s.failed.Keys + {y};
    InterAddAbsent(p.deps[y], s.failed.Keys, y);
  }

  /** An older record is unchanged, and so are the failures it names. */
  lemma CascadeRecordOld<W>(p: Plan, s: State<W>, y: string, r: State<W>, x: string)
    requires x in s.failed && x != y && x in p.deps && y !in p.deps[x]
    requires s.failed[x] != []
    requires p.deps[x] * s.failed.Keys != {} ==> s.failed[x] == DependencyFailures(p.deps[x] * s.failed.Keys)
    requires y in p.deps && r.failed == s.failed[y := DependencyFailures(p.deps[y] * s.failed.Keys)]
    ensures r.failed[x] != []
    ensures p.deps[x] * r.failed.Keys != {} ==> r.failed[x] == DependencyFailures(p.deps[x] * r.failed.Keys)
  {
    assert r.failed.Keys == s.failed.Keys + {y};
    InterAddAbsent(p.deps[x], s.failed.Keys, y);
  }

  lemma InterAddAbsent(a: set<string>, k: set<string>, y: string)
    requires y !in a
    ensures a * (k + {y}) == a * k
  {
  }

  lemma CascadeTraced<W>(p: Plan, s: State<W>, r: State<W>, y: string, b: string)
    requires Partition(p, s) && Traced(p, s)
    requires y in p.deps && y in p.stale && y !in s.completed && y !in s.inFlight
    requires b in p.deps[y] && b !in s.generated
    requires r.events == s.events + [Advanced(y, false)] && r.inFlight == s.inFlight
    requires r.completed == s.completed + {y} && r.generated == s.generated
    ensures Traced(p, r)
  {
    EventsAppend(s.events, Advanced(y, false));
    CascadeDispatched(p, s, r, y, b);
    DispatchOrderAppend(p, s.events, Advanced(y, false));
  }

  lemma CascadeDispatched<W>(p: Plan, s: State<W>, r: State<W>, y: string, b: string)
    requires Traced(p, s) && y in p.deps && y in p.stale && y !in s.completed && y !in s.inFlight
    requires b in p.deps[y] && b !in s.generated
    requires DispatchedIn(r.events) == DispatchedIn(s.events)
    requires r.completed == s.completed + {y} && r.generated == s.generated
    ensures forall x :: x in r.completed && x in p.deps ==> (x in DispatchedIn(r.events) <==> p.deps[x] <= r.generated)
  {
    assert y !in DispatchedIn(s.events);
  }

  /** The state after a cascade, field by field (two lemmas, so that each
      proof stays small). */
  lemma CascadeFields<W>(p: Plan, s: State<W>, y: string)
    requires y in s.indeg && y in p.deps
    ensures var c := Cascade(p, Decrement(s, y), y);
      && c.indeg == s.indeg[y := s.indeg[y] - 1] && c.ready == s.ready && c.inFlight == s.inFlight
      && c.completed == s.completed + {y} && c.generated == s.generated
      && c.events == s.events + [Advanced(y, false)]
  {
  }

  lemma CascadeFailed<W>(p: Plan, s: State<W>, y: string)
    requires y in s.indeg && y in p.deps
    ensures Cascade(p, Decrement(s, y), y).failed == s.failed[y := DependencyFailures(p.deps[y] * s.failed.Keys)]
  {
  }

  lemma CascadePreserves<W>(p: Plan, s: State<W>, e: map<string, set<string>>, m: string, y: string)
    requires Inv(p, s, e) && Releasable(p, s, e, m, y) && s.indeg[y] == 1
    requires p.deps[y] * s.failed.Keys != {}
    ensures Inv(p, Cascade(p, Decrement(s, y), y), AddOwed(p, e[y := e[y] - {m}], y))
  {
    CascadeFields(p, s, y);
    CascadeFailed(p, s, y);
    CascadeStep(p, s, e, m, y, Cascade(p, Decrement(s, y), y));
  }

  lemma CascadeStep<W>(p: Plan, s: State<W>, e: map<string, set<string>>, m: string, y: string, c: State<W>)
    requires Inv(p, s, e) && Releasable(p, s, e, m, y) && s.indeg[y] == 1
    requires p.deps[y] * s.failed.Keys != {}
    requires c.indeg == s.indeg[y := 0] && c.ready == s.ready && c.inFlight == s.inFlight
    requires c.completed == s.completed + {y} && c.generated == s.generated
    requires c.failed == s.failed[y := DependencyFailures(p.deps[y] * s.failed.Keys)]
    requires c.events == s.events + [Advanced(y, false)]
    ensures Inv(p, c, AddOwed(p, e[y := e[y] - {m}], y))
  {
    var e2 := AddOwed(p, e[y := e[y] - {m}], y);
    forall cl: Clause ensures Holds(cl, p, c, e2) {
      CascadeClause(p, s, e, m, y, c, cl);
    }
  }

  lemma CascadeClause<W>(p: Plan, s: State<W>, e: map<string, set<string>>, m: string, y: string, c: State<W>,
                         cl: Clause)
    requires Inv(p, s, e) && Releasable(p, s, e, m, y) && s.indeg[y] == 1
    requires p.deps[y] * s.failed.Keys != {}
    requires c.indeg == s.indeg[y := 0] && c.ready == s.ready && c.inFlight == s.inFlight
    requires c.completed == s.completed + {y} && c.generated == s.generated
    requires c.failed == s.failed[y := DependencyFailures(p.deps[y] * s.failed.Keys)]
    requires c.events == s.events + [Advanced(y, false)]
    ensures Holds(cl, p, c, AddOwed(p, e[y := e[y] - {m}], y))
  {
    assert Holds(PartitionClause, p, s, e) && Holds(CountsClause, p, s, e);
    LastDecrement(p, s, e, m, y);
    match cl
    case PartitionClause =>
      CascadePartition(p, s, y, c);
    case CountsClause =>
      CascadeCounts(p, s, e, m, y, c, AddOwed(p, e[y := e[y] - {m}], y));
    case SettledClause =>
      assert Holds(SettledClause, p, s, e);
      CascadeSettled(p, s, y, c);
    case RecordsClause =>
      assert Holds(SettledClause, p, s, e) && Holds(RecordsClause, p, s, e);
      assert s.failed.Keys <= s.completed;
      CascadeRecords(p, s, y, c);
    case TracedClause =>
      assert Holds(TracedClause, p, s, e);
      var b :| b in p.deps[y] * s.failed.Keys;
      CascadeTraced(p, s, c, y, b);
  }

  /** One step of `complete(m)` for a dependent `y` that is not completed:
      decrement its count and, at zero, either fail it because of a failed
      dependency (the flag) or push it on the heap. */
  function Release<W>(p: Plan, s: State<W>, y: string): (r: (State<W>, bool))
    requires y in s.indeg && y in p.deps
  {
    var d := Decrement(s, y);
    if d.indeg[y] != 0 then (d, false)
    else if p.deps[y] * s.failed.Keys != {} then (Cascade(p, d, y), true)
    else (Push(d, y), false)
  }

  lemma ReleasePreserves<W>(p: Plan, s: State<W>, e: map<string, set<string>>, m: string, y: string)
    requires Inv(p, s, e) && Releasable(p, s, e, m, y)
    ensures var (r, c) := Release(p, s, y);
      && (c ==> Inv(p, r, AddOwed(p, e[y := e[y] - {m}], y)))
      && (!c ==> Inv(p, r, e[y := e[y] - {m}]))
  {
    if s.indeg[y] != 1 {
      KeepPreserves(p, s, e, m, y);
    } else if p.deps[y] * s.failed.Keys != {} {
      CascadePreserves(p, s, e, m, y);
    } else {
      PushPreserves(p, s, e, m, y);
    }
  }

  /** How `complete` may move the state: forward, without touching the
      tasks in flight or generating anything. */
  ghost predicate Moved<W>(s: State<W>, r: State<W>) {
    && s.completed <= r.completed && r.inFlight == s.inFlight && s.ready <= r.ready
    && r.generated == s.generated && s.failed.Keys <= r.failed.Keys
  }

  lemma MovedTrans<W>(a: State<W>, b: State<W>, c: State<W>)
    requires Moved(a, b) && Moved(b, c)
    ensures Moved(a, c)
  {
  }

  /** A release moves at most the released module, and only forward. */
  lemma ReleaseMoves<W>(p: Plan, s: State<W>, y: string)
    requires y in s.indeg && y in p.deps
    ensures var (r, c) := Release(p, s, y);
      && Moved(s, r)
      && r.completed == if c then s.completed + {y} else s.completed
  {
  }

  /** `Release` with only its contract visible to the caller. */
  method ReleaseStep<W>(p: Plan, s: State<W>, ghost e: map<string, set<string>>, m: string, y: string)
    returns (r: State<W>, cascaded: bool)
    requires Inv(p, s, e) && Releasable(p, s, e, m, y)
    ensures Moved(s, r) && r.completed == if cascaded then s.completed + {y} else s.completed
    ensures cascaded ==> Inv(p, r, AddOwed(p, e[y := e[y] - {m}], y))
    ensures !cascaded ==> Inv(p, r, e[y := e[y] - {m}])
  {
    ReleasePreserves(p, s, e, m, y);
    ReleaseMoves(p, s, y);
    r, cascaded := Release(p, s, y).0, Release(p, s, y).1;
  }

  /** Removing one more stale module from the unfinished ones shrinks them. */
  lemma DiffShrinks(stale: set<string>, a: set<string>, b: set<string>, y: string)
    requires a <= b && y in stale && y in b && y !in a
    ensures |stale - b| < |stale - a|
  {
    var d := (stale - a) - (stale - b);
    assert y in d;
    assert stale - a == (stale - b) + d;
    assert (stale - b) * d == {};
  }

  /** Completing more modules never adds unfinished ones. */
  lemma DiffMono(stale: set<string>, a: set<string>, b: set<string>)
    requires a <= b
    ensures |stale - b| <= |stale - a|
  {
    var d := (stale - a) - (stale - b);
    assert stale - a == (stale - b) + d;
    assert (stale - b) * d == {};
  }

  /** The dependents relation is the reverse of the dependencies: the part
      of `WellFormed` that `complete` walks. */
  ghost predicate Linked(p: Plan) {
    && p.dependents.Keys == p.stale && p.deps.Keys == p.stale
    && (forall d :: d in p.dependents ==> p.dependents[d] <= p.stale)
    && forall d, y :: d in p.dependents && y in p.deps ==> (y in p.dependents[d] <==> d in p.deps[y])
  }

  lemma WellFormedLinked(p: Plan)
    requires WellFormed(p)
    ensures Linked(p)
  {
  }

  /** The unfinished modules still owed `m`'s decrement are those in `ks`. */
  ghost predicate OwedTo(deps: map<string, set<string>>, extra: map<string, set<string>>, m: string,
                         done: set<string>, ks: set<string>) {
    forall z :: z in deps && z !in done ==> z in extra && (m in extra[z] <==> z in ks)
  }

  /** The unfinished modules no longer owe `m` anything and owe nothing new. */
  ghost predicate Paid(deps: map<string, set<string>>, extra: map<string, set<string>>, e: map<string, set<string>>,
                       m: string, done: set<string>) {
    forall z :: z in deps && z !in done ==> z in extra && z in e && e[z] == extra[z] - {m}
  }

  /** `m`'s decrement paid by `y` only. */
  ghost predicate PaidBy(deps: map<string, set<string>>, extra: map<string, set<string>>, e: map<string, set<string>>,
                         m: string, y: string, done: set<string>) {
    forall z :: z in deps && z !in done ==> z in extra && z in e && e[z] == if z == y then extra[z] - {m} else extra[z]
  }

  /** The dependents of `m`, listed, are exactly the modules depending on it. */
  lemma DependentsListed(p: Plan, extra: map<string, set<string>>, m: string, done: set<string>, ks: seq<string>)
    requires Linked(p) && m in p.dependents
    requires forall x :: x in ks <==> x in p.dependents[m]
    requires forall z :: z in p.deps && z !in done ==> z in extra && (m in extra[z] <==> m in p.deps[z])
    ensures OwedTo(p.deps, extra, m, done, set k | k in ks)
    ensures forall k :: k in ks ==> k in p.deps
  {
  }

  /** An unfinished module is owed by nobody. */
  lemma NotYetOwed<W>(p: Plan, s: State<W>, extra: map<string, set<string>>, y: string)
    requires Counts(p, s, extra) && y !in s.completed
    ensures forall z :: z in p.deps && z !in s.completed ==> z in extra && y !in extra[z]
  {
    forall z | z in p.deps && z !in s.completed ensures z in extra && y !in extra[z] {
      assert CountOk(p, s, extra, z);
    }
  }

  /** The next dependent to visit, unfinished, can be released. */
  lemma OwedReleasable<W>(p: Plan, s: State<W>, extra: map<string, set<string>>, m: string, ks: seq<string>)
    requires Linked(p) && Inv(p, s, extra) && |ks| > 0 && ks[0] in p.deps && ks[0] !in s.completed
    requires OwedTo(p.deps, extra, m, s.completed, set k | k in ks)
    ensures Releasable(p, s, extra, m, ks[0])
  {
    Unpack(p, s, extra);
    assert CountOk(p, s, extra, ks[0]);
    assert ks[0] in set k | k in ks;
  }

  /** When `m` is owed by nobody unfinished, paying it changes nothing. */
  lemma NothingOwed(deps: map<string, set<string>>, extra: map<string, set<string>>, m: string, done: set<string>)
    requires OwedTo(deps, extra, m, done, {})
    ensures Paid(deps, extra, extra, m, done)
  {
  }

  /** A cascaded module's dependents owe it; the rest keep their debts. */
  lemma CascadeOwes<W>(p: Plan, s: State<W>, extra: map<string, set<string>>, m: string, y: string, done: set<string>)
    requires extra.Keys == p.deps.Keys && y !in s.completed && y in extra
    requires forall z :: z in p.deps && z !in s.completed ==> y !in extra[z]
    requires done == s.completed + {y}
    ensures OwedTo(p.deps, AddOwed(p, extra[y := extra[y] - {m}], y), y, done, set z | z in p.deps && y in p.deps[z])
    ensures AddOwed(p, extra[y := extra[y] - {m}], y).Keys == p.deps.Keys
  {
  }

  /** The nested `complete(y)` pays exactly what the cascade of `y` added. */
  lemma CascadeOwedPaid<W>(p: Plan, s: State<W>, extra: map<string, set<string>>, e: map<string, set<string>>,
                           m: string, y: string, c: set<string>)
    requires extra.Keys == p.deps.Keys && y in extra && y !in s.completed
    requires forall z :: z in p.deps && z !in s.completed ==> y !in extra[z]
    requires s.completed <= c && y in c
    requires Paid(p.deps, AddOwed(p, extra[y := extra[y] - {m}], y), e, y, c)
    ensures PaidBy(p.deps, extra, e, m, y, c)
  {
    forall z | z in p.deps && z !in c ensures e[z] == extra[z] {
      assert z != y && z !in s.completed;
    }
  }

  /** A release that does not cascade pays `m`'s decrement for `y`. */
  lemma KeptPaid(deps: map<string, set<string>>, extra: map<string, set<string>>, m: string, y: string, done: set<string>)
    requires extra.Keys == deps.Keys && y in extra
    ensures PaidBy(deps, extra, extra[y := extra[y] - {m}], m, y, done)
  {
  }

  /** After visiting the first of the remaining dependents, `m` is owed by
      exactly the rest. */
  lemma VisitedOwed(deps: map<string, set<string>>, extra: map<string, set<string>>, e1: map<string, set<string>>,
                    m: string, ks: seq<string>, c0: set<string>, c1: set<string>)
    requires |ks| > 0 && c0 <= c1
    requires forall i, j :: 0 <= i < |ks| && 0 <= j < |ks| && i != j ==> ks[i] != ks[j]
    requires OwedTo(deps, extra, m, c0, set k | k in ks)
    requires PaidBy(deps, extra, e1, m, ks[0], c1)
    ensures OwedTo(deps, e1, m, c1, set k | k in ks[1..])
  {
    assert forall k :: k in ks[1..] <==> k in ks && k != ks[0];
  }

  /** The visits skip a module completed meanwhile. */
  lemma SkippedOwed(deps: map<string, set<string>>, extra: map<string, set<string>>, m: string, ks: seq<string>,
                    done: set<string>)
    requires |ks| > 0 && ks[0] in done
    requires OwedTo(deps, extra, m, done, set k | k in ks)
    ensures OwedTo(deps, extra, m, done, set k | k in ks[1..])
  {
    assert forall k :: k in ks ==> k == ks[0] || k in ks[1..];
  }

  /** Composing one visit with the visits after it. */
  lemma OwedChain(deps: map<string, set<string>>, a: map<string, set<string>>, b: map<string, set<string>>,
                  c: map<string, set<string>>, m: string, y: string, c1: set<string>, c2: set<string>)
    requires c1 <= c2 && PaidBy(deps, a, b, m, y, c1) && Paid(deps, b, c, m, c2)
    ensures Paid(deps, a, c, m, c2)
  {
  }

  /** `complete(m)`: walks the dependents of a finished module in sorted
      order, releasing each unfinished one and completing in turn, at once,
      each that fails because of a failed dependency. `extra` tracks the
      decrements still owed; those of `m` are all paid on return. */
  method Complete<W>(p: Plan, s: State<W>, ghost extra: map<string, set<string>>, m: string)
    returns (r: State<W>, ghost e: map<string, set<string>>)
    requires Linked(p) && Inv(p, s, extra) && m in s.completed && extra.Keys == p.deps.Keys
    requires OwedTo(p.deps, extra, m, s.completed, set z | z in p.deps && m in p.deps[z])
    ensures Inv(p, r, e) && e.Keys == p.deps.Keys && Moved(s, r)
    ensures Paid(p.deps, extra, e, m, r.completed)
    decreases |p.stale - s.completed|, 2, 0
  {
    assert m in p.dependents by { Unpack(p, s, extra); }
    var ks := SortSet(p.dependents[m]);
    StrictlySortedDistinct(ks);
    DependentsListed(p, extra, m, s.completed, ks);
    r, e := CompleteEach(p, s, extra, m, ks);
  }

  /** The loop of `complete(m)` over the dependents `ks` not yet visited. */
  method CompleteEach<W>(p: Plan, s: State<W>, ghost extra: map<string, set<string>>, m: string, ks: seq<string>)
    returns (r: State<W>, ghost e: map<string, set<string>>)
    requires Linked(p) && Inv(p, s, extra) && m in s.completed && extra.Keys == p.deps.Keys
    requires forall i, j :: 0 <= i < |ks| && 0 <= j < |ks| && i != j ==> ks[i] != ks[j]
    requires forall k :: k in ks ==> k in p.deps
    requires OwedTo(p.deps, extra, m, s.completed, set k | k in ks)
    ensures Inv(p, r, e) && e.Keys == p.deps.Keys && Moved(s, r)
    ensures Paid(p.deps, extra, e, m, r.completed)
    decreases |p.stale - s.completed|, 1, |ks|, 1
  {
    if ks == [] {
      NothingOwed(p.deps, extra, m, s.completed);
      r, e := s, extra;
      return;
    }
    if ks[0] in s.completed {
      SkippedOwed(p.deps, extra, m, ks, s.completed);
      r, e := CompleteEach(p, s, extra, m, ks[1..]);
    } else {
      r, e := VisitThenRest(p, s, extra, m, ks);
    }
  }

  /** Visiting the first remaining dependent, then the rest. */
  method VisitThenRest<W>(p: Plan, s: State<W>, ghost extra: map<string, set<string>>, m: string, ks: seq<string>)
    returns (r: State<W>, ghost e: map<string, set<string>>)
    requires Linked(p) && Inv(p, s, extra) && m in s.completed && extra.Keys == p.deps.Keys
    requires |ks| > 0 && ks[0] !in s.completed
    requires forall i, j :: 0 <= i < |ks| && 0 <= j < |ks| && i != j ==> ks[i] != ks[j]
    requires forall k :: k in ks ==> k in p.deps
    requires OwedTo(p.deps, extra, m, s.completed, set k | k in ks)
    ensures Inv(p, r, e) && e.Keys == p.deps.Keys && Moved(s, r)
    ensures Paid(p.deps, extra, e, m, r.completed)
    decreases |p.stale - s.completed|, 1, |ks|, 0
  {
    var r1;
    ghost var e1;
    OwedReleasable(p, s, extra, m, ks);
    r1, e1 := Visit(p, s, extra, m, ks[0]);
    DiffMono(p.stale, s.completed, r1.completed);
    VisitedOwed(p.deps, extra, e1, m, ks, s.completed, r1.completed);
    r, e := CompleteEach(p, r1, e1, m, ks[1..]);
    OwedChain(p.deps, extra, e1, e, m, ks[0], r1.completed, r.completed);
    MovedTrans(s, r1, r);
  }

  /** One iteration of `complete(m)` on an unfinished dependent `y`,
      including the nested `complete(y)` when it fails at once. */
  method Visit<W>(p: Plan, s: State<W>, ghost extra: map<string, set<string>>, m: string, y: string)
    returns (r: State<W>, ghost e: map<string, set<string>>)
    requires Linked(p) && Inv(p, s, extra) && m in s.completed && extra.Keys == p.deps.Keys
    requires Releasable(p, s, extra, m, y)
    ensures Inv(p, r, e) && e.Keys == p.deps.Keys && Moved(s, r)
    ensures PaidBy(p.deps, extra, e, m, y, r.completed)
    decreases |p.stale - s.completed|, 0, 1
  {
    var r1, cascaded := ReleaseStep(p, s, extra, m, y);
    if !cascaded {
      KeptPaid(p.deps, extra, m, y, r1.completed);
      r, e := r1, extra[y := extra[y] - {m}];
    } else {
      r, e := Cascaded(p, s, extra, m, y, r1);
    }
  }

  /** The nested `complete(y)` of a module failed for a failed dependency. */
  method Cascaded<W>(p: Plan, s: State<W>, ghost extra: map<string, set<string>>, m: string, y: string, r1: State<W>)
    returns (r: State<W>, ghost e: map<string, set<string>>)
    requires Linked(p) && Inv(p, s, extra) && extra.Keys == p.deps.Keys
    requires Releasable(p, s, extra, m, y)
    requires Inv(p, r1, AddOwed(p, extra[y := extra[y] - {m}], y))
    requires Moved(s, r1) && r1.completed == s.completed + {y}
    ensures Inv(p, r, e) && e.Keys == p.deps.Keys && Moved(s, r)
    ensures PaidBy(p.deps, extra, e, m, y, r.completed)
    decreases |p.stale - s.completed|, 0, 0
  {
    DiffShrinks(p.stale, s.completed, r1.completed, y);
    assert Holds(CountsClause, p, s, extra);
    NotYetOwed(p, s, extra, y);
    CascadeOwes(p, s, extra, m, y, r1.completed);
    r, e := Complete(p, r1, AddOwed(p, extra[y := extra[y] - {m}], y), y);
    CascadeOwedPaid(p, s, extra, e, m, y, r.completed);
    MovedTrans(s, r1, r);
  }

  // ---------------------------------------------------------------------------
  // The loop.
  // ---------------------------------------------------------------------------

  /** Once every module's pending decrements are paid, the counts need no
      pending ones. */
  lemma Settle<W>(p: Plan, r: State<W>, e: map<string, set<string>>, m: string)
    requires WellFormed(p) && Inv(p, r, e)
    requires Paid(p.deps, Owe(p, m), e, m, r.completed)
    ensures Inv(p, r, NoExtra(p))
  {
    Unpack(p, r, e);
    forall x | x in p.deps && x !in r.completed ensures x in e && e[x] == {} {
      assert e[x] == p.deps[x] * {m} - {m};
    }
    CountsWithoutPending(p, r, e);
    Pack(p, r, NoExtra(p));
  }

  /** The debts `m` leaves right after it is recorded: one per dependent. */
  lemma OwedAfterRecord(p: Plan, m: string, done: set<string>)
    requires forall y :: y in p.deps && y !in done ==> (m in Owe(p, m)[y] <==> m in p.deps[y])
    ensures OwedTo(p.deps, Owe(p, m), m, done, set z | z in p.deps && m in p.deps[z])
  {
  }

  /** Handling one task `asyncio.wait` returned: record its outcome, tell
      the progress display, then `complete(m)`. The job's outcome and the
      shared state it leaves come from `work`. */
  method Finish<W>(p: Plan, s: State<W>, m: string, work: (string, W) -> (Result<TaskResult>, W))
    returns (r: State<W>)
    requires WellFormed(p) && Inv(p, s, NoExtra(p)) && m in s.inFlight
    ensures Inv(p, r, NoExtra(p))
    ensures r.inFlight == s.inFlight - {m} && s.completed + {m} <= r.completed
    ensures m in r.generated <==> Outcome(work(m, s.world).0).0
    ensures r.generated == if Outcome(work(m, s.world).0).0 then s.generated + {m} else s.generated
  {
    var (res, w) := work(m, s.world);
    var r1 := Record(s, m, res, w);
    RecordPreserves(p, s, m, res, w);
    OwedAfterRecord(p, m, r1.completed);
    WellFormedLinked(p);
    ghost var e;
    r, e := Complete(p, r1, Owe(p, m), m);
    Settle(p, r, e, m);
    assert m !in s.generated by { Unpack(p, s, NoExtra(p)); }
  }

  /** A job that never reports success, whatever the shared state. */
  ghost predicate NeverSucceeds<W(!new)>(work: (string, W) -> (Result<TaskResult>, W)) {
    forall m, w :: !Outcome(work(m, w).0).0
  }

  /** `for t in done`: handles each finished task, in any order. */
  method FinishAll<W(!new)>(p: Plan, s: State<W>, done: set<string>, work: (string, W) -> (Result<TaskResult>, W))
    returns (r: State<W>)
    requires WellFormed(p) && Inv(p, s, NoExtra(p)) && done <= s.inFlight
    ensures Inv(p, r, NoExtra(p))
    ensures r.inFlight == s.inFlight - done && s.completed + done <= r.completed
    ensures NeverSucceeds(work) ==> r.generated == s.generated
  {
    r := s;
    var todo := done;
    while todo != {}
      invariant Inv(p, r, NoExtra(p)) && todo <= done && todo <= r.inFlight
      invariant r.inFlight == s.inFlight - (done - todo) && s.completed + (done - todo) <= r.completed
      invariant NeverSucceeds(work) ==> r.generated == s.generated
      decreases |todo|
    {
      var m :| m in todo;
      r := Finish(p, r, m, work);
      todo := todo - {m};
    }
  }

  /** `while ready and len(in_flight) < jobs`: pops the best ready module
      and creates its task. */
  method DispatchAll<W>(p: Plan, s: State<W>) returns (r: State<W>)
    requires WellFormed(p) && Inv(p, s, NoExtra(p))
    ensures Inv(p, r, NoExtra(p))
    ensures r.ready == {} || |r.inFlight| >= p.jobs
    ensures r.completed == s.completed && s.inFlight <= r.inFlight && r.generated == s.generated
  {
    r := s;
    while r.ready != {} && |r.inFlight| < p.jobs
      invariant Inv(p, r, NoExtra(p)) && r.completed == s.completed && s.inFlight <= r.inFlight
      invariant r.generated == s.generated
      decreases |r.ready|
    {
      var m := PopNext(p.prio, r.ready);
      DispatchOnePreserves(p, r, m);
      r := DispatchOne(r, m);
      assert |r.ready| < |r.ready + {m}|;
    }
  }

  /** With nothing ready or running, a module whose dependencies come
      before it in `order` cannot be left unfinished: its count would be
      zero, so it would be ready. */
  lemma {:induction false} FinishedBelow<W>(p: Plan, s: State<W>, order: seq<string>, i: nat)
    requires Counts(p, s, NoExtra(p)) && s.ready == {} && s.inFlight == {}
    requires WellFormed(p) && DepsFirst(p.deps, order) && i <= |order|
    ensures forall j :: 0 <= j < i && order[j] in p.stale ==> order[j] in s.completed
  {
    if i > 0 {
      FinishedBelow(p, s, order, i - 1);
      var x := order[i - 1];
      if x in p.stale {
        forall d | d in p.deps[x] ensures d in s.completed {
          assert d in Succ(p.deps, order[i - 1]);
          var j :| 0 <= j < i - 1 && order[..i - 1][j] == d;
          assert order[j] == d;
        }
        NotStuck(p, s, x);
      }
    }
  }

  /** A module whose dependencies are all finished is finished too when
      nothing is ready or running. */
  lemma NotStuck<W>(p: Plan, s: State<W>, x: string)
    requires Counts(p, s, NoExtra(p)) && s.ready == {} && s.inFlight == {}
    requires x in p.deps && p.deps[x] <= s.completed
    ensures x in s.completed
  {
    assert x !in s.completed ==> CountOk(p, s, NoExtra(p), x);
  }

  /** The loop cannot stop early: when nothing is ready or running, every
      stale module is finished. */
  lemma NoDeadlock<W>(p: Plan, s: State<W>, order: seq<string>)
    requires WellFormed(p) && Inv(p, s, NoExtra(p)) && s.ready == {} && s.inFlight == {}
    requires DepsFirst(p.deps, order) && p.stale <= set x | x in order
    ensures s.completed == p.stale
  {
    Unpack(p, s, NoExtra(p));
    FinishedBelow(p, s, order, |order|);
    forall x | x in p.stale ensures x in s.completed {
      assert x in order;
      var j :| 0 <= j < |order| && order[j] == x;
    }
  }

  /** `while ready or in_flight`. `order` is any arrangement of the stale
      modules with dependencies first, which exists because the graph was
      checked for cycles; `pick` stands for `asyncio.wait`, handing back a
      non-empty set of finished tasks. On return every stale module is
      completed: generated, or failed with its own errors or with one
      "Dependency failed" line per failed dependency. */
  method Schedule<W(!new)>(p: Plan, ghost order: seq<string>, w0: W,
                     work: (string, W) -> (Result<TaskResult>, W),
                     pick: (set<string>, seq<Event>) -> set<string>)
    returns (r: State<W>)
    requires WellFormed(p) && DepsFirst(p.deps, order) && p.stale <= set x | x in order
    ensures r.completed == p.stale && r.ready == {} && r.inFlight == {}
    ensures r.generated !! r.failed.Keys && r.generated + r.failed.Keys == p.stale
    ensures forall x :: x in r.generated ==> p.deps[x] <= r.generated
    ensures forall x :: x in r.failed ==> r.failed[x] != []
    ensures forall x :: x in r.failed && p.deps[x] * r.failed.Keys != {} ==>
      r.failed[x] == DependencyFailures(p.deps[x] * r.failed.Keys)
    ensures forall x :: x in p.stale ==> (x in DispatchedIn(r.events) <==> p.deps[x] <= r.generated)
    ensures AdvancedIn(r.events) == p.stale && AdvancedOkIn(r.events) == r.generated
    ensures DispatchOrder(p, r.events) && PriorityOrder(p.prio, r.events)
    ensures NeverSucceeds(work) ==> r.generated == {}
  {
    r := Init(p, w0);
    var running := true;
    while running
      invariant Inv(p, r, NoExtra(p))
      invariant NeverSucceeds(work) ==> r.generated == {}
      invariant !running ==> r.ready == {} && r.inFlight == {}
      decreases |p.stale - r.completed|, if running then 1 else 0
    {
      ghost var before := r.completed;
      r, running := Round(p, r, work, pick);
      if running {
        DiffShrinksSome(p.stale, before, r.completed);
      } else {
        DiffMono(p.stale, before, r.completed);
      }
    }
    NoDeadlock(p, r, order);
    Concluded(p, r);
  }

  /** One pass of `while ready or in_flight`: dispatch, then handle what
      `asyncio.wait` returns. `running` is false when nothing was left to
      run. */
  method Round<W(!new)>(p: Plan, s: State<W>, work: (string, W) -> (Result<TaskResult>, W),
                  pick: (set<string>, seq<Event>) -> set<string>)
    returns (r: State<W>, running: bool)
    requires WellFormed(p) && Inv(p, s, NoExtra(p))
    ensures Inv(p, r, NoExtra(p)) && s.completed <= r.completed
    ensures running ==> exists y :: y in r.completed && y !in s.completed && y in p.stale
    ensures !running ==> r.ready == {} && r.inFlight == {}
    ensures NeverSucceeds(work) ==> r.generated == s.generated
  {
    r := DispatchAll(p, s);
    if r.inFlight == {} {
      running := false;
      return;
    }
    var chosen := pick(r.inFlight, r.events);
    var done := if chosen != {} && chosen <= r.inFlight then chosen else {Any(r.inFlight)};
    var y :| y in done;
    InFlightOpen(p, r);
    var r2 := FinishAll(p, r, done, work);
    assert y in r2.completed && y !in s.completed && y in p.stale;
    r, running := r2, true;
  }

  /** Tasks in flight are stale modules not yet finished. */
  lemma InFlightOpen<W>(p: Plan, s: State<W>)
    requires Inv(p, s, NoExtra(p))
    ensures s.inFlight !! s.completed && s.inFlight <= p.stale
  {
    Unpack(p, s, NoExtra(p));
  }

  lemma DiffShrinksSome(stale: set<string>, a: set<string>, b: set<string>)
    requires a <= b && exists y :: y in b && y !in a && y in stale
    ensures |stale - b| < |stale - a|
  {
    var y :| y in b && y !in a && y in stale;
    DiffShrinks(stale, a, b, y);
  }

  /** What the invariant says about the final state. */
  lemma Concluded<W>(p: Plan, r: State<W>)
    requires WellFormed(p) && Inv(p, r, NoExtra(p)) && r.completed == p.stale
    ensures r.generated !! r.failed.Keys && r.generated + r.failed.Keys == p.stale
    ensures forall x :: x in r.generated ==> p.deps[x] <= r.generated
    ensures forall x :: x in r.failed ==> r.failed[x] != []
    ensures forall x :: x in r.failed && p.deps[x] * r.failed.Keys != {} ==>
      r.failed[x] == DependencyFailures(p.deps[x] * r.failed.Keys)
    ensures forall x :: x in p.stale ==> (x in DispatchedIn(r.events) <==> p.deps[x] <= r.generated)
    ensures AdvancedIn(r.events) == p.stale && AdvancedOkIn(r.events) == r.generated
    ensures DispatchOrder(p, r.events) && PriorityOrder(p.prio, r.events)
  {
    Unpack(p, r, NoExtra(p));
  }

  /** Some member of a non-empty set. */
  function Any(xs: set<string>): (x: string)
    requires xs != {}
    ensures x in xs
  {
    SortSet(xs)[0]
  }
}

=== FILE: shared.dfy ===
/** The text helpers the generation backends share (jaunt/generate/shared.py):
    template rendering, removing a Markdown code fence around generated
    code, and the key/value blocks of the prompts. */
module Shared {
  import opened Wrappers
  import opened Text

  // ---------------------------------------------------------------------
  // render_template

  /** The placeholder `{{key}}`. */
  function Placeholder(key: string): (r: string)
    ensures |r| == |key| + 4
  {
    "{{" + key + "}}"
  }

  /** `render_template(text, mapping)`: for each entry in mapping order,
      every placeholder of its key is replaced by its value. A text holding
      none of the mapping's placeholders renders to itself: placeholders of
      other names stay as they are. */
  function RenderTemplate(text: string, mapping: seq<(string, string)>): (r: string)
    ensures (forall i :: 0 <= i < |mapping| ==> !IsInfix(Placeholder(mapping[i].0), text)) ==> r == text
    decreases |mapping|
  {
    if mapping == [] then text
    else
      var x := Replace(text, Placeholder(mapping[0].0), mapping[0].1);
      UntouchedStep(text, mapping);
      RenderTemplate(x, mapping[1..])
  }

  /** One step of rendering a text without the mapping's placeholders: the
      first entry changes nothing and the rest still find none. */
  lemma UntouchedStep(text: string, mapping: seq<(string, string)>)
    requires mapping != []
    ensures (forall i :: 0 <= i < |mapping| ==> !IsInfix(Placeholder(mapping[i].0), text)) ==>
      && Replace(text, Placeholder(mapping[0].0), mapping[0].1) == text
      && (forall i :: 0 <= i < |mapping[1..]| ==> !IsInfix(Placeholder(mapping[1..][i].0), text))
  {
    if forall i :: 0 <= i < |mapping| ==> !IsInfix(Placeholder(mapping[i].0), text) {
      ReplaceAbsent(text, Placeholder(mapping[0].0), mapping[0].1);
      assert forall i :: 0 <= i < |mapping[1..]| ==> mapping[1..][i] == mapping[i + 1];
    }
  }

  /** Rendering with two mappings one after the other is rendering with
      their concatenation: the entries act in order. */
  lemma {:induction false} RenderInOrder(text: string, m1: seq<(string, string)>, m2: seq<(string, string)>)
    ensures RenderTemplate(text, m1 + m2) == RenderTemplate(RenderTemplate(text, m1), m2)
    decreases |m1|
  {
    if m1 != [] {
      var x := Replace(text, Placeholder(m1[0].0), m1[0].1);
      assert (m1 + m2)[0] == m1[0] && (m1 + m2)[1..] == m1[1..] + m2;
      assert RenderTemplate(text, m1 + m2) == RenderTemplate(x, m1[1..] + m2);
      assert RenderTemplate(text, m1) == RenderTemplate(x, m1[1..]);
      RenderInOrder(x, m1[1..], m2);
    } else {
      assert m1 + m2 == m2;
    }
  }

  /** An occurrence in the tail is an occurrence one place further on. */
  lemma SliceAtTail(s: string, i: nat, pat: string)
    requires |s| > 0
    ensures SliceAt(s[1..], i, pat) <==> SliceAt(s, i + 1, pat)
  {
    if 0 <= i <= |s| - 1 - |pat| {
      assert s[1..][i..i + |pat|] == s[i + 1..i + 1 + |pat|];
    }
  }

  /** `str.replace` copies the text before the first occurrence unchanged. */
  lemma {:induction false} ReplaceScan(s: string, k: nat, pat: string, rep: string)
    requires |pat| > 0 && k <= |s|
    requires forall i :: 0 <= i < k ==> !SliceAt(s, i, pat)
    ensures Replace(s, pat, rep) == s[..k] + Replace(s[k..], pat, rep)
    decreases k
  {
    if k > 0 && |s| >= |pat| {
      assert s[0..0 + |pat|] == s[..|pat|];
      forall i | 0 <= i < k - 1 ensures !SliceAt(s[1..], i, pat) {
        SliceAtTail(s, i, pat);
      }
      assert !SliceAt(s, 0, pat);
      assert Replace(s, pat, rep) == [s[0]] + Replace(s[1..], pat, rep);
      ReplaceScan(s[1..], k - 1, pat, rep);
      assert s[1..][k - 1..] == s[k..];
      assert [s[0]] + s[1..][..k - 1] == s[..k];
    } else if k > 0 {
      ReplaceShort(s[k..], pat, rep);
      assert s[..k] + s[k..] == s;
    }
  }

  lemma ReplaceShort(s: string, pat: string, rep: string)
    requires 0 < |pat| && |s| < |pat|
    ensures Replace(s, pat, rep) == s
  {
  }

  /** `str.replace` copies the text up to the first occurrence, puts the
      replacement there, and carries on after the occurrence. */
  lemma ReplaceAtFirst(a: string, pat: string, b: string, rep: string)
    requires |pat| > 0
    requires forall i :: 0 <= i < |a| ==> !SliceAt(a + pat + b, i, pat)
    ensures Replace(a + pat + b, pat, rep) == a + rep + Replace(b, pat, rep)
  {
    var s := a + pat + b;
    ReplaceScan(s, |a|, pat, rep);
    var t := s[|a|..];
    assert s[..|a|] == a && t == pat + b;
    assert t[..|pat|] == pat && t[|pat|..] == b;
  }

  /** Replacing a pattern by itself changes nothing. */
  lemma {:induction false} ReplaceSelf(s: string, pat: string)
    requires |pat| > 0
    ensures Replace(s, pat, pat) == s
    decreases |s|
  {
    if |s| >= |pat| {
      if s[..|pat|] == pat {
        ReplaceSelf(s[|pat|..], pat);
        assert s == s[..|pat|] + s[|pat|..];
      } else {
        ReplaceSelf(s[1..], pat);
        assert s == [s[0]] + s[1..];
      }
    }
  }

  /** One entry on a text whose first placeholder of the key is preceded by
      `a`: the value takes the placeholder's place. */
  lemma RenderOne(a: string, key: string, b: string, value: string)
    requires forall i :: 0 <= i < |a| ==> !SliceAt(a + Placeholder(key) + b, i, Placeholder(key))
    ensures RenderTemplate(a + Placeholder(key) + b, [(key, value)])
         == a + value + Replace(b, Placeholder(key), value)
  {
    ReplaceAtFirst(a, Placeholder(key), b, value);
  }

  // ---------------------------------------------------------------------
  // strip_markdown_fences

  const Fence: string := "```"

  /** `[a-zA-Z0-9_-]`: the characters of the fence's language tag. */
  predicate IsTagChar(c: char) {
    IsAsciiLetter(c) || IsAsciiDigit(c) || c == '_' || c == '-'
  }

  /** The first index at or after `k` whose character fails `p` (its
      properties are `SkipWhileSpec`). */
  function SkipWhile(t: string, k: nat, p: char -> bool): (r: nat)
    requires k <= |t|
    ensures k <= r <= |t|
    decreases |t| - k
  {
    if k < |t| && p(t[k]) then SkipWhile(t, k + 1, p) else k
  }

  lemma {:induction false} SkipWhileSpec(t: string, k: nat, p: char -> bool)
    requires k <= |t|
    ensures var r := SkipWhile(t, k, p);
      (forall i :: k <= i < r ==> p(t[i])) && (r == |t| || !p(t[r]))
    decreases |t| - k
  {
    if k < |t| && p(t[k]) {
      SkipWhileSpec(t, k + 1, p);
    }
  }

  /** The run of `p` from `k` ends exactly where it first fails. */
  lemma SkipWhileIs(t: string, k: nat, p: char -> bool, r: nat)
    requires k <= r <= |t|
    requires forall i :: k <= i < r ==> p(t[i])
    requires r == |t| || !p(t[r])
    ensures SkipWhile(t, k, p) == r
  {
    SkipWhileSpec(t, k, p);
  }

  /** The largest index in `[lo, hi)` that satisfies `p` (its properties are
      `LastWhereSpec`). */
  function LastWhere(lo: int, hi: int, p: int -> bool): (r: Option<int>)
    ensures r.Some? ==> lo <= r.value < hi
    decreases hi - lo
  {
    if hi <= lo then None
    else if p(hi - 1) then Some(hi - 1)
    else LastWhere(lo, hi - 1, p)
  }

  lemma {:induction false} LastWhereSpec(lo: int, hi: int, p: int -> bool)
    ensures var r := LastWhere(lo, hi, p);
      (r.Some? ==> p(r.value) && forall k :: r.value < k < hi ==> !p(k))
      && (forall k :: lo <= k < hi && p(k) ==> r.Some? && r.value >= k)
    decreases hi - lo
  {
    if hi > lo && !p(hi - 1) {
      LastWhereSpec(lo, hi - 1, p);
    }
  }

  /** An index that satisfies `p` with none after it is the one found. */
  lemma LastWhereIs(lo: int, hi: int, p: int -> bool, x: int)
    requires lo <= x < hi && p(x)
    requires forall k :: x < k < hi ==> !p(k)
    ensures LastWhere(lo, hi, p) == Some(x)
  {
    LastWhereSpec(lo, hi, p);
  }

  /** A closing line of the fence starts at `j`: a line break, then only
      whitespace around the three backticks up to the end. */
  predicate ClosingAt(t: string, j: int) {
    0 <= j < |t| && t[j] == '\n' && Strip(t[j + 1..]) == Fence
  }

  predicate NewlineAt(t: string, i: int) {
    0 <= i < |t| && t[i] == '\n'
  }

  function Min(x: int, y: int): int {
    if x < y then x else y
  }

  /** Where the opening fence and its tag end, when the text opens with a
      fence after whitespace of the class `ws`. */
  function OpenedAt(t: string, ws: char -> bool): (r: Option<nat>)
    ensures r.Some? ==> r.value <= |t|
  {
    var a := SkipWhile(t, 0, ws);
    if a + 3 <= |t| && t[a..a + 3] == Fence then Some(SkipWhile(t, a + 3, IsTagChar))
    else None
  }

  function NewlineIn(t: string): int -> bool {
    i => NewlineAt(t, i)
  }

  function ClosingIn(t: string): int -> bool {
    j => ClosingAt(t, j)
  }

  /** The match, for a whitespace class `ws` and a test `closing` for where
      the closing line starts. */
  function FenceCodeWith(t: string, ws: char -> bool, closing: int -> bool): (r: Option<string>)
  {
    match OpenedAt(t, ws)
    case None => None
    case Some(b) => CodeFrom(t, ws, closing, b)
  }

  /** The code after an opening line that ends at `b`: up to the last
      closing line. */
  function CodeFrom(t: string, ws: char -> bool, closing: int -> bool, b: nat): Option<string>
    requires b <= |t|
  {
    match LastWhere(b + 1, |t|, closing)
    case None => None
    case Some(end) => CodeBetween(t, ws, b, end)
  }

  /** The code between the opening line ending at `b` and the closing line
      starting at `end`: it starts after the last line break of the
      whitespace run after the tag. */
  function CodeBetween(t: string, ws: char -> bool, b: nat, end: int): Option<string>
    requires b < end <= |t|
  {
    match LastWhere(b, Min(SkipWhile(t, b, ws), end), NewlineIn(t))
    case None => None
    case Some(i) => Some(t[i + 1..end])
  }

  lemma FenceCodeIs(t: string, ws: char -> bool, closing: int -> bool, b: nat, end: int, i: int)
    requires OpenedAt(t, ws) == Some(b)
    requires LastWhere(b + 1, |t|, closing) == Some(end)
    requires LastWhere(b, Min(SkipWhile(t, b, ws), end), NewlineIn(t)) == Some(i)
    ensures 0 <= i + 1 <= end <= |t|
    ensures FenceCodeWith(t, ws, closing) == Some(t[i + 1..end])
  {
    CodeBetweenIs(t, ws, b, end, i);
    CodeFromIs(t, ws, closing, b, end);
  }

  lemma CodeBetweenIs(t: string, ws: char -> bool, b: nat, end: int, i: int)
    requires b < end <= |t|
    requires LastWhere(b, Min(SkipWhile(t, b, ws), end), NewlineIn(t)) == Some(i)
    ensures 0 <= i + 1 <= end
    ensures CodeBetween(t, ws, b, end) == Some(t[i + 1..end])
  {
  }

  lemma CodeFromIs(t: string, ws: char -> bool, closing: int -> bool, b: nat, end: int)
    requires b <= |t|
    requires LastWhere(b + 1, |t|, closing) == Some(end)
    ensures b < end <= |t|
    ensures CodeFrom(t, ws, closing, b) == CodeBetween(t, ws, b, end)
  {
  }

  /** The `code` group of
      `^\s*```[a-zA-Z0-9_-]*\s*\n(?P<code>.*)\n\s*```\s*$` (dot matches line
      breaks), as the backtracking matcher finds it. Leading whitespace and
      the tag are taken whole (giving any back cannot help). The code ends
      at the last line break after which only the closing fence and
      whitespace follow (the greedy `.*`), and starts after the last line
      break of the whitespace run after the tag that still precedes that
      end (the greedy `\s*`, giving back one line break at a time). */
  function FenceCode(t: string): Option<string> {
    FenceCodeWith(t, IsSpace, ClosingIn(t))
  }

  /** `strip_markdown_fences(text)`: the stripped code of a fenced block, or
      the stripped text when it is not one. */
  function StripMarkdownFences(t: string): (r: string)
    ensures r == [] || (!IsSpace(r[0]) && !IsSpace(r[|r| - 1]))
    ensures FenceCode(t).None? ==> r == Strip(t)
  {
    match FenceCode(t)
    case None => Strip(t)
    case Some(code) => Strip(code)
  }

  predicate AllWith(s: string, p: char -> bool) {
    forall i :: 0 <= i < |s| ==> p(s[i])
  }

  /** The fenced text. */
  function Fenced(w1: string, tag: string, code: string, w2: string): string {
    w1 + Fence + tag + "\n" + code + "\n" + Fence + w2
  }

  /** The slices of the fenced text. */
  lemma FencedSlices(w1: string, tag: string, code: string, w2: string)
    ensures var t := Fenced(w1, tag, code, w2);
      var b := |w1| + 3 + |tag|;
      var end := b + 1 + |code|;
      |t| == end + 4 + |w2|
      && (forall i :: 0 <= i < |w1| ==> t[i] == w1[i])
      && t[|w1|..|w1| + 3] == Fence
      && (forall i :: |w1| + 3 <= i < b ==> t[i] == tag[i - |w1| - 3])
      && t[b] == '\n' && t[b + 1..end] == code && t[end] == '\n'
      && (forall i :: end < i < end + 4 ==> t[i] == '`')
      && t[..end] == w1 + Fence + tag + "\n" + code
  {
    var t := Fenced(w1, tag, code, w2);
    var pre := w1 + Fence + tag + "\n" + code;
    assert t == pre + "\n" + Fence + w2;
    assert t[..|pre|] == pre;
  }

  /** The opening fence: whitespace of the class `ws` up to `a`, the fence,
      and tag characters up to `b`, where a line break follows. */
  lemma OpenedAtIs(t: string, ws: char -> bool, a: nat, b: nat)
    requires !ws('`') && a + 3 <= b < |t| && t[b] == '\n'
    requires forall i :: 0 <= i < a ==> ws(t[i])
    requires t[a..a + 3] == Fence
    requires forall i :: a + 3 <= i < b ==> IsTagChar(t[i])
    ensures OpenedAt(t, ws) == Some(b)
  {
    assert t[a] == t[a..a + 3][0] == '`';
    SkipWhileIs(t, 0, ws, a);
    assert !IsTagChar('\n');
    SkipWhileIs(t, a + 3, IsTagChar, b);
  }

  /** Once the fence is open at `b` and the closing line is found at `end`,
      the code is the text before `end`, less a leading run of whitespace
      after `b`'s line break. */
  lemma CodeFound(t: string, ws: char -> bool, closing: int -> bool, b: nat, end: nat)
    requires ws('\n') && b < end < |t| && t[b] == '\n'
    requires OpenedAt(t, ws) == Some(b)
    requires closing(end) && forall k :: end < k ==> !closing(k)
    ensures var r := FenceCodeWith(t, ws, closing);
      r.Some? && |r.value| < end - b && r.value == t[end - |r.value|..end]
      && AllWith(t[b + 1..end - |r.value|], ws)
  {
    var c := SkipWhile(t, b, ws);
    SkipWhileSpec(t, b, ws);
    LastWhereIs(b + 1, |t|, closing, end);
    assert NewlineIn(t)(b);
    LastWhereSpec(b, Min(c, end), NewlineIn(t));
    var i := LastWhere(b, Min(c, end), NewlineIn(t)).value;
    FenceCodeIs(t, ws, closing, b, end, i);
    var gap := t[b + 1..i + 1];
    forall k | 0 <= k < |gap| ensures ws(gap[k]) {
      assert gap[k] == t[b + 1 + k];
    }
  }

  /** The fenced text opens at the line break after the tag. */
  lemma FencedOpens(w1: string, tag: string, code: string, w2: string, ws: char -> bool)
    requires AllWith(w1, ws) && AllWith(tag, IsTagChar) && !ws('`')
    ensures OpenedAt(Fenced(w1, tag, code, w2), ws) == Some(|w1| + 3 + |tag|)
  {
    var t := Fenced(w1, tag, code, w2);
    FencedSlices(w1, tag, code, w2);
    OpenedAtIs(t, ws, |w1|, |w1| + 3 + |tag|);
  }

  /** The match on a fenced text, for any whitespace class that holds line
      breaks and not backticks, and any closing test that holds at the
      written closing line and nowhere after it: the code is the written
      code less some leading whitespace. */
  lemma FenceFoundWith(w1: string, tag: string, code: string, w2: string,
                       ws: char -> bool, closing: int -> bool)
    requires AllWith(w1, ws) && AllWith(tag, IsTagChar) && ws('\n') && !ws('`')
    requires var end := |w1| + 4 + |tag| + |code|;
      closing(end) && forall k :: end < k ==> !closing(k)
    ensures var r := FenceCodeWith(Fenced(w1, tag, code, w2), ws, closing);
      r.Some? && |r.value| <= |code| && code[|code| - |r.value|..] == r.value
      && AllWith(code[..|code| - |r.value|], ws)
  {
    var t := Fenced(w1, tag, code, w2);
    var b := |w1| + 3 + |tag|;
    var end := b + 1 + |code|;
    FencedCode(w1, tag, code, w2);
    FencedOpens(w1, tag, code, w2, ws);
    CodeFound(t, ws, closing, b, end);
    var r := FenceCodeWith(t, ws, closing).value;
    SliceParts(t, b + 1, end, |code| - |r|);
  }

  /** The code sits between the line break after the tag and the one before
      the closing fence. */
  lemma FencedCode(w1: string, tag: string, code: string, w2: string)
    ensures var t := Fenced(w1, tag, code, w2);
      var b := |w1| + 3 + |tag|;
      b + 1 + |code| < |t| && t[b] == '\n' && t[b + 1..b + 1 + |code|] == code
  {
    FencedSlices(w1, tag, code, w2);
  }

  lemma SliceParts<T>(t: seq<T>, lo: nat, hi: nat, x: nat)
    requires lo + x <= hi <= |t|
    ensures t[lo..hi][x..] == t[lo + x..hi] && t[lo..hi][..x] == t[lo..lo + x]
  {
  }

  lemma SubSlice<T>(t: seq<T>, lo: nat, hi: nat, x: nat)
    requires lo + x <= hi <= |t|
    ensures t[lo..hi][x..] == t[lo + x..hi]
    ensures forall k :: 0 <= k < x ==> t[lo..hi][k] == t[lo + k]
  {
  }

  lemma SplitAt<T>(s: seq<T>, n: nat)
    requires n <= |s|
    ensures s[..n] + s[n..] == s
  {
  }

  /** The closing line written at the end of the text is the last one. */
  lemma ClosingOnlyAtEnd(pre: string, w2: string)
    requires AllWith(w2, IsSpace)
    ensures var t := pre + "\n" + Fence + w2;
      ClosingIn(t)(|pre|) && forall k :: |pre| < k ==> !ClosingIn(t)(k)
  {
    var t := pre + "\n" + Fence + w2;
    assert t[|pre|] == '\n';
    assert t[|pre| + 1..] == Fence + w2;
    ClosingStrips(w2);
    forall k | |pre| < k ensures !ClosingIn(t)(k) {
      NotClosingAfter(pre, w2, k);
    }
  }

  lemma NotClosingAfter(pre: string, w2: string, k: int)
    requires AllWith(w2, IsSpace) && |pre| < k
    ensures !ClosingIn(pre + "\n" + Fence + w2)(k)
  {
    var t := pre + "\n" + Fence + w2;
    if k < |pre| + 4 {
      assert t[k] == Fence[k - |pre| - 1];
    } else if k < |t| {
      var rest := t[k + 1..];
      assert rest == w2[k + 1 - |pre| - 4..];
      assert AllWith(rest, IsSpace);
      StripAllSpace(rest);
    }
  }

  lemma FenceNotSpace()
    ensures !IsSpace('`') && !IsTagChar('`') && IsSpace('\n')
  {
    VisibleNotSpace('`');
  }

  /** Leading whitespace does not change the strip. */
  lemma {:induction false} StripAfterSpace(x: string, y: string)
    requires AllWith(x, IsSpace)
    ensures Strip(x + y) == Strip(y)
    decreases |x|
  {
    if x != [] {
      assert (x + y)[1..] == x[1..] + y;
      StripAfterSpace(x[1..], y);
    } else {
      assert x + y == y;
    }
  }

  /** Trailing whitespace does not change the right strip. */
  lemma {:induction false} RStripBeforeSpace(x: string, w: string)
    requires AllWith(w, IsSpace)
    ensures RStrip(x + w) == RStrip(x)
    decreases |w|
  {
    if w != [] {
      var w' := w[..|w| - 1];
      assert (x + w)[..|x + w| - 1] == x + w';
      RStripBeforeSpace(x, w');
    } else {
      assert x + w == x;
    }
  }

  /** Whitespace strips to nothing. */
  lemma StripAllSpace(s: string)
    requires AllWith(s, IsSpace)
    ensures Strip(s) == ""
  {
  }

  /** A closing fence with whitespace after it strips to the fence. */
  lemma ClosingStrips(w: string)
    requires AllWith(w, IsSpace)
    ensures Strip(Fence + w) == Fence
  {
    FenceNotSpace();
    RStripBeforeSpace(Fence, w);
    assert LStrip(Fence + w) == Fence + w;
    assert RStrip(Fence) == Fence;
  }

  /** A fenced block gives back its code, stripped: leading whitespace,
      any language tag and trailing whitespace around the fences are
      dropped. */
  lemma FenceRoundTrip(w1: string, tag: string, code: string, w2: string)
    requires AllWith(w1, IsSpace) && AllWith(tag, IsTagChar) && AllWith(w2, IsSpace)
    ensures StripMarkdownFences(Fenced(w1, tag, code, w2)) == Strip(code)
  {
    var t := Fenced(w1, tag, code, w2);
    ClosingInFenced(w1, tag, code, w2);
    FenceNotSpace();
    FenceFoundWith(w1, tag, code, w2, IsSpace, ClosingIn(t));
    var n := |code| - |FenceCode(t).value|;
    SplitAt(code, n);
    StripAfterSpace(code[..n], code[n..]);
  }

  lemma ClosingInFenced(w1: string, tag: string, code: string, w2: string)
    requires AllWith(w2, IsSpace)
    ensures var t := Fenced(w1, tag, code, w2);
      var end := |w1| + 4 + |tag| + |code|;
      ClosingIn(t)(end) && forall k :: end < k ==> !ClosingIn(t)(k)
  {
    var pre := w1 + Fence + tag + "\n" + code;
    ClosingOnlyAtEnd(pre, w2);
    ClosesOnlyAt(ClosingIn(pre + "\n" + Fence + w2), ClosingIn(Fenced(w1, tag, code, w2)),
      |pre|, |w1| + 4 + |tag| + |code|);
  }

  lemma ClosesOnlyAt(c: int -> bool, d: int -> bool, e: int, f: int)
    requires c == d && e == f
    requires c(e) && forall k :: e < k ==> !c(k)
    ensures d(f) && forall k :: f < k ==> !d(k)
  {
  }

  /** Text that does not begin with a fence (after whitespace) is only
      stripped. */
  lemma UnfencedStripped(t: string)
    requires !StartsWith(LStrip(t), Fence)
    ensures StripMarkdownFences(t) == Strip(t)
  {
    NotOpened(t);
    NotOpenedNoCode(t, IsSpace, ClosingIn(t));
  }

  lemma NotOpened(t: string)
    requires !StartsWith(LStrip(t), Fence)
    ensures OpenedAt(t, IsSpace) == None
  {
    var a := SkipWhile(t, 0, IsSpace);
    SkipWhileSpec(t, 0, IsSpace);
    LStripAt(t, a);
    NotOpenedWith(t, IsSpace);
  }

  lemma NotOpenedWith(t: string, ws: char -> bool)
    requires !StartsWith(t[SkipWhile(t, 0, ws)..], Fence)
    ensures OpenedAt(t, ws) == None
  {
    var a := SkipWhile(t, 0, ws);
    if a + 3 <= |t| {
      assert t[a..][..3] == t[a..a + 3];
    }
  }

  lemma NotOpenedNoCode(t: string, ws: char -> bool, closing: int -> bool)
    requires OpenedAt(t, ws) == None
    ensures FenceCodeWith(t, ws, closing) == None
  {
  }

  /** The left strip starts where the whitespace ends. */
  lemma {:induction false} LStripAt(t: string, a: nat)
    requires a <= |t| && (forall i :: 0 <= i < a ==> IsSpace(t[i])) && (a == |t| || !IsSpace(t[a]))
    ensures LStrip(t) == t[a..]
    decreases a
  {
    if a > 0 {
      assert forall i :: 0 <= i < a - 1 ==> t[1..][i] == t[i + 1];
      LStripAt(t[1..], a - 1);
      assert t[1..][a - 1..] == t[a..];
    }
  }

  // ---------------------------------------------------------------------
  // fmt_kv_block

  const NoneBlock: string := "(none)"

  /** One entry: a `# key` line, then the value without trailing whitespace. */
  function Chunk(kv: (string, string)): string {
    "# " + kv.0 + "\n" + RStrip(kv.1) + "\n"
  }

  function Chunks(items: seq<(string, string)>): (r: seq<string>)
    ensures |r| == |items|
    ensures forall i :: 0 <= i < |items| ==> r[i] == Chunk(items[i])
  {
    seq(|items|, i requires 0 <= i < |items| => Chunk(items[i]))
  }

  /** `fmt_kv_block(items, empty=empty)`. */
  function FmtKvBlock(items: seq<(string, string)>, empty: string): (r: string)
    ensures items == [] ==> r == empty
    ensures items != [] ==> |r| >= 2 && r[|r| - 1] == '\n' && !IsSpace(r[|r| - 2])
  {
    if items == [] then empty
    else
      var body := RStrip(Join(Chunks(items), "\n"));
      JoinStartsWithFirst(Chunks(items), "\n");
      assert Join(Chunks(items), "\n")[0] == '#';
      VisibleNotSpace('#');
      assert RStrip(Join(Chunks(items), "\n")) != [];
      body + "\n"
  }

  /** The last chunk loses only its final line break when its value has
      visible content. */
  lemma LastChunkTrimmed(kv: (string, string))
    requires RStrip(kv.1) != ""
    ensures RStrip(Chunk(kv)) == "# " + kv.0 + "\n" + RStrip(kv.1)
  {
    var x := "# " + kv.0 + "\n" + RStrip(kv.1);
    assert Chunk(kv) == x + "\n";
    RStripIdempotent(kv.1);
    assert RStrip(x) == x by {
      assert x[|x| - 1] == RStrip(kv.1)[|RStrip(kv.1)| - 1];
    }
  }

  /** The block is every chunk joined by blank-line separators, with only
      the last chunk's trailing whitespace removed, and one final line
      break. */
  lemma KvBlockShape(items: seq<(string, string)>, empty: string)
    requires |items| >= 2
    ensures var cs := Chunks(items);
      FmtKvBlock(items, empty)
        == Join(cs[..|cs| - 1], "\n") + "\n" + RStrip(cs[|cs| - 1]) + "\n"
  {
    var cs := Chunks(items);
    var init := cs[..|cs| - 1];
    var last := cs[|cs| - 1];
    assert cs == init + [last];
    JoinSnoc(init, last, "\n");
    assert last[0] == '#';
    VisibleNotSpace('#');
    assert RStrip(last) != "";
    RStripKeepsPrefix(Join(init, "\n") + "\n", last);
  }
}

=== FILE: skills_auto.dfy ===
/** Skill files for the third-party libraries a project imports
    (jaunt/skills_auto.py): where a skill file lives, the header line that
    marks a generated file, the decision to (re)generate one, and the block
    of skill text handed to the code generator. Reading and writing files,
    the README fetch and the skill generator are oracle parameters. */
module SkillsAuto {
  import opened Wrappers
  import opened Text
  import opened Sorting
  import opened Strings
  import opened Paths
  import opened ExternalImports

  // ---------------------------------------------------------------------------
  // Paths
  // ---------------------------------------------------------------------------

  /** `skill_md_path`: `<root>/.agents/skills/<normalised dist>/SKILL.md`.
      A path is its list of components; an empty component vanishes. */
  function SkillMdPath(root: seq<string>, dist: string): (p: seq<string>)
    ensures |p| > |root| && p[..|root|] == root && p[|p| - 1] == "SKILL.md"
  {
    root + SkillTail(Normalize(dist))
  }

  /** Two distributions share a skill file exactly when their normalised
      names agree. */
  lemma SkillPathsAgree(root: seq<string>, a: string, b: string)
    ensures SkillMdPath(root, a) == SkillMdPath(root, b) <==> Normalize(a) == Normalize(b)
  {
    var ta := SkillTail(Normalize(a));
    var tb := SkillTail(Normalize(b));
    if SkillMdPath(root, a) == SkillMdPath(root, b) {
      assert ta == SkillMdPath(root, a)[|root|..];
      assert tb == SkillMdPath(root, b)[|root|..];
      TailsAgree(Normalize(a), Normalize(b));
    }
  }

  lemma TailsAgree(x: string, y: string)
    requires SkillTail(x) == SkillTail(y)
    ensures x == y
  {
    if x != "" && y != "" {
      assert SkillTail(x)[2] == x;
    }
  }

  /** The components after the root. */
  function SkillTail(n: string): (r: seq<string>)
    ensures r == MkPath([".agents", "skills", n, "SKILL.md"])
  {
    MkPathConcat([".agents", "skills"], [n, "SKILL.md"]);
    MkPathConcat([n], ["SKILL.md"]);
    MkPathKeeps([".agents", "skills"]);
    MkPathKeeps(["SKILL.md"]);
    assert [".agents", "skills"] + [n, "SKILL.md"] == [".agents", "skills", n, "SKILL.md"];
    assert [n] + ["SKILL.md"] == [n, "SKILL.md"];
    [".agents", "skills"] + (if n == "" then [] else [n]) + ["SKILL.md"]
  }

  // ---------------------------------------------------------------------------
  // The header of a generated skill file
  // ---------------------------------------------------------------------------

  /** The text after the comment opener in `_HEADER_PREFIX`. */
  const Marker: string := "jaunt:skill=pypi"

  /** The fields of a header, blank-separated:
      `jaunt:skill=pypi dist=D version=V`. */
  function FieldsText(dist: string, version: string): string {
    Join([Marker, "dist=" + dist, "version=" + version], " ")
  }

  /** The header line `_format_generated_skill_file` writes,
      `<!-- jaunt:skill=pypi dist=D version=V -->`: the fields between the
      comment markers, one blank on each side. */
  function HeaderLine(dist: string, version: string): string {
    "<!--" + " " + FieldsText(dist, version) + " " + "-->"
  }

  /** `_format_generated_skill_file`: the header, a newline, the stripped
      body and a final newline. */
  function FormatSkillFile(dist: string, version: string, body: string): (r: string)
    ensures var h := HeaderLine(dist, version);
      |r| >= |h| + 2 && r[..|h| + 1] == h + "\n" && r[|r| - 1] == '\n'
    ensures var h := HeaderLine(dist, version); var b := r[|h| + 1..|r| - 1];
      (b == [] || (!IsSpace(b[0]) && !IsSpace(b[|b| - 1]))) && IsInfix(b, body)
  {
    BodyBetweenNewlines(HeaderLine(dist, version), Strip(body));
    HeaderLine(dist, version) + "\n" + Strip(body) + "\n"
  }

  /** A line, a newline, a body and a final newline: the body sits between
      the two newlines. */
  lemma BodyBetweenNewlines(h: string, b: string)
    ensures var r := h + "\n" + b + "\n";
      |r| >= |h| + 2 && r[..|h| + 1] == h + "\n" && r[|r| - 1] == '\n' && r[|h| + 1..|r| - 1] == b
  {
    var r := h + "\n" + b + "\n";
    assert r[|h| + 1..|r| - 1] == b;
  }

  /** `line[len("<!--"):-len("-->")]`: empty when the two markers overlap. */
  function InnerOf(line: string): string {
    if |line| >= 7 then line[4..|line| - 3] else ""
  }

  /** The `dist=` and `version=` fields among the words, the last of each
      kind winning. */
  function Fields(parts: seq<string>): (r: (Option<string>, Option<string>))
    decreases |parts|
  {
    if parts == [] then (None, None)
    else
      var (d, v) := Fields(parts[..|parts| - 1]);
      var p := parts[|parts| - 1];
      if StartsWith(p, "dist=") then (Some(p[5..]), v)
      else if StartsWith(p, "version=") then (d, Some(p[8..]))
      else (d, v)
  }

  /** The words after the first one (`inner.split()[1:]`). */
  function AfterFirst(ws: seq<string>): seq<string> {
    if ws == [] then [] else ws[1..]
  }

  /** The header fields once the comment markers are gone and the inner text
      is stripped. */
  function ParseInner(inner: string): (r: Option<(string, string)>)
    ensures r.Some? ==> StartsWith(inner, Marker) && r.value.0 != "" && r.value.1 != ""
  {
    if !StartsWith(inner, Marker) then None
    else
      var (d, v) := Fields(AfterFirst(SplitWs(inner)));
      if d.Some? && d.value != "" && v.Some? && v.value != "" then Some((d.value, v.value))
      else None
  }

  /** The header fields of a stripped line. */
  function ParseStrippedHeader(line: string): (r: Option<(string, string)>)
    ensures r.Some? ==> (StartsWith(line, "<!--") && EndsWith(line, "-->")
      && StartsWith(Strip(InnerOf(line)), Marker) && r.value.0 != "" && r.value.1 != "")
  {
    if !(StartsWith(line, "<!--") && EndsWith(line, "-->")) then None
    else ParseInner(Strip(InnerOf(line)))
  }

  /** `_parse_generated_header`: `(dist, version)` from a line
      `<!-- jaunt:skill=pypi dist=D version=V -->`, or nothing. */
  function ParseHeader(first: string): (r: Option<(string, string)>)
    ensures r.Some? ==> (StartsWith(Strip(first), "<!--") && EndsWith(Strip(first), "-->")
      && StartsWith(Strip(InnerOf(Strip(first))), Marker) && r.value.0 != "" && r.value.1 != "")
  {
    ParseStrippedHeader(Strip(first))
  }

  // --- the header round trip, in small steps ---

  /** A distribution or version that can be written into a header. */
  predicate Word(s: string) {
    s != "" && NoSpaceIn(s)
  }

  /** Text framed by an opener and a closer, each set off by one blank. */
  lemma Framed(p: string, f: string, e: string)
    ensures var h := p + " " + f + " " + e;
      |h| == |p| + |f| + |e| + 2 && h[..|p|] == p && h[|h| - |e|..] == e
      && h[|p|..|h| - |e|] == " " + f + " "
  {
    var h := p + " " + f + " " + e;
    assert h == p + (" " + f + " ") + e;
  }

  lemma InnerOfHeader(dist: string, version: string)
    ensures InnerOf(HeaderLine(dist, version)) == " " + FieldsText(dist, version) + " "
    ensures StartsWith(HeaderLine(dist, version), "<!--") && EndsWith(HeaderLine(dist, version), "-->")
  {
    Framed("<!--", FieldsText(dist, version), "-->");
  }

  /** The fields text starts and ends with non-blanks. */
  lemma FieldsTextEnds(dist: string, version: string)
    requires Word(version)
    ensures var f := FieldsText(dist, version); f != [] && !IsSpace(f[0]) && !IsSpace(f[|f| - 1])
  {
    var ws := [Marker, "dist=" + dist, "version=" + version];
    var f := FieldsText(dist, version);
    assert f == Marker + " " + Join(ws[1..], " ");
    assert f[0] == 'j';
    JoinEndsWithLast(ws, " ");
    assert f[|f| - 1] == version[|version| - 1];
  }

  /** One blank on each side of a text with non-blank ends strips away. */
  lemma StripPadded(f: string)
    requires f != [] && !IsSpace(f[0]) && !IsSpace(f[|f| - 1])
    ensures Strip(" " + f + " ") == f
  {
    var s := " " + f + " ";
    assert s[1..] == f + " ";
    assert LStrip(f + " ") == f + " ";
    assert LStrip(s) == f + " ";
    assert (f + " ")[..|f|] == f;
    assert RStrip(f) == f;
    assert RStrip(f + " ") == f;
  }

  /** The header line is its own strip. */
  lemma HeaderStripped(dist: string, version: string)
    ensures Strip(HeaderLine(dist, version)) == HeaderLine(dist, version)
  {
    var h := HeaderLine(dist, version);
    Framed("<!--", FieldsText(dist, version), "-->");
    assert h[0] == h[..4][0] == '<';
    assert h[|h| - 1] == h[|h| - 3..][2] == '>';
    StripFixed(h);
  }

  /** A word followed by a blank is split off first. */
  lemma SplitWsWord(w: string, rest: string)
    requires Word(w)
    ensures SplitWs(w + " " + rest) == [w] + SplitWs(rest)
  {
    var s := w + " " + rest;
    var n := WordLen(s);
    assert s[|w|] == ' ';
    assert forall k :: 0 <= k < |w| ==> s[k] == w[k];
    assert n == |w|;
    assert s[..n] == w;
    assert s[n..] == " " + rest;
    assert (" " + rest)[1..] == rest;
  }

  /** A single word splits into itself. */
  lemma SplitWsSingle(w: string)
    requires Word(w)
    ensures SplitWs(w) == [w]
  {
    assert WordLen(w) == |w|;
    assert w[..|w|] == w && w[|w|..] == "";
  }

  lemma PrefixedWord(p: string, w: string)
    requires p != "" && NoSpaceIn(p) && Word(w)
    ensures Word(p + w)
  {
  }

  /** Words joined by single blanks split back into those words. */
  lemma {:induction false} SplitWsJoin(ws: seq<string>)
    requires forall i :: 0 <= i < |ws| ==> Word(ws[i])
    ensures SplitWs(Join(ws, " ")) == ws
    decreases |ws|
  {
    if |ws| == 1 {
      SplitWsSingle(ws[0]);
    } else if |ws| > 1 {
      SplitWsJoin(ws[1..]);
      SplitWsWord(ws[0], Join(ws[1..], " "));
      assert ws == [ws[0]] + ws[1..];
    }
  }

  /** The fixed parts of a header contain no blanks. */
  lemma FieldNamesAreWords()
    ensures Word(Marker) && Word("dist=") && Word("version=")
  {
    VisibleWord(Marker);
    VisibleWord("dist=");
    VisibleWord("version=");
  }

  lemma VisibleWord(s: string)
    requires s != "" && forall i :: 0 <= i < |s| ==> '!' <= s[i] <= '~'
    ensures Word(s)
  {
    forall i | 0 <= i < |s| ensures !IsSpace(s[i]) {
      VisibleNotSpace(s[i]);
    }
  }

  /** The words of the fields text. */
  lemma FieldsWords(dist: string, version: string)
    requires Word(dist) && Word(version)
    ensures SplitWs(FieldsText(dist, version)) == [Marker, "dist=" + dist, "version=" + version]
  {
    FieldNamesAreWords();
    PrefixedWord("dist=", dist);
    PrefixedWord("version=", version);
    SplitWsJoin([Marker, "dist=" + dist, "version=" + version]);
  }

  /** Scanning the two fields finds both. */
  lemma FieldsOfPair(dist: string, version: string)
    ensures Fields(["dist=" + dist, "version=" + version]) == (Some(dist), Some(version))
  {
    var a := "dist=" + dist;
    var b := "version=" + version;
    assert [a, b][..1] == [a];
    var none: seq<string> := [];
    assert [a][..0] == none;
    assert StartsWith(a, "dist=") && a[5..] == dist;
    assert b[0] == 'v';
    assert !StartsWith(b, "dist=");
    assert StartsWith(b, "version=") && b[8..] == version;
  }

  /** The fields text of `(dist, version)` parses back to it. */
  lemma InnerRoundTrip(dist: string, version: string)
    requires Word(dist) && Word(version)
    ensures ParseInner(FieldsText(dist, version)) == Some((dist, version))
  {
    FieldsWords(dist, version);
    FieldsOfPair(dist, version);
    var ws := [Marker, "dist=" + dist, "version=" + version];
    assert FieldsText(dist, version) == Marker + " " + Join(ws[1..], " ");
    assert StartsWith(FieldsText(dist, version), Marker);
    assert AfterFirst(ws) == ["dist=" + dist, "version=" + version];
  }

  /** The header written for `(dist, version)` parses back to it. */
  lemma HeaderRoundTrip(dist: string, version: string)
    requires Word(dist) && Word(version)
    ensures ParseHeader(HeaderLine(dist, version)) == Some((dist, version))
  {
    var h := HeaderLine(dist, version);
    var f := FieldsText(dist, version);
    HeaderStripped(dist, version);
    assert ParseHeader(h) == ParseStrippedHeader(h);
    InnerOfHeader(dist, version);
    FieldsTextEnds(dist, version);
    StripPadded(f);
    assert Strip(InnerOf(h)) == f;
    InnerRoundTrip(dist, version);
  }

  // ---------------------------------------------------------------------------
  // Lines of a skill file
  // ---------------------------------------------------------------------------

  /** Text without line boundaries. */
  predicate NoLineBreak(s: string) {
    forall k :: 0 <= k < |s| ==> !IsLineBreak(s[k])
  }

  /** Text whose only line boundaries are `\n`. */
  predicate OnlyNewlines(s: string) {
    forall k :: 0 <= k < |s| ==> IsLineBreak(s[k]) ==> s[k] == '\n'
  }

  /** Every line boundary is whitespace. */
  lemma LineBreakIsSpace(c: char)
    requires IsLineBreak(c)
    ensures IsSpace(c)
  {
  }

  lemma WordNoLineBreak(w: string)
    requires Word(w)
    ensures NoLineBreak(w)
  {
    forall k | 0 <= k < |w| ensures !IsLineBreak(w[k]) {
      if IsLineBreak(w[k]) {
        LineBreakIsSpace(w[k]);
      }
    }
  }

  lemma NoLineBreakConcat(a: string, b: string)
    requires NoLineBreak(a) && NoLineBreak(b)
    ensures NoLineBreak(a + b)
  {
    assert forall k :: 0 <= k < |a| + |b| ==> (a + b)[k] == if k < |a| then a[k] else b[k - |a|];
  }

  /** A header line is a single line. */
  lemma HeaderNoLineBreak(dist: string, version: string)
    requires Word(dist) && Word(version)
    ensures NoLineBreak(HeaderLine(dist, version))
  {
    FieldNamesAreWords();
    PrefixedWord("dist=", dist);
    PrefixedWord("version=", version);
    VisibleWord("<!--");
    VisibleWord("-->");
    var a := "dist=" + dist;
    var b := "version=" + version;
    WordNoLineBreak(Marker);
    WordNoLineBreak(a);
    WordNoLineBreak(b);
    WordNoLineBreak("<!--");
    WordNoLineBreak("-->");
    assert NoLineBreak(" ");
    NoLineBreakConcat(a, " ");
    NoLineBreakConcat(a + " ", b);
    assert Join([a, b], " ") == a + " " + b;
    NoLineBreakConcat(Marker, " ");
    NoLineBreakConcat(Marker + " ", a + " " + b);
    var f := FieldsText(dist, version);
    assert f == Marker + " " + (a + " " + b);
    NoLineBreakConcat("<!--", " ");
    NoLineBreakConcat("<!--" + " ", f);
    NoLineBreakConcat("<!--" + " " + f, " ");
    NoLineBreakConcat("<!--" + " " + f + " ", "-->");
  }

  /** A first line followed by `\n` splits off first. */
  lemma SplitLinesHead(h: string, rest: string)
    requires NoLineBreak(h)
    ensures SplitLines(h + "\n" + rest) == [h] + SplitLines(rest)
  {
    var s := h + "\n" + rest;
    var i := FirstLineBreak(s);
    assert s[|h|] == '\n';
    assert forall k :: 0 <= k < |h| ==> s[k] == h[k];
    assert i == |h|;
    assert s[..i] == h;
    assert s[i + 1..] == rest;
  }

  /** `txt.splitlines()[0] if txt else ""`. */
  function FirstLine(txt: string): string {
    if txt == "" then "" else SplitLines(txt)[0]
  }

  /** Joining the lines of a text that ends in `\n` and has no other kind of
      line boundary gives the text without that last `\n`. */
  lemma {:induction false} JoinSplitLines(x: string)
    requires OnlyNewlines(x)
    ensures Join(SplitLines(x + "\n"), "\n") == x
    decreases |x|
  {
    var i := FirstLineBreak(x);
    var h := x[..i];
    assert NoLineBreak(h) by {
      forall k | 0 <= k < |h| ensures !IsLineBreak(h[k]) {
        assert h[k] == x[k];
      }
    }
    if i == |x| {
      assert h == x && x + "\n" == h + "\n" + "";
      SplitLinesHead(h, "");
    } else {
      var rest := x[i + 1..];
      assert x == h + "\n" + rest;
      assert x + "\n" == h + "\n" + (rest + "\n");
      SplitLinesHead(h, rest + "\n");
      assert OnlyNewlines(rest) by {
        forall k | 0 <= k < |rest| ensures IsLineBreak(rest[k]) ==> rest[k] == '\n' {
          assert rest[k] == x[i + 1 + k];
        }
      }
      JoinSplitLines(rest);
      assert SplitLines(rest + "\n") != [];
    }
  }

  /** `s.lstrip(c)`. */
  function LStripChar(s: string, c: char): (r: string)
    ensures r == [] || r[0] != c
    ensures |r| <= |s| && r == s[|s| - |r|..]
  {
    if s != [] && s[0] == c then LStripChar(s[1..], c) else s
  }

  /** The skill text of a file: everything after a generated header (leading
      blank lines dropped), or the whole file when it has no header; then
      stripped. */
  function BodyOf(txt: string): (r: string)
    ensures r == [] || (!IsSpace(r[0]) && !IsSpace(r[|r| - 1]))
    ensures SplitLines(txt) == [] || ParseHeader(SplitLines(txt)[0]).None? ==> r == Strip(txt)
  {
    var lines := SplitLines(txt);
    var body := if lines != [] && ParseHeader(lines[0]).Some? then LStripChar(Join(lines[1..], "\n"), '\n')
                else txt;
    Strip(body)
  }

  /** A header line, `\n`, a body and a final `\n` split into the header
      and the lines of the body. */
  lemma HeaderThenBody(h: string, b: string)
    requires NoLineBreak(h)
    ensures SplitLines(h + "\n" + b + "\n") == [h] + SplitLines(b + "\n")
  {
    assert h + "\n" + b + "\n" == h + "\n" + (b + "\n");
    SplitLinesHead(h, b + "\n");
  }

  /** The first line of a generated file is its header. */
  lemma FormattedLines(dist: string, version: string, body: string)
    requires Word(dist) && Word(version)
    ensures SplitLines(FormatSkillFile(dist, version, body))
      == [HeaderLine(dist, version)] + SplitLines(Strip(body) + "\n")
  {
    HeaderNoLineBreak(dist, version);
    HeaderThenBody(HeaderLine(dist, version), Strip(body));
  }

  /** Formatting a skill file and reading its first line gives the header
      fields back. */
  lemma FormatParseRoundTrip(dist: string, version: string, body: string)
    requires Word(dist) && Word(version)
    ensures ParseHeader(FirstLine(FormatSkillFile(dist, version, body))) == Some((dist, version))
  {
    FormattedLines(dist, version, body);
    HeaderRoundTrip(dist, version);
  }

  /** The skill text read back from a generated file is the stripped body
      it was written with, when that body uses `\n` line ends. */
  lemma BodyRoundTrip(dist: string, version: string, body: string)
    requires Word(dist) && Word(version) && OnlyNewlines(Strip(body))
    ensures BodyOf(FormatSkillFile(dist, version, body)) == Strip(body)
  {
    var b := Strip(body);
    FormattedLines(dist, version, body);
    HeaderRoundTrip(dist, version);
    var lines := SplitLines(FormatSkillFile(dist, version, body));
    assert lines[1..] == SplitLines(b + "\n");
    JoinSplitLines(b);
    assert b == [] || !IsSpace(b[0]);
    assert LStripChar(b, '\n') == b;
    StripIdempotent(body);
  }

  // ---------------------------------------------------------------------------
  // Which skill files to (re)generate
  // ---------------------------------------------------------------------------

  /** An existing skill file: readable text, or a read that raised. */
  datatype SkillFile = Unreadable(error: string) | Text(text: string)

  /** The files under the project root, by path. */
  type Files = map<seq<string>, SkillFile>

  function FileAt(files: Files, p: seq<string>): Option<SkillFile> {
    if p in files then Some(files[p]) else None
  }

  /** What phase 1 decides for one distribution. */
  datatype Decision = Generate | Leave | ReadFailed(warning: string)

  /** The phase 1 decision for `(dist, version)` given its skill file: a
      missing file is generated, an unreadable one warned about, a file
      without a generated header is the user's and left alone, and a
      generated one is regenerated when its stripped version differs. */
  function Decide(dist: string, version: string, file: Option<SkillFile>): (r: Decision)
    ensures file.None? ==> r == Generate
    ensures r.ReadFailed? <==> file.Some? && file.value.Unreadable?
    ensures file.Some? && file.value.Text? && ParseHeader(FirstLine(file.value.text)).None? ==> r == Leave
    ensures file.Some? && file.value.Text? && ParseHeader(FirstLine(file.value.text)).Some? ==>
      (r == Generate <==> Strip(ParseHeader(FirstLine(file.value.text)).value.1) != Strip(version))
  {
    match file
    case None => Generate
    case Some(Unreadable(e)) => ReadFailed("failed reading existing skill for " + dist + ": " + e)
    case Some(Text(t)) =>
      var header := ParseHeader(FirstLine(t));
      if header.None? then Leave
      else if Strip(header.value.1) != Strip(version) then Generate
      else Leave
  }

  /** A file generated for `version` is left alone while the version stays
      the same, and regenerated for any other version. */
  lemma WrittenFileIsCurrent(dist: string, version: string, body: string, other: string, wanted: string)
    requires Word(dist) && Word(version)
    ensures Decide(other, wanted, Some(Text(FormatSkillFile(dist, version, body)))) == Generate
      <==> Strip(version) != Strip(wanted)
  {
    var t := FormatSkillFile(dist, version, body);
    FormatParseRoundTrip(dist, version, body);
    assert ParseHeader(FirstLine(t)) == Some((dist, version));
  }

  /** Phase 1: the distributions to generate, in order, and the read
      failures. */
  function Plan(items: seq<(string, string)>, root: seq<string>, files: Files): (r: (seq<(string, string)>, seq<string>))
    ensures |r.0| + |r.1| <= |items|
    ensures forall x :: x in r.0 ==> x in items
    decreases |items|
  {
    if items == [] then ([], [])
    else
      var (todo, warnings) := Plan(items[..|items| - 1], root, files);
      var (d, v) := items[|items| - 1];
      match Decide(d, v, FileAt(files, SkillMdPath(root, d)))
      case Generate => (todo + [(d, v)], warnings)
      case Leave => (todo, warnings)
      case ReadFailed(w) => (todo, warnings + [w])
  }

  /** The decision for one distribution is `Generate`. */
  predicate ToGenerate(x: (string, string), root: seq<string>, files: Files) {
    Decide(x.0, x.1, FileAt(files, SkillMdPath(root, x.0))) == Generate
  }

  /** Exactly the items whose decision is `Generate` are planned. */
  lemma {:induction false} PlanExact(items: seq<(string, string)>, root: seq<string>, files: Files)
    ensures forall x :: x in Plan(items, root, files).0 <==> x in items && ToGenerate(x, root, files)
    decreases |items|
  {
    if items != [] {
      PlanExact(items[..|items| - 1], root, files);
      PlanStep(items, root, files);
      AppendMembers(Plan(items, root, files).0, Plan(items[..|items| - 1], root, files).0, items,
        x => ToGenerate(x, root, files));
    }
  }

  /** Filtering a sequence extended by one item keeps the members that pass the filter. */
  lemma AppendMembers<T>(p: seq<T>, q: seq<T>, items: seq<T>, g: T -> bool)
    requires items != []
    requires forall x :: x in q <==> x in items[..|items| - 1] && g(x)
    requires p == q + (if g(items[|items| - 1]) then [items[|items| - 1]] else [])
    ensures forall x :: x in p <==> x in items && g(x)
  {
    assert items == items[..|items| - 1] + [items[|items| - 1]];
  }

  /** One more item is planned exactly when its decision is `Generate`. */
  lemma PlanStep(items: seq<(string, string)>, root: seq<string>, files: Files)
    requires items != []
    ensures var x := items[|items| - 1];
      Plan(items, root, files).0 == Plan(items[..|items| - 1], root, files).0 +
        (if ToGenerate(x, root, files) then [x] else [])
  {
  }

  // ---------------------------------------------------------------------------
  // Generating and writing
  // ---------------------------------------------------------------------------

  /** What fetching the README and generating the skill gave: its markdown,
      or the warning for the first step that raised. */
  datatype Generated = Markdown(md: string) | GenFailed(warning: string)

  /** The outside code of phase 2: constructing the skill generator (the
      warning when that raised), fetching and generating one skill, and the
      atomic write (the warning when it raised; the file is then unchanged,
      since the write goes through a temporary file). */
  datatype SkillGen = SkillGen(
    init: Option<string>,
    produce: (string, string) -> Generated,
    write: (seq<string>, string) -> Option<string>)

  /** One phase 2 task: generate the skill for `(dist, version)` and write
      it to `path`, or record why not. */
  function GenerateOne(dist: string, version: string, path: seq<string>, files: Files, gen: SkillGen): (r: (Files, seq<string>))
    ensures r.0 == files || exists md :: r.0 == files[path := Text(FormatSkillFile(dist, version, md))]
    ensures |r.1| <= 1
  {
    match gen.produce(dist, version)
    case GenFailed(w) => (files, [w])
    case Markdown(md) =>
      var content := FormatSkillFile(dist, version, md);
      match gen.write(path, content)
      case Some(w) => (files, [w])
      case None => (files[path := Text(content)], [])
  }

  /** Phase 2 over the planned distributions. The source runs these jobs
      concurrently; they touch one file each and only append warnings. */
  function GenerateAll(todo: seq<(string, string)>, root: seq<string>, files: Files, gen: SkillGen): (r: (Files, seq<string>))
    ensures gen.init.Some? ==> r.0 == files && r.1 == [gen.init.value]
    ensures gen.init.None? ==> |r.1| <= |todo|
    ensures files.Keys <= r.0.Keys
    decreases |todo|
  {
    if gen.init.Some? then (files, [gen.init.value])
    else if todo == [] then (files, [])
    else
      var (fs, warnings) := GenerateAll(todo[..|todo| - 1], root, files, gen);
      var (d, v) := todo[|todo| - 1];
      var (fs', w) := GenerateOne(d, v, SkillMdPath(root, d), fs, gen);
      (fs', warnings + w)
  }

  /** A file phase 2 may have written: one formatted for a planned
      distribution, at that distribution's skill path. */
  ghost predicate WrittenFor(todo: seq<(string, string)>, root: seq<string>, p: seq<string>, f: SkillFile) {
    exists x, md :: x in todo && p == SkillMdPath(root, x.0) && f == Text(FormatSkillFile(x.0, x.1, md))
  }

  /** Phase 2 keeps every file, and any file it changes now holds a skill
      file formatted for a planned distribution, at that distribution's
      path. */
  lemma {:induction false} GenerateAllWrites(todo: seq<(string, string)>, root: seq<string>, files: Files, gen: SkillGen)
    ensures var fs := GenerateAll(todo, root, files, gen).0;
      forall p :: p in files ==> p in fs
    ensures var fs := GenerateAll(todo, root, files, gen).0;
      forall p :: p in fs ==> (p in files && fs[p] == files[p]) || WrittenFor(todo, root, p, fs[p])
    decreases |todo|
  {
    if gen.init.None? && todo != [] {
      var pre := todo[..|todo| - 1];
      GenerateAllWrites(pre, root, files, gen);
      var fs := GenerateAll(pre, root, files, gen).0;
      var (d, v) := todo[|todo| - 1];
      var path := SkillMdPath(root, d);
      var fs' := GenerateAll(todo, root, files, gen).0;
      assert fs' == GenerateOne(d, v, path, fs, gen).0;
      forall p | p in fs'
        ensures (p in files && fs'[p] == files[p]) || WrittenFor(todo, root, p, fs'[p])
      {
        if fs' != fs && p == path {
          var md :| fs' == fs[path := Text(FormatSkillFile(d, v, md))];
          assert todo[|todo| - 1] in todo;
          assert WrittenFor(todo, root, p, fs'[p]);
        } else {
          assert p in fs && fs'[p] == fs[p];
          if !(p in files && fs[p] == files[p]) {
            var x, md :| x in pre && p == SkillMdPath(root, x.0) && fs[p] == Text(FormatSkillFile(x.0, x.1, md));
            assert x in todo;
          }
        }
      }
    }
  }

  // ---------------------------------------------------------------------------
  // The skills block
  // ---------------------------------------------------------------------------

  /** `f"## {dist}=={version}\n{body}\n"`. */
  function Section(dist: string, version: string, body: string): string {
    "## " + dist + "==" + version + "\n" + body + "\n"
  }

  /** The block stage for one distribution: its section when its file
      exists, reads, and holds non-empty skill text; a warning when the read
      raises. */
  function SectionFor(dist: string, version: string, file: Option<SkillFile>): (r: (Option<string>, seq<string>))
    ensures r.0.Some? ==> file.Some? && file.value.Text? && BodyOf(file.value.text) != ""
    ensures |r.1| <= 1 && forall w :: w in r.1 ==> StartsWith(w, "failed reading skill for " + dist + ": ")
  {
    match file
    case None => (None, [])
    case Some(Unreadable(e)) => (None, ["failed reading skill for " + dist + ": " + e])
    case Some(Text(t)) =>
      var body := BodyOf(t);
      if body == "" then (None, []) else (Some(Section(dist, version, body)), [])
  }

  /** A generated file contributes a section holding exactly the body it was
      written with, under the current distribution and version. */
  lemma SectionOfGenerated(dist: string, version: string, body: string, d: string, v: string)
    requires Word(dist) && Word(version) && OnlyNewlines(Strip(body)) && Strip(body) != ""
    ensures SectionFor(d, v, Some(Text(FormatSkillFile(dist, version, body))))
      == (Some(Section(d, v, Strip(body))), [])
  {
    BodyRoundTrip(dist, version, body);
  }

  /** The block stage of every item, for any per-item step `f`: the
      sections in order, and the warnings. */
  function SectionsWith(items: seq<(string, string)>, f: ((string, string)) -> (Option<string>, seq<string>)): (r: (seq<string>, seq<string>))
    ensures |r.0| <= |items|
    ensures forall w :: w in r.1 ==> exists x :: x in items && w in f(x).1
    decreases |items|
  {
    if items == [] then ([], [])
    else
      var (sections, warnings) := SectionsWith(items[..|items| - 1], f);
      var (s, w) := f(items[|items| - 1]);
      ((if s.Some? then sections + [s.value] else sections), warnings + w)
  }

  /** The block stage's step: the section of a distribution's skill file. */
  function SectionAt(root: seq<string>, files: Files): ((string, string)) -> (Option<string>, seq<string>) {
    (x: (string, string)) => SectionFor(x.0, x.1, FileAt(files, SkillMdPath(root, x.0)))
  }

  /** The sections of the distributions in order, and the read failures. */
  function Sections(items: seq<(string, string)>, root: seq<string>, files: Files): (r: (seq<string>, seq<string>))
    ensures |r.0| <= |items|
    ensures forall w :: w in r.1 ==> exists x :: x in items && StartsWith(w, "failed reading skill for " + x.0 + ": ")
  {
    SectionsWith(items, SectionAt(root, files))
  }

  /** Sections follow the order of the items: those of a concatenation are
      the sections of each part, in turn. */
  lemma {:induction false} SectionsConcat(a: seq<(string, string)>, b: seq<(string, string)>, f: ((string, string)) -> (Option<string>, seq<string>))
    ensures SectionsWith(a + b, f).0 == SectionsWith(a, f).0 + SectionsWith(b, f).0
    decreases |b|
  {
    if b == [] {
      assert a + b == a;
    } else {
      var pre := b[..|b| - 1];
      SectionsConcat(a, pre, f);
      assert (a + b)[..|a + b| - 1] == a + pre;
      assert (a + b)[|a + b| - 1] == b[|b| - 1];
    }
  }

  /** A section is present exactly for the items whose step yields one. */
  lemma {:induction false} SectionsExact(items: seq<(string, string)>, f: ((string, string)) -> (Option<string>, seq<string>))
    ensures forall s :: s in SectionsWith(items, f).0 <==> exists x :: x in items && f(x).0 == Some(s)
    decreases |items|
  {
    if items != [] {
      var pre := items[..|items| - 1];
      SectionsExact(pre, f);
      assert items == pre + [items[|items| - 1]];
    }
  }

  /** A distribution has a section exactly when its skill file exists, reads,
      and holds non-empty skill text. */
  lemma SectionPresent(items: seq<(string, string)>, root: seq<string>, files: Files, s: string)
    ensures s in Sections(items, root, files).0 <==>
      exists x :: x in items && SectionFor(x.0, x.1, FileAt(files, SkillMdPath(root, x.0))).0 == Some(s)
  {
    SectionsExact(items, SectionAt(root, files));
  }

  /** `"\n".join(sections).strip()`. */
  function Block(sections: seq<string>): (r: string)
    ensures sections == [] ==> r == ""
    ensures r == [] || (!IsSpace(r[0]) && !IsSpace(r[|r| - 1]))
    ensures IsInfix(r, Join(sections, "\n"))
  {
    Strip(Join(sections, "\n"))
  }

  // ---------------------------------------------------------------------------
  // The whole of `ensure_pypi_skills_and_block`
  // ---------------------------------------------------------------------------

  /** Items ordered by their normalised distribution name. */
  function ByNormDist(): ((string, string), (string, string)) -> bool {
    (a: (string, string), b: (string, string)) => LexLe(Normalize(a.0), Normalize(b.0))
  }

  lemma ByNormDistPreorder()
    ensures TotalPreorder(ByNormDist())
  {
    LexLeIsTotalOrder();
  }

  /** `sorted(dists.items(), key=lambda kv: pep503_normalize(kv[0]))`. */
  function SortedDists(items: seq<(string, string)>): (r: seq<(string, string)>)
    ensures SortedBy(r, ByNormDist())
    ensures multiset(r) == multiset(items)
  {
    ByNormDistPreorder();
    SortBy(items, ByNormDist())
  }

  /** `SkillsAutoResult`. */
  datatype SkillsResult = SkillsResult(skillsBlock: string, warnings: seq<string>)

  /** Phases 1 and 2 and the block, on the sorted items. */
  function RunPhases(root: seq<string>, sorted: seq<(string, string)>, files: Files, gen: SkillGen): (r: (SkillsResult, Files))
  {
    var (todo, w1) := Plan(sorted, root, files);
    var (written, w2) := if todo == [] then (files, []) else GenerateAll(todo, root, files, gen);
    var (sections, w3) := Sections(sorted, root, written);
    (SkillsResult(Block(sections), w1 + w2 + w3), written)
  }

  /** `ensure_pypi_skills_and_block` after discovery: `dists` are the
      discovered `(dist, version)` items and `scanWarnings` the discovery
      warnings. Returns the result and the files afterwards. */
  function EnsureSkills(root: seq<string>, dists: seq<(string, string)>, scanWarnings: seq<string>, files: Files, gen: SkillGen): (r: (SkillsResult, Files))
    ensures dists == [] ==> r == (SkillsResult("", scanWarnings), files)
    ensures |scanWarnings| <= |r.0.warnings| && r.0.warnings[..|scanWarnings|] == scanWarnings
  {
    if dists == [] then (SkillsResult("", scanWarnings), files)
    else
      var (res, written) := RunPhases(root, SortedDists(dists), files, gen);
      (SkillsResult(res.skillsBlock, scanWarnings + res.warnings), written)
  }

  /** A skill file without a generated header belongs to the user and is
      never overwritten. */
  lemma UserFileUntouched(root: seq<string>, dists: seq<(string, string)>, scanWarnings: seq<string>, files: Files, gen: SkillGen, p: seq<string>)
    requires p in files && files[p].Text? && ParseHeader(FirstLine(files[p].text)).None?
    ensures var after := EnsureSkills(root, dists, scanWarnings, files, gen).1;
      p in after && after[p] == files[p]
  {
    if dists != [] {
      var sorted := SortedDists(dists);
      var todo := Plan(sorted, root, files).0;
      PlanExact(sorted, root, files);
      if todo != [] {
        GenerateAllWrites(todo, root, files, gen);
      }
    }
  }

}

=== FILE: sorting.dfy ===
/** Python's stable `sorted(xs, key=...)`, stated over a total preorder `le`
    ("key(a) <= key(b)"). */
module Sorting {

  ghost predicate Total<T(!new)>(le: (T, T) -> bool) {
    forall a, b :: le(a, b) || le(b, a)
  }

  ghost predicate Transitive<T(!new)>(le: (T, T) -> bool) {
    forall a, b, c :: le(a, b) && le(b, c) ==> le(a, c)
  }

  ghost predicate TotalPreorder<T(!new)>(le: (T, T) -> bool) {
    Total(le) && Transitive(le)
  }

  predicate SortedBy<T>(r: seq<T>, le: (T, T) -> bool) {
    forall i, j :: 0 <= i < j < |r| ==> le(r[i], r[j])
  }

  /** Inserts `x` before the first element it does not exceed, so that `x`
      stays ahead of equal elements that come after it in the input. */
  function InsertBy<T(!new)>(x: T, s: seq<T>, le: (T, T) -> bool): (r: seq<T>)
    requires TotalPreorder(le)
    requires SortedBy(s, le)
    ensures SortedBy(r, le)
    ensures multiset(r) == multiset(s) + multiset{x}
    ensures |r| == |s| + 1
  {
    if |s| == 0 then [x]
    else if le(x, s[0]) then [x] + s
    else
      var tail := InsertBy(x, s[1..], le);
      assert s == [s[0]] + s[1..];
      assert forall k :: 0 <= k < |tail| ==> le(s[0], tail[k]) by {
        forall k | 0 <= k < |tail| ensures le(s[0], tail[k]) {
          assert tail[k] in multiset(tail);
          if tail[k] != x {
            assert tail[k] in multiset(s[1..]);
            var j :| 0 <= j < |s[1..]| && s[1..][j] == tail[k];
            assert s[j + 1] == tail[k];
          }
        }
      }
      [s[0]] + tail
  }

  /** A stable sort: a permutation of `s` that is ordered by `le`, in which
      elements `le` ranks equal keep their order in `s`. */
  function SortBy<T(!new)>(s: seq<T>, le: (T, T) -> bool): (r: seq<T>)
    requires TotalPreorder(le)
    ensures SortedBy(r, le)
    ensures multiset(r) == multiset(s)
    ensures |r| == |s|
    ensures forall k :: Ties(r, le, k) == Ties(s, le, k)
  {
    if |s| == 0 then []
    else
      assert s == [s[0]] + s[1..];
      var rest := SortBy(s[1..], le);
      InsertByStable(s[0], rest, le);
      TiesConsAll(s[0], s[1..], le);
      InsertBy(s[0], rest, le)
  }

  /** Sorting two elements the order puts strictly the other way round
      swaps them. */
  lemma SortPairSwapped<T(!new)>(x: T, y: T, le: (T, T) -> bool)
    requires TotalPreorder(le) && !le(x, y)
    ensures SortBy([x, y], le) == [y, x]
  {
    assert [x, y][1..] == [y];
    assert SortBy([y], le) == [y];
  }

  /** The elements of `s` that `le` ranks equal to `k`, in their order. */
  function Ties<T>(s: seq<T>, le: (T, T) -> bool, k: T): seq<T> {
    if |s| == 0 then []
    else (if le(k, s[0]) && le(s[0], k) then [s[0]] else []) + Ties(s[1..], le, k)
  }

  lemma TiesCons<T>(x: T, s: seq<T>, le: (T, T) -> bool, k: T)
    ensures Ties([x] + s, le, k) == (if le(k, x) && le(x, k) then [x] else []) + Ties(s, le, k)
  {
    assert ([x] + s)[1..] == s;
  }

  lemma TiesConsAll<T>(x: T, s: seq<T>, le: (T, T) -> bool)
    ensures forall k :: Ties([x] + s, le, k) == (if le(k, x) && le(x, k) then [x] else []) + Ties(s, le, k)
  {
    forall k ensures Ties([x] + s, le, k) == (if le(k, x) && le(x, k) then [x] else []) + Ties(s, le, k) {
      TiesCons(x, s, le, k);
    }
  }

  /** Inserting `x` puts it ahead of the elements equal to it: every element
      it passes is strictly below it. */
  lemma {:induction false} InsertByTies<T(!new)>(x: T, s: seq<T>, le: (T, T) -> bool, k: T)
    requires TotalPreorder(le) && SortedBy(s, le)
    ensures Ties(InsertBy(x, s, le), le, k) == (if le(k, x) && le(x, k) then [x] else []) + Ties(s, le, k)
    decreases |s|
  {
    if |s| == 0 {
      TiesCons(x, [], le, k);
      assert [x] + [] == [x];
    } else if le(x, s[0]) {
      TiesCons(x, s, le, k);
    } else {
      SortedTail(s, le);
      InsertByTies(x, s[1..], le, k);
      TiesCons(s[0], InsertBy(x, s[1..], le), le, k);
      TiesCons(s[0], s[1..], le, k);
      assert s == [s[0]] + s[1..];
      if le(k, x) && le(x, k) {
        assert !le(k, s[0]);
      }
    }
  }

  lemma InsertByStable<T(!new)>(x: T, s: seq<T>, le: (T, T) -> bool)
    requires TotalPreorder(le) && SortedBy(s, le)
    ensures forall k :: Ties(InsertBy(x, s, le), le, k) == (if le(k, x) && le(x, k) then [x] else []) + Ties(s, le, k)
  {
    forall k ensures Ties(InsertBy(x, s, le), le, k) == (if le(k, x) && le(x, k) then [x] else []) + Ties(s, le, k) {
      InsertByTies(x, s, le, k);
    }
  }

  /** `s[k]` is a least element of `s` under `le`. */
  predicate IsMinAt<T>(s: seq<T>, k: int, le: (T, T) -> bool) {
    0 <= k < |s| && forall j :: 0 <= j < |s| ==> le(s[k], s[j])
  }

  /** Python's `min(s, key=...)`: the FIRST least element. */
  function ArgMin<T(!new)>(s: seq<T>, le: (T, T) -> bool): (k: nat)
    requires TotalPreorder(le)
    requires |s| > 0
    ensures IsMinAt(s, k, le)
    ensures forall j :: 0 <= j < k ==> !le(s[j], s[k])
    decreases |s|
  {
    if |s| == 1 then 0
    else
      var k := ArgMin(s[..|s| - 1], le);
      if le(s[k], s[|s| - 1]) then
        assert forall j :: 0 <= j < |s| - 1 ==> s[j] == s[..|s| - 1][j];
        k
      else
        assert forall j :: 0 <= j < |s| - 1 ==> s[j] == s[..|s| - 1][j];
        |s| - 1
  }

  ghost predicate Antisymmetric<T(!new)>(le: (T, T) -> bool) {
    forall a, b :: le(a, b) && le(b, a) ==> a == b
  }

  /** Under a total order, a sorted arrangement of a multiset is unique, so
      sorting forgets the input order. */
  lemma {:induction false} SortedUniqueBy<T(!new)>(a: seq<T>, b: seq<T>, le: (T, T) -> bool)
    requires TotalPreorder(le) && Antisymmetric(le)
    requires SortedBy(a, le) && SortedBy(b, le)
    requires multiset(a) == multiset(b)
    ensures a == b
    decreases |a|
  {
    if |a| == 0 {
      assert |b| == |multiset(b)| == 0;
    } else {
      assert |b| == |multiset(b)| == |multiset(a)| == |a|;
      SortedHeadLeast(a, b[0], le);
      SortedHeadLeast(b, a[0], le);
      assert a[0] == b[0];
      SortedTail(a, le);
      SortedTail(b, le);
      SortedUniqueBy(a[1..], b[1..], le);
      assert a == [a[0]] + a[1..] && b == [b[0]] + b[1..];
    }
  }

  /** The head of a sorted sequence is below everything in it. */
  lemma SortedHeadLeast<T(!new)>(a: seq<T>, x: T, le: (T, T) -> bool)
    requires SortedBy(a, le) && x in multiset(a) && Total(le)
    ensures le(a[0], x)
  {
    var j :| 0 <= j < |a| && a[j] == x;
    if j > 0 {
      assert le(a[0], a[j]);
    } else {
      assert le(x, x) || le(x, x);
    }
  }

  /** The tail of a sorted sequence is sorted and holds the rest. */
  lemma SortedTail<T>(a: seq<T>, le: (T, T) -> bool)
    requires SortedBy(a, le) && |a| > 0
    ensures SortedBy(a[1..], le)
    ensures multiset(a[1..]) == multiset(a) - multiset{a[0]}
  {
    assert a == [a[0]] + a[1..];
    forall i, j | 0 <= i < j < |a[1..]| ensures le(a[1..][i], a[1..][j]) {
      assert a[1..][i] == a[i + 1] && a[1..][j] == a[j + 1];
    }
  }

  lemma SortByPermutationInvariant<T(!new)>(s: seq<T>, t: seq<T>, le: (T, T) -> bool)
    requires TotalPreorder(le) && Antisymmetric(le)
    requires multiset(s) == multiset(t)
    ensures SortBy(s, le) == SortBy(t, le)
  {
    SortedUniqueBy(SortBy(s, le), SortBy(t, le), le);
  }

  /** `[f(x) for x in s]`. */
  function MapSeq<A, B>(f: A -> B, s: seq<A>): (r: seq<B>)
    ensures |r| == |s|
  {
    if |s| == 0 then [] else [f(s[0])] + MapSeq(f, s[1..])
  }

  lemma {:induction false} MapSeqAt<A, B>(f: A -> B, s: seq<A>)
    ensures forall i :: 0 <= i < |s| ==> MapSeq(f, s)[i] == f(s[i])
    decreases |s|
  {
    if |s| > 0 {
      MapSeqAt(f, s[1..]);
    }
  }

  lemma {:induction false} MapSeqConcat<A, B>(f: A -> B, s: seq<A>, t: seq<A>)
    ensures MapSeq(f, s + t) == MapSeq(f, s) + MapSeq(f, t)
    decreases |s|
  {
    if |s| > 0 {
      MapSeqConcat(f, s[1..], t);
      assert (s + t)[1..] == s[1..] + t;
      assert (s + t)[0] == s[0];
      assert MapSeq(f, s + t) == [f(s[0])] + MapSeq(f, s[1..] + t);
      assert MapSeq(f, s) == [f(s[0])] + MapSeq(f, s[1..]);
    } else {
      assert s + t == t;
    }
  }

  /** Mapping a permutation gives a permutation. */
  lemma MapSeqSplit<A, B>(f: A -> B, a: seq<A>, x: A, b: seq<A>)
    ensures multiset(MapSeq(f, a + [x] + b)) == multiset(MapSeq(f, a + b)) + multiset{f(x)}
  {
    MapSeqConcat(f, a + [x], b);
    MapSeqConcat(f, a, [x]);
    MapSeqConcat(f, a, b);
  }

  lemma PermutationRemove<A>(s: seq<A>, t: seq<A>, i: nat)
    requires multiset(s) == multiset(t) && |s| > 0 && i < |t| && t[i] == s[0]
    ensures multiset(s[1..]) == multiset(t[..i] + t[i + 1..])
  {
    assert t == t[..i] + [t[i]] + t[i + 1..];
    assert s == [s[0]] + s[1..];
    assert multiset(s[1..]) == multiset(s) - multiset{s[0]};
    assert multiset(t[..i] + t[i + 1..]) == multiset(t) - multiset{t[i]};
  }

  /** Mapping a permutation gives a permutation. */
  lemma {:induction false} MapSeqPermutation<A, B>(f: A -> B, s: seq<A>, t: seq<A>)
    requires multiset(s) == multiset(t)
    ensures multiset(MapSeq(f, s)) == multiset(MapSeq(f, t))
    decreases |s|
  {
    if |s| == 0 {
      assert |t| == |multiset(t)| == 0;
    } else {
      assert s[0] in multiset(t);
      var i :| 0 <= i < |t| && t[i] == s[0];
      PermutationRemove(s, t, i);
      MapSeqPermutation(f, s[1..], t[..i] + t[i + 1..]);
      MapSeqHead(f, s);
      MapSeqAround(f, t, i);
    }
  }

  /** Mapping a non-empty sequence maps its head, then its tail. */
  lemma MapSeqHead<A, B>(f: A -> B, s: seq<A>)
    requires |s| > 0
    ensures multiset(MapSeq(f, s)) == multiset{f(s[0])} + multiset(MapSeq(f, s[1..]))
  {
    assert MapSeq(f, s) == [f(s[0])] + MapSeq(f, s[1..]);
  }

  /** Mapping a sequence maps one element and the rest around it. */
  lemma MapSeqAround<A, B>(f: A -> B, t: seq<A>, i: nat)
    requires i < |t|
    ensures multiset(MapSeq(f, t)) == multiset(MapSeq(f, t[..i] + t[i + 1..])) + multiset{f(t[i])}
  {
    SeqAround(t, i);
    MapSeqSplit(f, t[..i], t[i], t[i + 1..]);
  }

  lemma SeqAround<A>(t: seq<A>, i: nat)
    requires i < |t|
    ensures t == t[..i] + [t[i]] + t[i + 1..]
  {
  }
}

=== FILE: specref.dfy ===
/** Stable spec identity: canonical "module:qualname" references
    (jaunt/spec_ref.py). */
module SpecRefs {
  import opened Wrappers
  import opened Text
  import opened PyValues

  /** Every piece of `s.split(".")` satisfies `ok`. */
  predicate AllParts(s: string, ok: string -> bool) {
    var parts := Split(s, '.');
    forall i :: 0 <= i < |parts| ==> ok(parts[i])
  }

  predicate IsModulePart(p: string) {
    p != "" && IsIdentifier(p)
  }

  predicate IsValidModule(m: string) {
    m != "" && Strip(m) == m && AllParts(m, IsModulePart)
  }

  predicate IsValidQualPart(p: string) {
    p != "" && (p == "<locals>" || IsIdentifier(p))
  }

  predicate IsValidQualname(q: string) {
    q != "" && Strip(q) == q && AllParts(q, IsValidQualPart)
  }

  /** The canonical form: exactly one ':' between a valid module and a valid
      qualname. */
  predicate IsCanonical(r: string) {
    CountChar(r, ':') == 1
    && var (m, q) := SplitOnce(r, ':');
    q.Some? && IsValidModule(m) && IsValidQualname(q.value)
  }

  /** Identifiers and "<locals>" never contain ':'. */
  lemma {:induction false} PartsWithoutColon(s: string, ok: string -> bool)
    requires AllParts(s, ok)
    requires forall p :: ok(p) ==> ':' !in p
    ensures ':' !in s
  {
    var parts := Split(s, '.');
    JoinWithoutChar(parts, '.', ':');
    JoinSplit(s, '.');
  }

  lemma IdentifierNoColon(p: string)
    requires IsIdentifier(p) || p == "<locals>"
    ensures ':' !in p
  {
  }

  lemma ValidNoColon(s: string)
    requires IsValidModule(s) || IsValidQualname(s)
    ensures ':' !in s
  {
    forall p | IsModulePart(p) ensures ':' !in p { IdentifierNoColon(p); }
    forall p | IsValidQualPart(p) ensures ':' !in p { IdentifierNoColon(p); }
    if IsValidModule(s) {
      PartsWithoutColon(s, IsModulePart);
    } else {
      PartsWithoutColon(s, IsValidQualPart);
    }
  }

  /** Checks a module/qualname pair and joins it with ':'. */
  function Assemble(m: string, q: string): (r: Result<string>)
    ensures r.Ok? <==> IsValidModule(m) && IsValidQualname(q)
    ensures r.Ok? ==> r.value == m + ":" + q && IsCanonical(r.value)
    ensures r.Err? ==> r.error == ValueError("invalid spec ref")
  {
    if !IsValidModule(m) || !IsValidQualname(q) then Err(ValueError("invalid spec ref"))
    else
      ValidNoColon(m);
      ValidNoColon(q);
      CanonicalOfParts(m, q);
      Ok(m + ":" + q)
  }

  lemma CanonicalOfParts(m: string, q: string)
    requires IsValidModule(m) && IsValidQualname(q)
    requires ':' !in m && ':' !in q
    ensures IsCanonical(m + ":" + q)
    ensures SplitOnce(m + ":" + q, ':') == (m, Some(q))
  {
    var r := m + ":" + q;
    CountConcat(m, ":", ':');
    CountConcat(m + ":", q, ':');
    assert r[..|m|] == m;
    var i := IndexOf(r, ':');
    assert r[|m|] == ':';
    assert i == |m|;
    assert r[i + 1..] == q;
  }

  lemma {:induction false} CountConcat(a: string, b: string, c: char)
    ensures CountChar(a + b, c) == CountChar(a, c) + CountChar(b, c)
    decreases |a|
  {
    if |a| > 0 {
      assert (a + b)[1..] == a[1..] + b;
      CountConcat(a[1..], b, c);
    } else {
      assert a + b == b;
    }
  }

  /** `normalize_spec_ref(s)`: strips, then accepts the colon form as is or
      converts the dot shorthand "pkg.mod.Name" at its last dot. */
  function NormalizeSpecRef(v: Value): (r: Result<string>)
    ensures !v.StrV? ==> r == Err(TypeError("spec ref must be a str"))
    ensures v.StrV? && Strip(v.s) == "" ==> r == Err(ValueError("spec ref must be non-empty"))
    ensures v.StrV? && CountChar(Strip(v.s), ':') > 1 ==> r.Err? && r.error.ValueError?
    ensures v.StrV? && ':' !in Strip(v.s) && '.' !in Strip(v.s) ==> r.Err? && r.error.ValueError?
    ensures r.Ok? ==> IsCanonical(r.value)
    ensures v.StrV? && CountChar(Strip(v.s), ':') == 1 ==> (r.Ok? <==> IsCanonical(Strip(v.s)))
    ensures r.Ok? && ':' in Strip(v.s) ==> r.value == Strip(v.s)
  {
    if !v.StrV? then Err(TypeError("spec ref must be a str"))
    else
      var raw := Strip(v.s);
      if raw == "" then Err(ValueError("spec ref must be non-empty"))
      else if ':' in raw then
        if CountChar(raw, ':') != 1 then Err(ValueError("spec ref must contain at most one ':'"))
        else
          var (m, q) := SplitOnce(raw, ':');
          Assemble(m, q.value)
      else if '.' !in raw then
        Err(ValueError("dot shorthand spec ref must contain at least one '.'"))
      else
        var (m, q) := RSplitOnce(raw, '.');
        Assemble(m, q)
  }

  /** A canonical reference is a fixed point. */
  lemma CanonicalIsFixed(s: string)
    requires IsCanonical(s)
    ensures NormalizeSpecRef(StrV(s)) == Ok(s)
  {
    var (m, q) := SplitOnce(s, ':');
    ValidNoColon(m);
    ValidNoColon(q.value);
    CanonicalOfParts(m, q.value);
    CanonicalStripped(m, q.value);
    assert ':' in s by { assert CountChar(s, ':') != 0; }
  }

  /** A canonical reference has no surrounding whitespace. */
  lemma CanonicalStripped(m: string, q: string)
    requires IsValidModule(m) && IsValidQualname(q)
    ensures Strip(m + ":" + q) == m + ":" + q
  {
    StrippedEnds(m);
    StrippedEnds(q);
    StripOfEnds(m, ":", q);
  }

  /** A non-empty text equal to its own strip starts and ends with a
      non-space. */
  lemma StrippedEnds(x: string)
    requires x != "" && Strip(x) == x
    ensures !IsSpace(x[0]) && !IsSpace(x[|x| - 1])
  {
  }

  lemma StripOfEnds(a: string, sep: string, b: string)
    requires a != "" && b != "" && !IsSpace(a[0]) && !IsSpace(b[|b| - 1])
    ensures Strip(a + sep + b) == a + sep + b
  {
    var s := a + sep + b;
    assert s[0] == a[0];
    assert s[|s| - 1] == b[|b| - 1];
    StripFixed(s);
  }

  /** Normalisation is idempotent. */
  lemma NormalizeIdempotent(v: Value)
    requires NormalizeSpecRef(v).Ok?
    ensures NormalizeSpecRef(StrV(NormalizeSpecRef(v).value)) == NormalizeSpecRef(v)
  {
    CanonicalIsFixed(NormalizeSpecRef(v).value);
  }

  /** The dot shorthand "module.Name" becomes "module:Name". */
  lemma DotShorthand(m: string, name: string)
    requires IsValidModule(m) && IsValidQualname(name) && '.' !in name
    ensures NormalizeSpecRef(StrV(m + "." + name)) == Ok(m + ":" + name)
  {
    var s := m + "." + name;
    StrippedEnds(m);
    StrippedEnds(name);
    StripOfEnds(m, ".", name);
    ValidNoColon(m);
    ValidNoColon(name);
    NoColonJoined(m, ".", name);
    RSplitOnceAt(m, '.', name);
    DotBranch(s, m, name);
    assert Assemble(m, name) == Ok(m + ":" + name);
  }

  /** A stripped reference without a colon is split at its last dot. */
  lemma DotBranch(s: string, m: string, q: string)
    requires Strip(s) == s && s != "" && ':' !in s && '.' in s
    requires RSplitOnce(s, '.') == (m, q)
    ensures NormalizeSpecRef(StrV(s)) == Assemble(m, q)
  {
  }

  lemma NoColonJoined(a: string, sep: string, b: string)
    requires ':' !in a && ':' !in sep && ':' !in b
    ensures ':' !in a + sep + b
  {
  }

  /** Splitting at the last `c` when none follows it. */
  lemma RSplitOnceAt(a: string, c: char, b: string)
    requires c !in b
    ensures c in a + [c] + b && RSplitOnce(a + [c] + b, c) == (a, b)
  {
    var s := a + [c] + b;
    assert s[|a|] == c && s[|a| + 1..] == b && s[..|a|] == a;
    LastIndexAt(s, c, |a|);
  }

  lemma {:induction false} LastIndexAt(s: string, c: char, k: nat)
    requires k < |s| && s[k] == c && c !in s[k + 1..]
    ensures LastIndexOf(s, c) == k
    decreases |s|
  {
    if s[|s| - 1] != c {
      assert k < |s| - 1;
      assert s[..|s| - 1][k + 1..] == s[k + 1..|s| - 1];
      LastIndexAt(s[..|s| - 1], c, k);
    }
  }

  /** `spec_ref_from_object(obj)`: a string `__jaunt_spec_ref__` override is
      normalised and wins; otherwise "module:qualname" is normalised. */
  function SpecRefFromObject(obj: Value): (r: Result<string>)
    ensures obj.ObjV? && obj.override.StrV? ==> r == NormalizeSpecRef(obj.override)
    ensures obj.ObjV? && !obj.override.NoneV? && !obj.override.StrV? ==> r == Err(TypeError("__jaunt_spec_ref__ must be a str"))
    ensures !obj.ObjV? ==> r.Err? && r.error.AttributeError?
    ensures r.Ok? ==> IsCanonical(r.value)
  {
    if !obj.ObjV? then Err(AttributeError("object has no attribute '__module__'"))
    else if !obj.override.NoneV? then
      if !obj.override.StrV? then Err(TypeError("__jaunt_spec_ref__ must be a str"))
      else NormalizeSpecRef(obj.override)
    else if obj.modAttr.None? then Err(AttributeError("object has no attribute '__module__'"))
    else if obj.qualAttr.None? then Err(AttributeError("object has no attribute '__qualname__'"))
    else NormalizeSpecRef(StrV(obj.modAttr.value + ":" + obj.qualAttr.value))
  }

  /** A plain object with a valid module and qualname gets "module:qualname". */
  lemma FromObjectDefault(m: string, q: string, repr: string)
    requires IsValidModule(m) && IsValidQualname(q)
    ensures SpecRefFromObject(ObjV(Some(m), Some(q), NoneV, repr)) == Ok(m + ":" + q)
  {
    ValidNoColon(m);
    ValidNoColon(q);
    CanonicalOfParts(m, q);
    CanonicalIsFixed(m + ":" + q);
  }
}

=== FILE: staleness.dfy ===
/** Writing generated modules, deciding which modules are stale, and
    spreading staleness to dependents (jaunt/builder.py, lines 28-151).

    The file system is a map from resolved absolute paths, written as their
    component sequences, to file states; a path that is not a key does not
    exist. The header codec (jaunt/header.py is not part of this model) is a
    pair of functions `format`/`extract` tied together by `HeaderLaws`. */
module Staleness {
  import opened Wrappers
  import opened Text
  import opened Graphs
  import opened Registry
  import opened Paths
  import opened PathLayout
  import opened Strings

  // ---------------------------------------------------------------------------
  // Digests in headers.
  // ---------------------------------------------------------------------------

  const DigestPrefix: string := "sha256:"

  /** `_normalize_digest`: nothing for a missing or empty digest, otherwise
      the digest with at most its "sha256:" prefix removed. */
  function NormalizeDigest(d: Option<string>): (r: Option<string>)
    ensures r.None? <==> d.None? || d.value == ""
    ensures r.Some? ==> d.value == r.value || d.value == DigestPrefix + r.value
  {
    if d.None? || d.value == "" then None
    else if StartsWith(d.value, DigestPrefix) then
      assert d.value == DigestPrefix + d.value[|DigestPrefix|..];
      Some(d.value[|DigestPrefix|..])
    else Some(d.value)
  }

  /** The form in which a header stores a module digest: with the "sha256:"
      prefix, added unless already present. */
  function Prefixed(d: string): string {
    if StartsWith(d, DigestPrefix) then d else DigestPrefix + d
  }

  /** Storing a digest in a header does not change what it compares as. */
  lemma NormalizePrefixed(d: string)
    requires d != ""
    ensures NormalizeDigest(Some(Prefixed(d))) == NormalizeDigest(Some(d))
  {
    if !StartsWith(d, DigestPrefix) {
      var p := DigestPrefix + d;
      assert p[..|DigestPrefix|] == DigestPrefix;
      assert p[|DigestPrefix|..] == d;
    }
  }

  /** The keyword arguments of `format_header`. */
  datatype HeaderFields = HeaderFields(
    toolVersion: string,
    kind: string,
    sourceModule: string,
    moduleDigest: string,
    specRefs: seq<string>)

  /** What the header codec promises: whatever follows a formatted header,
      the digest read back is the stored, prefixed one. */
  ghost predicate HeaderLaws(format: HeaderFields -> string, extract: string -> Option<string>) {
    forall f, rest :: extract(format(f) + rest) == Some(Prefixed(f.moduleDigest))
  }

  /** One header codec that keeps the laws, so they can be met: the stored
      digest with every character behind a backslash, ended by a newline. */
  function EncodeDigest(d: string): (r: string)
    decreases |d|
  {
    if |d| == 0 then "\n" else ['\\', d[0]] + EncodeDigest(d[1..])
  }

  function DecodeDigest(t: string): Option<string>
    decreases |t|
  {
    if |t| == 0 then None
    else if t[0] == '\n' then Some("")
    else if t[0] == '\\' && |t| >= 2 then
      match DecodeDigest(t[2..])
      case Some(d) => Some([t[1]] + d)
      case None => None
    else None
  }

  lemma {:induction false} DecodeEncoded(d: string, rest: string)
    ensures DecodeDigest(EncodeDigest(d) + rest) == Some(d)
    decreases |d|
  {
    if |d| > 0 {
      DecodeEncoded(d[1..], rest);
      var tail := EncodeDigest(d[1..]) + rest;
      var t := ['\\', d[0]] + tail;
      assert EncodeDigest(d) + rest == t;
      assert t[0] == '\\' && t[1] == d[0] && t[2..] == tail;
      assert DecodeDigest(t) == Some([d[0]] + d[1..]);
      assert [d[0]] + d[1..] == d;
    }
  }

  function ExampleFormat(f: HeaderFields): string {
    EncodeDigest(Prefixed(f.moduleDigest))
  }

  /** The laws can be met: the codec above keeps them. */
  lemma HeaderLawsMet()
    ensures HeaderLaws(ExampleFormat, DecodeDigest)
  {
    forall f: HeaderFields, rest: string ensures DecodeDigest(ExampleFormat(f) + rest) == Some(Prefixed(f.moduleDigest)) {
      DecodeEncoded(Prefixed(f.moduleDigest), rest);
    }
  }

  // ---------------------------------------------------------------------------
  // Paths and files.
  // ---------------------------------------------------------------------------

  datatype FileState = Unreadable | Contents(text: string)

  type Disk = map<seq<string>, FileState>

  /** One path component applied to a resolved path: "" and "." stay, ".."
      goes up (never above the file-system root), a name goes down. */
  function StepComponent(cur: seq<string>, c: string): seq<string> {
    if c == "" || c == "." then cur
    else if c == ".." then (if |cur| == 0 then [] else cur[..|cur| - 1])
    else cur + [c]
  }

  function StepComponents(cur: seq<string>, cs: seq<string>): seq<string>
    decreases |cs|
  {
    if |cs| == 0 then cur else StepComponents(StepComponent(cur, cs[0]), cs[1..])
  }

  /** `(base / Path(*parts)).resolve()` without symbolic links: a part that
      starts with "/" restarts from the root, a part holding "/" is several
      components. */
  function ResolveFrom(base: seq<string>, parts: seq<string>): seq<string>
    decreases |parts|
  {
    if |parts| == 0 then base
    else
      var start := if StartsWith(parts[0], "/") then [] else base;
      ResolveFrom(StepComponents(start, Split(parts[0], '/')), parts[1..])
  }

  /** A component that resolves to itself. */
  predicate PlainComponent(c: string) {
    c != "" && c != "." && c != ".." && '/' !in c
  }

  lemma {:induction false} ResolvePlain(base: seq<string>, parts: seq<string>)
    requires forall i :: 0 <= i < |parts| ==> PlainComponent(parts[i])
    ensures ResolveFrom(base, parts) == base + parts
    decreases |parts|
  {
    if |parts| > 0 {
      assert !StartsWith(parts[0], "/") by {
        assert parts[0][0] in parts[0];
        assert parts[0][..1] == [parts[0][0]];
      }
      assert Split(parts[0], '/') == [parts[0]] by {
        var r := Split(parts[0], '/');
        assert |r| == 1 && Join(r, "/") == r[0];
      }
      assert StepComponents(base, [parts[0]]) == base + [parts[0]];
      ResolvePlain(base + [parts[0]], parts[1..]);
      assert base + [parts[0]] + parts[1..] == base + parts;
    }
  }

  /** `root in out.parents or out == root`. */
  predicate Within(root: seq<string>, p: seq<string>) {
    |root| <= |p| && p[..|root|] == root
  }

  /** The relative path of a spec module's generated file: the generated
      module's path, as `_generated_relpath` evidently means to compute it. */
  function GeneratedRelpath(m: string, g: string): (p: seq<string>)
    ensures g == DefaultGeneratedDir && Mirrorable(m) ==> p == [Split(m, '.')[0], g] + ModuleToRelpath(m)[1..]
  {
    MirrorsWhenMirrorable(m);
    GeneratedModuleToRelpath(SpecModuleToGeneratedModule(m, g))
  }

  /** `_generated_relpath` as written: it passes `generated_dir=` to
      `paths.generated_module_to_relpath`, which takes no such keyword, so
      every call raises. */
  function GeneratedRelpathAsWritten(m: string, g: string): (r: Result<seq<string>>)
    ensures r.Err? && r.error.TypeError?
  {
    Err(TypeError("generated_module_to_relpath() got an unexpected keyword argument 'generated_dir'"))
  }

  lemma SplitPartsFree(s: string, sep: char, c: char)
    requires c !in s
    ensures forall i :: 0 <= i < |Split(s, sep)| ==> c !in Split(s, sep)[i]
  {
    var r := Split(s, sep);
    JoinSplit(s, sep);
    forall i | 0 <= i < |r| ensures c !in r[i] {
      JoinHasPart(r, [sep], i);
    }
  }

  /** For a module and a generated directory without "/", every component
      of the generated file's path is plain. */
  lemma GeneratedRelpathPlain(m: string, g: string)
    requires '/' !in m && '/' !in g
    ensures forall i :: 0 <= i < |GeneratedRelpath(m, g)| ==> PlainComponent(GeneratedRelpath(m, g)[i])
  {
    GeneratedModuleSlashFree(m, g);
    RelpathPlain(SpecModuleToGeneratedModule(m, g));
  }

  lemma GeneratedModuleSlashFree(m: string, g: string)
    requires '/' !in m && '/' !in g
    ensures '/' !in SpecModuleToGeneratedModule(m, g)
  {
    var parts := Split(m, '.');
    SplitPartsFree(m, '.', '/');
    if |parts| == 1 {
      JoinWithoutChar([parts[0], g], '.', '/');
      assert Join([parts[0], g], ".") == parts[0] + "." + g;
    } else if parts[1] != g {
      var q := [parts[0], g] + parts[1..];
      assert forall i :: 2 <= i < |q| ==> q[i] == parts[i - 1];
      JoinWithoutChar(q, '.', '/');
    }
  }

  /** The generated file's path of a dotted name without "/" is made of
      plain components: the pieces of a split on "." hold neither "." nor
      "/", and the file name ends in "y". */
  lemma RelpathPlain(gm: string)
    requires '/' !in gm
    ensures forall i :: 0 <= i < |GeneratedModuleToRelpath(gm)| ==> PlainComponent(GeneratedModuleToRelpath(gm)[i])
  {
    var parts := Split(gm, '.');
    SplitPartsFree(gm, '.', '/');
    var n := |parts|;
    PiecesPlainOrEmpty(parts);
    if LastPart(gm) == DefaultGeneratedDir {
      PackagePathPlain(parts);
    } else if n == 1 {
      PackagePathPlain([parts[0]]);
      assert MkPath([parts[0], "__init__.py"]) == MkPath([parts[0]]) + ["__init__.py"];
    } else {
      var q := parts[..n - 1] + [parts[n - 1] + ".py"];
      ModuleFilePlain(parts, q);
      GeneratedRelpathNested(gm);
    }
  }

  /** A package's path: its parts, then "__init__.py". */
  lemma PackagePathPlain(parts: seq<string>)
    requires forall i :: 0 <= i < |parts| ==> PlainOrEmpty(parts[i])
    ensures forall i :: 0 <= i < |MkPath(parts) + ["__init__.py"]| ==>
      PlainComponent((MkPath(parts) + ["__init__.py"])[i])
  {
    MkPathPlain(parts);
    assert PlainComponent("__init__.py") by {
      assert "__init__.py"[2] == 'i';
    }
  }

  /** `parts[:-1]` and the last part with ".py" appended. */
  lemma ModuleFilePlain(parts: seq<string>, q: seq<string>)
    requires |parts| >= 2
    requires forall i :: 0 <= i < |parts| ==> PlainOrEmpty(parts[i]) && '/' !in parts[i]
    requires q == parts[..|parts| - 1] + [parts[|parts| - 1] + ".py"]
    ensures forall i :: 0 <= i < |MkPath(q)| ==> PlainComponent(MkPath(q)[i])
  {
    var n := |parts|;
    var last := parts[n - 1] + ".py";
    assert last[|last| - 1] == 'y';
    forall i | 0 <= i < |q| ensures PlainOrEmpty(q[i]) {
      if i < n - 1 { assert q[i] == parts[i]; }
    }
    MkPathPlain(q);
  }

  predicate PlainOrEmpty(c: string) {
    c == "" || PlainComponent(c)
  }

  lemma PiecesPlainOrEmpty(parts: seq<string>)
    requires forall i :: 0 <= i < |parts| ==> '.' !in parts[i] && '/' !in parts[i]
    ensures forall i :: 0 <= i < |parts| ==> PlainOrEmpty(parts[i])
  {
  }

  /** `Path(*parts)` of plain-or-empty parts has plain components only. */
  lemma {:induction false} MkPathPlain(parts: seq<string>)
    requires forall i :: 0 <= i < |parts| ==> PlainOrEmpty(parts[i])
    ensures forall i :: 0 <= i < |MkPath(parts)| ==> PlainComponent(MkPath(parts)[i])
    decreases |parts|
  {
    if |parts| > 0 {
      assert forall i :: 0 <= i < |parts| - 1 ==> parts[1..][i] == parts[i + 1];
      MkPathPlain(parts[1..]);
    }
  }

  // ---------------------------------------------------------------------------
  // Writing.
  // ---------------------------------------------------------------------------

  /** The `__init__.py` files `_ensure_init_files` makes sure of: one in
      each directory on the way to the file. */
  function InitPaths(root: seq<string>, rel: seq<string>): (r: seq<seq<string>>)
    ensures |rel| >= 1 ==> |r| == |rel| - 1
    ensures |rel| == 0 ==> r == []
    ensures forall i :: 0 <= i < |r| ==> r[i] == ResolveFrom(root, rel[..i + 1]) + ["__init__.py"]
  {
    if |rel| <= 1 then []
    else seq(|rel| - 1, i requires 0 <= i < |rel| - 1 => ResolveFrom(root, rel[..i + 1]) + ["__init__.py"])
  }

  /** Creates the empty files among `inits` that do not exist yet. */
  function EnsureFiles(disk: Disk, inits: seq<seq<string>>): (r: Disk)
    ensures r.Keys == disk.Keys + (set p | p in inits)
    ensures forall p :: p in disk ==> r[p] == disk[p]
    ensures forall p :: p in r && p !in disk ==> r[p] == Contents("")
    decreases |inits|
  {
    if |inits| == 0 then disk
    else
      var d := if inits[0] in disk then disk else disk[inits[0] := Contents("")];
      EnsureFiles(d, inits[1..])
  }

  /** What `write_generated_module` writes: the header, a newline, the
      source without trailing whitespace, and a final newline. */
  function FileContent(hdr: string, source: string): (c: string)
    ensures |c| >= |hdr| + 2 && c[..|hdr| + 1] == hdr + "\n" && c[|c| - 1] == '\n'
    ensures var body := c[|hdr| + 1..|c| - 1];
      && |body| <= |source| && body == source[..|body|]
      && (body == [] || !IsSpace(body[|body| - 1]))
      && (forall i :: |body| <= i < |source| ==> IsSpace(source[i]))
  {
    var c := hdr + "\n" + RStrip(source) + "\n";
    assert c[|hdr| + 1..|c| - 1] == RStrip(source);
    c
  }

  /** The missing `__init__.py` files on the way to `rel`, then the file at
      `out` (over)written with `content`. */
  function WriteWithInits(disk: Disk, root: seq<string>, rel: seq<string>, out: seq<string>, content: string)
    : (d: Disk)
    ensures d.Keys == disk.Keys + {out} + (set p | p in InitPaths(root, rel))
    ensures d[out] == Contents(content)
    ensures forall p :: p in disk && p != out ==> d[p] == disk[p]
    ensures forall p :: p in d && p !in disk && p != out ==> d[p] == Contents("")
  {
    EnsureFiles(disk, InitPaths(root, rel))[out := Contents(content)]
  }

  /** `write_generated_module`: refuses a path that resolves outside the
      package directory; otherwise creates the missing `__init__.py` files
      and then (over)writes the module file, and returns its path. */
  function WriteGeneratedModule(disk: Disk, root: seq<string>, g: string, m: string, source: string,
                                format: HeaderFields -> string, fields: HeaderFields): (r: Result<(Disk, seq<string>)>)
    ensures r.Err? <==> !Within(root, ResolveFrom(root, GeneratedRelpath(m, g)))
    ensures r.Err? ==> r.error == ValueError("Refusing to write outside package_dir.")
    ensures r.Ok? ==> var (d, out) := r.value;
      && out == ResolveFrom(root, GeneratedRelpath(m, g))
      && Within(root, out)
      && d.Keys == disk.Keys + {out} + (set p | p in InitPaths(root, GeneratedRelpath(m, g)))
      && d[out] == Contents(FileContent(format(fields), source))
      && (forall p :: p in disk && p != out ==> d[p] == disk[p])
      && (forall p :: p in d && p !in disk && p != out ==> d[p] == Contents(""))
  {
    var rel := GeneratedRelpath(m, g);
    var out := ResolveFrom(root, rel);
    if !Within(root, out) then Err(ValueError("Refusing to write outside package_dir."))
    else Ok((WriteWithInits(disk, root, rel, out, FileContent(format(fields), source)), out))
  }

  /** For an ordinary module and generated directory the write is never
      refused, and lands at the relative path below the package directory. */
  lemma WriteNeverRefusedForPlainNames(disk: Disk, root: seq<string>, g: string, m: string, source: string,
                                       format: HeaderFields -> string, fields: HeaderFields)
    requires '/' !in m && '/' !in g
    ensures var r := WriteGeneratedModule(disk, root, g, m, source, format, fields);
      r.Ok? && r.value.1 == root + GeneratedRelpath(m, g)
  {
    GeneratedRelpathPlain(m, g);
    ResolvePlain(root, GeneratedRelpath(m, g));
    var out := root + GeneratedRelpath(m, g);
    assert out[..|root|] == root;
  }

  // ---------------------------------------------------------------------------
  // Staleness.
  // ---------------------------------------------------------------------------

  /** The staleness test of one module whose generated file is at `out`:
      missing or unreadable files are stale; otherwise the header's digest
      must be present and equal the computed one, prefix aside. `md` stands
      for `module_digest`, whose errors propagate. */
  function StaleAt(disk: Disk, out: seq<string>, m: string, entries: seq<SpecEntry>,
                   md: (string, seq<SpecEntry>) -> Result<string>,
                   extract: string -> Option<string>): (r: Result<bool>)
    ensures out !in disk || disk[out].Unreadable? ==> r == Ok(true)
    ensures out in disk && disk[out].Contents? ==> (r.Err? <==> md(m, entries).Err?)
    ensures r.Err? ==> r.error == md(m, entries).error
    ensures md(m, entries).Ok? ==> r.Ok?
    ensures r == Ok(false) <==>
      && out in disk && disk[out].Contents?
      && md(m, entries).Ok? && md(m, entries).value != ""
      && NormalizeDigest(extract(disk[out].text)) == NormalizeDigest(Some(md(m, entries).value))
  {
    if out !in disk || disk[out].Unreadable? then Ok(true)
    else
      var onDisk := NormalizeDigest(extract(disk[out].text));
      var c :- md(m, entries);
      var computed := NormalizeDigest(Some(c));
      Ok(onDisk.None? || computed.None? || onDisk != computed)
  }

  /** One module's test, at the generated path as meant. */
  function ModuleStale(disk: Disk, root: seq<string>, g: string, m: string, entries: seq<SpecEntry>,
                       md: (string, seq<SpecEntry>) -> Result<string>,
                       extract: string -> Option<string>): (r: Result<bool>)
    ensures '/' !in m && '/' !in g ==> r == StaleAt(disk, root + GeneratedRelpath(m, g), m, entries, md, extract)
    ensures r.Err? ==> md(m, entries).Err? && r.error == md(m, entries).error
    ensures md(m, entries).Ok? ==> r.Ok?
  {
    PlainRelpathResolves(root, m, g);
    StaleAt(disk, ResolveFrom(root, GeneratedRelpath(m, g)), m, entries, md, extract)
  }

  /** For plain names the checked file is the written one: the package
      directory joined with the relative path. */
  lemma PlainRelpathResolves(root: seq<string>, m: string, g: string)
    ensures '/' !in m && '/' !in g ==> ResolveFrom(root, GeneratedRelpath(m, g)) == root + GeneratedRelpath(m, g)
  {
    if '/' !in m && '/' !in g {
      GeneratedRelpathPlain(m, g);
      ResolvePlain(root, GeneratedRelpath(m, g));
    }
  }

  /** `order` enumerates the keys of `moduleSpecs` once each: the dict's
      iteration order, which decides only which error surfaces first. */
  predicate Enumerates(order: seq<string>, keys: set<string>) {
    Distinct(order) && (forall i :: 0 <= i < |order| ==> order[i] in keys)
    && (forall k :: k in keys ==> k in order)
  }

  /** The modules whose check said "stale", or the first check's error:
      the loop of `detect_stale_modules` over already computed answers. */
  function CollectStale(order: seq<string>, checks: seq<Result<bool>>): (r: Result<set<string>>)
    requires |checks| == |order|
    ensures r.Ok? <==> forall i :: 0 <= i < |checks| ==> checks[i].Ok?
    ensures r.Ok? ==> forall m :: m in r.value <==> exists i :: 0 <= i < |order| && order[i] == m && checks[i] == Ok(true)
    ensures r.Err? ==> exists i :: 0 <= i < |checks| && checks[i].Err? && r.error == checks[i].error
                                  && (forall j :: 0 <= j < i ==> checks[j].Ok?)
    decreases |order|
  {
    if |order| == 0 then Ok({})
    else
      var s :- checks[0];
      var rest := CollectStale(order[1..], checks[1..]);
      if rest.Err? then
        var i :| 0 <= i < |checks[1..]| && checks[1..][i].Err? && rest.error == checks[1..][i].error
          && forall j :: 0 <= j < i ==> checks[1..][j].Ok?;
        assert checks[i + 1] == checks[1..][i];
        assert forall j :: 1 <= j < i + 1 ==> checks[j] == checks[1..][j - 1];
        Err(rest.error)
      else
        assert forall i :: 1 <= i < |checks| ==> checks[i] == checks[1..][i - 1] && order[i] == order[1..][i - 1];
        assert forall i :: 0 <= i < |checks| - 1 ==> checks[1..][i] == checks[i + 1] && order[1..][i] == order[i + 1];
        Ok((if s then {order[0]} else {}) + rest.value)
  }

  /** Each module's check, in iteration order. */
  function Checks(disk: Disk, root: seq<string>, g: string, moduleSpecs: map<string, seq<SpecEntry>>,
                  order: seq<string>, md: (string, seq<SpecEntry>) -> Result<string>,
                  extract: string -> Option<string>): (cs: seq<Result<bool>>)
    requires forall i :: 0 <= i < |order| ==> order[i] in moduleSpecs
    ensures |cs| == |order|
    ensures forall i :: 0 <= i < |order| ==> cs[i] == ModuleStale(disk, root, g, order[i], moduleSpecs[order[i]], md, extract)
  {
    seq(|order|, i requires 0 <= i < |order| => ModuleStale(disk, root, g, order[i], moduleSpecs[order[i]], md, extract))
  }

  /** `detect_stale_modules`: every module when forced; otherwise the
      modules whose generated file is missing, unreadable or carries a
      different digest. */
  function DetectStale(disk: Disk, root: seq<string>, g: string, moduleSpecs: map<string, seq<SpecEntry>>,
                       order: seq<string>, md: (string, seq<SpecEntry>) -> Result<string>,
                       extract: string -> Option<string>, force: bool): (r: Result<set<string>>)
    requires Enumerates(order, moduleSpecs.Keys)
    ensures force ==> r == Ok(moduleSpecs.Keys)
    ensures r.Ok? ==> r.value <= moduleSpecs.Keys
    ensures !force && r.Ok? ==> forall m :: m in moduleSpecs ==>
      (m in r.value <==> ModuleStale(disk, root, g, m, moduleSpecs[m], md, extract) == Ok(true))
    ensures !force ==> (r.Err? <==> exists m :: m in moduleSpecs && ModuleStale(disk, root, g, m, moduleSpecs[m], md, extract).Err?)
  {
    if force then Ok(moduleSpecs.Keys)
    else
      var cs := Checks(disk, root, g, moduleSpecs, order, md, extract);
      CheckedModules(order, moduleSpecs.Keys, cs, (m: string) requires m in moduleSpecs => ModuleStale(disk, root, g, m, moduleSpecs[m], md, extract));
      CollectStale(order, cs)
  }

  /** Reading `CollectStale` per module, for an order that enumerates the
      modules once each. */
  lemma CheckedModules(order: seq<string>, keys: set<string>, cs: seq<Result<bool>>, check: string --> Result<bool>)
    requires Enumerates(order, keys) && |cs| == |order|
    requires forall m :: m in keys ==> check.requires(m)
    requires forall i :: 0 <= i < |order| ==> cs[i] == check(order[i])
    ensures CollectStale(order, cs).Ok? ==> CollectStale(order, cs).value <= keys
    ensures CollectStale(order, cs).Ok? ==> forall m :: m in keys ==> (m in CollectStale(order, cs).value <==> check(m) == Ok(true))
    ensures CollectStale(order, cs).Err? <==> exists m :: m in keys && check(m).Err?
  {
    var r := CollectStale(order, cs);
    if r.Ok? {
      forall m | m in keys ensures check(m).Ok? {
        var i :| 0 <= i < |order| && order[i] == m;
      }
    } else {
      var i :| 0 <= i < |cs| && cs[i].Err? && r.error == cs[i].error;
      assert order[i] in keys;
    }
  }

  /** `detect_stale_modules` as written, with the relative path from
      `_generated_relpath`: unless forced, any non-empty input raises. */
  function DetectStaleAsWritten(disk: Disk, root: seq<string>, g: string, moduleSpecs: map<string, seq<SpecEntry>>,
                                order: seq<string>, md: (string, seq<SpecEntry>) -> Result<string>,
                                extract: string -> Option<string>, force: bool): (r: Result<set<string>>)
    requires Enumerates(order, moduleSpecs.Keys)
    ensures force ==> r == Ok(moduleSpecs.Keys)
    ensures !force && moduleSpecs.Keys == {} ==> r == Ok({})
    ensures !force && moduleSpecs.Keys != {} ==> r.Err? && r.error.TypeError?
  {
    EnumeratedNonEmpty(order, moduleSpecs.Keys);
    if force then Ok(moduleSpecs.Keys)
    else if |order| == 0 then Ok({})
    else Err(GeneratedRelpathAsWritten(order[0], g).error)
  }

  lemma EnumeratedNonEmpty(order: seq<string>, keys: set<string>)
    requires Enumerates(order, keys)
    ensures |order| == 0 <==> keys == {}
  {
    if |order| > 0 {
      assert order[0] in keys;
    }
    if keys != {} {
      var k :| k in keys;
      assert k in order;
    }
  }

  /** The discrepancy: a non-forced check of any module raises `TypeError`
      as written, where the intended check answers. */
  lemma DetectStaleAsWrittenRaises(disk: Disk, root: seq<string>, g: string, moduleSpecs: map<string, seq<SpecEntry>>,
                                   order: seq<string>, md: (string, seq<SpecEntry>) -> Result<string>,
                                   extract: string -> Option<string>)
    requires Enumerates(order, moduleSpecs.Keys) && moduleSpecs != map[]
    requires forall m :: m in moduleSpecs ==> md(m, moduleSpecs[m]).Ok?
    ensures var r := DetectStaleAsWritten(disk, root, g, moduleSpecs, order, md, extract, false);
      r.Err? && r.error.TypeError?
    ensures DetectStale(disk, root, g, moduleSpecs, order, md, extract, false).Ok?
  {
    var m :| m in moduleSpecs;
    assert m in order;
    DetectStaleAnswers(disk, root, g, moduleSpecs, order, md, extract);
  }

  /** With every module digest computable, the intended check answers. */
  lemma DetectStaleAnswers(disk: Disk, root: seq<string>, g: string, moduleSpecs: map<string, seq<SpecEntry>>,
                           order: seq<string>, md: (string, seq<SpecEntry>) -> Result<string>,
                           extract: string -> Option<string>)
    requires Enumerates(order, moduleSpecs.Keys)
    requires forall m :: m in moduleSpecs ==> md(m, moduleSpecs[m]).Ok?
    ensures DetectStale(disk, root, g, moduleSpecs, order, md, extract, false).Ok?
  {
    forall m | m in moduleSpecs ensures ModuleStale(disk, root, g, m, moduleSpecs[m], md, extract).Ok? {
      var out := ResolveFrom(root, GeneratedRelpath(m, g));
      assert StaleAt(disk, out, m, moduleSpecs[m], md, extract).Ok?;
    }
  }

  /** A module is fresh right after it is written with a header carrying its
      current, non-empty digest: the write and the check agree. */
  lemma WriteThenFresh(disk: Disk, root: seq<string>, g: string, m: string, source: string,
                       format: HeaderFields -> string, extract: string -> Option<string>,
                       fields: HeaderFields, entries: seq<SpecEntry>,
                       md: (string, seq<SpecEntry>) -> Result<string>)
    requires HeaderLaws(format, extract)
    requires md(m, entries).Ok? && md(m, entries).value != ""
    requires fields.moduleDigest == md(m, entries).value
    requires WriteGeneratedModule(disk, root, g, m, source, format, fields).Ok?
    ensures var d := WriteGeneratedModule(disk, root, g, m, source, format, fields).value.0;
      ModuleStale(d, root, g, m, entries, md, extract) == Ok(false)
  {
    var w := WriteGeneratedModule(disk, root, g, m, source, format, fields).value;
    var d, out := w.0, w.1;
    assert out == ResolveFrom(root, GeneratedRelpath(m, g));
    assert d[out] == Contents(FileContent(format(fields), source));
    FreshAfterHeader(d, out, m, entries, md, format, extract, fields, source);
  }

  lemma FreshAfterHeader(d: Disk, out: seq<string>, m: string, entries: seq<SpecEntry>,
                         md: (string, seq<SpecEntry>) -> Result<string>,
                         format: HeaderFields -> string, extract: string -> Option<string>,
                         fields: HeaderFields, source: string)
    requires HeaderLaws(format, extract)
    requires md(m, entries).Ok? && md(m, entries).value != ""
    requires fields.moduleDigest == md(m, entries).value
    requires out in d && d[out] == Contents(FileContent(format(fields), source))
    ensures StaleAt(d, out, m, entries, md, extract) == Ok(false)
  {
    var text := FileContent(format(fields), source);
    assert text == format(fields) + ("\n" + RStrip(source) + "\n");
    assert extract(text) == Some(Prefixed(fields.moduleDigest));
    NormalizePrefixed(fields.moduleDigest);
  }

  // ---------------------------------------------------------------------------
  // Spreading staleness.
  // ---------------------------------------------------------------------------

  /** The modules that depend directly on `m`. */
  function Dependents(dag: Graph, m: string): (r: set<string>)
    ensures forall k :: k in r <==> Edge(dag, k, m)
  {
    set k | k in dag && m in dag[k]
  }

  /** The stale modules together with everything that depends on one of
      them, directly or through other modules. */
  ghost function Upstream(dag: Graph, stale: set<string>): set<string> {
    set m | m in stale + dag.Keys && exists s :: s in stale && Reaches(dag, m, s)
  }

  lemma InUpstream(dag: Graph, stale: set<string>, m: string, s: string)
    requires s in stale && Reaches(dag, m, s)
    ensures m in Upstream(dag, stale)
  {
    if m != s {
      var p :| IsPath(dag, p) && p[0] == m && p[|p| - 1] == s;
      assert Edge(dag, p[0], p[1]);
    }
  }

  /** A set that holds `stale` and every dependent of its members holds
      everything upstream of `stale`. */
  lemma ClosedContainsUpstream(dag: Graph, stale: set<string>, e: set<string>)
    requires stale <= e
    requires forall x, k :: x in e && Edge(dag, k, x) ==> k in e
    ensures Upstream(dag, stale) <= e
  {
    forall m | m in Upstream(dag, stale) ensures m in e {
      var s :| s in stale && Reaches(dag, m, s);
      var p :| IsPath(dag, p) && p[0] == m && p[|p| - 1] == s;
      PathInto(dag, p, e, 0);
      assert p[0] in e;
    }
  }

  lemma {:induction false} PathInto(dag: Graph, p: seq<string>, e: set<string>, k: nat)
    requires IsPath(dag, p) && k < |p| && p[|p| - 1] in e
    requires forall x, y :: x in e && Edge(dag, y, x) ==> y in e
    ensures forall i :: k <= i < |p| ==> p[i] in e
    decreases |p| - k
  {
    if k == |p| - 1 {
    } else {
      PathInto(dag, p, e, k + 1);
      assert Edge(dag, p[k], p[k + 1]);
    }
  }

  lemma UpstreamClosedAll(dag: Graph, stale: set<string>)
    ensures forall x, k :: x in Upstream(dag, stale) && Edge(dag, k, x) ==> k in Upstream(dag, stale)
  {
    forall x, k | x in Upstream(dag, stale) && Edge(dag, k, x) ensures k in Upstream(dag, stale) {
      UpstreamClosed(dag, stale, x, k);
    }
  }

  /** Upstream of a set is closed under dependents. */
  lemma UpstreamClosed(dag: Graph, stale: set<string>, x: string, k: string)
    requires x in Upstream(dag, stale) && Edge(dag, k, x)
    ensures k in Upstream(dag, stale)
  {
    var s :| s in stale && Reaches(dag, x, s);
    ReachesStep(dag, k, x, s);
  }

  /** Every dependent of a found module that is no longer queued has been
      found too. */
  ghost predicate ClosedOutside(dag: Graph, e: set<string>, queue: seq<string>) {
    forall x, k :: x in e && x !in queue && Edge(dag, k, x) ==> k in e
  }

  /** `expand_stale_modules`: the stale modules and, transitively, every
      module that depends on one of them. The queue's order and the order in
      which dependents are visited do not matter to the result. */
  method ExpandStale(dag: Graph, stale: set<string>) returns (expanded: set<string>)
    ensures expanded == Upstream(dag, stale)
  {
    ghost var up := Upstream(dag, stale);
    UpstreamClosedAll(dag, stale);
    forall s | s in stale ensures s in up {
      ReachesSelf(dag, s);
      InUpstream(dag, stale, s, s);
    }
    expanded := ExpandWithin(dag, stale, up);
    ClosedContainsUpstream(dag, stale, expanded);
  }

  /** The worklist of `expand_stale_modules`, inside any set `up` that holds
      the stale modules and is closed under dependents: the result is such
      a set too, and lies within `up`. */
  method ExpandWithin(dag: Graph, stale: set<string>, ghost up: set<string>) returns (expanded: set<string>)
    requires stale <= up
    requires forall x, k :: x in up && Edge(dag, k, x) ==> k in up
    ensures stale <= expanded <= up
    ensures ClosedOutside(dag, expanded, [])
  {
    ghost var bound := stale + dag.Keys;
    expanded := stale;
    var queue := ListOf(stale);
    while |queue| > 0
      invariant stale <= expanded <= up && expanded <= bound
      invariant forall i :: 0 <= i < |queue| ==> queue[i] in expanded
      invariant ClosedOutside(dag, expanded, queue)
      decreases |bound - expanded|, |queue|
    {
      expanded, queue := ExpandStep(dag, stale, up, bound, expanded, queue);
    }
  }

  /** One turn of the worklist: pop the last module and visit its
      dependents. */
  method ExpandStep(dag: Graph, stale: set<string>, ghost up: set<string>, ghost bound: set<string>,
                    e0: set<string>, q0: seq<string>) returns (e: set<string>, q: seq<string>)
    requires |q0| > 0 && bound == stale + dag.Keys
    requires forall x, k :: x in up && Edge(dag, k, x) ==> k in up
    requires stale <= e0 <= up && e0 <= bound
    requires forall i :: 0 <= i < |q0| ==> q0[i] in e0
    requires ClosedOutside(dag, e0, q0)
    ensures stale <= e <= up && e <= bound
    ensures forall i :: 0 <= i < |q| ==> q[i] in e
    ensures ClosedOutside(dag, e, q)
    ensures |bound - e| < |bound - e0| || (e == e0 && |q| < |q0|)
  {
    var m := q0[|q0| - 1];
    var rest := q0[..|q0| - 1];
    assert q0 == rest + [m];
    e, q := VisitDependents(dag, stale, up, bound, m, e0, rest);
    ClosedAfterVisit(dag, m, e0, rest, e, q);
  }

  /** `list(s)`: the members of a set, once each, in some order. */
  function ListOf(s: set<string>): (r: seq<string>)
    ensures forall x :: x in r <==> x in s
  {
    SortSet(s)
  }

  lemma ClosedAfterVisit(dag: Graph, m: string, e0: set<string>, q0: seq<string>, e: set<string>, q: seq<string>)
    requires ClosedOutside(dag, e0, q0 + [m])
    requires e0 <= e && (forall k :: Edge(dag, k, m) ==> k in e)
    requires |q| >= |q0| && q[..|q0|] == q0
    requires forall x :: x in e && x !in e0 ==> x in q
    ensures ClosedOutside(dag, e, q)
  {
    forall x, k | x in e && x !in q && Edge(dag, k, x) ensures k in e {
      if x != m {
        assert x in e0;
        assert x !in q0 + [m];
      }
    }
  }

  /** The inner loop of `expand_stale_modules`: finds the dependents of `m`
      and queues the new ones. `up` is everything upstream of `stale`, and
      `bound` what the result is drawn from. */
  method VisitDependents(dag: Graph, stale: set<string>, ghost up: set<string>, ghost bound: set<string>,
                         m: string, e0: set<string>, q0: seq<string>)
    returns (e: set<string>, q: seq<string>)
    requires forall x, k :: x in up && Edge(dag, k, x) ==> k in up
    requires bound == stale + dag.Keys
    requires e0 <= up && e0 <= bound && m in e0
    requires forall i :: 0 <= i < |q0| ==> q0[i] in e0
    ensures e0 <= e <= up && e <= bound
    ensures forall k :: Edge(dag, k, m) ==> k in e
    ensures |q| >= |q0| && q[..|q0|] == q0
    ensures forall i :: 0 <= i < |q| ==> q[i] in e
    ensures forall x :: x in e && x !in e0 ==> x in q
    ensures e == e0 ==> q == q0
    ensures e != e0 ==> |bound - e| < |bound - e0|
  {
    e, q := e0, q0;
    var todo := Dependents(dag, m);
    while todo != {}
      invariant todo <= Dependents(dag, m)
      invariant e0 <= e <= up && e <= bound
      invariant forall k :: k in Dependents(dag, m) && k !in todo ==> k in e
      invariant |q| >= |q0| && q[..|q0|] == q0
      invariant forall i :: 0 <= i < |q| ==> q[i] in e
      invariant forall x :: x in e && x !in e0 ==> x in q
      invariant e == e0 ==> q == q0
      invariant e != e0 ==> |bound - e| < |bound - e0|
      decreases |todo|
    {
      var k :| k in todo;
      todo := todo - {k};
      if k !in e {
        assert bound - (e + {k}) < bound - e;
        e := e + {k};
        q := q + [k];
      }
    }
  }

  /** Expanding more stale modules never yields fewer. */
  lemma UpstreamMonotone(dag: Graph, s: set<string>, t: set<string>)
    requires s <= t
    ensures Upstream(dag, s) <= Upstream(dag, t)
  {
  }

  /** Expanding twice is expanding once. */
  lemma UpstreamIdempotent(dag: Graph, s: set<string>)
    ensures Upstream(dag, Upstream(dag, s)) == Upstream(dag, s)
  {
    var u := Upstream(dag, s);
    forall m | m in u ensures m in Upstream(dag, u) {
      ReachesSelf(dag, m);
      InUpstream(dag, u, m, m);
    }
    forall m | m in Upstream(dag, u) ensures m in u {
      UpstreamStep(dag, s, u, m);
    }
  }

  lemma UpstreamStep(dag: Graph, s: set<string>, u: set<string>, m: string)
    requires u == Upstream(dag, s) && m in Upstream(dag, u)
    ensures m in u
  {
    var y :| y in u && Reaches(dag, m, y);
    var x :| x in s && Reaches(dag, y, x);
    ReachesTrans(dag, m, y, x);
    InUpstream(dag, s, m, x);
  }
}

=== FILE: strings.dfy ===
/** Text helpers with Python `str` semantics, and the code-point order that
    Python uses to compare and sort strings. */
module Strings {

  import Sorting

  // ---------------------------------------------------------------------------
  // Ordering: Python compares strings lexicographically by code point.
  // ---------------------------------------------------------------------------

  predicate LexLe(a: string, b: string)
    decreases |a|
  {
    if |a| == 0 then true
    else if |b| == 0 then false
    else if a[0] < b[0] then true
    else if a[0] > b[0] then false
    else LexLe(a[1..], b[1..])
  }

  predicate LexLt(a: string, b: string) {
    LexLe(a, b) && a != b
  }

  lemma {:induction false} LexLeRefl(a: string)
    ensures LexLe(a, a)
    decreases |a|
  {
    if |a| > 0 {
      LexLeRefl(a[1..]);
    }
  }

  lemma {:induction false} LexLeTotal(a: string, b: string)
    ensures LexLe(a, b) || LexLe(b, a)
    decreases |a|
  {
    if |a| > 0 && |b| > 0 && a[0] == b[0] {
      LexLeTotal(a[1..], b[1..]);
    }
  }

  lemma {:induction false} LexLeAntisym(a: string, b: string)
    requires LexLe(a, b) && LexLe(b, a)
    ensures a == b
    decreases |a|
  {
    if |a| > 0 {
      LexLeAntisym(a[1..], b[1..]);
      assert a == [a[0]] + a[1..];
      assert b == [b[0]] + b[1..];
    }
  }

  lemma {:induction false} LexLeTrans(a: string, b: string, c: string)
    requires LexLe(a, b) && LexLe(b, c)
    ensures LexLe(a, c)
    decreases |a|
  {
    if |a| > 0 && |b| > 0 && |c| > 0 && a[0] == b[0] && b[0] == c[0] {
      LexLeTrans(a[1..], b[1..], c[1..]);
    }
  }

  lemma LexLeIsTotalOrder()
    ensures forall a, b :: LexLe(a, b) || LexLe(b, a)
    ensures forall a, b :: LexLe(a, b) && LexLe(b, a) ==> a == b
    ensures forall a, b, c :: LexLe(a, b) && LexLe(b, c) ==> LexLe(a, c)
  {
    forall a, b ensures LexLe(a, b) || LexLe(b, a) {
      LexLeTotal(a, b);
    }
    forall a, b | LexLe(a, b) && LexLe(b, a) ensures a == b {
      LexLeAntisym(a, b);
    }
    forall a, b, c | LexLe(a, b) && LexLe(b, c) ensures LexLe(a, c) {
      LexLeTrans(a, b, c);
    }
  }

  // ---------------------------------------------------------------------------
  // Least element of a finite set, and `sorted(some_set)`.
  // ---------------------------------------------------------------------------

  predicate IsLeast(m: string, s: set<string>) {
    m in s && forall x :: x in s ==> LexLe(m, x)
  }

  lemma {:induction false} LeastExists(s: set<string>)
    requires s != {}
    ensures exists m :: IsLeast(m, s)
    decreases |s|
  {
    var x :| x in s;
    if s == {x} {
      LexLeRefl(x);
      assert IsLeast(x, s);
    } else {
      var rest := s - {x};
      LeastExists(rest);
      var m :| IsLeast(m, rest);
      LexLeTotal(x, m);
      if LexLe(x, m) {
        forall y | y in s ensures LexLe(x, y) {
          if y == x { LexLeRefl(x); } else { LexLeTrans(x, m, y); }
        }
        assert IsLeast(x, s);
      } else {
        assert IsLeast(m, s);
      }
    }
  }

  lemma LeastUnique(s: set<string>)
    ensures forall m1, m2 :: IsLeast(m1, s) && IsLeast(m2, s) ==> m1 == m2
  {
    forall m1, m2 | IsLeast(m1, s) && IsLeast(m2, s) ensures m1 == m2 {
      LexLeAntisym(m1, m2);
    }
  }

  /** The smallest string of a non-empty set. */
  function SetMin(s: set<string>): (m: string)
    requires s != {}
    ensures m in s
    ensures forall x :: x in s ==> LexLe(m, x)
  {
    LeastExists(s);
    LeastUnique(s);
    var m :| IsLeast(m, s);
    m
  }

  /** Strictly increasing: sorted and duplicate-free. */
  predicate StrictlySorted(r: seq<string>) {
    forall i, j {:trigger LexLt(r[i], r[j])} :: 0 <= i < j < |r| ==> LexLt(r[i], r[j])
  }

  /** Non-strictly increasing. */
  predicate Sorted(r: seq<string>) {
    Sorting.SortedBy(r, LexLe)
  }

  /** Python's `sorted(s)` for a set of strings. */
  function SortSet(s: set<string>): (r: seq<string>)
    ensures |r| == |s|
    ensures forall x :: x in r <==> x in s
    ensures StrictlySorted(r)
    decreases |s|
  {
    if s == {} then []
    else
      var m := SetMin(s);
      var rest := SortSet(s - {m});
      PrependLeast(m, s, rest);
      [m] + rest
  }

  lemma PrependLeast(m: string, s: set<string>, rest: seq<string>)
    requires m in s && forall x :: x in s ==> LexLe(m, x)
    requires forall x :: x in rest <==> x in s - {m}
    requires StrictlySorted(rest)
    ensures StrictlySorted([m] + rest)
  {
    var r := [m] + rest;
    forall i, j | 0 <= i < j < |r| ensures LexLt(r[i], r[j]) {
      if i == 0 {
        assert r[j] == rest[j - 1];
        assert rest[j - 1] in rest;
      } else {
        assert r[i] == rest[i - 1] && r[j] == rest[j - 1];
      }
    }
  }

  lemma StrictlySortedDistinct(r: seq<string>)
    requires StrictlySorted(r)
    ensures forall i, j :: 0 <= i < |r| && 0 <= j < |r| && i != j ==> r[i] != r[j]
  {
    forall i, j | 0 <= i < |r| && 0 <= j < |r| && i != j ensures r[i] != r[j] {
      if i < j {
        assert LexLt(r[i], r[j]);
      } else {
        assert LexLt(r[j], r[i]);
      }
    }
  }

  // ---------------------------------------------------------------------------
  // Python's `sorted(list_of_str)`: a stable sort, hence a permutation.
  // ---------------------------------------------------------------------------

  lemma LexLeTotalPreorder()
    ensures Sorting.TotalPreorder(LexLe)
  {
    LexLeIsTotalOrder();
  }

  function SortSeq(s: seq<string>): (r: seq<string>)
    ensures Sorted(r)
    ensures multiset(r) == multiset(s)
    ensures |r| == |s|
  {
    LexLeTotalPreorder();
    Sorting.SortBy(s, LexLe)
  }

  /** A sorted arrangement of a multiset is unique. */
  lemma SortedUnique(a: seq<string>, b: seq<string>)
    requires Sorted(a) && Sorted(b)
    requires multiset(a) == multiset(b)
    ensures a == b
  {
    LexLeTotalPreorder();
    LexLeIsTotalOrder();
    Sorting.SortedUniqueBy(a, b, LexLe);
  }

  /** Sorting forgets the input order. */
  lemma SortSeqPermutationInvariant(s: seq<string>, t: seq<string>)
    requires multiset(s) == multiset(t)
    ensures SortSeq(s) == SortSeq(t)
  {
    SortedUnique(SortSeq(s), SortSeq(t));
  }
}

=== FILE: tester.dfy ===
/** The test pipeline (jaunt/tester.py): the pytest launch and its
    `PYTHONPATH`, where generated tests may be written, `gen_one`,
    `run_test_generation` and `run_tests`. */
module Tester {
  import opened Wrappers
  import PyValues
  import opened Text
  import opened Strings
  import opened Sorting
  import opened Graphs
  import opened Registry
  import opened Paths
  import opened PathLayout
  import opened Staleness
  import opened Planning
  import opened Scheduler
  import opened Generation
  import opened Validation
  import DepsOrder
  import Build

  // ---------------------------------------------------------------------------
  // run_pytest.
  // ---------------------------------------------------------------------------

  /** `os.pathsep` on POSIX. */
  const PathSep := ':'

  /** The `xs[k]` that are not in `seen` and do not occur in `xs[..k]`, in
      index order: each unseen string at its first occurrence. */
  function FirstOccurrences(xs: seq<string>, seen: set<string>): seq<string>
    decreases |xs|
  {
    if |xs| == 0 then []
    else
      var k := |xs| - 1;
      FirstOccurrences(xs[..k], seen) + (if xs[k] !in seen && xs[k] !in xs[..k] then [xs[k]] else [])
  }

  /** Taking first occurrences from the front: the head is kept exactly when
      unseen, and the rest is then read with the head counted as seen. */
  lemma {:induction false} FirstOccurrencesCons(xs: seq<string>, seen: set<string>)
    requires |xs| > 0
    ensures FirstOccurrences(xs, seen) ==
      if xs[0] in seen then FirstOccurrences(xs[1..], seen)
      else [xs[0]] + FirstOccurrences(xs[1..], seen + {xs[0]})
    decreases |xs|
  {
    var x := xs[0];
    if |xs| == 1 {
      assert xs[..0] == [] && xs[1..] == [];
    } else {
      var k := |xs| - 1;
      var y := xs[k];
      var p := xs[..k];
      var t := xs[1..];
      assert p[0] == x && p[1..] == t[..k - 1] && t[k - 1] == y;
      assert y in p <==> y == x || y in p[1..] by {
        assert p == [x] + p[1..];
      }
      FirstOccurrencesCons(p, seen);
      var last := if y !in seen && y !in p then [y] else [];
      assert FirstOccurrences(xs, seen) == FirstOccurrences(p, seen) + last;
      var seen' := if x in seen then seen else seen + {x};
      assert FirstOccurrences(t, seen') ==
        FirstOccurrences(p[1..], seen') + (if y !in seen' && y !in p[1..] then [y] else []);
      assert (y !in seen' && y !in p[1..]) <==> y !in seen && y !in p;
      if x !in seen {
        assert [x] + FirstOccurrences(p[1..], seen') + last == [x] + (FirstOccurrences(p[1..], seen') + last);
      }
    }
  }

  /** The strings of `xs` not in `seen`, each at its first occurrence, in
      the order of those occurrences (the `seen`/`append` loop). */
  function Dedupe(xs: seq<string>, seen: set<string>): (r: seq<string>)
    ensures forall x :: x in r <==> x in xs && x !in seen
    ensures r == FirstOccurrences(xs, seen)
    decreases |xs|
  {
    if |xs| == 0 then []
    else
      FirstOccurrencesCons(xs, seen);
      if xs[0] in seen then Dedupe(xs[1..], seen)
      else [xs[0]] + Dedupe(xs[1..], seen + {xs[0]})
  }

  /** No string occurs twice. */
  predicate NoRepeats(r: seq<string>) {
    forall i, j :: 0 <= i < j < |r| ==> r[i] != r[j]
  }

  /** No string occurs twice in a deduplicated sequence. */
  lemma {:induction false} DedupeDistinct(xs: seq<string>, seen: set<string>)
    ensures NoRepeats(Dedupe(xs, seen))
    decreases |xs|
  {
    if |xs| > 0 {
      if xs[0] in seen {
        DedupeDistinct(xs[1..], seen);
        assert Dedupe(xs, seen) == Dedupe(xs[1..], seen);
      } else {
        var rest := Dedupe(xs[1..], seen + {xs[0]});
        DedupeDistinct(xs[1..], seen + {xs[0]});
        assert NoRepeats(rest);
        var r := [xs[0]] + rest;
        assert Dedupe(xs, seen) == r;
        forall i, j | 0 <= i < j < |r| ensures r[i] != r[j] {
          if i == 0 {
            assert r[j] == rest[j - 1] && rest[j - 1] in rest;
            assert rest[j - 1] !in seen + {xs[0]};
          } else {
            assert r[i] == rest[i - 1] && r[j] == rest[j - 1];
            assert rest[i - 1] != rest[j - 1];
          }
        }
      }
    }
  }

  /** First occurrences in a concatenation: those of the front, then those
      of the back that the front does not already hold. */
  lemma {:induction false} FirstOccurrencesConcat(a: seq<string>, b: seq<string>, seen: set<string>)
    ensures FirstOccurrences(a + b, seen) == FirstOccurrences(a, seen) + FirstOccurrences(b, seen + set x | x in a)
    decreases |b|
  {
    var front := set x | x in a;
    if |b| == 0 {
      assert a + b == a;
    } else {
      var k := |b| - 1;
      var y := b[k];
      var ab := a + b;
      assert |ab| - 1 == |a| + k && ab[|a| + k] == y;
      assert ab[..|a| + k] == a + b[..k];
      FirstOccurrencesConcat(a, b[..k], seen);
      assert y in a + b[..k] <==> y in front || y in b[..k];
      var last := if y !in seen + front && y !in b[..k] then [y] else [];
      assert FirstOccurrences(ab, seen) == FirstOccurrences(a + b[..k], seen) + last;
      assert FirstOccurrences(b, seen + front) == FirstOccurrences(b[..k], seen + front) + last;
      AppendAssoc(FirstOccurrences(a, seen), FirstOccurrences(b[..k], seen + front), last);
    }
  }

  /** Deduplicating a concatenation deduplicates the front, then the back
      without what the front already holds. */
  lemma DedupeConcat(a: seq<string>, b: seq<string>, seen: set<string>)
    ensures Dedupe(a + b, seen) == Dedupe(a, seen) + Dedupe(b, seen + set x | x in a)
  {
    FirstOccurrencesConcat(a, b, seen);
  }

  lemma AppendAssoc(x: seq<string>, y: seq<string>, z: seq<string>)
    ensures x + (y + z) == x + y + z
  {
  }

  /** The non-empty strings of `xs`, in order. */
  function NonEmpty(xs: seq<string>): (r: seq<string>)
    ensures forall x :: x in r <==> x in xs && x != ""
    decreases |xs|
  {
    if |xs| == 0 then []
    else if xs[0] == "" then NonEmpty(xs[1..])
    else [xs[0]] + NonEmpty(xs[1..])
  }

  /** The entries of the inherited `PYTHONPATH` (missing counts as empty). */
  function CurrentParts(environ: map<string, string>): seq<string> {
    var cur := if "PYTHONPATH" in environ then environ["PYTHONPATH"] else "";
    if cur == "" then [] else NonEmpty(Split(cur, PathSep))
  }

  /** The `PYTHONPATH` entries pytest receives: the requested paths
      that exist, then the inherited entries, without repeats. */
  function MergedPythonPath(newParts: seq<string>, environ: map<string, string>): seq<string> {
    Dedupe(newParts + CurrentParts(environ), {})
  }

  /** The requested entries come first, in their order; every entry
      appears once; nothing but requested and inherited entries appears. */
  lemma MergedPythonPathLaws(newParts: seq<string>, environ: map<string, string>)
    ensures var r := MergedPythonPath(newParts, environ);
      |Dedupe(newParts, {})| <= |r| && r[..|Dedupe(newParts, {})|] == Dedupe(newParts, {})
    ensures var r := MergedPythonPath(newParts, environ);
      forall x :: x in r <==> x in newParts || x in CurrentParts(environ)
    ensures var r := MergedPythonPath(newParts, environ);
      forall i, j :: 0 <= i < j < |r| ==> r[i] != r[j]
    ensures var r := MergedPythonPath(newParts, environ);
      |Dedupe(newParts, {})| <= |r|
      && r[|Dedupe(newParts, {})|..] == FirstOccurrences(CurrentParts(environ), set x | x in newParts)
  {
    var cur := CurrentParts(environ);
    var front := Dedupe(newParts, {});
    var back := Dedupe(cur, {} + set x | x in newParts);
    DedupeConcat(newParts, cur, {});
    assert MergedPythonPath(newParts, environ) == front + back;
    assert ({} + set x | x in newParts) == set x | x in newParts;
    assert (front + back)[|front|..] == back;
    DedupeDistinct(newParts + cur, {});
  }

  /** The environment of the pytest process. `pythonpath` holds the
      requested entries, already resolved; `pathExists` tells which of them
      exist, as files or as directories. */
  function PytestEnv(environ: map<string, string>, pythonpath: Option<seq<string>>, pathExists: string -> bool)
    : (env: map<string, string>)
    ensures pythonpath.None? ==> env == environ
    ensures forall k :: k in environ && k != "PYTHONPATH" ==> k in env && env[k] == environ[k]
    ensures env.Keys <= environ.Keys + {"PYTHONPATH"}
    ensures pythonpath.Some? ==>
      var merged := MergedPythonPath(Filter(pythonpath.value, pathExists), environ);
      (merged == [] ==> env == environ) && (merged != [] ==> "PYTHONPATH" in env && env["PYTHONPATH"] == Join(merged, [PathSep]))
  {
    if pythonpath.None? then environ
    else
      var merged := MergedPythonPath(Filter(pythonpath.value, pathExists), environ);
      if merged == [] then environ else environ["PYTHONPATH" := Join(merged, [PathSep])]
  }

  /** The strings of `xs` that satisfy `keep`, in order. */
  function Filter(xs: seq<string>, keep: string -> bool): (r: seq<string>)
    ensures forall x :: x in r <==> x in xs && keep(x)
    ensures |r| <= |xs|
    decreases |xs|
  {
    if |xs| == 0 then []
    else if keep(xs[0]) then [xs[0]] + Filter(xs[1..], keep)
    else Filter(xs[1..], keep)
  }

  /** `str(p)` of an absolute path. */
  function PathString(p: seq<string>): string {
    "/" + Join(p, "/")
  }

  /** The command line: the interpreter, `-m pytest`, the extra arguments,
      then the test files. */
  function PytestArgs(exe: string, pytestArgs: Option<seq<string>>, files: seq<seq<string>>): (r: seq<string>)
    ensures |r| == 3 + |pytestArgs.GetOr([])| + |files|
    ensures r[..3] == [exe, "-m", "pytest"]
    ensures r[3..3 + |pytestArgs.GetOr([])|] == pytestArgs.GetOr([])
    ensures forall i :: 0 <= i < |files| ==> r[3 + |pytestArgs.GetOr([])| + i] == PathString(files[i])
  {
    [exe, "-m", "pytest"] + pytestArgs.GetOr([]) + seq(|files|, i requires 0 <= i < |files| => PathString(files[i]))
  }

  /** `run_pytest`: the exit code of the pytest process, which `run`
      stands for; with no files nothing is launched. */
  function RunPytest(exe: string, files: seq<seq<string>>, pytestArgs: Option<seq<string>>,
                     pythonpath: Option<seq<string>>, environ: map<string, string>, pathExists: string -> bool,
                     run: (seq<string>, map<string, string>) -> int): (code: int)
    ensures files == [] ==> code == 0
    ensures files != [] ==> code == run(PytestArgs(exe, pytestArgs, files), PytestEnv(environ, pythonpath, pathExists))
  {
    if files == [] then 0
    else run(PytestArgs(exe, pytestArgs, files), PytestEnv(environ, pythonpath, pathExists))
  }

  // ---------------------------------------------------------------------------
  // Where generated tests go.
  // ---------------------------------------------------------------------------

  /** `module_name.split(".", 1)[0]`, the top package. */
  function TopPackage(m: string): string {
    Split(m, '.')[0]
  }

  function NotUnderMessage(m: string, tp: string): string {
    "Test module " + PyValues.StrRepr(m) + " is not under " + PyValues.StrRepr(tp) + "."
  }

  function OutsideMessage(tp: string, g: string, rel: seq<string>): string {
    "Refusing to write outside " + tp + "/" + g + ": " + Join(rel, "/")
  }

  /** `_generated_test_relpath`: the generated test module's path relative
      to the project, which must start with `<tests_package>/<generated_dir>`.
      The relative path is computed as `_generated_relpath` evidently means
      to (see `Staleness.GeneratedRelpath`). */
  function GeneratedTestRelpath(m: string, tp: string, g: string): (r: Result<seq<string>>)
    ensures r.Ok? <==> TopPackage(m) == tp && |GeneratedRelpath(m, g)| >= 2 &&
                       GeneratedRelpath(m, g)[0] == tp && GeneratedRelpath(m, g)[1] == g
    ensures r.Ok? ==> r.value == GeneratedRelpath(m, g)
    ensures TopPackage(m) != tp ==> r == Err(ValueError(NotUnderMessage(m, tp)))
    ensures TopPackage(m) == tp && r.Err? ==> r == Err(ValueError(OutsideMessage(tp, g, GeneratedRelpath(m, g))))
  {
    if TopPackage(m) != tp then Err(ValueError(NotUnderMessage(m, tp)))
    else
      var rel := GeneratedRelpath(m, g);
      if |rel| < 2 || rel[0] != tp || rel[1] != g then Err(ValueError(OutsideMessage(tp, g, rel)))
      else Ok(rel)
  }

  /** `_generated_test_relpath` as written: once the top package matches it
      makes the same `generated_dir=` call as `_generated_relpath`, which
      raises `TypeError`. */
  function GeneratedTestRelpathAsWritten(m: string, tp: string, g: string): (r: Result<seq<string>>)
    ensures r.Err?
  {
    if TopPackage(m) != tp then Err(ValueError(NotUnderMessage(m, tp)))
    else Err(GeneratedRelpathAsWritten(m, g).error)
  }

  /** Every test module under the tests package fails as written, where the
      intended path is accepted. */
  lemma TestRelpathAsWrittenRaises(m: string)
    requires Mirrorable(m) && |Split(m, '.')| >= 2
    ensures GeneratedTestRelpathAsWritten(m, TopPackage(m), DefaultGeneratedDir).error.TypeError?
    ensures GeneratedTestRelpath(m, TopPackage(m), DefaultGeneratedDir).Ok?
  {
    TestRelpathMirrors(m, TopPackage(m));
  }

  /** With the default directory, a well-formed test module under `tp` is
      accepted, and its file mirrors the module's own path inside
      `<tp>/__generated__/`. */
  lemma TestRelpathMirrors(m: string, tp: string)
    requires Mirrorable(m) && TopPackage(m) == tp
    ensures GeneratedTestRelpath(m, tp, DefaultGeneratedDir) ==
      Ok([tp, DefaultGeneratedDir] + ModuleToRelpath(m)[1..])
  {
    GeneratedPathMirrorsSpecPath(m);
  }

  /** `p` lies strictly below `dir`: `dir in p.parents`. */
  predicate Below(dir: seq<string>, p: seq<string>) {
    |dir| < |p| && p[..|dir|] == dir
  }

  /** The resolved `<project>/<tests_package>/<generated_dir>`. */
  function GenRoot(root: seq<string>, tp: string, g: string): seq<string> {
    ResolveFrom(ResolveFrom(root, [tp]), [g])
  }

  /** `_write_generated_test_module`: the file is written only inside the
      project and strictly inside the tests' generated directory; the
      packages on the way get an empty `__init__.py`. */
  function WriteGeneratedTestModule(disk: Disk, root: seq<string>, tp: string, g: string, m: string, source: string,
                                    format: HeaderFields -> string, fields: HeaderFields)
    : (r: Result<(Disk, seq<string>)>)
    ensures GeneratedTestRelpath(m, tp, g).Err? ==> r == Err(GeneratedTestRelpath(m, tp, g).error)
    ensures GeneratedTestRelpath(m, tp, g).Ok? ==>
      var out := ResolveFrom(root, GeneratedTestRelpath(m, tp, g).value);
      && (!Within(root, out) ==> r == Err(ValueError("Refusing to write outside project_dir.")))
      && (Within(root, out) && !Below(GenRoot(root, tp, g), out) ==>
            r == Err(ValueError("Refusing to write outside tests generated dir.")))
      && (r.Ok? <==> Within(root, out) && Below(GenRoot(root, tp, g), out))
    ensures r.Ok? ==> var (d, out) := r.value;
      && out == ResolveFrom(root, GeneratedRelpath(m, g))
      && Within(root, out) && Below(GenRoot(root, tp, g), out)
      && d.Keys == disk.Keys + {out} + (set p | p in InitPaths(root, GeneratedRelpath(m, g)))
      && d[out] == Contents(FileContent(format(fields), source))
      && (forall p :: p in disk && p != out ==> d[p] == disk[p])
      && (forall p :: p in d && p !in disk && p != out ==> d[p] == Contents(""))
  {
    var rel :- GeneratedTestRelpath(m, tp, g);
    var out := ResolveFrom(root, rel);
    if !Within(root, out) then Err(ValueError("Refusing to write outside project_dir."))
    else if !Below(GenRoot(root, tp, g), out) then Err(ValueError("Refusing to write outside tests generated dir."))
    else Ok((WriteWithInits(disk, root, rel, out, FileContent(format(fields), source)), out))
  }

  /** For plain names the guards refuse an accepted relative path only
      when it names the generated directory itself; otherwise the file
      lands at that path below the project. */
  lemma WriteTestGuardsForPlainNames(disk: Disk, root: seq<string>, tp: string, g: string, m: string,
                                     source: string, format: HeaderFields -> string, fields: HeaderFields)
    requires '/' !in m && '/' !in g && PlainComponent(tp) && PlainComponent(g)
    requires GeneratedTestRelpath(m, tp, g).Ok?
    ensures var r := WriteGeneratedTestModule(disk, root, tp, g, m, source, format, fields);
      (r.Ok? <==> |GeneratedRelpath(m, g)| > 2) && (r.Ok? ==> r.value.1 == root + GeneratedRelpath(m, g))
  {
    var rel := GeneratedRelpath(m, g);
    GeneratedRelpathPlain(m, g);
    PlainTestPaths(root, tp, g, rel);
  }

  /** The two guards on plain components: the output is always inside the
      project, and strictly inside `<tp>/<g>` unless it is that directory. */
  lemma PlainTestPaths(root: seq<string>, tp: string, g: string, rel: seq<string>)
    requires PlainComponent(tp) && PlainComponent(g)
    requires forall i :: 0 <= i < |rel| ==> PlainComponent(rel[i])
    requires |rel| >= 2 && rel[0] == tp && rel[1] == g
    ensures ResolveFrom(root, rel) == root + rel
    ensures Within(root, root + rel)
    ensures Below(GenRoot(root, tp, g), root + rel) <==> |rel| > 2
  {
    ResolvePlain(root, rel);
    ResolvePlain(root, [tp]);
    ResolvePlain(root + [tp], [g]);
    assert GenRoot(root, tp, g) == root + [tp, g];
    assert (root + rel)[..|root|] == root;
    assert (root + rel)[..|root| + 2] == root + [tp, g];
  }

  // ---------------------------------------------------------------------------
  // One test module.
  // ---------------------------------------------------------------------------

  /** The inputs of `run_test_generation` that stay fixed while it runs.
      `root` is the resolved project directory. */
  datatype TestEnv = TestEnv(
    root: seq<string>,
    testsPackage: string,
    generatedDir: string,
    dependencyApis: Option<map<string, string>>,
    moduleSpecs: map<string, seq<SpecEntry>>,
    dag: Graph,
    toolVersion: string)

  function TestEntries(env: TestEnv, m: string): seq<SpecEntry> {
    if m in env.moduleSpecs then env.moduleSpecs[m] else []
  }

  /** The context `gen_one` hands to the backend: kind "test", the given
      dependency APIs, and no generated dependency modules. */
  function TestContext(env: TestEnv, o: Oracles, m: string): (r: Result<ModuleSpecContext>)
    ensures r.Ok? <==> forall i :: 0 <= i < |TestEntries(env, m)| ==> o.segment(TestEntries(env, m)[i]).Ok?
    ensures r.Ok? ==> r.value.kind == "test" && r.value.dependencyGeneratedModules == map[] &&
                      r.value.dependencyApis == env.dependencyApis.GetOr(map[])
  {
    var entries := TestEntries(env, m);
    var sources :- SpecSources(entries, o.segment);
    Ok(ModuleSpecContext("test", m, SpecModuleToGeneratedModule(m, env.generatedDir), ExpectedNames(entries),
                         sources, DecoratorPrompts(entries), env.dependencyApis.GetOr(map[]), map[], ""))
  }

  /** `gen_one(m)`: the job's `(ok, errors, path)` or the exception it
      raised, and the disk afterwards. */
  function GenOne(env: TestEnv, o: Oracles, m: string, disk: Disk): (r: (Result<TaskResult>, Disk))
    ensures TestContext(env, o, m).Err? ==> r.0 == Err(TestContext(env, o, m).error) && r.1 == disk
    ensures r.0.Err? || !r.0.value.ok ==> r.1 == disk
  {
    match TestContext(env, o, m)
    case Err(e) => (Err(e), disk)
    case Ok(ctx) =>
      match o.generate(ctx)
      case Err(e) => (Err(e), disk)
      case Ok(res) =>
        match Rejection(res, o.parse, ExpectedNames(TestEntries(env, m)))
        case Some(errs) => (Ok(TaskResult(false, errs, None)), disk)
        case None => StoreTest(env, o, m, disk, res.source.value)
  }

  /** The tail of `gen_one` once `source` has validated. */
  function StoreTest(env: TestEnv, o: Oracles, m: string, disk: Disk, source: string): (r: (Result<TaskResult>, Disk))
  {
    var entries := TestEntries(env, m);
    match o.md(m, entries)
    case Err(e) => (Err(e), disk)
    case Ok(digest) =>
      match WriteGeneratedTestModule(disk, env.root, env.testsPackage, env.generatedDir, m, source, o.format,
                                     HeaderFor(env.toolVersion, "test", m, digest, entries))
      case Err(e) => (Err(e), disk)
      case Ok(written) => (Ok(TaskResult(true, [], Some(written.1))), written.0)
  }

  /** A source the backend gave that validates against the module's names. */
  ghost predicate TestAccepted(env: TestEnv, o: Oracles, m: string, source: string) {
    && TestContext(env, o, m).Ok?
    && o.generate(TestContext(env, o, m).value).Ok?
    && o.generate(TestContext(env, o, m).value).value.source == Some(source)
    && ValidateGeneratedSource(o.parse, source, Some(ExpectedNames(TestEntries(env, m)))) == []
  }

  /** A test module generated successfully reports the file it wrote, which
      lies inside the tests' generated directory and holds the validated
      source under a "test" header carrying the module digest; the disk
      changes only then. */
  lemma GenOneWrites(env: TestEnv, o: Oracles, m: string, disk: Disk)
    ensures GenOne(env, o, m, disk).1 != disk ==> Outcome(GenOne(env, o, m, disk).0).0
    ensures Outcome(GenOne(env, o, m, disk).0).0 ==>
      var r := GenOne(env, o, m, disk);
      && r.0.value.out.Some?
      && Below(GenRoot(env.root, env.testsPackage, env.generatedDir), r.0.value.out.value)
      && r.0.value.out.value in r.1
      && exists source :: (TestAccepted(env, o, m, source) &&
          r.1[r.0.value.out.value] == Contents(FileContent(o.format(
            HeaderFor(env.toolVersion, "test", m, o.md(m, TestEntries(env, m)).value, TestEntries(env, m))), source)))
  {
    var r := GenOne(env, o, m, disk);
    if r.1 != disk || Outcome(r.0).0 {
      var ctx := TestContext(env, o, m).value;
      var res := o.generate(ctx).value;
      assert TestAccepted(env, o, m, res.source.value);
    }
  }

  /** A backend that returns no source, or a source that does not validate,
      fails the module with those errors and writes nothing. */
  lemma GenOneRejects(env: TestEnv, o: Oracles, m: string, disk: Disk)
    requires TestContext(env, o, m).Ok? && o.generate(TestContext(env, o, m).value).Ok?
    requires o.generate(TestContext(env, o, m).value).value.source.None? ||
             ValidateGeneratedSource(o.parse, o.generate(TestContext(env, o, m).value).value.source.value,
                                     Some(ExpectedNames(TestEntries(env, m)))) != []
    ensures GenOne(env, o, m, disk).1 == disk && !Outcome(GenOne(env, o, m, disk).0).0
    ensures Outcome(GenOne(env, o, m, disk).0).1 != []
  {
    var res := o.generate(TestContext(env, o, m).value).value;
    assert Rejection(res, o.parse, ExpectedNames(TestEntries(env, m))).Some?;
  }

  /** The job the test generation runs for each module. */
  function TestWork(env: TestEnv, o: Oracles): (string, Disk) -> (Result<TaskResult>, Disk) {
    (m: string, d: Disk) => GenOne(env, o, m, d)
  }

  // ---------------------------------------------------------------------------
  // The priorities as written.
  // ---------------------------------------------------------------------------

  /** `_critical_path_lengths(stale, dag)` as the interpreter runs it, with
      recursion limit `limit`, taking the modules in `str` order: the first
      `RecursionError` escapes. */
  function PrioritiesAsWritten(stale: set<string>, dag: Graph, limit: nat): Result<map<string, nat>> {
    var dependents := DependentsIn(stale, InducedDeps(stale, dag));
    LengthsAsWritten(dependents, SortSet(stale), limit)
  }

  function LengthsAsWritten(dependents: Graph, ms: seq<string>, limit: nat): (r: Result<map<string, nat>>)
    ensures r.Ok? ==> forall i :: 0 <= i < |ms| ==> LengthAsWritten(dependents, ms[i], 0, limit).Ok?
    ensures (exists i :: 0 <= i < |ms| && LengthAsWritten(dependents, ms[i], 0, limit).Err?) ==> r.Err?
    decreases |ms|
  {
    if |ms| == 0 then Ok(map[])
    else
      var here :- LengthAsWritten(dependents, ms[0], 0, limit);
      var rest :- LengthsAsWritten(dependents, ms[1..], limit);
      assert forall i :: 1 <= i < |ms| ==> ms[i] == ms[1..][i - 1];
      Ok(rest[ms[0] := here])
  }

  /** Two test modules that depend on each other: the priorities raise
      `RecursionError`, whatever the recursion limit, before any module is
      generated. */
  lemma TwoCycleTestPrioritiesRaise(limit: nat)
    ensures PrioritiesAsWritten({"a", "b"}, map["a" := {"b"}, "b" := {"a"}], limit) ==
      Err(RuntimeError(RecursionMessage))
  {
    var stale: set<string> := {"a", "b"};
    var dependents := map["a" := {"b"}, "b" := {"a"}];
    TwoCycleDependents();
    TwoCycleExhaustsRecursion(0, limit);
    var ms := SortSet(stale);
    assert ms[0] in stale;
    assert LengthAsWritten(dependents, ms[0], 0, limit) == Err(RuntimeError(RecursionMessage));
  }

  lemma TwoCycleDependents()
    ensures DependentsIn({"a", "b"}, InducedDeps({"a", "b"}, map["a" := {"b"}, "b" := {"a"}])) ==
      map["a" := {"b"}, "b" := {"a"}]
  {
    var stale: set<string> := {"a", "b"};
    var deps := InducedDeps(stale, map["a" := {"b"}, "b" := {"a"}]);
    assert deps["a"] == {"b"} && deps["b"] == {"a"} by {
      assert Edge(map["a" := {"b"}, "b" := {"a"}], "a", "b");
      assert Edge(map["a" := {"b"}, "b" := {"a"}], "b", "a");
    }
    var dependents := DependentsIn(stale, deps);
    assert dependents["a"] == {"b"} by {
      assert Edge(deps, "b", "a");
    }
    assert dependents["b"] == {"a"} by {
      assert Edge(deps, "a", "b");
    }
  }

  /** Without a cycle and with room in the recursion limit, the priorities
      as written are the critical-path lengths the corrected generation
      uses. */
  lemma PrioritiesAsWrittenAgree(stale: set<string>, dag: Graph, order: seq<string>, jobs: int, limit: nat)
    requires DepsOrder.Toposort(InducedDeps(stale, dag)) == Ok(order)
    requires |order| < limit
    ensures PrioritiesAsWritten(stale, dag, limit).Ok?
    ensures forall m :: m in stale ==> (m in PrioritiesAsWritten(stale, dag, limit).value &&
      PrioritiesAsWritten(stale, dag, limit).value[m] == Build.PlanFor(stale, dag, order, jobs).prio[m])
  {
    PlanForPrio(stale, dag, order, jobs);
    AsWrittenLengths(stale, dag, RankOf(order), limit);
  }

  /** On a graph whose heights fall towards dependents and fit in the
      recursion limit, every priority as written is the module's
      critical-path length. */
  lemma AsWrittenLengths(stale: set<string>, dag: Graph, rank: map<string, nat>, limit: nat)
    requires Falling(DependentsIn(stale, InducedDeps(stale, dag)), rank)
    requires forall m :: m in stale ==> m in rank && rank[m] < limit
    ensures PrioritiesAsWritten(stale, dag, limit).Ok?
    ensures forall m :: m in stale ==> (m in PrioritiesAsWritten(stale, dag, limit).value &&
      PrioritiesAsWritten(stale, dag, limit).value[m] == Length(DependentsIn(stale, InducedDeps(stale, dag)), rank, m))
  {
    var dependents := DependentsIn(stale, InducedDeps(stale, dag));
    AllLengthsAgree(dependents, rank, stale, limit);
    SortSetWithin(stale);
    LengthsAgree(dependents, rank, stale, SortSet(stale), limit);
  }

  lemma AllLengthsAgree(dependents: Graph, rank: map<string, nat>, stale: set<string>, limit: nat)
    requires Falling(dependents, rank)
    requires forall m :: m in stale ==> m in rank && rank[m] < limit
    ensures forall m :: m in stale ==> LengthAsWritten(dependents, m, 0, limit) == Ok(Length(dependents, rank, m))
  {
    forall m | m in stale
      ensures LengthAsWritten(dependents, m, 0, limit) == Ok(Length(dependents, rank, m))
    {
      LengthAsWrittenAgrees(dependents, rank, m, 0, limit);
    }
  }

  lemma SortSetWithin(s: set<string>)
    ensures forall i :: 0 <= i < |SortSet(s)| ==> SortSet(s)[i] in s
  {
  }

  /** The corrected priorities are the critical-path lengths over the
      reversed induced graph, ranked by the cycle check's order. */
  lemma PlanForPrio(stale: set<string>, dag: Graph, order: seq<string>, jobs: int)
    requires DepsOrder.Toposort(InducedDeps(stale, dag)) == Ok(order)
    ensures Falling(DependentsIn(stale, InducedDeps(stale, dag)), RankOf(order))
    ensures forall m :: m in stale ==> m in RankOf(order) && RankOf(order)[m] <= |order|
    ensures forall m :: m in stale ==> (Build.PlanFor(stale, dag, order, jobs).prio[m] ==
      Length(DependentsIn(stale, InducedDeps(stale, dag)), RankOf(order), m))
  {
    var p0 := MakePlan(stale, dag, map[], jobs);
    Build.Planned(stale, dag, p0, order);
  }

  lemma {:induction false} LengthsAgree(dependents: Graph, rank: map<string, nat>, stale: set<string>,
                                        ms: seq<string>, limit: nat)
    requires Falling(dependents, rank) && forall m :: m in stale ==> m in rank
    requires forall m :: m in stale ==> LengthAsWritten(dependents, m, 0, limit) == Ok(Length(dependents, rank, m))
    requires forall i :: 0 <= i < |ms| ==> ms[i] in stale
    ensures LengthsAsWritten(dependents, ms, limit).Ok?
    ensures forall m :: m in ms ==> (m in LengthsAsWritten(dependents, ms, limit).value &&
      LengthsAsWritten(dependents, ms, limit).value[m] == Length(dependents, rank, m))
    decreases |ms|
  {
    if |ms| > 0 {
      assert ms[0] in stale;
      LengthsAgree(dependents, rank, stale, ms[1..], limit);
      assert forall m :: m in ms ==> m == ms[0] || m in ms[1..];
    }
  }

  // ---------------------------------------------------------------------------
  // The test generation.
  // ---------------------------------------------------------------------------

  datatype TestGenerationReport = TestGenerationReport(
    generated: set<string>,
    skipped: set<string>,
    failed: map<string, seq<string>>,
    generatedFiles: seq<seq<string>>)

  /** `str(a) <= str(b)`. */
  predicate PathLe(a: seq<string>, b: seq<string>) {
    LexLe(PathString(a), PathString(b))
  }

  lemma PathLeTotalPreorder()
    ensures TotalPreorder(PathLe)
  {
    LexLeIsTotalOrder();
  }

  /** `sorted(files, key=str)`. */
  function SortPaths(files: seq<seq<string>>): (r: seq<seq<string>>)
    ensures SortedBy(r, PathLe)
    ensures multiset(r) == multiset(files)
  {
    PathLeTotalPreorder();
    SortBy(files, PathLe)
  }

  /** `run_test_generation`, with the cycle check that `run_build` makes
      (the function as written loops until `RecursionError` on a cycle, see
      `TwoCycleTestPrioritiesRaise`). The requested modules are not
      expanded to their dependents. `pick` stands for `asyncio.wait`. */
  method RunTestGeneration(env: TestEnv, o: Oracles, staleModules: set<string>, jobs: int, disk0: Disk,
                           pick: (set<string>, seq<Event>) -> set<string>)
    returns (r: Result<TestGenerationReport>, events: seq<Event>, disk: Disk)
    ensures staleModules * env.moduleSpecs.Keys == {} ==>
      r == Ok(TestGenerationReport({}, env.moduleSpecs.Keys, map[], [])) && events == [] && disk == disk0
    ensures r.Err? <==> !Acyclic(InducedDeps(staleModules * env.moduleSpecs.Keys, env.dag))
    ensures r.Err? ==> events == [] && disk == disk0
    ensures r.Err? ==> exists c :: (IsCycle(InducedDeps(staleModules * env.moduleSpecs.Keys, env.dag), c) &&
                                    r.error == CycleError(DepsOrder.CycleMessage(c)))
    ensures r.Ok? ==> r.value.skipped == env.moduleSpecs.Keys - staleModules
    ensures r.Ok? ==> TestReports(env, staleModules * env.moduleSpecs.Keys, jobs, r.value, events)
    ensures r.Ok? ==> SortedBy(r.value.generatedFiles, PathLe)
  {
    var stale := staleModules * env.moduleSpecs.Keys;
    assert env.moduleSpecs.Keys - stale == env.moduleSpecs.Keys - staleModules;
    r, events, disk := GenerateModules(env, stale, jobs, disk0, TestWork(env, o), pick);
  }

  /** `run_test_generation` once the modules to generate are known. */
  method GenerateModules(env: TestEnv, stale: set<string>, jobs: int, disk0: Disk,
                         work: (string, Disk) -> (Result<TaskResult>, Disk), pick: (set<string>, seq<Event>) -> set<string>)
    returns (r: Result<TestGenerationReport>, events: seq<Event>, disk: Disk)
    requires stale <= env.moduleSpecs.Keys
    ensures stale == {} ==>
      r == Ok(TestGenerationReport({}, env.moduleSpecs.Keys, map[], [])) && events == [] && disk == disk0
    ensures r.Err? <==> !Acyclic(InducedDeps(stale, env.dag))
    ensures r.Err? ==> events == [] && disk == disk0
    ensures r.Err? ==> exists c :: (IsCycle(InducedDeps(stale, env.dag), c) &&
                                    r.error == CycleError(DepsOrder.CycleMessage(c)))
    ensures r.Ok? ==> TestReports(env, stale, jobs, r.value, events)
    ensures r.Ok? ==> SortedBy(r.value.generatedFiles, PathLe)
  {
    if stale == {} {
      Build.EmptyAcyclic();
      assert InducedDeps(stale, env.dag) == map[];
      assert env.moduleSpecs.Keys - stale == env.moduleSpecs.Keys;
      return Ok(TestGenerationReport({}, env.moduleSpecs.Keys - stale, map[], [])), [], disk0;
    }
    var t := DepsOrder.Toposort(InducedDeps(stale, env.dag));
    if t.Err? {
      return Err(t.error), [], disk0;
    }
    var report;
    report, events, disk := ScheduleTests(env, stale, t.value, jobs, disk0, work, pick);
    r := Ok(report);
  }

  /** What the scheduler's final state says about the test-generation report:
      the same guarantees `run_build` gives, read against the module graph. */
  ghost predicate TestReports(env: TestEnv, stale: set<string>, jobs: int, r: TestGenerationReport, events: seq<Event>) {
    && r.skipped == env.moduleSpecs.Keys - stale
    && r.generated !! r.failed.Keys && r.generated + r.failed.Keys == stale
    && (forall x, d :: x in r.generated && d in stale && Edge(env.dag, x, d) ==> d in r.generated)
    && (forall x :: x in r.failed ==> r.failed[x] != [])
    && (forall x :: x in r.failed && Succ(env.dag, x) * r.failed.Keys != {} ==>
          r.failed[x] == DependencyFailures(Succ(env.dag, x) * r.failed.Keys))
    && (forall x :: x in stale ==> (x in DispatchedIn(events) <==> Succ(env.dag, x) * stale <= r.generated))
    && AdvancedIn(events) == stale && AdvancedOkIn(events) == r.generated
    && DispatchOrder(MakePlan(stale, env.dag, map[], jobs), events)
  }

  /** The scheduling part of `run_test_generation`, on a graph found
      acyclic. */
  method ScheduleTests(env: TestEnv, stale: set<string>, order: seq<string>, jobs: int, disk0: Disk,
                       work: (string, Disk) -> (Result<TaskResult>, Disk), pick: (set<string>, seq<Event>) -> set<string>)
    returns (r: TestGenerationReport, events: seq<Event>, disk: Disk)
    requires stale <= env.moduleSpecs.Keys
    requires DepsOrder.Toposort(InducedDeps(stale, env.dag)) == Ok(order)
    ensures TestReports(env, stale, jobs, r, events)
    ensures SortedBy(r.generatedFiles, PathLe)
  {
    var p := Build.PlanFor(stale, env.dag, order, jobs);
    var s := Schedule(p, order, disk0, work, pick);
    r := TestGenerationReport(s.generated, env.moduleSpecs.Keys - stale, s.failed, SortPaths(s.files));
    TestReported(env, stale, jobs, p, s, r);
    events, disk := s.events, s.world;
  }

  /** The scheduler's guarantees, carried over to the test-generation report. */
  lemma TestReported(env: TestEnv, stale: set<string>, jobs: int, p: Plan, s: State<Disk>, r: TestGenerationReport)
    requires p.stale == stale && p.deps == InducedDeps(stale, env.dag) && p.jobs == ClampJobs(jobs)
    requires r.generated == s.generated && r.skipped == env.moduleSpecs.Keys - stale && r.failed == s.failed
    requires s.generated !! s.failed.Keys && s.generated + s.failed.Keys == p.stale
    requires forall x :: x in s.generated ==> p.deps[x] <= s.generated
    requires forall x :: x in s.failed ==> s.failed[x] != []
    requires forall x :: x in s.failed && p.deps[x] * s.failed.Keys != {} ==>
      s.failed[x] == DependencyFailures(p.deps[x] * s.failed.Keys)
    requires forall x :: x in p.stale ==> (x in DispatchedIn(s.events) <==> p.deps[x] <= s.generated)
    requires AdvancedIn(s.events) == p.stale && AdvancedOkIn(s.events) == s.generated
    requires DispatchOrder(p, s.events)
    ensures TestReports(env, stale, jobs, r, s.events)
  {
    Build.Reported(p, s, env.dag, jobs);
  }

  // ---------------------------------------------------------------------------
  // run_tests.
  // ---------------------------------------------------------------------------

  datatype PytestResult = PytestResult(exitCode: int, passed: bool, failed: bool, failures: seq<string>)

  /** What `run_tests` needs to generate: the module specs, the module graph
      and the requested modules. */
  datatype GenerationInputs = GenerationInputs(env: TestEnv, o: Oracles, staleModules: set<string>)

  /** How pytest is launched: the interpreter, its extra arguments, the
      requested `PYTHONPATH` entries, the inherited environment, and
      the process itself. */
  datatype PytestLaunch = PytestLaunch(
    exe: string,
    pytestArgs: Option<seq<string>>,
    pythonpath: Option<seq<string>>,
    environ: map<string, string>,
    pathExists: string -> bool,
    run: (seq<string>, map<string, string>) -> int)

  const MissingInputsMessage := "Missing generation inputs (module_specs/specs/spec_graph/module_dag)."

  /** `run_tests`: generate (unless `noGenerate`), then run pytest on the
      generated files (unless `noRun`). Missing inputs are a `ValueError`
      when generating; a cycle error from the generation propagates. */
  method RunTests(inputs: Option<GenerationInputs>, jobs: int, disk0: Disk, launch: PytestLaunch,
                  noGenerate: bool, noRun: bool, pick: (set<string>, seq<Event>) -> set<string>)
    returns (r: Result<PytestResult>, disk: Disk)
    ensures !noGenerate && inputs.None? ==> r == Err(ValueError(MissingInputsMessage)) && disk == disk0
    ensures noGenerate ==> disk == disk0
    ensures noRun && r.Ok? ==> r.value == PytestResult(0, true, false, [])
    ensures noGenerate && noRun ==> r == Ok(PytestResult(0, true, false, []))
    ensures noGenerate ==> r == Ok(PytestResult(0, true, false, []))
    ensures r.Ok? ==> (r.value.passed <==> r.value.exitCode == 0) && r.value.failed == !r.value.passed
    ensures r.Ok? ==> r.value.failures == []
    ensures !noGenerate && inputs.Some? ==>
      (r.Err? <==> !Acyclic(InducedDeps(inputs.value.staleModules * inputs.value.env.moduleSpecs.Keys,
                                         inputs.value.env.dag)))
    ensures !noGenerate && inputs.Some? && r.Err? ==> r.error.CycleError?
  {
    var files: seq<seq<string>> := [];
    disk := disk0;
    if !noGenerate {
      if inputs.None? {
        return Err(ValueError(MissingInputsMessage)), disk0;
      }
      var report, events;
      report, events, disk := RunTestGeneration(inputs.value.env, inputs.value.o, inputs.value.staleModules,
                                                jobs, disk0, pick);
      if report.Err? {
        return Err(report.error), disk;
      }
      files := report.value.generatedFiles;
    }
    if noRun {
      return Ok(PytestResult(0, true, false, [])), disk;
    }
    var code := RunPytest(launch.exe, files, launch.pytestArgs, launch.pythonpath, launch.environ,
                          launch.pathExists, launch.run);
    r := Ok(PytestResult(code, code == 0, code != 0, []));
  }
}

=== FILE: text.dfy ===
/** Python `str` operations used by the modelled code: strip, split, join,
    prefix tests, replacement, `splitlines`, identifiers and keywords. */
module Text {

  import opened Wrappers

  /** `str.isspace()` for one character: the full list of code points Python
      treats as whitespace. */
  predicate IsSpace(c: char) {
    c in Whitespace
  }

  const Whitespace: set<char> := {
    ' ', '\t', '\n', '\r', '\U{000B}', '\U{000C}', '\U{001C}', '\U{001D}', '\U{001E}',
    '\U{001F}', '\U{0085}', '\U{00A0}', '\U{1680}', '\U{2000}', '\U{2001}', '\U{2002}',
    '\U{2003}', '\U{2004}', '\U{2005}', '\U{2006}', '\U{2007}', '\U{2008}', '\U{2009}',
    '\U{200A}', '\U{2028}', '\U{2029}', '\U{202F}', '\U{205F}', '\U{3000}'
  }

  /** Printable ASCII other than the blank is not whitespace. */
  lemma VisibleNotSpace(c: char)
    requires '!' <= c <= '~'
    ensures !IsSpace(c)
  {
  }

  predicate NoSpaceIn(s: string) {
    forall i :: 0 <= i < |s| ==> !IsSpace(s[i])
  }

  function LStrip(s: string): (r: string)
    ensures |r| <= |s| && r == s[|s| - |r|..]
    ensures r == [] || !IsSpace(r[0])
    ensures forall i :: 0 <= i < |s| - |r| ==> IsSpace(s[i])
  {
    if |s| > 0 && IsSpace(s[0]) then
      var r := LStrip(s[1..]);
      assert forall i :: 1 <= i < |s| ==> s[1..][i - 1] == s[i];
      r
    else s
  }

  function RStrip(s: string): (r: string)
    ensures |r| <= |s| && r == s[..|r|]
    ensures r == [] || !IsSpace(r[|r| - 1])
    ensures forall i :: |r| <= i < |s| ==> IsSpace(s[i])
  {
    if |s| > 0 && IsSpace(s[|s| - 1]) then
      var r := RStrip(s[..|s| - 1]);
      assert forall i :: 0 <= i < |s| - 1 ==> s[..|s| - 1][i] == s[i];
      r
    else s
  }

  /** `s.strip()`: the largest slice without surrounding whitespace. */
  function Strip(s: string): (r: string)
    ensures r == [] || (!IsSpace(r[0]) && !IsSpace(r[|r| - 1]))
    ensures IsInfix(r, s)
  {
    var l := LStrip(s);
    StripSlice(s, l, RStrip(l));
    RStrip(l)
  }

  /** Stripping keeps a slice: the right strip of a suffix sits where the suffix starts. */
  lemma StripSlice(s: string, l: string, r: string)
    requires |l| <= |s| && l == s[|s| - |l|..]
    requires |r| <= |l| && r == l[..|r|]
    ensures SliceAt(s, |s| - |l|, r)
  {
    var k := |s| - |l|;
    assert forall i :: 0 <= i < |r| ==> r[i] == s[k + i];
  }

  /** A text without surrounding whitespace is its own strip. */
  lemma StripFixed(s: string)
    requires s == [] || (!IsSpace(s[0]) && !IsSpace(s[|s| - 1]))
    ensures Strip(s) == s
  {
    assert LStrip(s) == s;
    assert RStrip(s) == s;
  }

  lemma StripIdempotent(s: string)
    ensures Strip(Strip(s)) == Strip(s)
  {
  }

  /** `sub` occurs in `s` at offset `i`. */
  predicate SliceAt(s: string, i: int, sub: string) {
    0 <= i <= |s| - |sub| && s[i..i + |sub|] == sub
  }

  /** `sub in s` for strings. */
  predicate IsInfix(sub: string, s: string) {
    exists i | 0 <= i <= |s| :: SliceAt(s, i, sub)
  }

  predicate StartsWith(s: string, p: string) {
    |p| <= |s| && s[..|p|] == p
  }

  predicate EndsWith(s: string, p: string) {
    |p| <= |s| && s[|s| - |p|..] == p
  }

  /** A concatenation starts with its first part and ends with its second. */
  lemma ConcatEnds(x: string, y: string)
    ensures StartsWith(x + y, x) && EndsWith(x + y, y)
  {
    assert (x + y)[..|x|] == x;
    assert (x + y)[|x|..] == y;
  }

  function CountChar(s: string, c: char): (n: nat)
    ensures n <= |s|
    ensures n == 0 <==> c !in s
  {
    if |s| == 0 then 0 else (if s[0] == c then 1 else 0) + CountChar(s[1..], c)
  }

  /** Index of the first occurrence of `c`. */
  function IndexOf(s: string, c: char): (i: nat)
    requires c in s
    ensures i < |s| && s[i] == c && c !in s[..i]
  {
    if s[0] == c then 0 else 1 + IndexOf(s[1..], c)
  }

  /** Index of the last occurrence of `c`. */
  function LastIndexOf(s: string, c: char): (i: nat)
    requires c in s
    ensures i < |s| && s[i] == c && c !in s[i + 1..]
  {
    if s[|s| - 1] == c then |s| - 1 else LastIndexOf(s[..|s| - 1], c)
  }

  function Join(parts: seq<string>, sep: string): string {
    if |parts| == 0 then ""
    else if |parts| == 1 then parts[0]
    else parts[0] + sep + Join(parts[1..], sep)
  }

  /** `s.split(c)`: never empty, pieces free of `c`, and joining them back gives `s`. */
  function Split(s: string, c: char): (r: seq<string>)
    ensures |r| >= 1
    ensures forall i :: 0 <= i < |r| ==> c !in r[i]
    ensures |r| == 1 <==> c !in s
  {
    if c !in s then [s]
    else
      var i := IndexOf(s, c);
      var rest := Split(s[i + 1..], c);
      assert s == s[..i] + [c] + s[i + 1..];
      [s[..i]] + rest
  }

  /** Joining the pieces of a split gives the text back. */
  lemma {:induction false} JoinSplit(s: string, c: char)
    ensures Join(Split(s, c), [c]) == s
    decreases |s|
  {
    if c in s {
      var i := IndexOf(s, c);
      Around(s, i);
      var rest := Split(s[i + 1..], c);
      JoinSplit(s[i + 1..], c);
      var parts := [s[..i]] + rest;
      assert Split(s, c) == parts;
      assert parts[0] == s[..i] && parts[1..] == rest && |parts| >= 2;
      assert Join(parts, [c]) == s[..i] + [c] + Join(rest, [c]);
    }
  }

  /** A sequence is its prefix, the element at `i` and its suffix. */
  lemma Around<T>(s: seq<T>, i: nat)
    requires i < |s|
    ensures s == s[..i] + [s[i]] + s[i + 1..]
  {
  }

  lemma {:induction false} SplitJoin(parts: seq<string>, c: char)
    requires |parts| >= 1
    requires forall i :: 0 <= i < |parts| ==> c !in parts[i]
    ensures Split(Join(parts, [c]), c) == parts
    decreases |parts|
  {
    if |parts| > 1 {
      var tail := Join(parts[1..], [c]);
      assert Join(parts, [c]) == parts[0] + [c] + tail;
      IndexAfterPrefix(parts[0], tail, c);
      SplitJoin(parts[1..], c);
      SplitAfterPrefix(parts[0], tail, c);
      assert parts == [parts[0]] + parts[1..];
    }
  }

  /** The first `c` after a prefix without `c`. */
  lemma IndexAfterPrefix(p: string, t: string, c: char)
    requires c !in p
    ensures c in p + [c] + t && IndexOf(p + [c] + t, c) == |p|
  {
    var s := p + [c] + t;
    assert s[|p|] == c && s[..|p|] == p;
  }

  /** Splitting after a prefix without `c`: the prefix, then the pieces of
      the rest. */
  lemma SplitAfterPrefix(p: string, t: string, c: char)
    requires c !in p
    ensures Split(p + [c] + t, c) == [p] + Split(t, c)
  {
    var s := p + [c] + t;
    IndexAfterPrefix(p, t, c);
    assert s[..|p|] == p && s[|p| + 1..] == t;
  }

  lemma {:induction false} JoinWithoutChar(parts: seq<string>, sep: char, c: char)
    requires c != sep
    requires forall i :: 0 <= i < |parts| ==> c !in parts[i]
    ensures c !in Join(parts, [sep])
    decreases |parts|
  {
    if |parts| > 1 {
      JoinWithoutChar(parts[1..], sep, c);
    }
  }

  /** Every character of a part occurs in the join. */
  lemma {:induction false} JoinHasPart(parts: seq<string>, sep: string, i: nat)
    requires i < |parts|
    ensures forall x :: x in parts[i] ==> x in Join(parts, sep)
    decreases |parts|
  {
    if |parts| > 1 && i > 0 {
      JoinHasPart(parts[1..], sep, i - 1);
    }
  }

  /** A join ends with its last part. */
  lemma {:induction false} JoinEndsWithLast(parts: seq<string>, sep: string)
    requires |parts| > 0
    ensures EndsWith(Join(parts, sep), parts[|parts| - 1])
    decreases |parts|
  {
    if |parts| > 1 {
      JoinEndsWithLast(parts[1..], sep);
      var tail := Join(parts[1..], sep);
      var j := parts[0] + sep + tail;
      assert j[|j| - |tail|..] == tail;
    }
  }

  /** A join starts with its first part. */
  lemma JoinStartsWithFirst(parts: seq<string>, sep: string)
    requires |parts| > 0
    ensures StartsWith(Join(parts, sep), parts[0])
  {
  }

  /** Adding a part at the end of a join. */
  lemma {:induction false} JoinSnoc(parts: seq<string>, x: string, sep: string)
    requires |parts| > 0
    ensures Join(parts + [x], sep) == Join(parts, sep) + sep + x
    decreases |parts|
  {
    var q := parts + [x];
    if |parts| == 1 {
      assert q[1..] == [x];
    } else {
      assert q[1..] == parts[1..] + [x];
      JoinSnoc(parts[1..], x, sep);
    }
  }

  /** Right-stripping a text that ends in a part with visible content only
      touches that part. */
  lemma {:induction false} RStripKeepsPrefix(x: string, y: string)
    requires RStrip(y) != ""
    ensures RStrip(x + y) == x + RStrip(y)
    decreases |y|
  {
    if |y| > 0 && IsSpace(y[|y| - 1]) {
      assert (x + y)[..|x + y| - 1] == x + y[..|y| - 1];
      RStripKeepsPrefix(x, y[..|y| - 1]);
    } else {
      assert |y| > 0;
    }
  }

  /** Replacing every occurrence of one character by text without it
      leaves none behind. */
  lemma {:induction false} ReplaceCharRemoves(s: string, c: char, rep: string)
    requires c !in rep
    ensures c !in Replace(s, [c], rep)
    decreases |s|
  {
    if |s| >= 1 {
      ReplaceCharRemoves(s[1..], c, rep);
    }
  }

  /** `c not in s` whenever `c` occurs at no offset. */
  lemma NotInfixChar(s: string, c: char)
    requires c !in s
    ensures !IsInfix([c], s)
  {
    forall i | 0 <= i <= |s| ensures !SliceAt(s, i, [c]) {
      if i < |s| {
        assert s[i..i + 1][0] == s[i];
      }
    }
  }

  /** A pattern containing a character absent from `s` does not occur in it. */
  lemma NotInfixWith(s: string, pat: string, k: nat)
    requires k < |pat| && pat[k] !in s
    ensures !IsInfix(pat, s)
  {
    forall i | 0 <= i <= |s| ensures !SliceAt(s, i, pat) {
      if i <= |s| - |pat| {
        assert s[i..i + |pat|][k] == s[i + k];
      }
    }
  }

  lemma RStripIdempotent(s: string)
    ensures RStrip(RStrip(s)) == RStrip(s)
  {
  }

  /** `s.split(c, 1)`: the text before the first `c`, and what follows it if any. */
  function SplitOnce(s: string, c: char): (r: (string, Option<string>))
    ensures c !in r.0
    ensures r.1.None? <==> c !in s
    ensures r.1.Some? ==> s == r.0 + [c] + r.1.value
    ensures r.1.None? ==> r.0 == s
  {
    if c !in s then (s, None)
    else
      var i := IndexOf(s, c);
      assert s == s[..i] + [c] + s[i + 1..];
      (s[..i], Some(s[i + 1..]))
  }

  /** First piece of `s.split(c, 1)`. */
  function Head(s: string, c: char): (r: string)
    ensures c !in r
    ensures StartsWith(s, r)
    ensures c !in s ==> r == s
  {
    SplitOnce(s, c).0
  }

  /** `s.rsplit(c, 1)` when `c` occurs. */
  function RSplitOnce(s: string, c: char): (r: (string, string))
    requires c in s
    ensures c !in r.1
    ensures s == r.0 + [c] + r.1
  {
    var i := LastIndexOf(s, c);
    assert s == s[..i] + [c] + s[i + 1..];
    (s[..i], s[i + 1..])
  }

  /** `s.replace(pat, rep)` for a non-empty `pat`: left-to-right, non-overlapping. */
  function Replace(s: string, pat: string, rep: string): string
    requires |pat| > 0
    decreases |s|
  {
    if |s| < |pat| then s
    else if s[..|pat|] == pat then rep + Replace(s[|pat|..], pat, rep)
    else [s[0]] + Replace(s[1..], pat, rep)
  }


  lemma {:induction false} ReplaceAbsent(s: string, pat: string, rep: string)
    requires |pat| > 0
    requires !IsInfix(pat, s)
    ensures Replace(s, pat, rep) == s
    decreases |s|
  {
    if |s| >= |pat| {
      assert s[0..0 + |pat|] == s[..|pat|];
      assert !SliceAt(s, 0, pat);
      assert !IsInfix(pat, s[1..]) by {
        if IsInfix(pat, s[1..]) {
          var i :| SliceAt(s[1..], i, pat);
          var t := s[1..];
          assert SliceAt(t, i, pat);
          assert 0 <= i <= |t| - |pat|;
          assert s[1..][i..i + |pat|] == s[i + 1..i + 1 + |pat|];
          assert SliceAt(s, i + 1, pat);
        }
      }
      ReplaceAbsent(s[1..], pat, rep);
    }
  }

  /** Is `c` one of the line boundaries `str.splitlines()` recognises? */
  predicate IsLineBreak(c: char) {
    c == '\n' || c == '\r' || c == '\U{000B}' || c == '\U{000C}' || c == '\U{001C}'
    || c == '\U{001D}' || c == '\U{001E}' || c == '\U{0085}' || c == '\U{2028}' || c == '\U{2029}'
  }

  function FirstLineBreak(s: string): (i: nat)
    ensures i <= |s|
    ensures forall k :: 0 <= k < i ==> !IsLineBreak(s[k])
    ensures i < |s| ==> IsLineBreak(s[i])
  {
    if |s| == 0 || IsLineBreak(s[0]) then 0 else 1 + FirstLineBreak(s[1..])
  }

  /** `s.splitlines()`: lines without their terminators ("\r\n" counts as one);
      no trailing empty line for a terminated last line. */
  function SplitLines(s: string): (r: seq<string>)
    ensures forall i, k :: 0 <= i < |r| && 0 <= k < |r[i]| ==> !IsLineBreak(r[i][k])
    ensures s == "" <==> r == []
    decreases |s|
  {
    if s == "" then []
    else
      var i := FirstLineBreak(s);
      if i == |s| then [s]
      else
        var next := if s[i] == '\r' && i + 1 < |s| && s[i + 1] == '\n' then i + 2 else i + 1;
        [s[..i]] + SplitLines(s[next..])
  }

  /** `s.split()` with no separator: the maximal runs of non-whitespace. */
  function SplitWs(s: string): (r: seq<string>)
    ensures forall i :: 0 <= i < |r| ==> |r[i]| > 0 && NoSpaceIn(r[i])
    decreases |s|
  {
    if s == "" then []
    else if IsSpace(s[0]) then SplitWs(s[1..])
    else
      var n := WordLen(s);
      [s[..n]] + SplitWs(s[n..])
  }

  function WordLen(t: string): (n: nat)
    ensures n <= |t|
    ensures forall k :: 0 <= k < n ==> !IsSpace(t[k])
    ensures n < |t| ==> IsSpace(t[n])
    ensures |t| > 0 && !IsSpace(t[0]) ==> n > 0
  {
    if |t| == 0 || IsSpace(t[0]) then 0 else 1 + WordLen(t[1..])
  }

  // ---------------------------------------------------------------------------
  // Identifiers and keywords (ASCII approximation of `str.isidentifier`).
  // ---------------------------------------------------------------------------

  predicate IsAsciiLetter(c: char) {
    ('a' <= c <= 'z') || ('A' <= c <= 'Z')
  }

  predicate IsAsciiDigit(c: char) {
    '0' <= c <= '9'
  }

  /** `s.isidentifier()` restricted to ASCII: a letter or `_`, then letters,
      digits or `_`; the empty string is not an identifier. */
  predicate IsIdentifier(s: string) {
    |s| > 0 && (IsAsciiLetter(s[0]) || s[0] == '_')
    && forall i :: 1 <= i < |s| ==> IsAsciiLetter(s[i]) || IsAsciiDigit(s[i]) || s[i] == '_'
  }

  /** `keyword.iskeyword(s)`: Python's hard keywords. */
  predicate IsKeyword(s: string) {
    s in {"False", "None", "True", "and", "as", "assert", "async", "await", "break",
          "class", "continue", "def", "del", "elif", "else", "except", "finally", "for",
          "from", "global", "if", "import", "in", "is", "lambda", "nonlocal", "not", "or",
          "pass", "raise", "return", "try", "while", "with", "yield"}
  }

  /** `c.lower()` for an ASCII letter; any other character is unchanged. */
  function LowerChar(c: char): char {
    if 'A' <= c <= 'Z' then (c as int + 32) as char else c
  }

  /** `s.lower()` on ASCII letters; other characters are unchanged. */
  function Lower(s: string): (r: string)
    ensures |r| == |s|
    ensures forall i :: 0 <= i < |s| ==> r[i] == LowerChar(s[i])
  {
    if |s| == 0 then "" else [LowerChar(s[0])] + Lower(s[1..])
  }

  /** Text before the first `c` is determined: if `a` and `b` hold no `c`,
      `a + [c] + x == b + [c] + y` forces `a == b` and `x == y`. */
  lemma SplitAtFirst(a: string, x: string, b: string, y: string, c: char)
    requires c !in a && c !in b
    requires a + [c] + x == b + [c] + y
    ensures a == b && x == y
  {
    var s := a + [c] + x;
    assert s[|a|] == c && s[|b|] == c;
    assert a == s[..|a|] && b == s[..|b|];
    assert x == s[|a| + 1..] && y == s[|b| + 1..];
  }

  /** The mirror image: text after the last `c` is determined. */
  lemma SplitAtLast(a: string, x: string, b: string, y: string, c: char)
    requires c !in x && c !in y
    requires a + [c] + x == b + [c] + y
    ensures a == b && x == y
  {
    var s := a + [c] + x;
    assert s[|a|] == c && s[|b|] == c;
    assert a == s[..|a|] && b == s[..|b|];
    assert x == s[|a| + 1..] && y == s[|b| + 1..];
  }
}

=== FILE: validation.dfy ===
/** Checking generated source (jaunt/validation.py). Python's parser is a
    parameter: it yields either a syntax error or the module's top-level
    statements, reduced to what the check looks at. */
module Validation {
  import opened Wrappers
  import opened Text
  import opened PyValues

  /** The attributes of a `SyntaxError` that the message uses. `text` is
      `str(err)`. */
  datatype SyntaxErr = SyntaxErr(msg: Option<string>, text: string, lineno: Option<int>, offset: Option<int>)

  datatype Target = NameTarget(id: string) | OtherTarget

  /** A top-level statement, as far as the check distinguishes them. */
  datatype Stmt =
    | FunctionDef(name: string)
    | AsyncFunctionDef(name: string)
    | ClassDef(name: string)
    | Assign(targets: seq<Target>)
    | AnnAssign(target: Target)
    | OtherStmt

  datatype Parsed = Syntax(err: SyntaxErr) | Module(body: seq<Stmt>)

  /** `_syntax_error_to_str`: the message (falling back to `str(err)`, then
      to "invalid syntax"), then " (line L)" or " (line L:O)" when the line,
      and the offset, are known. */
  function SyntaxErrorToStr(e: SyntaxErr): (r: string)
    ensures StartsWith(r, "SyntaxError: " + MessageOf(e))
    ensures e.lineno.None? ==> r == "SyntaxError: " + MessageOf(e)
    ensures e.lineno.Some? && e.offset.None? ==>
      r == "SyntaxError: " + MessageOf(e) + " (line " + IntToString(e.lineno.value) + ")"
    ensures e.lineno.Some? && e.offset.Some? ==>
      r == "SyntaxError: " + MessageOf(e) + " (line " + IntToString(e.lineno.value) + ":" + IntToString(e.offset.value) + ")"
    ensures e.lineno.Some? && e.offset.None? ==> EndsWith(r, " (line " + IntToString(e.lineno.value) + ")")
    ensures e.lineno.Some? && e.offset.Some? ==>
      EndsWith(r, " (line " + IntToString(e.lineno.value) + ":" + IntToString(e.offset.value) + ")")
  {
    var head := "SyntaxError: " + MessageOf(e);
    var loc := Location(e);
    ConcatEnds(head, loc);
    head + loc
  }

  function MessageOf(e: SyntaxErr): (m: string)
    ensures m != ""
  {
    if e.msg.Some? && e.msg.value != "" then e.msg.value
    else if e.text != "" then e.text
    else "invalid syntax"
  }

  function Location(e: SyntaxErr): string {
    if e.lineno.None? then ""
    else
      " (line " + IntToString(e.lineno.value)
      + (if e.offset.Some? then ":" + IntToString(e.offset.value) else "") + ")"
  }

  /** The names one statement defines: function and class names, and plain
      name targets of assignments. */
  function StmtDefines(s: Stmt): set<string> {
    match s
    case FunctionDef(n) => {n}
    case AsyncFunctionDef(n) => {n}
    case ClassDef(n) => {n}
    case Assign(ts) => set i | 0 <= i < |ts| && ts[i].NameTarget? :: ts[i].id
    case AnnAssign(t) => if t.NameTarget? then {t.id} else {}
    case OtherStmt => {}
  }

  /** The names defined at top level. */
  function Defined(body: seq<Stmt>): (d: set<string>)
    ensures forall n :: n in d <==> exists i :: 0 <= i < |body| && n in StmtDefines(body[i])
    decreases |body|
  {
    if |body| == 0 then {}
    else
      var rest := Defined(body[1..]);
      assert forall i :: 1 <= i < |body| ==> body[i] == body[1..][i - 1];
      StmtDefines(body[0]) + rest
  }

  /** The expected names that are not defined, in expected order. */
  function Missing(expected: seq<string>, defined: set<string>): (r: seq<string>)
    ensures forall n :: n in r <==> n in expected && n !in defined
    ensures |r| <= |expected|
    decreases |expected|
  {
    if |expected| == 0 then []
    else
      var rest := Missing(expected[1..], defined);
      assert forall n :: n in expected <==> n == expected[0] || n in expected[1..];
      (if expected[0] in defined then [] else [expected[0]]) + rest
  }

  function MissingMessage(n: string): string {
    "Missing top-level definition: " + n
  }

  function MissingMessages(names: seq<string>): (r: seq<string>)
    ensures |r| == |names|
    ensures forall i :: 0 <= i < |names| ==> r[i] == MissingMessage(names[i])
  {
    seq(|names|, i requires 0 <= i < |names| => MissingMessage(names[i]))
  }

  /** `validate_generated_source(source, expected_names)`. A missing list of
      expected names counts as empty. */
  function ValidateGeneratedSource(parse: string -> Parsed, source: string,
                                   expectedNames: Option<seq<string>>): (errors: seq<string>)
    ensures parse(source).Syntax? ==> errors == [SyntaxErrorToStr(parse(source).err)]
    ensures parse(source).Module? ==>
      errors == MissingMessages(Missing(expectedNames.GetOr([]), Defined(parse(source).body)))
  {
    var expected := expectedNames.GetOr([]);
    match parse(source)
    case Syntax(e) => [SyntaxErrorToStr(e)]
    case Module(body) => MissingMessages(Missing(expected, Defined(body)))
  }

  /** Source that parses passes exactly when every expected name is
      defined at top level. */
  lemma ValidIffAllDefined(parse: string -> Parsed, source: string, expected: seq<string>)
    requires parse(source).Module?
    ensures ValidateGeneratedSource(parse, source, Some(expected)) == [] <==>
      forall n :: n in expected ==> n in Defined(parse(source).body)
  {
    var m := Missing(expected, Defined(parse(source).body));
    if m != [] {
      assert m[0] in m;
    }
  }

  /** An empty module with nothing expected passes. */
  lemma EmptyPasses(parse: string -> Parsed)
    requires parse("") == Module([])
    ensures ValidateGeneratedSource(parse, "", Some([])) == []
    ensures ValidateGeneratedSource(parse, "", None) == []
  {
  }

  /** Each error names an expected but undefined name, and each such name
      has an error. */
  lemma ErrorsNameMissing(parse: string -> Parsed, source: string, expected: seq<string>, n: string)
    requires parse(source).Module?
    ensures MissingMessage(n) in ValidateGeneratedSource(parse, source, Some(expected)) <==>
      n in expected && n !in Defined(parse(source).body)
  {
    var errs := ValidateGeneratedSource(parse, source, Some(expected));
    var m := Missing(expected, Defined(parse(source).body));
    if MissingMessage(n) in errs {
      var i :| 0 <= i < |errs| && errs[i] == MissingMessage(n);
      MissingMessageInjective(m[i], n);
      assert m[i] in m;
    }
    if n in expected && n !in Defined(parse(source).body) {
      var i :| 0 <= i < |m| && m[i] == n;
      assert errs[i] == MissingMessage(n);
    }
  }

  lemma MissingMessageInjective(a: string, b: string)
    requires MissingMessage(a) == MissingMessage(b)
    ensures a == b
  {
    var p := "Missing top-level definition: ";
    assert a == MissingMessage(a)[|p|..];
    assert b == MissingMessage(b)[|p|..];
  }

  /** What `compile` does with a source: it succeeds, raises `SyntaxError`,
      or raises some other exception, given by its `repr`. */
  datatype Compiled = CompiledOk | CompileSyntax(err: SyntaxErr) | CompileOther(repr: string)

  /** `compile_check(source, filename)`: no errors exactly when the source
      compiles, otherwise one line naming the failure. */
  function CompileCheck(compile: string -> Compiled, source: string): (errors: seq<string>)
    ensures errors == [] <==> compile(source).CompiledOk?
    ensures |errors| <= 1
    ensures compile(source).CompileSyntax? ==> |errors| == 1 && StartsWith(errors[0], "SyntaxError: ")
    ensures compile(source).CompileOther? ==> |errors| == 1 && StartsWith(errors[0], "CompileError: ")
  {
    match compile(source)
    case CompiledOk => []
    case CompileSyntax(e) => [SyntaxErrorToStr(e)]
    case CompileOther(repr) => ["CompileError: " + repr]
  }

  /** A syntax error is reported in the same words by both checks. */
  lemma SyntaxErrorsAgree(parse: string -> Parsed, compile: string -> Compiled, source: string,
                          expected: Option<seq<string>>)
    requires parse(source).Syntax? && compile(source).CompileSyntax?
    requires parse(source).err == compile(source).err
    ensures CompileCheck(compile, source) == ValidateGeneratedSource(parse, source, expected)
  {
  }
}

=== FILE: watcher.dfy ===
/** Watch mode (jaunt/watcher.py): which changed files matter, the loop
    that runs one rebuild cycle per batch of relevant changes, the JSON
    record of a cycle, and the cycle runner that builds and then tests. */
module Watcher {
  import opened Wrappers
  import opened Text
  import Strings

  /** A path as `PurePath.parts`: an absolute path starts with the part "/". */
  type Path = seq<string>

  const GeneratedDir: string := "__generated__"

  /** `PurePath.name`: the last part, or "" for the empty path and the root. */
  function Name(p: Path): string {
    if p == [] || p == ["/"] then "" else p[|p| - 1]
  }

  /** `p.suffix == ".py"`: the name's last dot is not its first character
      and is followed by `py`. */
  predicate HasPySuffix(p: Path) {
    var n := Name(p);
    |n| >= 4 && EndsWith(n, ".py")
  }

  /** `p.is_relative_to(r)`: the parts of `r` begin the parts of `p`, except
      that the path "." (no parts) is not a beginning of an absolute path. */
  predicate IsRelativeTo(p: Path, r: Path) {
    |r| <= |p| && p[..|r|] == r && (r == [] ==> p == [] || p[0] != "/")
  }

  /** How many parts the anchor of `p` takes: one for "/", none otherwise. */
  function AnchorLength(p: Path): nat {
    if |p| > 0 && p[0] == "/" then 1 else 0
  }

  /** `PurePath.parents`: the logical ancestors of `p`, from its parent down
      to its anchor ("/" for an absolute path, "." for a relative one). */
  function Parents(p: Path): set<Path> {
    set k | AnchorLength(p) <= k < |p| :: p[..k]
  }

  /** `is_relative_to` as Python defines it: `r == p or r in p.parents`. */
  lemma IsRelativeToParents(p: Path, r: Path)
    ensures IsRelativeTo(p, r) <==> r == p || r in Parents(p)
  {
    if IsRelativeTo(p, r) && r != p {
      assert |r| < |p|;
      assert r == p[..|r|];
      if r == [] {
        assert AnchorLength(p) == 0;
      } else {
        assert AnchorLength(p) <= 1 <= |r|;
      }
      assert r in Parents(p);
    }
    if r in Parents(p) {
      var k :| AnchorLength(p) <= k < |p| && r == p[..k];
      assert |r| == k;
    }
  }

  lemma EachRootParents(p: Path, roots: seq<Path>)
    ensures forall i :: 0 <= i < |roots| ==>
      (IsRelativeTo(p, roots[i]) <==> roots[i] == p || roots[i] in Parents(p))
  {
    forall i | 0 <= i < |roots| {
      IsRelativeToParents(p, roots[i]);
    }
  }

  /** The "." root holds the relative path `a/x.py` but not the absolute
      path `/a/x.py`. */
  lemma DotRoot()
    ensures IsRelativeTo(["a", "x.py"], [])
    ensures !IsRelativeTo(["/", "a", "x.py"], [])
    ensures SpecFiles({["/", "a", "x.py"], ["a", "x.py"]}, [[]]) == {["a", "x.py"]}
  {
    var abs: Path := ["/", "a", "x.py"];
    var rel: Path := ["a", "x.py"];
    assert Name(abs) == "x.py" && Name(rel) == "x.py";
    assert EndsWith("x.py", ".py") by { assert "x.py"[|"x.py"| - 3..] == ".py"; }
    assert !UnderSomeRoot(abs, [[]]);
    var dot: seq<Path> := [[]];
    assert UnderSomeRoot(rel, dot) by { assert IsRelativeTo(rel, dot[0]); }
    assert Relevant(rel, [[]]) by { assert GeneratedDir !in rel; }
  }

  predicate UnderSomeRoot(p: Path, roots: seq<Path>) {
    exists i :: 0 <= i < |roots| && IsRelativeTo(p, roots[i])
  }

  /** A changed file that can affect a build: a `.py` file outside every
      generated directory, under a source or test root. */
  predicate Relevant(p: Path, roots: seq<Path>) {
    HasPySuffix(p) && GeneratedDir !in p && UnderSomeRoot(p, roots)
  }

  /** The relevant files of one batch. */
  function SpecFiles(changed: set<Path>, roots: seq<Path>): set<Path> {
    set p | p in changed && Relevant(p, roots)
  }

  /** `any(p.is_relative_to(r) for r in roots)`. */
  function AnyRoot(p: Path, roots: seq<Path>): (b: bool)
    ensures b <==> UnderSomeRoot(p, roots)
    ensures b <==> exists i :: 0 <= i < |roots| && (roots[i] == p || roots[i] in Parents(p))
  {
    EachRootParents(p, roots);
    if roots == [] then false
    else if IsRelativeTo(p, roots[0]) then true
    else
      var b := AnyRoot(p, roots[1..]);
      assert UnderSomeRoot(p, roots[1..]) <==> (exists i :: 1 <= i < |roots| && IsRelativeTo(p, roots[i])) by {
        assert forall i :: 0 <= i < |roots| - 1 ==> roots[1..][i] == roots[i + 1];
      }
      b
  }

  /** Being under one of the source or test roots. */
  lemma UnderRootsConcat(p: Path, a: seq<Path>, b: seq<Path>)
    ensures UnderSomeRoot(p, a + b) <==> UnderSomeRoot(p, a) || UnderSomeRoot(p, b)
  {
    var roots := a + b;
    if UnderSomeRoot(p, a) {
      var i :| 0 <= i < |a| && IsRelativeTo(p, a[i]);
      assert roots[i] == a[i];
    }
    if UnderSomeRoot(p, b) {
      var i :| 0 <= i < |b| && IsRelativeTo(p, b[i]);
      assert roots[|a| + i] == b[i];
    }
    if UnderSomeRoot(p, roots) {
      var i :| 0 <= i < |roots| && IsRelativeTo(p, roots[i]);
      if i >= |a| {
        assert roots[i] == b[i - |a|];
      } else {
        assert roots[i] == a[i];
      }
    }
  }

  /** `filter_spec_files(changed, source_roots=..., test_roots=...)`. */
  method FilterSpecFiles(changed: set<Path>, sourceRoots: seq<Path>, testRoots: seq<Path>)
    returns (kept: set<Path>)
    ensures kept <= changed
    ensures forall p :: p in kept <==>
      (p in changed && HasPySuffix(p) && GeneratedDir !in p
       && (UnderSomeRoot(p, sourceRoots) || UnderSomeRoot(p, testRoots)))
  {
    var roots := sourceRoots + testRoots;
    forall p ensures UnderSomeRoot(p, roots) <==> UnderSomeRoot(p, sourceRoots) || UnderSomeRoot(p, testRoots) {
      UnderRootsConcat(p, sourceRoots, testRoots);
    }
    kept := {};
    var rest := changed;
    while rest != {}
      invariant rest <= changed
      invariant forall p :: p in kept <==> p in changed && p !in rest && Relevant(p, roots)
      decreases |rest|
    {
      var p :| p in rest;
      if HasPySuffix(p) && GeneratedDir !in p && AnyRoot(p, roots) {
        kept := kept + {p};
      }
      rest := rest - {p};
    }
  }

  // ---------------------------------------------------------------------
  // The watch loop over a finite sequence of batches

  /** A cycle's result: exit codes (no test code when tests did not run),
      the elapsed time as the one-decimal text the loop prints, and the
      changed files the cycle was started for. */
  datatype CycleResult = CycleResult(
    buildExitCode: int,
    testExitCode: Option<int>,
    durationText: string,
    changedPaths: set<Path>)

  /** What `run_cycle` did: returned a result, or raised an exception (kept
      as its message). */
  datatype Outcome = Finished(result: CycleResult) | Raised(error: string)

  /** The calls the loop makes to its callbacks, in order. */
  datatype Callback =
    | ChangeDetected(paths: set<Path>)
    | Building
    | Done(durationText: string)
    | ResultReported(result: CycleResult)
    | ErrorReported(error: string)

  /** The relevant sets of the batches that have any, in batch order: the
      events the loop runs cycles for. */
  function CycleInputs(batches: seq<set<Path>>, roots: seq<Path>): (r: seq<set<Path>>)
    ensures forall i :: 0 <= i < |r| ==> r[i] != {}
    ensures |r| <= |batches|
  {
    if batches == [] then [] else Events(batches[0], roots) + CycleInputs(batches[1..], roots)
  }

  /** The event of one batch: its relevant files, or none when it has none. */
  function Events(changed: set<Path>, roots: seq<Path>): seq<set<Path>> {
    var rel := SpecFiles(changed, roots);
    if rel == {} then [] else [rel]
  }

  /** The callbacks of one cycle: the change and building messages, then
      the done message and the result, or the error alone. */
  function CycleCalls(changed: set<Path>, outcome: Outcome): seq<Callback> {
    [ChangeDetected(changed), Building]
    + match outcome
      case Finished(r) => [Done(r.durationText), ResultReported(r)]
      case Raised(e) => [ErrorReported(e)]
  }

  /** The callbacks of the cycles for `inputs`, the first being cycle
      number `k`; `runCycle(n, event)` is what the `n`-th call of
      `run_cycle` does. */
  function CycleTrace(inputs: seq<set<Path>>, k: nat, runCycle: (nat, set<Path>) -> Outcome): seq<Callback>
  {
    if inputs == [] then []
    else CycleCalls(inputs[0], runCycle(k, inputs[0])) + CycleTrace(inputs[1..], k + 1, runCycle)
  }

  /** The per-batch results of `ev`, concatenated in batch order. */
  function Gather(batches: seq<set<Path>>, ev: set<Path> -> seq<set<Path>>): seq<set<Path>> {
    if batches == [] then [] else ev(batches[0]) + Gather(batches[1..], ev)
  }

  lemma {:induction false} GatherConcat(a: seq<set<Path>>, b: seq<set<Path>>, ev: set<Path> -> seq<set<Path>>)
    ensures Gather(a + b, ev) == Gather(a, ev) + Gather(b, ev)
    decreases |a|
  {
    if a == [] {
      assert a + b == b;
    } else {
      assert (a + b)[0] == a[0] && (a + b)[1..] == a[1..] + b;
      GatherConcat(a[1..], b, ev);
    }
  }

  lemma {:induction false} CycleInputsGather(batches: seq<set<Path>>, roots: seq<Path>)
    ensures CycleInputs(batches, roots) == Gather(batches, x => Events(x, roots))
    decreases |batches|
  {
    if batches != [] {
      CycleInputsGather(batches[1..], roots);
    }
  }

  lemma CycleInputsConcat(a: seq<set<Path>>, b: seq<set<Path>>, roots: seq<Path>)
    ensures CycleInputs(a + b, roots) == CycleInputs(a, roots) + CycleInputs(b, roots)
  {
    CycleInputsGather(a + b, roots);
    CycleInputsGather(a, roots);
    CycleInputsGather(b, roots);
    GatherConcat(a, b, x => Events(x, roots));
  }

  /** A batch gives a cycle exactly when it has relevant files, and the
      cycle is for those files. */
  lemma OneBatch(x: set<Path>, roots: seq<Path>)
    ensures CycleInputs([x], roots) == if SpecFiles(x, roots) == {} then [] else [SpecFiles(x, roots)]
  {
    assert [x][1..] == [];
  }

  /** The trace of consecutive cycles is the traces of each part, numbered
      on: an exception in one cycle does not end the loop. */
  lemma {:induction false} CycleTraceConcat(a: seq<set<Path>>, b: seq<set<Path>>, k: nat,
                                            runCycle: (nat, set<Path>) -> Outcome)
    ensures CycleTrace(a + b, k, runCycle)
         == CycleTrace(a, k, runCycle) + CycleTrace(b, k + |a|, runCycle)
    decreases |a|
  {
    if a == [] {
      assert a + b == b;
    } else {
      assert (a + b)[1..] == a[1..] + b;
      CycleTraceConcat(a[1..], b, k + 1, runCycle);
    }
  }

  /** `run_watch_loop` over a finite sequence of batches. */
  method RunWatchLoop(batches: seq<set<Path>>, sourceRoots: seq<Path>, testRoots: seq<Path>,
                      runCycle: (nat, set<Path>) -> Outcome)
    returns (trace: seq<Callback>, cycles: nat)
    ensures var inputs := CycleInputs(batches, sourceRoots + testRoots);
      cycles == |inputs| && trace == CycleTrace(inputs, 0, runCycle)
  {
    var roots := sourceRoots + testRoots;
    trace := [];
    cycles := 0;
    var i := 0;
    while i < |batches|
      invariant 0 <= i <= |batches|
      invariant cycles == |CycleInputs(batches[..i], roots)|
      invariant trace == CycleTrace(CycleInputs(batches[..i], roots), 0, runCycle)
    {
      var relevant := FilterSpecFiles(batches[i], sourceRoots, testRoots);
      SameSpecFiles(relevant, batches[i], sourceRoots, testRoots);
      LoopStep(batches, i, roots, runCycle);
      if relevant != {} {
        var outcome := runCycle(cycles, relevant);
        trace := trace + CycleCalls(relevant, outcome);
        cycles := cycles + 1;
      }
      i := i + 1;
    }
    assert batches[..i] == batches;
  }

  lemma SameSpecFiles(kept: set<Path>, changed: set<Path>, sourceRoots: seq<Path>, testRoots: seq<Path>)
    requires forall p :: p in kept <==>
      (p in changed && HasPySuffix(p) && GeneratedDir !in p
       && (UnderSomeRoot(p, sourceRoots) || UnderSomeRoot(p, testRoots)))
    ensures kept == SpecFiles(changed, sourceRoots + testRoots)
  {
    forall p ensures p in kept <==> p in SpecFiles(changed, sourceRoots + testRoots) {
      UnderRootsConcat(p, sourceRoots, testRoots);
    }
  }

  /** One more batch adds its cycle, if it has one, to the inputs and the
      trace. */
  /** The events after batch `i` are those before it plus its own. */
  lemma NextInputs(batches: seq<set<Path>>, i: nat, roots: seq<Path>)
    requires i < |batches|
    ensures CycleInputs(batches[..i + 1], roots) == CycleInputs(batches[..i], roots) + Events(batches[i], roots)
  {
    var x := batches[i];
    assert batches[..i + 1] == batches[..i] + [x];
    CycleInputsConcat(batches[..i], [x], roots);
    assert CycleInputs([x], roots) == Events(x, roots) by {
      assert [x][1..] == [];
    }
  }

  /** One more event adds the calls of one more cycle to the trace. */
  lemma {:induction false} TraceStep(done: seq<set<Path>>, rel: set<Path>, runCycle: (nat, set<Path>) -> Outcome)
    ensures CycleTrace(done + [rel], 0, runCycle) == CycleTrace(done, 0, runCycle) + CycleCalls(rel, runCycle(|done|, rel))
  {
    CycleTraceConcat(done, [rel], 0, runCycle);
    var calls := CycleCalls(rel, runCycle(|done|, rel));
    assert [rel][1..] == [];
    assert CycleTrace([rel], |done|, runCycle) == calls + [];
    assert calls + [] == calls;
  }

  lemma LoopStep(batches: seq<set<Path>>, i: nat, roots: seq<Path>, runCycle: (nat, set<Path>) -> Outcome)
    requires i < |batches|
    ensures var done := CycleInputs(batches[..i], roots);
      var rel := SpecFiles(batches[i], roots);
      var next := CycleInputs(batches[..i + 1], roots);
      && (rel == {} ==> next == done)
      && (rel != {} ==> next == done + [rel])
      && (rel != {} ==>
            CycleTrace(next, 0, runCycle) == CycleTrace(done, 0, runCycle) + CycleCalls(rel, runCycle(|done|, rel)))
  {
    var done := CycleInputs(batches[..i], roots);
    var rel := SpecFiles(batches[i], roots);
    var next := CycleInputs(batches[..i + 1], roots);
    NextInputs(batches, i, roots);
    if rel != {} {
      assert next == done + [rel];
      TraceStep(done, rel, runCycle);
    } else {
      assert next == done + [];
      assert done + [] == done;
    }
  }

  /** Every cycle's outcome is reported: a result through
      `on_cycle_result`, an exception through `on_error`. */
  lemma {:induction false} OutcomesReported(inputs: seq<set<Path>>, k: nat,
                                            runCycle: (nat, set<Path>) -> Outcome, i: nat)
    requires i < |inputs|
    ensures var o := runCycle(k + i, inputs[i]);
      var t := CycleTrace(inputs, k, runCycle);
      (o.Finished? ==> ResultReported(o.result) in t) && (o.Raised? ==> ErrorReported(o.error) in t)
    decreases i
  {
    var o := runCycle(k + i, inputs[i]);
    var first := CycleCalls(inputs[0], runCycle(k, inputs[0]));
    var rest := CycleTrace(inputs[1..], k + 1, runCycle);
    assert CycleTrace(inputs, k, runCycle) == first + rest;
    if i > 0 {
      OutcomesReported(inputs[1..], k + 1, runCycle, i - 1);
      assert inputs[1..][i - 1] == inputs[i];
      assert k + 1 + (i - 1) == k + i;
      InSecond(first, rest, if o.Finished? then ResultReported(o.result) else ErrorReported(o.error));
    } else {
      CallsReport(inputs[0], o);
      InFirst(first, rest, if o.Finished? then ResultReported(o.result) else ErrorReported(o.error));
    }
  }

  /** A cycle's calls report its outcome. */
  lemma CallsReport(changed: set<Path>, o: Outcome)
    ensures o.Finished? ==> ResultReported(o.result) in CycleCalls(changed, o)
    ensures o.Raised? ==> ErrorReported(o.error) in CycleCalls(changed, o)
  {
    if o.Finished? {
      assert CycleCalls(changed, o)[3] == ResultReported(o.result);
    } else {
      assert CycleCalls(changed, o)[2] == ErrorReported(o.error);
    }
  }

  lemma InFirst(a: seq<Callback>, b: seq<Callback>, c: Callback)
    requires c in a
    ensures c in a + b
  {
    var j :| 0 <= j < |a| && a[j] == c;
    assert (a + b)[j] == c;
  }

  lemma InSecond(a: seq<Callback>, b: seq<Callback>, c: Callback)
    requires c in b
    ensures c in a + b
  {
    var j :| 0 <= j < |b| && b[j] == c;
    assert (a + b)[|a| + j] == c;
  }

  /** The cycle whose outcome a reported callback carries. */
  lemma {:induction false} OutcomeFromCycles(inputs: seq<set<Path>>, k: nat,
                                             runCycle: (nat, set<Path>) -> Outcome, c: Callback, o: Outcome)
    returns (i: nat)
    requires c in CycleTrace(inputs, k, runCycle)
    requires (c.ResultReported? && o == Finished(c.result)) || (c.ErrorReported? && o == Raised(c.error))
    ensures i < |inputs| && runCycle(k + i, inputs[i]) == o
    decreases |inputs|
  {
    var first := CycleCalls(inputs[0], runCycle(k, inputs[0]));
    var tail := inputs[1..];
    assert CycleTrace(inputs, k, runCycle) == first + CycleTrace(tail, k + 1, runCycle);
    if c in first {
      i := 0;
    } else {
      var j := OutcomeFromCycles(tail, k + 1, runCycle, c, o);
      i := j + 1;
      assert inputs[i] == tail[j];
    }
  }

  /** Only results of finished cycles reach `on_cycle_result`, and only
      exceptions of failed ones reach `on_error`. */
  lemma ReportsComeFromCycles(inputs: seq<set<Path>>, k: nat,
                              runCycle: (nat, set<Path>) -> Outcome, c: Callback)
    requires c in CycleTrace(inputs, k, runCycle)
    ensures c.ResultReported? ==> exists i :: 0 <= i < |inputs| && runCycle(k + i, inputs[i]) == Finished(c.result)
    ensures c.ErrorReported? ==> exists i :: 0 <= i < |inputs| && runCycle(k + i, inputs[i]) == Raised(c.error)
  {
    if c.ResultReported? {
      var i := OutcomeFromCycles(inputs, k, runCycle, c, Finished(c.result));
    } else if c.ErrorReported? {
      var i := OutcomeFromCycles(inputs, k, runCycle, c, Raised(c.error));
    }
  }

  // ---------------------------------------------------------------------
  // JSON record and cycle runner

  /** `str(p)`. */
  function PathStr(p: Path): string {
    if p == [] then "."
    else if p[0] == "/" then "/" + Join(p[1..], "/")
    else Join(p, "/")
  }

  /** `format_watch_cycle_json(result)`, less the rounded duration. */
  datatype CycleJson = CycleJson(
    command: string,
    ok: bool,
    buildExitCode: int,
    testExitCode: Option<int>,
    changedPaths: seq<string>)

  function FormatWatchCycleJson(r: CycleResult): (j: CycleJson)
    ensures j.command == "watch"
    ensures j.ok <==> r.buildExitCode == 0 && (r.testExitCode.None? || r.testExitCode == Some(0))
    ensures j.buildExitCode == r.buildExitCode && j.testExitCode == r.testExitCode
    ensures Strings.StrictlySorted(j.changedPaths)
    ensures forall s :: s in j.changedPaths <==> exists p :: p in r.changedPaths && PathStr(p) == s
  {
    var ok := r.buildExitCode == 0 && (r.testExitCode == None || r.testExitCode == Some(0));
    CycleJson("watch", ok, r.buildExitCode, r.testExitCode,
              Strings.SortSet(set p | p in r.changedPaths :: PathStr(p)))
  }

  /** One cycle of the runner `build_cycle_runner(args, run_tests=...)`
      makes: `buildRc` is what `cmd_build` returns, `testRc` what `cmd_test`
      would return. */
  function RunnerCycle(runTests: bool, buildRc: int, testRc: int,
                       changed: set<Path>, durationText: string): (r: CycleResult)
    ensures r.buildExitCode == buildRc && r.changedPaths == changed
    ensures r.testExitCode.Some? <==> runTests && buildRc == 0
    ensures r.testExitCode.Some? ==> r.testExitCode.value == testRc
  {
    var test := if runTests && buildRc == 0 then Some(testRc) else None;
    CycleResult(buildRc, test, durationText, changed)
  }

  /** A runner's cycle is reported ok exactly when the build succeeded and
      the tests, if requested, succeeded too. */
  lemma RunnerCycleOk(runTests: bool, buildRc: int, testRc: int, changed: set<Path>, durationText: string)
    ensures FormatWatchCycleJson(RunnerCycle(runTests, buildRc, testRc, changed, durationText)).ok
        <==> buildRc == 0 && (!runTests || testRc == 0)
  {
  }
}

=== FILE: wrappers.dfy ===
/** Failure-carrying result types shared by every module of the model.
    Python exceptions raised by the modelled code become `Err` values. */
module Wrappers {

  datatype Option<+T> = None | Some(value: T) {
    function GetOr(default: T): T {
      match this
      case Some(v) => v
      case None => default
    }
  }

  /** The error classes of the source (jaunt/errors.py plus the built-ins the
      modelled code raises), each carrying its message. */
  datatype Error =
    | ValueError(msg: string)
    | TypeError(msg: string)
    | KeyError(key: string)
    | ConfigError(msg: string)
    | DiscoveryError(msg: string)
    | CycleError(msg: string)
    | GenerationError(msg: string)
    | RuntimeError(msg: string)
    | AttributeError(msg: string)

  datatype Result<+T> = Ok(value: T) | Err(error: Error) {
    predicate IsFailure() { Err? }
    function PropagateFailure<U>(): Result<U>
      requires Err?
    {
      Err(error)
    }
    function Extract(): T
      requires Ok?
    {
      value
    }
  }
}
